=== FILE: README.md ===
# BTO housing-application engine, modelled in Dafny

This project models the application engine of the BTO Management System.
In the system, applicants apply for flats in Build-To-Order housing projects.
HDB officers register to handle projects and book flats for successful applicants.
HDB managers create projects, review applications and withdrawals, approve officer registrations, and read reports.

The model keeps the system's decisions and drops its screens and files.

- **Stores as sequences.** Every CSV file becomes a sequence of records.
  - Each operation is a pure function from a store to a success flag and a new store.
  - So lemmas can say what changes and that nothing else does.
- **Text-level file formats.** Where the file format decides the behaviour, it is modelled at the text level. This covers:
  - the ad-hoc tokenizer (not RFC 4180: no doubled-quote escape);
  - the project file, whose ids are positions 1..N on load;
  - the applicant file's row rewrite;
  - the officer-registration file;
  - the generic line repository.

  Round-trip lemmas state when the record model is exact.
- **Dates.** Dates are integer keys that preserve calendar order.
  - `d/M/yy` text parses to a key, or to `None` where the system would throw.
  - The clock (`LocalDate.now()`) is a `today` parameter.
- **Integers.** Java's `int` arithmetic is written out wherever the model adds: the next enquiry id and the report's original supply both wrap around at 2^32.
  - `Integer.parseInt` reads ASCII digits only and works in the 32-bit range; text it refuses is `None`, standing for the `NumberFormatException`. Some callers catch it; the registration file readers (`addOfficerRegistration`, `loadRegistrations` and the officer's registration screen) catch only `IOException`, so there it escapes and the model's result is `None` for the whole operation.
  - Java also reads other Unicode decimal digits; the model leaves them out.
- **Parameters.** Results of file writes, and choices typed at a prompt, are parameters.

## Modules

| module | models |
|---|---|
| `Wrappers`, `Seqs`, `Text`, `Numbers` | `Option`; filters and first-match search; Java's ASCII case folding, `trim`, `split(",")`; `int` parsing, printing and wrap-around |
| `ApplicationStatus`, `InputValidator`, `ValidationService` | the six statuses and `valueOf`; the eligibility, NRIC and password rules |
| `Dates`, `Schedule` | `d/M/yy` dates; the inclusive window-overlap test shared by every scheduling check |
| `Projects`, `ProjectFile`, `ProjectRepository`, `ProjectService` | the project entity; the project file's loader and writer; the repository (upsert that moves a project last, finders, unit updates, booking); the service |
| `Applicants`, `ApplicantFile`, `ApplicationRepository`, `ApplicationService`, `ApplicationController` | the applicant record and viewable projects; the user file and its row rewrite; the application lifecycle |
| `Officers`, `Registrations`, `RegistrationService`, `OfficerMenu` | officers as staff and as applicants; the registration file and service; the officer screen's decision logic |
| `ManagerMenu`, `ManagerReview` | the manager screen's project creation, editing, deletion and renumbering; its registration, application and withdrawal reviews |
| `Enquiries`, `EnquiryRepository`, `EnquiryService` | enquiries, their store and ownership rules |
| `ReportService`, `ReportController`, `SystemUser`, `CsvLine`, `CsvRepository` | the reports and receipts; password change and period filter; the tokenizer; the generic line repository |

The source paths below are relative to the repository root.

## Model

| member | source | states |
|---|---|---|
| ApplicantFile.StatusField | BTOManagementSystem/src/com/SC2002/bto/utils/FileManager.java:114-125 | a status name in any case reads as that status; a status column read as anything but NOT_APPLIED names that status, case ignored; anything unrecognised reads as NOT_APPLIED |
| ApplicantFile.StatusFieldName | BTOManagementSystem/src/com/SC2002/bto/utils/FileManager.java:114-125 | every status name the system writes reads back as that status |
| ApplicantFile.ParseColumns | BTOManagementSystem/src/com/SC2002/bto/utils/FileManager.java:79-135 | a row gives a record exactly when it has five columns and a numeric age; under seven columns it has no project (-1) and NOT_APPLIED, under eight an empty flat type; the numbers are 32-bit |
| ApplicantFile.ParseRows | BTOManagementSystem/src/com/SC2002/bto/utils/FileManager.java:76-141 | unreadable rows are skipped, so there are never more records than rows |
| ApplicantFile.LoadApplicantFile | BTOManagementSystem/src/com/SC2002/bto/utils/FileManager.java:69-74 | the header line is skipped: a file with at most a header loads no applicant |
| ApplicantFile.FixHeader | BTOManagementSystem/src/com/SC2002/bto/utils/FileManager.java:766-769 | a header with eight or more columns is kept as it is |
| ApplicantFile.UpdateApplicantFile | BTOManagementSystem/src/com/SC2002/bto/utils/FileManager.java:744-838 | on an existing file: succeeds exactly for an officer or when some data row carries the NRIC; a refusal leaves the file alone; an officer unknown to the loaded records is appended; a known applicant's file keeps its length and has every row rewritten |
| ApplicantFile.UpdateApplicantPath | BTOManagementSystem/src/com/SC2002/bto/utils/FileManager.java:724-753 | a missing file is first created holding the header alone: a refusal then leaves that header-only file, an officer's first application is the header followed by the officer's row; an existing file is updated as above |
| ApplicantFile.MissingFileIsPersist | BTOManagementSystem/src/com/SC2002/bto/utils/FileManager.java:724-753 | with no file, the update and reload agree with the record-level update of an empty store; an officer's first application loads back as exactly that one record |
| ApplicantFile.ParseBuiltRow | BTOManagementSystem/src/com/SC2002/bto/utils/FileManager.java:783-795 | a row rebuilt from trimmed columns and an application reads back as the record holding that application |
| ApplicantFile.RowRoundTrip | BTOManagementSystem/src/com/SC2002/bto/utils/FileManager.java:851-863 | a record with comma-free, trimmed fields, written as a row, loads as the same record |
| ApplicantFile.RewriteMatchedReadBack | BTOManagementSystem/src/com/SC2002/bto/utils/FileManager.java:782-796 | the row written over a matching row reads back as that row's person holding the new application |
| ApplicantFile.WrittenRowMatches | BTOManagementSystem/src/com/SC2002/bto/utils/FileManager.java:782-806 | a written row is rewritten exactly when it carries the NRIC; someone else's full row is kept verbatim |
| ApplicantFile.RewriteWrittenRow | BTOManagementSystem/src/com/SC2002/bto/utils/FileManager.java:782-806 | after an update a written row reads back as its record, holding the new application when the NRIC matches |
| ApplicantFile.LoadWrittenFile | BTOManagementSystem/src/com/SC2002/bto/utils/FileManager.java:59-147 | a file the system wrote loads as exactly the records it was written from, in order |
| ApplicantFile.WrittenFileMatches | BTOManagementSystem/src/com/SC2002/bto/utils/FileManager.java:773-796 | on a written file some row matches the update exactly when some record carries the NRIC |
| ApplicantFile.RewriteWrittenFile | BTOManagementSystem/src/com/SC2002/bto/utils/FileManager.java:755-811 | rewriting a written file for a known NRIC loads as the record-level store update |
| ApplicantFile.UpdateFileIsPersist | BTOManagementSystem/src/com/SC2002/bto/utils/FileManager.java:724-838 | updating a written file and loading it gives the same records and the same result as the record-level `Persist` |
| ApplicantFile.AppendWrittenRow | BTOManagementSystem/src/com/SC2002/bto/utils/FileManager.java:847-872 | the row appended for an officer loads as one more record, the officer |
| ApplicantFile.SplitPlainRow | BTOManagementSystem/src/com/SC2002/bto/utils/FileManager.java:79 | comma-free columns whose last is not empty are what `split(",")` gives back for their join |
| ApplicantFile.PaddedRow | BTOManagementSystem/src/com/SC2002/bto/utils/FileManager.java:797-806 | someone else's short row is rewritten as its columns plus the padding columns |
| ApplicantFile.ParsePaddedColumns | BTOManagementSystem/src/com/SC2002/bto/utils/FileManager.java:799-805 | padded columns read as the short row's record with the two-quote text as its flat type |
| ApplicantFile.PaddingQuotesFlatType | BTOManagementSystem/src/com/SC2002/bto/utils/FileManager.java:797-806 | a five- or seven-column row of someone else comes back from an update with the flat type `""` (two quote characters), because the loader does not unquote it |
| ApplicantFile.BookedUnits | BTOManagementSystem/src/com/SC2002/bto/utils/FileManager.java:935-944 | counts the records holding a booking of that flat type (case ignored) in that project: zero exactly when none does, never more than the records |
| Applicants.NewApplicant | BTOManagementSystem/src/com/SC2002/bto/entities/Applicant.java:36-41 | a new applicant has no project (-1), NOT_APPLIED and an empty flat type, and the given personal details |
| Applicants.Reset | BTOManagementSystem/src/com/SC2002/bto/entities/Applicant.java:100-104 | back to no project, NOT_APPLIED and no flat type, the person unchanged; an applicant already there is unchanged |
| Applicants.ResetIdempotent | BTOManagementSystem/src/com/SC2002/bto/entities/Applicant.java:100-104 | resetting twice is resetting once |
| Applicants.ListedIsShown | BTOManagementSystem/src/com/SC2002/bto/entities/Applicant.java:137-153 | the loop's case-blind test is the policy: the age rule of the applicant's status, and Single applicants only see projects with a 2-Room slot |
| Applicants.ViewableProjects | BTOManagementSystem/src/com/SC2002/bto/entities/Applicant.java:110-156 | an unrecognised marital status sees nothing; every project listed comes from the project list |
| Applicants.ViewableProjectsContents | BTOManagementSystem/src/com/SC2002/bto/entities/Applicant.java:125-155 | the applied project comes first when it exists; every visible, open, listable project is in the list; nothing else is |
| Applicants.AppliedProjectListedTwice | BTOManagementSystem/src/com/SC2002/bto/entities/Applicant.java:125-153 | an applied project that is itself visible, open and listable appears twice |
| Applicants.CanInteractWithProject | BTOManagementSystem/src/com/SC2002/bto/entities/Applicant.java:162-172 | the applied id always qualifies (even -1); another id qualifies exactly when a visible, open, listable project has it and the marital status is recognised |
| Applicants.ViewableIds | BTOManagementSystem/src/com/SC2002/bto/entities/Applicant.java:170-171 | an id other than the applied one is among the viewable projects exactly when some offered project carries it |
| ApplicationController.Cleared | BTOManagementSystem/src/com/SC2002/bto/control/ApplicationController.java:63-67 | the person is kept and no UNSUCCESSFUL status survives: a rejected applicant comes back with no project, NOT_APPLIED and no flat type, and any other applicant is untouched |
| ApplicationController.ClearedIdempotent | BTOManagementSystem/src/com/SC2002/bto/control/ApplicationController.java:63-67 | clearing an applicant twice is clearing it once |
| ApplicationController.Apply | BTOManagementSystem/src/com/SC2002/bto/control/ApplicationController.java:37-105 | refused for an officer the officer check refuses and for SUCCESSFUL or BOOKED; succeeds exactly when no application is held, the validator's eligibility holds, the project has stock of the type and the record can be written; on success the NRIC reads back PENDING for that project and flat type; a refusal writes nothing |
| ApplicationController.ResetSurvivesRefusal | BTOManagementSystem/src/com/SC2002/bto/control/ApplicationController.java:63-101 | an UNSUCCESSFUL applicant refused by a later check is still left reset in memory |
| ApplicationController.HeldApplicationBlocks | BTOManagementSystem/src/com/SC2002/bto/control/ApplicationController.java:69-73 | a PENDING application, or a withdrawal request still naming a project, blocks a new application and writes nothing |
| ApplicationController.ApplyEntersPending | BTOManagementSystem/src/com/SC2002/bto/control/ApplicationController.java:56-104 | every status an application is accepted from has a lifecycle step into PENDING |
| ApplicationController.RequestWithdrawal | BTOManagementSystem/src/com/SC2002/bto/control/ApplicationController.java:111-126 | only from PENDING, SUCCESSFUL or BOOKED: the applicant becomes PENDING_WITHDRAWAL in memory and, when the NRIC is known, in the store; otherwise nothing changes |
| ApplicationController.ApproveWithdrawal | BTOManagementSystem/src/com/SC2002/bto/control/ApplicationController.java:132-142 | succeeds exactly for PENDING_WITHDRAWAL with a known NRIC, and the stored record is then back at no application; refusals write nothing |
| ApplicationController.RejectWithdrawal | BTOManagementSystem/src/com/SC2002/bto/control/ApplicationController.java:147-157 | never succeeds and never writes, because the service refuses to set PENDING |
| ApplicationController.RejectWithdrawalNeverReturnsToPending | BTOManagementSystem/src/com/SC2002/bto/control/ApplicationController.java:147-157 | `rejectWithdrawal` asks for the lifecycle step from PENDING_WITHDRAWAL back to PENDING, yet it never succeeds and leaves the stored record as it was |
| ApplicationRepository.Lookup | BTOManagementSystem/src/com/SC2002/bto/repository/csv/CSVApplicationRepository.java:70-75 | finds a record exactly when some record carries the NRIC (case ignored), and the record found carries it |
| ApplicationRepository.WithApplicationOf | BTOManagementSystem/src/com/SC2002/bto/utils/FileManager.java:783-795 | a record rewritten with another's application keeps its person and takes the project, status and flat type |
| ApplicationRepository.Persist | BTOManagementSystem/src/com/SC2002/bto/utils/FileManager.java:724-838 | succeeds exactly when the NRIC is known or the applicant is an officer; a known NRIC rewrites only the matching records and keeps the length; an unknown officer is appended; a refusal writes nothing; nobody's person changes |
| ApplicationRepository.PersistReadBack | BTOManagementSystem/src/com/SC2002/bto/utils/FileManager.java:782-796 | after a successful write the NRIC reads back holding the written application, as the same person or as the appended officer |
| ApplicationRepository.PersistIdempotent | BTOManagementSystem/src/com/SC2002/bto/utils/FileManager.java:782-796 | writing the same application twice is writing it once |
| ApplicationRepository.WriteBackFirst | BTOManagementSystem/src/com/SC2002/bto/repository/csv/CSVApplicationRepository.java:68-77 | writing back a changed copy of the first match changes every record with that NRIC to that application and no other record |
| ApplicationRepository.UpdateStatus | BTOManagementSystem/src/com/SC2002/bto/repository/csv/CSVApplicationRepository.java:68-77 | succeeds exactly for a known NRIC; the NRIC then reads back with the new status and the first record's project and flat type; other people's records are untouched |
| ApplicationRepository.UpdateStatusOnlyStatus | BTOManagementSystem/src/com/SC2002/bto/repository/csv/CSVApplicationRepository.java:68-77 | with one record of that NRIC, only that record's status changes |
| ApplicationRepository.UpdateStatusOverwritesDuplicate | BTOManagementSystem/src/com/SC2002/bto/repository/csv/CSVApplicationRepository.java:68-77 | a second record with the same NRIC in other case takes the first one's whole application, not only the status |
| ApplicationRepository.Apply | BTOManagementSystem/src/com/SC2002/bto/repository/csv/CSVApplicationRepository.java:88-93 | the in-memory applicant takes the project, PENDING and the flat type whatever the write does; on success the NRIC reads back with them |
| ApplicationRepository.Withdraw | BTOManagementSystem/src/com/SC2002/bto/repository/csv/CSVApplicationRepository.java:102-113 | succeeds exactly for a known NRIC, which then reads back as the same person with no application; other people are untouched |
| ApplicationRepository.Book | BTOManagementSystem/src/com/SC2002/bto/repository/csv/CSVApplicationRepository.java:122-131 | a known NRIC reads back BOOKED whatever its prior status, project and flat type kept |
| ApplicationRepository.Reject | BTOManagementSystem/src/com/SC2002/bto/repository/csv/CSVApplicationRepository.java:140-149 | a known NRIC reads back UNSUCCESSFUL, project and flat type kept |
| ApplicationRepository.FindByStatus | BTOManagementSystem/src/com/SC2002/bto/repository/csv/CSVApplicationRepository.java:25-30 | exactly the records with that status |
| ApplicationRepository.FindByProject | BTOManagementSystem/src/com/SC2002/bto/repository/csv/CSVApplicationRepository.java:39-44 | exactly the records applied to that project id |
| ApplicationRepository.FindByFlatType | BTOManagementSystem/src/com/SC2002/bto/repository/csv/CSVApplicationRepository.java:53-58 | exactly the records whose flat type equals it, case ignored |
| ApplicationRepository.StatusListsPartition | BTOManagementSystem/src/com/SC2002/bto/repository/csv/CSVApplicationRepository.java:25-30 | the six status lists together are as long as the store: every record is in exactly one |
| ApplicationService.IsEligible | BTOManagementSystem/src/com/SC2002/bto/service/impl/ApplicationService.java:111-149 | true exactly when no application is held, the age rule and flat-type rule of the marital status hold, and the project exists with stock in the type's slot |
| ApplicationService.EligibleIsValidatorAndStock | BTOManagementSystem/src/com/SC2002/bto/service/impl/ApplicationService.java:111-154 | the service's test is the validator's combined rule and the project service's stock test |
| ApplicationService.ApplyForProject | BTOManagementSystem/src/com/SC2002/bto/service/impl/ApplicationService.java:33-46 | refused without writing unless eligible; otherwise the repository's apply, after which the NRIC reads back PENDING for that project and flat type |
| ApplicationService.WithdrawApplication | BTOManagementSystem/src/com/SC2002/bto/service/impl/ApplicationService.java:49-58 | refused from NOT_APPLIED and UNSUCCESSFUL; otherwise a known NRIC reads back with no application and nobody else changes |
| ApplicationService.ProcessApplication | BTOManagementSystem/src/com/SC2002/bto/service/impl/ApplicationService.java:61-71 | succeeds exactly for SUCCESSFUL, UNSUCCESSFUL or PENDING_WITHDRAWAL and a known NRIC, which then reads back with that status |
| ApplicationService.ProcessRefuses | BTOManagementSystem/src/com/SC2002/bto/service/impl/ApplicationService.java:61-71 | NOT_APPLIED, PENDING and BOOKED can never be set through the service |
| CsvRepository.DataLines | BTOManagementSystem/src/com/SC2002/bto/repository/csv/CSVRepository.java:110-126 | the lines after the header, none for an empty file |
| CsvRepository.FindById | BTOManagementSystem/src/com/SC2002/bto/repository/csv/CSVRepository.java:110-126 | nothing exactly when no data line has the id; otherwise the entity of the first data line that has it |
| CsvRepository.ExistsById | BTOManagementSystem/src/com/SC2002/bto/repository/csv/CSVRepository.java:224-240 | true exactly when some data line has the id |
| CsvRepository.ExistsIffFound | BTOManagementSystem/src/com/SC2002/bto/repository/csv/CSVRepository.java:110-240 | an id exists exactly when it is found |
| CsvRepository.FindAll | BTOManagementSystem/src/com/SC2002/bto/repository/csv/CSVRepository.java:134-148 | one entity per data line, in file order |
| CsvRepository.Save | BTOManagementSystem/src/com/SC2002/bto/repository/csv/CSVRepository.java:159-188 | an empty file gets the header first; when the id exists, the first data line carrying it is replaced and every other line kept; a new id is appended; the entity's line is always among the data lines |
| CsvRepository.SaveThenFind | BTOManagementSystem/src/com/SC2002/bto/repository/csv/CSVRepository.java:110-188 | what is saved is found again by its id |
| CsvRepository.Delete | BTOManagementSystem/src/com/SC2002/bto/repository/csv/CSVRepository.java:196-215 | an empty file stays empty; the header stays; no data line with the id remains; every other data line is kept and nothing new appears |
| CsvRepository.DeleteThenSave | BTOManagementSystem/src/com/SC2002/bto/repository/csv/CSVRepository.java:159-215 | deleting an id and saving the entity puts its line at the end of what was kept |
| CsvLine.ParseCsvLine | BTOManagementSystem/src/com/SC2002/bto/utils/FileManager.java:326-348 | the one-pass tokenizer yields one token per comma outside quotes plus one, and joining the tokens with commas gives the line back minus its quote characters; the CSV repository's own tokenizer is the same loop |
| CsvLine.CountTokens | BTOManagementSystem/src/com/SC2002/bto/utils/FileManager.java:331-345 | one token per unquoted comma, plus the last |
| CsvLine.JoinTokens | BTOManagementSystem/src/com/SC2002/bto/utils/FileManager.java:331-345 | the tokenizer loses the quotes and nothing else |
| CsvLine.TokenizeJoin | BTOManagementSystem/src/com/SC2002/bto/utils/FileManager.java:326-348 | fields that are plain, or quoted with no inner quote, joined with commas tokenize back to the fields with their quotes removed |
| Dates.ParseDate | BTOManagementSystem/src/com/SC2002/bto/utils/FileManager.java:256-268 | a parsed `d/M/yy` date is a calendar date of the years 2000 to 2099 |
| Dates.KeyOrder | BTOManagementSystem/src/com/SC2002/bto/entities/Project.java:267-271 | date keys order dates as the calendar does: by year, then month, then day |
| Dates.KeyOnOrBefore | BTOManagementSystem/src/com/SC2002/bto/service/impl/ValidationService.java:60-62 | on calendar dates, comparing keys is comparing year, then month, then day |
| Dates.FormatDateChars | BTOManagementSystem/src/com/SC2002/bto/utils/FileManager.java:398-399 | a written date holds only digits and slashes |
| Dates.ParseFormatDate | BTOManagementSystem/src/com/SC2002/bto/utils/FileManager.java:257-264 | a date of this century written as `d/M/yy` parses back to itself |
| Enquiries.HasResponse | BTOManagementSystem/src/com/SC2002/bto/entities/Enquiry.java:111-113 | true exactly when the response is present and holds a character above space |
| Enquiries.NewEnquiry | BTOManagementSystem/src/com/SC2002/bto/entities/Enquiry.java:24-30 | a new enquiry holds its arguments and an empty response, so it has no response |
| Enquiries.SetText | BTOManagementSystem/src/com/SC2002/bto/entities/Enquiry.java:66-68 | changes the text and no other field |
| Enquiries.SetResponse | BTOManagementSystem/src/com/SC2002/bto/entities/Enquiry.java:84-86 | changes the response and no other field |
| Enquiries.SetProjectId | BTOManagementSystem/src/com/SC2002/bto/entities/Enquiry.java:102-104 | changes the project id and no other field |
| Enquiries.SettersIndependent | BTOManagementSystem/src/com/SC2002/bto/entities/Enquiry.java:66-104 | the setters commute, and only the response decides whether there is one |
| Enquiries.BlankResponseIsNone | BTOManagementSystem/src/com/SC2002/bto/entities/Enquiry.java:111-113 | any response that trims to nothing does not count as a response |
| EnquiryRepository.FindById | BTOManagementSystem/src/com/SC2002/bto/repository/csv/CSVEnquiryRepository.java:52-56 | finds an enquiry exactly when some enquiry has the id, and it has the id |
| EnquiryRepository.Save | BTOManagementSystem/src/com/SC2002/bto/repository/csv/CSVEnquiryRepository.java:59-75 | the saved enquiry is last; the length grows by one only for a new id; every enquiry with another id stays; nothing else appears |
| EnquiryRepository.SaveKeepsIdsUnique | BTOManagementSystem/src/com/SC2002/bto/repository/csv/CSVEnquiryRepository.java:59-75 | with unique ids, saving keeps them unique and the id then finds the saved enquiry |
| EnquiryRepository.SaveLeavesDuplicate | BTOManagementSystem/src/com/SC2002/bto/repository/csv/CSVEnquiryRepository.java:59-75 | only the first enquiry with the id is replaced: of two enquiries numbered 1 the second survives a save |
| EnquiryRepository.Delete | BTOManagementSystem/src/com/SC2002/bto/repository/csv/CSVEnquiryRepository.java:89-92 | no enquiry with the id remains, every other one does |
| EnquiryRepository.FindByUser | BTOManagementSystem/src/com/SC2002/bto/repository/csv/CSVEnquiryRepository.java:100-104 | exactly the enquiries whose author equals the NRIC, case ignored |
| EnquiryRepository.FindByProject | BTOManagementSystem/src/com/SC2002/bto/repository/csv/CSVEnquiryRepository.java:107-111 | exactly the enquiries of that project id |
| EnquiryRepository.FindWithResponses | BTOManagementSystem/src/com/SC2002/bto/repository/csv/CSVEnquiryRepository.java:114-118 | exactly the enquiries that have a response |
| EnquiryRepository.FindWithoutResponses | BTOManagementSystem/src/com/SC2002/bto/repository/csv/CSVEnquiryRepository.java:121-125 | exactly the enquiries that have none |
| EnquiryRepository.ResponsesPartition | BTOManagementSystem/src/com/SC2002/bto/repository/csv/CSVEnquiryRepository.java:114-125 | the two lists split the enquiries: none is in both and their lengths add up to the whole |
| EnquiryRepository.Modify | BTOManagementSystem/src/com/SC2002/bto/repository/csv/CSVEnquiryRepository.java:128-147 | a missing id reports false with nothing changed; otherwise only the first enquiry with the id changes and the result is whether its file row was rewritten |
| EnquiryRepository.UpdateResponse | BTOManagementSystem/src/com/SC2002/bto/repository/csv/CSVEnquiryRepository.java:128-136 | for an existing id, the id then finds the old enquiry with the new response, and every enquiry with another id is untouched |
| EnquiryRepository.UpdateEnquiryText | BTOManagementSystem/src/com/SC2002/bto/repository/csv/CSVEnquiryRepository.java:139-147 | for an existing id, the id then finds the old enquiry with the new text, and every enquiry with another id is untouched |
| EnquiryRepository.ModifiedIsFound | BTOManagementSystem/src/com/SC2002/bto/repository/csv/CSVEnquiryRepository.java:128-147 | a change that keeps the id is what the id finds afterwards |
| EnquiryRepository.ModifiedKeepsOthers | BTOManagementSystem/src/com/SC2002/bto/repository/csv/CSVEnquiryRepository.java:128-147 | an update leaves the list's length and every enquiry with another id where it was |
| EnquiryService.MaxId | BTOManagementSystem/src/com/SC2002/bto/service/impl/EnquiryService.java:144-150 | the largest id in use: no id is above it and some enquiry has it |
| EnquiryService.NewEnquiryId | BTOManagementSystem/src/com/SC2002/bto/service/impl/EnquiryService.java:144-150 | 1 for no enquiries; the largest id plus one, unused, below the largest 32-bit value; the wrapped smallest 32-bit value at it |
| EnquiryService.SubmitEnquiry | BTOManagementSystem/src/com/SC2002/bto/service/impl/EnquiryService.java:74-85 | the new enquiry takes the generated id, is found under it, and is appended when that id is fresh |
| EnquiryService.SubmitThenFind | BTOManagementSystem/src/com/SC2002/bto/service/impl/EnquiryService.java:74-85 | a submitted enquiry is found under its id, is its author's, has no response, and everything before it is kept |
| EnquiryService.UpdateText | BTOManagementSystem/src/com/SC2002/bto/service/impl/EnquiryService.java:88-101 | a missing id or another author is refused with nothing changed; the author's edit is the repository's text update |
| EnquiryService.RespondToEnquiry | BTOManagementSystem/src/com/SC2002/bto/service/impl/EnquiryService.java:104-108 | a missing id fails with nothing changed; otherwise the id finds the old enquiry with the new response and all else of it kept, every enquiry with another id is untouched, and the result is the file write's |
| EnquiryService.RespondIgnoresOfficer | BTOManagementSystem/src/com/SC2002/bto/service/impl/EnquiryService.java:104-108 | who responds plays no part: any two officers get the same result |
| EnquiryService.DeleteEnquiry | BTOManagementSystem/src/com/SC2002/bto/service/impl/EnquiryService.java:111-125 | succeeds exactly for the author, case ignored, of the first enquiry with the id, and then removes every enquiry with it; a refusal changes nothing |
| EnquiryService.ServiceHasResponse | BTOManagementSystem/src/com/SC2002/bto/service/impl/EnquiryService.java:128-131 | false for a missing id, otherwise whether the enquiry found has a response |
| EnquiryService.IsAuthorized | BTOManagementSystem/src/com/SC2002/bto/service/impl/EnquiryService.java:134-137 | true exactly when the enquiry found under the id was written by that NRIC, case ignored |
| EnquiryService.UpdatesKeepAuthor | BTOManagementSystem/src/com/SC2002/bto/service/impl/EnquiryService.java:88-137 | editing the text never changes who is authorised, and a response set by an officer counts exactly when it is not blank |
| EnquiryService.DeleteOnlyByAuthor | BTOManagementSystem/src/com/SC2002/bto/service/impl/EnquiryService.java:111-125 | the author's delete leaves no enquiry with the id; anybody else's request changes nothing |
| InputValidator.LiteralsDistinct | BTOManagementSystem/src/com/SC2002/bto/utils/InputValidator.java:54-91 | "Single" and "Married", and "2-Room" and "3-Room", differ even ignoring case, so the classifications are exclusive |
| InputValidator.ValidateNric | BTOManagementSystem/src/com/SC2002/bto/utils/InputValidator.java:17-23 | valid exactly when present, nine characters long, S or T, then seven ASCII digits, then an upper-case ASCII letter; such an NRIC is trimmed, upper case and free of commas and quotes |
| InputValidator.NricShapeByPosition | BTOManagementSystem/src/com/SC2002/bto/utils/InputValidator.java:22 | the pattern `^[ST]\d{7}[A-Z]$` read position by position: the seven digits are positions one to seven |
| InputValidator.ValidatePassword | BTOManagementSystem/src/com/SC2002/bto/utils/InputValidator.java:32-35 | a valid password is present and at least eight characters; a trimmed one is valid exactly at that length; a blank one never is |
| InputValidator.PasswordTrimInvariant | BTOManagementSystem/src/com/SC2002/bto/utils/InputValidator.java:32-35 | only the trimmed password is judged: padding a password never changes the verdict |
| InputValidator.IsDefaultPassword | BTOManagementSystem/src/com/SC2002/bto/utils/InputValidator.java:43-45 | the default password is itself a valid password |
| InputValidator.ValidateSingleApplicantAge | BTOManagementSystem/src/com/SC2002/bto/utils/InputValidator.java:54-59 | true exactly for a Single applicant, case ignored, aged 35 or more |
| InputValidator.ValidateMarriedApplicantAge | BTOManagementSystem/src/com/SC2002/bto/utils/InputValidator.java:68-73 | true exactly for a Married applicant, case ignored, aged 21 or more |
| InputValidator.ValidateFlatTypeEligibility | BTOManagementSystem/src/com/SC2002/bto/utils/InputValidator.java:82-91 | Single allows 2-Room only, Married 2-Room or 3-Room, anyone else nothing |
| InputValidator.ValidateMaritalStatus | BTOManagementSystem/src/com/SC2002/bto/utils/InputValidator.java:99-101 | true exactly for Single or Married in any case; otherwise no flat type is eligible |
| InputValidator.ValidateApplicantEligibility | BTOManagementSystem/src/com/SC2002/bto/utils/InputValidator.java:111-123 | the age rule and the flat rule of the applicant's marital status together |
| InputValidator.ApplicantEligibilityCases | BTOManagementSystem/src/com/SC2002/bto/utils/InputValidator.java:111-123 | spelled out: Single, 35 or more and 2-Room; or Married, 21 or more and 2-Room or 3-Room |
| ManagerMenu.HasDateOverlap | BTOManagementSystem/src/com/SC2002/bto/boundary/HDBManagerMenu.java:174-197 | true exactly when another project of the manager (name case ignored, other id) overlaps the window inclusively |
| ManagerMenu.AcceptedDatesShareNoDay | BTOManagementSystem/src/com/SC2002/bto/boundary/HDBManagerMenu.java:183-186 | dates that pass share no day with any other project of the manager |
| ManagerMenu.IsOfficerAvailable | BTOManagementSystem/src/com/SC2002/bto/boundary/HDBManagerMenu.java:50-122 | false for a name no officer record has; otherwise true exactly when no other project listing the name overlaps the window and no active application of that officer's NRIC is to an overlapping project |
| ProjectFile.NameList | BTOManagementSystem/src/com/SC2002/bto/boundary/HDBManagerMenu.java:236-240 | every name is a trimmed, non-empty comma-separated piece of the input, and every piece that is not blank appears trimmed among the names |
| ProjectFile.NameListJoin | BTOManagementSystem/src/com/SC2002/bto/boundary/HDBManagerMenu.java:366-369 | names that are trimmed, non-empty and comma-free, joined with commas, split back into the same list in the same order |
| ManagerMenu.CreateProject | BTOManagementSystem/src/com/SC2002/bto/boundary/HDBManagerMenu.java:199-277 | refused exactly when close is not after open or the manager has an overlapping project; otherwise the list grows by one project with id N + 1, the manager's name, the entered window, units and slots, visible, whose officers are exactly the entered names that are available |
| ManagerMenu.CreateKeepsPositional | BTOManagementSystem/src/com/SC2002/bto/boundary/HDBManagerMenu.java:203 | on a list numbered 1..N the new project keeps the numbering positional |
| ManagerMenu.EditDates | BTOManagementSystem/src/com/SC2002/bto/boundary/HDBManagerMenu.java:329-359 | only the dates can change; the requested window is taken exactly when it is unchanged or accepted, and otherwise both dates stay |
| ManagerMenu.EditedDatesAccepted | BTOManagementSystem/src/com/SC2002/bto/boundary/HDBManagerMenu.java:333-358 | a date edit never brings a project into overlap with another of the manager's projects |
| ManagerMenu.EditOfficers | BTOManagementSystem/src/com/SC2002/bto/boundary/HDBManagerMenu.java:364-404 | a blank field keeps the project; otherwise the list is the entered names that are already listed or available, and every entered name already listed stays |
| ManagerMenu.Renumber | BTOManagementSystem/src/com/SC2002/bto/boundary/HDBManagerMenu.java:478-489 | each project takes its position, counted from 1, as its id and nothing else changes |
| ManagerMenu.RenumberPositional | BTOManagementSystem/src/com/SC2002/bto/boundary/HDBManagerMenu.java:478-489 | renumbering a list already numbered 1..N changes nothing |
| ManagerMenu.DeleteProject | BTOManagementSystem/src/com/SC2002/bto/boundary/HDBManagerMenu.java:450-501 | nothing when no project has the id; otherwise the first project with it goes, the list is one shorter, numbered 1..N, and the others keep their order and fields |
| ManagerMenu.DeletePositional | BTOManagementSystem/src/com/SC2002/bto/boundary/HDBManagerMenu.java:476-489 | on a positional list, deleting id d removes the project at position d and every later project moves down one id |
| ManagerReview.ChoiceOf | BTOManagementSystem/src/com/SC2002/bto/boundary/HDBManagerMenu.java:575-621 | "A" approves and "R" rejects, case and surrounding blanks ignored; anything else skips |
| ManagerReview.OfficerNameOf | BTOManagementSystem/src/com/SC2002/bto/boundary/HDBManagerMenu.java:644-652 | nothing exactly when no officer has the NRIC (case ignored); otherwise the name on such a record |
| ManagerReview.DecideRegistration | BTOManagementSystem/src/com/SC2002/bto/boundary/HDBManagerMenu.java:560-621 | slots plus listed officers are conserved; only an approval changes a project, then the request leaves the file, and only by appending the officer's name to the first managed project with the id that has a free slot; a skip keeps the line |
| ManagerReview.NoSlotStaysPending | BTOManagementSystem/src/com/SC2002/bto/boundary/HDBManagerMenu.java:577-582 | approving with no slot left keeps the request pending and changes no project |
| ManagerReview.ProcessRegistrations | BTOManagementSystem/src/com/SC2002/bto/boundary/HDBManagerMenu.java:546-641 | slots plus listed officers are conserved over the run, and every line kept was a line of the file |
| ManagerReview.RegistrationsAbortIffUnreadable | BTOManagementSystem/src/com/SC2002/bto/boundary/HDBManagerMenu.java:556-561 | the screen ends without writing exactly when some line's project id does not parse |
| ManagerReview.RunKeepsSlotsAndListsSound | BTOManagementSystem/src/com/SC2002/bto/boundary/HDBManagerMenu.java:577-609 | no project ends with negative slots or an officer listed twice unless it started that way |
| ManagerReview.ReviewList | BTOManagementSystem/src/com/SC2002/bto/boundary/HDBManagerMenu.java:657-669 | exactly the records with a project id of at least 0 in one of the manager's projects and a status other than SUCCESSFUL |
| ManagerReview.ClearedAsRejected | BTOManagementSystem/src/com/SC2002/bto/boundary/HDBManagerMenu.java:688-692 | a rejected applicant is UNSUCCESSFUL with project -1 and flat type "", the person unchanged |
| ManagerReview.DecideApplication | BTOManagementSystem/src/com/SC2002/bto/boundary/HDBManagerMenu.java:676-698 | a skip writes nothing; approval makes the stored record SUCCESSFUL with its project and flat type; rejection makes it UNSUCCESSFUL with project -1 and no flat type |
| ManagerReview.BookedComesBack | BTOManagementSystem/src/com/SC2002/bto/boundary/HDBManagerMenu.java:662-687 | a BOOKED applicant of the manager's project is listed again, and approving it takes it back to SUCCESSFUL, a step the lifecycle does not have |
| ManagerReview.SuccessfulNotReviewed | BTOManagementSystem/src/com/SC2002/bto/boundary/HDBManagerMenu.java:667 | no SUCCESSFUL applicant is listed |
| ManagerReview.WithdrawalList | BTOManagementSystem/src/com/SC2002/bto/boundary/HDBManagerMenu.java:1217-1230 | exactly the PENDING_WITHDRAWAL records with a project id of at least 0 in one of the manager's projects |
| ManagerReview.RestoredUnit | BTOManagementSystem/src/com/SC2002/bto/boundary/HDBManagerMenu.java:1255-1260 | one more unit in the slot the flat type names (2-Room the first, 3-Room the second); another flat type changes nothing |
| ManagerReview.DecideWithdrawal | BTOManagementSystem/src/com/SC2002/bto/boundary/HDBManagerMenu.java:1237-1284 | the project list written back is the stored one unchanged; success exactly for an approval of a PENDING_WITHDRAWAL applicant with a known NRIC, which is then back at no application; a rejection never succeeds |
| ManagerReview.HeldAfterApproval | BTOManagementSystem/src/com/SC2002/bto/boundary/HDBManagerMenu.java:1251-1264 | the screen's copy of the projects gains a unit in the first project with the applied id, for a PENDING_WITHDRAWAL applicant only |
| ManagerReview.ListedWithdrawal | BTOManagementSystem/src/com/SC2002/bto/boundary/HDBManagerMenu.java:1221-1240 | a listed request is PENDING_WITHDRAWAL, known, and its project is found among the manager's |
| ManagerReview.ApprovedWithdrawalKeepsStock | BTOManagementSystem/src/com/SC2002/bto/boundary/HDBManagerMenu.java:1251-1266 | for a listed request the guard always holds and the record is reset; the screen's copy gains a unit while the stored counts stay |
| Numbers.AddInt32 | BTOManagementSystem/src/com/SC2002/bto/service/impl/EnquiryService.java:149 | Java `int` addition: the exact sum when it fits in 32 bits, otherwise the sum wrapped by 2^32 |
| Numbers.ToInt32 | BTOManagementSystem/src/com/SC2002/bto/service/impl/ReportService.java:88-89 | Java's narrowing to `int`: a 32-bit value, equal to the input whenever the input fits |
| Numbers.ToInt32Congruent | BTOManagementSystem/src/com/SC2002/bto/service/impl/ReportService.java:88-89 | the narrowed value differs from the input by a multiple of 2^32 |
| Numbers.AddInt32Narrows | BTOManagementSystem/src/com/SC2002/bto/service/impl/EnquiryService.java:149 | the wrapping addition is the narrowing of the exact sum |
| Numbers.ShowInt | BTOManagementSystem/src/com/SC2002/bto/utils/FileManager.java:389-410 | the decimal text Java writes: a minus sign for negatives, then the digits |
| Numbers.ParseInt | BTOManagementSystem/src/com/SC2002/bto/utils/FileManager.java:227-254 | `Integer.parseInt`: a parsed value is a 32-bit integer read from non-empty text; anything else is the thrown exception, here nothing |
| Numbers.ParseShowInt | BTOManagementSystem/src/com/SC2002/bto/utils/FileManager.java:389-410 | every 32-bit integer written out parses back to itself |
| Officers.AddRegisteredProjectId | BTOManagementSystem/src/com/SC2002/bto/entities/HDBOfficer.java:47-51 | the id is appended when absent and the officer is unchanged when present, so the list never gains a duplicate |
| Officers.AddRegisteredIdempotent | BTOManagementSystem/src/com/SC2002/bto/entities/HDBOfficer.java:47-51 | adding the same id twice is adding it once |
| Officers.AssignedProjects | BTOManagementSystem/src/com/SC2002/bto/entities/HDBOfficer.java:70-72 | exactly the projects listing the officer's NRIC or name |
| Officers.ViewableProjects | BTOManagementSystem/src/com/SC2002/bto/entities/HDBOfficer.java:66-90 | the assigned projects first, whatever their visibility, then only unlisted projects; exactly the assigned projects and the visible open projects with slots |
| Officers.AssignedAmongViewable | BTOManagementSystem/src/com/SC2002/bto/entities/HDBOfficer.java:80-87 | the projects added after the assigned ones are never assigned ones |
| Officers.CanInteractWithProject | BTOManagementSystem/src/com/SC2002/bto/entities/HDBOfficer.java:96-103 | true exactly when a project with the id is assigned to the officer or open for registration |
| Officers.ViewableIds | BTOManagementSystem/src/com/SC2002/bto/entities/HDBOfficer.java:100-102 | an id is among the viewable projects exactly when an assigned or registrable project has it |
| Officers.CanRegisterForProject | BTOManagementSystem/src/com/SC2002/bto/entities/HDBOfficer.java:164-224 | refused for a registered or pending id and a missing project; otherwise true exactly when no assigned project overlaps the target and no active application of the officer's NRIC is to an overlapping project |
| Officers.RegistrableSharesNoDay | BTOManagementSystem/src/com/SC2002/bto/entities/HDBOfficer.java:185-191 | a project the officer may register for shares no day with an assigned project |
| Officers.LoadApplicationData | BTOManagementSystem/src/com/SC2002/bto/entities/OfficerAsApplicant.java:48-60 | the officer's person, with the application of the first record whose NRIC equals the officer's exactly, or no application when none does |
| Officers.CanApplyForProject | BTOManagementSystem/src/com/SC2002/bto/entities/OfficerAsApplicant.java:97-135 | refused for an assigned project, a pending id and a missing project; otherwise true exactly when no assigned project overlaps the target |
| Officers.ApplyCheckIgnoresOwnApplication | BTOManagementSystem/src/com/SC2002/bto/entities/OfficerAsApplicant.java:97-135 | an officer with a pending application to a project passes the apply check for it but fails the registration check, which looks at its own application |
| Schedule.OverlapsSymmetric | BTOManagementSystem/src/com/SC2002/bto/boundary/HDBManagerMenu.java:186 | the inclusive overlap test does not depend on the order of the windows |
| Schedule.OverlapsIffCommonDay | BTOManagementSystem/src/com/SC2002/bto/boundary/HDBOfficerMenu.java:234-238 | for non-empty windows the inclusive overlap test is exactly sharing a day |
| Schedule.OverlapsReflexive | BTOManagementSystem/src/com/SC2002/bto/entities/HDBOfficer.java:187-188 | a non-empty window overlaps itself |
| Schedule.EmptyWindowCanOverlap | BTOManagementSystem/src/com/SC2002/bto/entities/OfficerAsApplicant.java:128-129 | a window that closes before it opens can still overlap another: the test is not sharing a day |
| OfficerMenu.HasDateConflict | BTOManagementSystem/src/com/SC2002/bto/boundary/HDBOfficerMenu.java:234-238 | for non-empty periods, a conflict is exactly a shared day |
| OfficerMenu.DateConflictSymmetric | BTOManagementSystem/src/com/SC2002/bto/boundary/HDBOfficerMenu.java:234-238 | the test is symmetric, and a project conflicts with itself exactly when its period is not empty |
| OfficerMenu.ApplicantMenuRefused | BTOManagementSystem/src/com/SC2002/bto/boundary/HDBOfficerMenu.java:113-142 | refused exactly when the officer's own application names an existing project overlapping an assigned one, whatever its status |
| OfficerMenu.RefusedGateBlocksApplying | BTOManagementSystem/src/com/SC2002/bto/boundary/HDBOfficerMenu.java:113-142 | an officer kept out of the applicant menu could not apply to that project under the officer check |
| OfficerMenu.RegistrationCandidates | BTOManagementSystem/src/com/SC2002/bto/boundary/HDBOfficerMenu.java:245-361 | nothing exactly when an officer who has applied handles more than one project; otherwise exactly the visible projects with slots, not pending, that conflict with no assigned, pending or applied project |
| OfficerMenu.SelectRegistration | BTOManagementSystem/src/com/SC2002/bto/boundary/HDBOfficerMenu.java:395-409 | a project is selected exactly when registration is open and an offered project has the id, and it is such a project |
| OfficerMenu.RegisterFromMenu | BTOManagementSystem/src/com/SC2002/bto/boundary/HDBOfficerMenu.java:245-417 | an officer with an application who handles more than one project is refused before the registration file is read, with nothing written; otherwise an unreadable id on one of the officer's own lines ends the screen; a refusal writes nothing; a success appends the request line for an offered project |
| OfficerMenu.MenuRequestNotRepeated | BTOManagementSystem/src/com/SC2002/bto/boundary/HDBOfficerMenu.java:395-399 | asking again for the same project is refused and writes nothing |
| OfficerMenu.AssignedNeverOffered | BTOManagementSystem/src/com/SC2002/bto/boundary/HDBOfficerMenu.java:326-360 | a project the officer is assigned to is never offered, unless its period is empty |
| OfficerMenu.BookingList | BTOManagementSystem/src/com/SC2002/bto/boundary/HDBOfficerMenu.java:421-436 | exactly the PENDING records applied to a project assigned to the officer |
| OfficerMenu.DecideBooking | BTOManagementSystem/src/com/SC2002/bto/boundary/HDBOfficerMenu.java:442-475 | a skip writes nothing; approval first takes a unit and, without one, writes nothing; a success leaves the record BOOKED with its project and flat type; rejection leaves it UNSUCCESSFUL with project -1 and no flat type |
| OfficerMenu.ListedPending | BTOManagementSystem/src/com/SC2002/bto/boundary/HDBOfficerMenu.java:431-436 | everyone the booking screen lists is PENDING, so no SUCCESSFUL applicant is ever booked there |
| OfficerMenu.BookingSkipsApproval | BTOManagementSystem/src/com/SC2002/bto/boundary/HDBOfficerMenu.java:457-464 | a PENDING applicant is booked directly, skipping SUCCESSFUL, the status the enum documents as the one that may book: the record becomes BOOKED and exactly one unit of the booked type is taken |
| OfficerMenu.ReceiptPrice | BTOManagementSystem/src/com/SC2002/bto/boundary/HDBOfficerMenu.java:642-643 | the first price for a 2-Room booking (case ignored), the second price for anything else |
| OfficerMenu.Receipt | BTOManagementSystem/src/com/SC2002/bto/boundary/HDBOfficerMenu.java:610-645 | nothing when no BOOKED record has the NRIC; otherwise the first such record decides: a receipt exactly when its project exists and is assigned to the officer, at its flat type's price |
| OfficerMenu.ReceiptAfterBooking | BTOManagementSystem/src/com/SC2002/bto/boundary/HDBOfficerMenu.java:457-643 | after an officer books an applicant of its project, the receipt for that NRIC is the booked project's price for the flat type |
| OfficerMenu.BookedRecordIsFirstMatch | BTOManagementSystem/src/com/SC2002/bto/boundary/HDBOfficerMenu.java:620-622 | after a booking is written, the first BOOKED record with the NRIC is the record the lookup finds |
| Projects.NewProject | BTOManagementSystem/src/com/SC2002/bto/entities/Project.java:68-89 | a new project is visible, its original unit counts equal the initial ones, a missing officer list becomes empty, and every other field is the argument |
| Projects.WithType1Units | BTOManagementSystem/src/com/SC2002/bto/entities/Project.java:201 | only the first counter changes; its original count stays |
| Projects.WithType2Units | BTOManagementSystem/src/com/SC2002/bto/entities/Project.java:216 | only the second counter changes; its original count stays |
| Projects.IsOfficerAssigned | BTOManagementSystem/src/com/SC2002/bto/entities/Project.java:255-260 | a project with no officers has nobody assigned |
| Projects.AssignedByEqualName | BTOManagementSystem/src/com/SC2002/bto/entities/Project.java:255-260 | an entry equal to the query, case and surrounding blanks ignored, always matches |
| Projects.BlankEntryMatchesEveryone | BTOManagementSystem/src/com/SC2002/bto/entities/Project.java:255-260 | the containment test is loose: a blank officer entry makes everyone count as assigned |
| Projects.IsCurrentlyOpen | BTOManagementSystem/src/com/SC2002/bto/entities/Project.java:267-271 | today lies in the application window, both ends included |
| ProjectFile.ParseBoolean | BTOManagementSystem/src/com/SC2002/bto/utils/FileManager.java:299 | only a four-letter text ("true" in any case) reads as true |
| ProjectFile.ParseShowBool | BTOManagementSystem/src/com/SC2002/bto/utils/FileManager.java:299-410 | a written visibility flag reads back as itself |
| ProjectFile.OfficerList | BTOManagementSystem/src/com/SC2002/bto/utils/FileManager.java:279-288 | the officer column, unquoted and split at commas, gives trimmed non-empty names |
| ProjectFile.ParseProjectColumns | BTOManagementSystem/src/com/SC2002/bto/utils/FileManager.java:199-305 | a row gives a project only with thirteen tokens not all blank; its original counts are the loaded ones; it is visible exactly when there is no fourteenth token or that token is "true" in any case; the text columns are trimmed |
| ProjectFile.ReadRows | BTOManagementSystem/src/com/SC2002/bto/utils/FileManager.java:193-311 | dropped lines give nothing, so there are never more projects than lines |
| ProjectFile.Numbered | BTOManagementSystem/src/com/SC2002/bto/utils/FileManager.java:290 | the k-th project kept gets the running id, counted up from the start |
| ProjectFile.LoadProjects | BTOManagementSystem/src/com/SC2002/bto/utils/FileManager.java:174-317 | the header is skipped and the surviving rows are numbered 1..N in file order |
| ProjectFile.ReadRowsAppend | BTOManagementSystem/src/com/SC2002/bto/utils/FileManager.java:193-311 | reading rows in two parts gives the two parts' projects in order |
| ProjectFile.DroppedLine | BTOManagementSystem/src/com/SC2002/bto/utils/FileManager.java:195-277 | a line the loader drops leaves the projects read as they were |
| ProjectFile.DroppedLineCostsNothing | BTOManagementSystem/src/com/SC2002/bto/utils/FileManager.java:192-290 | a dropped line costs no id: the file loads as if it were absent and later projects keep their ids |
| ProjectFile.SaveProjects | BTOManagementSystem/src/com/SC2002/bto/utils/FileManager.java:356-424 | the header first, then at most one row per project |
| ProjectFile.OfficerListRead | BTOManagementSystem/src/com/SC2002/bto/utils/FileManager.java:279-288 | an officer list written as a quoted joined column reads back as the same list |
| ProjectFile.OfficerColumnShape | BTOManagementSystem/src/com/SC2002/bto/utils/FileManager.java:404-406 | the officer column is empty for no officers and otherwise the joined names in quotes |
| ProjectFile.TokenizeColumns | BTOManagementSystem/src/com/SC2002/bto/utils/FileManager.java:326-348 | fourteen plain columns with a quoted or empty officer column tokenize back to the columns, the officers unquoted |
| ProjectFile.RowKept | BTOManagementSystem/src/com/SC2002/bto/utils/FileManager.java:195 | a written row starts with the project name, so the loader never skips it as blank |
| ProjectFile.ParseWrittenRow | BTOManagementSystem/src/com/SC2002/bto/utils/FileManager.java:389-410 | a written row of a project the file can hold loads as that project with its original counts reset |
| ProjectFile.WritableSaved | BTOManagementSystem/src/com/SC2002/bto/utils/FileManager.java:372-386 | a project with a name, neighbourhood and dates is always saved |
| ProjectFile.LoadSaved | BTOManagementSystem/src/com/SC2002/bto/utils/FileManager.java:356-424 | saving projects the file can hold and loading them gives the same projects in order, renumbered 1..N, with original counts reset to the current ones |
| ProjectRepository.Refresh | BTOManagementSystem/src/com/SC2002/bto/repository/csv/CSVProjectRepository.java:43-61 | the list a lookup sees after a write has ids 1..N by position |
| ProjectRepository.LoadedIdsUnique | BTOManagementSystem/src/com/SC2002/bto/repository/csv/CSVProjectRepository.java:26-28 | the loaded list never holds two projects with one id |
| ProjectRepository.ExistsById | BTOManagementSystem/src/com/SC2002/bto/repository/csv/CSVProjectRepository.java:100-104 | true exactly when some project has the id |
| ProjectRepository.FindById | BTOManagementSystem/src/com/SC2002/bto/repository/csv/CSVProjectRepository.java:55-61 | found exactly when the id exists; the result is a listed project with that id, and with unique ids it is the one holding the id |
| ProjectRepository.Delete | BTOManagementSystem/src/com/SC2002/bto/repository/csv/CSVProjectRepository.java:94-97 | no project with the id is left; every survivor was there and every project with another id survives |
| ProjectRepository.Save | BTOManagementSystem/src/com/SC2002/bto/repository/csv/CSVProjectRepository.java:64-80 | the saved project ends up last; a new id lengthens the list by one, a known id keeps its length; every other entry was already there |
| ProjectRepository.DeleteUnique | BTOManagementSystem/src/com/SC2002/bto/repository/csv/CSVProjectRepository.java:94-97 | with unique ids, deleting removes exactly the one project holding the id, or nothing when it is absent, and ids stay unique |
| ProjectRepository.SaveIsDeleteAppend | BTOManagementSystem/src/com/SC2002/bto/repository/csv/CSVProjectRepository.java:64-80 | with unique ids, saving is deleting the id and appending the project |
| ProjectRepository.SaveFinds | BTOManagementSystem/src/com/SC2002/bto/repository/csv/CSVProjectRepository.java:64-80 | with unique ids, a save keeps them unique, the saved id finds the saved project, and every other id finds what it found before |
| ProjectRepository.SaveIdempotent | BTOManagementSystem/src/com/SC2002/bto/repository/csv/CSVProjectRepository.java:64-80 | saving the same project twice is saving it once |
| ProjectRepository.RefreshRenumbers | BTOManagementSystem/src/com/SC2002/bto/repository/csv/CSVProjectRepository.java:83-91 | a list the file can hold reads back as the same projects renumbered 1..N in order |
| ProjectRepository.SavedProjectMovesLast | BTOManagementSystem/src/com/SC2002/bto/repository/csv/CSVProjectRepository.java:64-80 | after a save the next lookup finds the project under id N, the list's length, not under the id it was saved with |
| ProjectRepository.FindAllVisible | BTOManagementSystem/src/com/SC2002/bto/repository/csv/CSVProjectRepository.java:107-113 | exactly the visible projects |
| ProjectRepository.FindByNeighborhood | BTOManagementSystem/src/com/SC2002/bto/repository/csv/CSVProjectRepository.java:116-122 | exactly the projects whose neighbourhood equals the text ignoring case |
| ProjectRepository.FindByFlatType | BTOManagementSystem/src/com/SC2002/bto/repository/csv/CSVProjectRepository.java:125-132 | exactly the projects either of whose type descriptions equals the text ignoring case |
| ProjectRepository.FindByManager | BTOManagementSystem/src/com/SC2002/bto/repository/csv/CSVProjectRepository.java:135-141 | exactly the projects whose manager NRIC equals the text ignoring case |
| ProjectRepository.FindByOfficer | BTOManagementSystem/src/com/SC2002/bto/repository/csv/CSVProjectRepository.java:144-151 | exactly the projects whose officer list names the officer |
| ProjectRepository.ListedIsAssigned | BTOManagementSystem/src/com/SC2002/bto/repository/csv/CSVProjectRepository.java:144-151 | a project found for an officer is one the officer counts as assigned to |
| ProjectRepository.FindByApplicationPeriod | BTOManagementSystem/src/com/SC2002/bto/repository/csv/CSVProjectRepository.java:154-161 | exactly the projects whose application window holds the date, ends included |
| ProjectRepository.CurrentlyOpenIsOneFilter | BTOManagementSystem/src/com/SC2002/bto/repository/csv/CSVProjectRepository.java:218-227 | the currently open projects are the visible ones open today, the same as the visible projects filtered by application period |
| ProjectRepository.FindByKeyword | BTOManagementSystem/src/com/SC2002/bto/repository/csv/CSVProjectRepository.java:235-242 | exactly the projects the keyword matches |
| ProjectRepository.EmptyKeywordFindsAll | BTOManagementSystem/src/com/SC2002/bto/repository/csv/CSVProjectRepository.java:235-242 | an empty keyword finds every project |
| ProjectRepository.WriteBack | BTOManagementSystem/src/com/SC2002/bto/repository/csv/CSVProjectRepository.java:164-173 | succeeds exactly when the id exists; a failure writes nothing; success saves the changed project |
| ProjectRepository.UpdateVisibility | BTOManagementSystem/src/com/SC2002/bto/repository/csv/CSVProjectRepository.java:164-173 | succeeds exactly when the id exists; a failure writes nothing; success keeps the length and puts the project with the new flag last |
| ProjectRepository.UpdateVisibilityReadBack | BTOManagementSystem/src/com/SC2002/bto/repository/csv/CSVProjectRepository.java:164-173 | with unique ids the id then finds the new flag and every other id finds what it found before |
| ProjectRepository.UpdateAvailableUnits | BTOManagementSystem/src/com/SC2002/bto/repository/csv/CSVProjectRepository.java:176-191 | succeeds exactly when the id exists and the type is "2-Room" or "3-Room"; sets that slot's counter to any value, negative included; a failure writes nothing |
| ProjectRepository.UpdateUnitsReadBack | BTOManagementSystem/src/com/SC2002/bto/repository/csv/CSVProjectRepository.java:176-191 | with unique ids the id then finds the new count in the named slot and every other id finds what it found before |
| ProjectRepository.BookUnit | BTOManagementSystem/src/com/SC2002/bto/repository/csv/CSVProjectRepository.java:194-211 | succeeds exactly when the id exists and the named slot's counter is positive; success lowers that counter by one; a failure writes nothing |
| ProjectRepository.BookKeepsNonNegative | BTOManagementSystem/src/com/SC2002/bto/repository/csv/CSVProjectRepository.java:194-211 | booking never drives a counter below zero |
| ProjectRepository.BookReadBack | BTOManagementSystem/src/com/SC2002/bto/repository/csv/CSVProjectRepository.java:194-211 | with unique ids the id then finds the named counter one lower, the other fields unchanged, and every other id unaffected |
| ProjectService.HasAvailableUnits | BTOManagementSystem/src/com/SC2002/bto/service/impl/ProjectService.java:113-124 | true exactly when the project exists and the slot the flat type names has stock, which is exactly when booking it would succeed |
| ProjectService.AgeEligible | BTOManagementSystem/src/com/SC2002/bto/service/impl/ProjectService.java:87-110 | the age test of the applicant's marital status in the policy table; false for an unrecognised status |
| ProjectService.EligibleIsPolicy | BTOManagementSystem/src/com/SC2002/bto/service/impl/ProjectService.java:87-110 | a project passes the listing's test exactly when the policy table offers it: the status's age rule and stock in a slot that status may take |
| ProjectService.GetEligibleProjects | BTOManagementSystem/src/com/SC2002/bto/service/impl/ProjectService.java:87-110 | exactly the visible projects the policy offers the applicant |
| ProjectService.SingleNeedsTwoRoomStock | BTOManagementSystem/src/com/SC2002/bto/service/impl/ProjectService.java:87-110 | a single applicant is offered only projects with 2-Room stock |
| ProjectService.UnrecognisedGetsNothing | BTOManagementSystem/src/com/SC2002/bto/service/impl/ProjectService.java:87-110 | an unrecognised marital status is offered nothing |
| ProjectService.GetCurrentlyOpenProjects | BTOManagementSystem/src/com/SC2002/bto/service/impl/ProjectService.java:136-142 | the visible projects whose window holds today, one filter over the list |
| RegistrationService.HasReachedRegistrationLimit | BTOManagementSystem/src/com/SC2002/bto/service/impl/OfficerRegistrationService.java:120-134 | a missing project counts as full; otherwise full exactly when its pending requests reach its officer slots |
| RegistrationService.IsEligibleForRegistration | BTOManagementSystem/src/com/SC2002/bto/service/impl/OfficerRegistrationService.java:94-107 | eligible exactly when the project exists, the officer has nothing pending for it and it is below its slots |
| RegistrationService.RegisterForProject | BTOManagementSystem/src/com/SC2002/bto/service/impl/OfficerRegistrationService.java:31-39 | fails to read exactly when the project exists and some line has an unreadable id; accepted exactly when eligible and under the file's limit, appending one line; refused otherwise with the file unchanged |
| RegistrationService.RegistrationWithinCaps | BTOManagementSystem/src/com/SC2002/bto/service/impl/OfficerRegistrationService.java:31-39 | after an accepted request the project's pending count is within both its officer slots and the file's limit |
| RegistrationService.SecondRequestRefused | BTOManagementSystem/src/com/SC2002/bto/service/impl/OfficerRegistrationService.java:94-107 | asking again for the same project is refused and writes nothing |
| RegistrationService.DecideRegistration | BTOManagementSystem/src/com/SC2002/bto/service/impl/OfficerRegistrationService.java:42-61 | approving or rejecting a request never succeeds, pending or not: the repository's approve and reject both answer false |
| RegistrationService.WithProject | BTOManagementSystem/src/com/SC2002/bto/service/impl/OfficerRegistrationService.java:74-91 | the requests for one project are exactly its NRICs paired with it |
| RegistrationService.GetAllPendingRegistrations | BTOManagementSystem/src/com/SC2002/bto/service/impl/OfficerRegistrationService.java:74-91 | exactly the requests whose project is in the list |
| Registrations.ParseRegistrationLine | BTOManagementSystem/src/com/SC2002/bto/repository/csv/CSVOfficerRegistrationRepository.java:93-115 | a line is malformed exactly when it splits into fewer than two pieces |
| Registrations.RegistrationLineReadsBack | BTOManagementSystem/src/com/SC2002/bto/utils/FileManager.java:463 | an appended line reads back as the trimmed NRIC and the same id |
| Registrations.LoadRegistrations | BTOManagementSystem/src/com/SC2002/bto/repository/csv/CSVOfficerRegistrationRepository.java:93-115 | the load fails exactly when some line has an unreadable id, and otherwise never holds more requests than lines |
| Registrations.LoadReadsEachLine | BTOManagementSystem/src/com/SC2002/bto/repository/csv/CSVOfficerRegistrationRepository.java:93-115 | a file that loads loads as each line read on its own, malformed lines contributing nothing |
| Registrations.LoadAppend | BTOManagementSystem/src/com/SC2002/bto/repository/csv/CSVOfficerRegistrationRepository.java:93-115 | appending a readable line appends its request, or keeps a failed load failed |
| Registrations.FindPendingByOfficer | BTOManagementSystem/src/com/SC2002/bto/repository/csv/CSVOfficerRegistrationRepository.java:56-62 | exactly the project ids of the requests whose NRIC matches ignoring case |
| Registrations.FindPendingByProject | BTOManagementSystem/src/com/SC2002/bto/repository/csv/CSVOfficerRegistrationRepository.java:65-71 | exactly the NRICs of the requests for the project |
| Registrations.HasPendingRegistration | BTOManagementSystem/src/com/SC2002/bto/repository/csv/CSVOfficerRegistrationRepository.java:74-78 | true exactly when the project is among the officer's pending ids |
| Registrations.PendingCount | BTOManagementSystem/src/com/SC2002/bto/repository/csv/CSVOfficerRegistrationRepository.java:81-86 | the number of NRICs pending for the project |
| Registrations.CountsAgree | BTOManagementSystem/src/com/SC2002/bto/repository/csv/CSVOfficerRegistrationRepository.java:81-86 | counting requests for the project one by one gives the length of its pending list |
| Registrations.AddOfficerRegistration | BTOManagementSystem/src/com/SC2002/bto/utils/FileManager.java:433-470 | fails to read exactly when some line has an unreadable id; accepted exactly when fewer than ten requests are pending for the project, appending exactly one line; otherwise the file is unchanged |
| Registrations.AddedReadsBack | BTOManagementSystem/src/com/SC2002/bto/utils/FileManager.java:433-470 | an accepted request reads back: one more request for the project, still within ten, found for the trimmed NRIC, other projects' counts unchanged |
| Registrations.PendingIdsOf | BTOManagementSystem/src/com/SC2002/bto/boundary/HDBOfficerMenu.java:286-310 | the menu's own read fails exactly when a line of this officer has an unreadable id |
| Registrations.PendingIdsAgree | BTOManagementSystem/src/com/SC2002/bto/boundary/HDBOfficerMenu.java:286-310 | wherever the repository can load the file, the menu reads the same pending ids for the officer as the repository |
| ReportController.UserReport | BTOManagementSystem/src/com/SC2002/bto/control/ReportController.java:50-69 | users that are not applicants are skipped; the counters are the numbers of applicants in each status and never exceed the total |
| ReportController.ControllerRowOf | BTOManagementSystem/src/com/SC2002/bto/control/ReportController.java:93-96 | the controller's row for a project equals the report service's row on the same records |
| ReportController.ControllerBookingReport | BTOManagementSystem/src/com/SC2002/bto/control/ReportController.java:93-96 | one row per project, in order, equal to the report service's report |
| ReportService.StatusCountsPartition | BTOManagementSystem/src/com/SC2002/bto/entities/ApplicationStatus.java:7-39 | every record has exactly one of the six statuses, so the six counts add up to the list's length |
| ReportService.ApplicantReport | BTOManagementSystem/src/com/SC2002/bto/service/impl/ReportService.java:45-76 | the total is the list's length and each counter the number of records in its status; the NOT_APPLIED and PENDING_WITHDRAWAL records make up exactly the gap between the counters and the total |
| ReportService.BookedUnitsCount | BTOManagementSystem/src/com/SC2002/bto/service/impl/ReportService.java:277-282 | the service's count of booked units is the count the applicant file's booking reader gives on the same records |
| ReportService.BookedCountsAgree | BTOManagementSystem/src/com/SC2002/bto/service/impl/ReportService.java:277-282 | the three filters in a row count the records of the project that are BOOKED with that flat type |
| ReportService.BookingRowOf | BTOManagementSystem/src/com/SC2002/bto/service/impl/ReportService.java:79-101 | each line shows the slot's current stock and the file's bookings of that flat type; while the `int` sum fits, the original supply exceeds the stock by exactly those bookings |
| ReportService.Line | BTOManagementSystem/src/com/SC2002/bto/service/impl/ReportService.java:88-89 | the original supply is the `int` sum of stock and bookings: always a 32-bit value, and while the exact sum fits it adds up |
| ReportService.LineWraps | BTOManagementSystem/src/com/SC2002/bto/service/impl/ReportService.java:88-89 | past the largest `int` the printed original supply less the stock is not the bookings |
| ReportService.FlatBookingReport | BTOManagementSystem/src/com/SC2002/bto/service/impl/ReportService.java:79-101 | one row per project, in order |
| ReportService.OriginalSurvivesBooking | BTOManagementSystem/src/com/SC2002/bto/service/impl/ReportService.java:79-101 | booking a 2-Room unit lowers the stock and raises the bookings together, so both lines still show the same original supply |
| ReportService.LineShift | BTOManagementSystem/src/com/SC2002/bto/service/impl/ReportService.java:88-89 | moving one unit from stock to bookings keeps the original supply, wrapped or not |
| ReportService.StatusCountIn | BTOManagementSystem/src/com/SC2002/bto/service/impl/ReportService.java:111-113 | the number of the project's records in a status |
| ReportService.ProjectCountsOf | BTOManagementSystem/src/com/SC2002/bto/service/impl/ReportService.java:104-126 | the total is the project's records and each counter the project's records in its status; with the unshown NOT_APPLIED records they add up to the total |
| ReportService.ByMaritalStatus | BTOManagementSystem/src/com/SC2002/bto/service/impl/ReportService.java:129-144 | exactly the applicants whose marital status equals the text ignoring case |
| ReportService.MaritalStatusCaseBlind | BTOManagementSystem/src/com/SC2002/bto/service/impl/ReportService.java:137 | asking in another case selects the same applicants |
| ReportService.ByAgeRange | BTOManagementSystem/src/com/SC2002/bto/service/impl/ReportService.java:147-162 | exactly the applicants whose age lies in the range, both ends included |
| ReportService.AgeRangesSplit | BTOManagementSystem/src/com/SC2002/bto/service/impl/ReportService.java:155 | splitting a range in two splits the selection, the boundary age in the lower half; a reversed range selects nobody |
| ReportService.ByStatus | BTOManagementSystem/src/com/SC2002/bto/service/impl/ReportService.java:175-189 | no lookup exactly when the upper-cased text names no status; otherwise the records in the status it names |
| ReportService.NoStatusNamed | BTOManagementSystem/src/com/SC2002/bto/entities/ApplicationStatus.java:7-39 | a text the status parser refuses is the name of no status |
| ReportService.UpperOfLower | BTOManagementSystem/src/com/SC2002/bto/service/impl/ReportService.java:178 | upper-casing the lower-case spelling of an upper-case name gives the name back |
| ReportService.StatusReportAnyCase | BTOManagementSystem/src/com/SC2002/bto/service/impl/ReportService.java:175-189 | every status can be asked for by its name in upper or lower case |
| ReportService.ProjectTitle | BTOManagementSystem/src/com/SC2002/bto/service/impl/ReportService.java:192-204 | the name of a project with the id, or "Unknown Project" when there is none |
| ReportService.ReportPrice | BTOManagementSystem/src/com/SC2002/bto/service/impl/ReportService.java:242-248 | the type-1 price for a 2-Room flat, the type-2 price for a 3-Room flat, and 0 for any other flat type |
| ReportService.GenerateReceipt | BTOManagementSystem/src/com/SC2002/bto/service/impl/ReportService.java:207-257 | no receipt for an unknown NRIC or a staff user, nor for an applicant not BOOKED, nor when the project is missing; an issued receipt is for the first user with the NRIC, BOOKED, with the project of the application and the report price; a BOOKED applicant gets one exactly when the project exists |
| ReportService.PricesAgree | BTOManagementSystem/src/com/SC2002/bto/service/impl/ReportService.java:242-248 | for a 2-Room or 3-Room booking the report's price is the officer receipt's price; for another flat type the report shows 0 where the officer receipt shows the type-2 price |
| ReportService.ReceiptsAgree | BTOManagementSystem/src/com/SC2002/bto/service/impl/ReportService.java:207-257 | when the service issues a receipt for a 2-Room or 3-Room booking and the officer handles its project, the officer's receipt shows the same price |
| ApplicationStatus.ValueOf | BTOManagementSystem/src/com/SC2002/bto/entities/ApplicationStatus.java:7-39 | a text that parses is exactly the name of the status it gives |
| ApplicationStatus.ValueOfName | BTOManagementSystem/src/com/SC2002/bto/entities/ApplicationStatus.java:7-39 | every status written by name reads back as itself |
| SystemUser.ChangePassword | BTOManagementSystem/src/com/SC2002/bto/entities/BTOSystemUser.java:42-61 | a wrong current password or an invalid new one changes nothing and fails; with the right current password and a valid new one the new password is in place and the result is the file write's; success implies the new password is in place and long enough |
| SystemUser.ChangeThenChangeAgain | BTOManagementSystem/src/com/SC2002/bto/entities/BTOSystemUser.java:42-61 | after an accepted change the next change is judged against the new password, whatever the file write reported, and a different old password is refused |
| SystemUser.FilterByVisibilityAndPeriod | BTOManagementSystem/src/com/SC2002/bto/entities/BTOSystemUser.java:87-91 | exactly the visible projects whose window holds today |
| ValidationService.ValidateApplicationPeriod | BTOManagementSystem/src/com/SC2002/bto/service/impl/ValidationService.java:54-65 | passes exactly when both dates parse and the opening date falls on or before the closing date by calendar year, month and day, for any spelling the parser accepts; an unparsable date fails |
| ValidationService.PeriodOfWrittenDates | BTOManagementSystem/src/com/SC2002/bto/service/impl/ValidationService.java:54-65 | on dates written in this century the check is exactly calendar order, equal dates passing |
| ValidationService.ValidateFlatTypes | BTOManagementSystem/src/com/SC2002/bto/service/impl/ValidationService.java:68-71 | exactly when the first type names 2-Room and the second 3-Room, ignoring case |
| ValidationService.ValidateFlatUnits | BTOManagementSystem/src/com/SC2002/bto/service/impl/ValidationService.java:74-77 | zero or more units pass |
| ValidationService.ValidateFlatPrice | BTOManagementSystem/src/com/SC2002/bto/service/impl/ValidationService.java:80-83 | only a positive price passes |

## Left out

- Interactive screens. This covers prompts, menus and printing in every `boundary` class, and the login flow. Only the decision logic inside `HDBManagerMenu` and `HDBOfficerMenu` is modelled.
- Manager screens that only list or print: toggling visibility, viewing, filtering, the report menu and the enquiry screens. Their effects are the repository operations modelled here.
- Report text. The modelled reports are the counts, selections, booked and original arithmetic, and receipt outcomes, not the string layout. `exportReportToFile` writes a file and is not modelled.
- `generateApplicantReportByFlatType`: it is `ApplicationRepository.FindByFlatType` with a heading.
- File I/O: reading, writing, `IOException` paths, `ensureDataDirectoryExists`, and the registration file's header write. The enquiry file write is the `written` parameter of the enquiry updates. Writes of the applicant, project and registration files always succeed in the model.
- Authentication and the user repository: `UserService`, `LoginController`, `CSVUserRepository`. Password validity and `changePassword` are modelled.
- Wiring and caches: `ServiceLocator`, `RepositoryFactory`, the static cache in `utils/ProjectRepository.java`, `ProjectController`, `HDBManager`, and the interfaces. `saveAll` and `refresh` appear only as the reload the next lookup sees (`ProjectRepository.Refresh`).
- Delegating getters: `ApplicationService.bookFlat` and its `getApplicationsBy*` pass-throughs, the `EnquiryService` getters, and the `ProjectService` getters. The same holds for the `ValidationService` validators that return `InputValidator`'s result unchanged. Each of these is the repository or validator member it calls.
- `getEnquiriesByOfficer`, `getEnquiriesByManager`, `getApplicationsByManager` and `getApplicationsByOfficer`: these are stubs that return empty lists.
- `getRelevantEnquiries` only prints.
- `ApplicationController.withdrawApplication` is `requestWithdrawal` under another name.
- Case folding is ASCII only. Java also folds a few non-ASCII letters.
- Reflection in `deleteProject` is modelled as the pure renumbering `ManagerMenu.Renumber`.
- Exceptions in the manager's edit screen. In `ManagerMenu.EditDates`, `None` is a blank field that keeps the date. Malformed date text makes `LocalDate.parse` throw out of `editExistingProject`, and malformed number text for units, prices or officer slots makes `Integer.parseInt` throw. Those exceptions are not modelled.
- Numbers.ParseInt: reads ASCII digits only. Java's `Integer.parseInt` also accepts other Unicode decimal digits, such as Arabic-Indic or Devanagari ones; the model refuses them.
- The `addRegisteredProjectId` call on a throw-away officer object during registration approval has no effect, and is not modelled.
- EnquiryService.NewEnquiryId: requires the stored ids to be 32-bit values, as Java's `int` guarantees; the id arithmetic itself wraps as Java's does.

=== FILE: applicant_file.dfy ===
/** The applicant file as text: how `loadUsersFromCSV` reads a row, how
    `updateApplicantApplication` rewrites the file, and
    `getBookedUnits`. The file is a sequence of lines, the first being
    the header. Rows are split with `String.split(",")`, which knows
    nothing of quotes. */
module ApplicantFile {
  import opened Wrappers
  import opened Text
  import opened Numbers
  import opened Seqs
  import opened ApplicationStatus
  import opened Applicants
  import opened ApplicationRepository

  type Lines = seq<string>

  const HEADER := "Name,NRIC,Age,MaritalStatus,Password,AppliedID,Status,FlatType"

  /** The padding that marks a missing flat type: two quote characters,
      which the loader does not unquote. */
  const QUOTES := "\"\""

  /** The status column: "Not Applied" in any case, or a status name in
      any case; anything else reads as NOT_APPLIED. No spelling of "Not
      Applied" upper-cases to a status name, so a status name in any case
      reads as that status. */
  function StatusField(s: string): (r: Status)
    ensures r != NotApplied ==> Name(r) == Upper(s)
    ensures forall st :: Upper(s) == Name(st) ==> r == st
  {
    assert Lower("Not Applied")[3] == ' ';
    if EqualsIgnoreCase("Not Applied", s) then NotApplied
    else ValueOf(Upper(s)).GetOr(NotApplied)
  }

  /** Every status reads back from its own name. */
  lemma StatusFieldName(st: Status)
    ensures StatusField(Name(st)) == st
  {
    var n := Name(st);
    assert Lower("Not Applied")[3] == ' ';
    assert Lower(n)[3] != ' ' || |n| != 11;
    assert Upper(n) == n;
  }

  /** The columns of one data row, read as `loadUsersFromCSV` reads them
      for the applicant role: at least five columns and a numeric age,
      or the row is skipped. The project id, status and flat type columns
      are read only when present; a bad project id is -1. */
  function ParseColumns(t: seq<string>): (r: Option<Applicant>)
    ensures r.Some? <==> |t| >= 5 && ParseInt(Trim(t[2])).Some?
    ensures r.Some? && |t| < 7 ==> r.value.appliedProjectId == -1 && r.value.status == NotApplied
    ensures r.Some? && |t| < 8 ==> r.value.flatType == ""
    ensures r.Some? ==> IsInt32(r.value.age) && IsInt32(r.value.appliedProjectId)
  {
    if |t| < 5 then None
    else
      match ParseInt(Trim(t[2]))
      case None => None
      case Some(age) =>
        Some(Applicant(Trim(t[0]), Trim(t[1]), Trim(t[4]), age, Trim(t[3]),
                       PidColumn(t), StatusColumn(t), FlatColumn(t)))
  }

  function PidColumn(t: seq<string>): (r: int)
    ensures IsInt32(r)
  {
    if |t| >= 7 then ParseInt(Trim(t[5])).GetOr(-1) else -1
  }

  function StatusColumn(t: seq<string>): Status
  {
    if |t| >= 7 then StatusField(Trim(t[6])) else NotApplied
  }

  function FlatColumn(t: seq<string>): string
  {
    if |t| >= 8 then Trim(t[7]) else ""
  }

  /** One data row: its columns are the pieces of `split(",")`. */
  function ParseUserRow(line: string): Option<Applicant>
  {
    ParseColumns(Split(line, ','))
  }

  /** The records of a list of data rows, skipping the unreadable ones. */
  function ParseRows(rows: Lines): (r: seq<Applicant>)
    ensures |r| <= |rows|
  {
    if |rows| == 0 then []
    else
      match ParseUserRow(rows[0])
      case None => ParseRows(rows[1..])
      case Some(x) => [x] + ParseRows(rows[1..])
  }

  /** `loadUsersFromCSV`: the header is skipped. */
  function LoadApplicantFile(lines: Lines): (r: seq<Applicant>)
    ensures |lines| <= 1 ==> r == []
  {
    if |lines| == 0 then [] else ParseRows(lines[1..])
  }

  /** The last three columns as the rewrite writes them. */
  function ApplicationColumns(a: Applicant): seq<string>
  {
    [ShowInt(a.appliedProjectId), Name(a.status), a.flatType]
  }

  /** A row of five personal columns followed by `a`'s application. */
  function BuildRow(cols: seq<string>, a: Applicant): string
  {
    Join(cols + ApplicationColumns(a), ',')
  }

  /** The five personal columns of a record, in file order. */
  function PersonalColumns(x: Applicant): seq<string>
  {
    [x.name, x.nric, ShowInt(x.age), x.maritalStatus, x.password]
  }

  /** A whole record as `createApplicantRecordForOfficer` writes it. */
  function WriteRow(x: Applicant): string
  {
    BuildRow(PersonalColumns(x), x)
  }

  /** An application every column of which survives a write and a read. */
  predicate ApplicationWritable(a: Applicant)
  {
    IsInt32(a.appliedProjectId) && IsTrimmed(a.flatType) && ',' !in a.flatType
  }

  /** A column that is its own `trim` and holds no comma. */
  predicate PlainColumn(c: string)
  {
    ',' !in c && IsTrimmed(c)
  }

  /** A record every column of which survives a write and a read: text
      trimmed and free of commas, numbers in the `int` range. */
  predicate Writable(x: Applicant)
  {
    IsInt32(x.age) && ApplicationWritable(x)
    && PlainColumn(x.name) && PlainColumn(x.nric)
    && PlainColumn(x.maritalStatus) && PlainColumn(x.password)
  }

  /** The header with the application columns added when it lacks them. */
  function FixHeader(header: string): (r: string)
    ensures |Split(header, ',')| >= 8 ==> r == header
  {
    var h := if |Split(header, ',')| < 7 then header + ",AppliedID,Status" else header;
    if |Split(h, ',')| < 8 then h + ",FlatType" else h
  }

  /** The first five columns of a row, trimmed. */
  function TrimmedColumns(t: seq<string>): (r: seq<string>)
    requires |t| >= 5
  {
    [Trim(t[0]), Trim(t[1]), Trim(t[2]), Trim(t[3]), Trim(t[4])]
  }

  /** The rewrite of one data row for an update of `a`: rows of fewer
      than five columns are kept; the row whose NRIC column matches
      (trimmed, ignoring case) gets its first five columns trimmed and
      `a`'s application; any other row is kept if it has eight columns
      and is otherwise padded, with "-1,NOT_APPLIED" when it lacks the
      status columns, and then with the quote pair for the flat type. */
  function RewriteLine(line: string, a: Applicant): (r: string)
  {
    var t := Split(line, ',');
    if |t| < 5 then line
    else if EqualsIgnoreCase(Trim(t[1]), a.nric) then BuildRow(TrimmedColumns(t), a)
    else if |t| >= 8 then line
    else line + PadText(|t|)
  }

  /** What the rewrite appends to a short row of someone else: the
      default project id and status when the row lacks them, then the
      quote pair for the flat type. */
  function PadText(columns: int): string
  {
    (if columns >= 7 then "" else "," + "-1" + "," + "NOT_APPLIED") + "," + QUOTES
  }

  /** A data row the rewrite recognises as `a`'s. */
  predicate RowMatches(line: string, a: Applicant)
  {
    var t := Split(line, ',');
    |t| >= 5 && EqualsIgnoreCase(Trim(t[1]), a.nric)
  }

  predicate AnyRowMatches(rows: Lines, a: Applicant)
  {
    exists k :: 0 <= k < |rows| && RowMatches(rows[k], a)
  }

  /** Every data row rewritten for `a`. */
  function RewriteRows(rows: Lines, a: Applicant): (r: Lines)
    ensures |r| == |rows|
    ensures forall k :: 0 <= k < |rows| ==> r[k] == RewriteLine(rows[k], a)
  {
    seq(|rows|, k requires 0 <= k < |rows| => RewriteLine(rows[k], a))
  }

  /** The data rows of a file: all lines after the header. */
  function DataRows(lines: Lines): Lines
  {
    if |lines| == 0 then [] else lines[1..]
  }

  /** The result of a file update: the reported result and the lines. */
  datatype FileWrite = FileWrite(ok: bool, lines: Lines)

  /** `updateApplicantApplication` on the file's lines. An officer whose
      NRIC no loaded record carries is appended as a new row. Otherwise
      the file is rewritten row by row if some row matches; if none does,
      an officer is appended and anybody else is refused with nothing
      written. A missing header is replaced by the standard one. */
  function UpdateApplicantFile(lines: Lines, a: Applicant, isOfficer: bool): (r: FileWrite)
    ensures r.ok <==> isOfficer || AnyRowMatches(DataRows(lines), a)
    ensures !r.ok ==> r.lines == lines
    ensures isOfficer && !Known(LoadApplicantFile(lines), a.nric) ==> r.lines == lines + [WriteRow(a)]
    ensures !isOfficer && r.ok ==> |r.lines| == |lines| && r.lines[1..] == RewriteRows(DataRows(lines), a)
  {
    if isOfficer && !Known(LoadApplicantFile(lines), a.nric) then FileWrite(true, lines + [WriteRow(a)])
    else if AnyRowMatches(DataRows(lines), a) then
      var header := if |lines| == 0 then HEADER else lines[0];
      FileWrite(true, [FixHeader(header)] + RewriteRows(DataRows(lines), a))
    else if isOfficer then FileWrite(true, lines + [WriteRow(a)])
    else FileWrite(false, lines)
  }

  /** `updateApplicantApplication` on the file as it finds it: `None` when
      there is no applicant file, which it first creates holding the
      standard header alone before going on as on any file. So a refusal
      leaves a header-only file behind, and an officer's first application
      is written under that header. */
  function UpdateApplicantPath(file: Option<Lines>, a: Applicant, isOfficer: bool): (r: FileWrite)
    ensures file.Some? ==> r == UpdateApplicantFile(file.value, a, isOfficer)
    ensures file.None? ==> (r.ok <==> isOfficer)
    ensures file.None? && !isOfficer ==> r.lines == [HEADER]
    ensures file.None? && isOfficer ==> r.lines == [HEADER, WriteRow(a)]
  {
    var lines := if file.Some? then file.value else [HEADER];
    assert file.None? ==> DataRows(lines) == [] && LoadApplicantFile(lines) == [];
    UpdateApplicantFile(lines, a, isOfficer)
  }

  /** Five trimmed, comma-free columns, the third a number, and an
      application that survives a write: the columns of a row the system
      writes. */
  predicate BuildableColumns(cols: seq<string>, a: Applicant)
  {
    |cols| == 5 && ApplicationWritable(a) && ParseInt(cols[2]).Some?
    && forall k :: 0 <= k < 5 ==> PlainColumn(cols[k])
  }

  /** The columns `split(",")` returns for a built row: the empty flat
      type column is dropped as a trailing empty string. */
  function ReadColumns(cols: seq<string>, a: Applicant): seq<string>
  {
    cols + [ShowInt(a.appliedProjectId), Name(a.status)] + (if a.flatType == "" then [] else [a.flatType])
  }

  /** The record a built row stands for. */
  function BuiltRecord(cols: seq<string>, a: Applicant): Applicant
    requires BuildableColumns(cols, a)
  {
    Applicant(cols[0], cols[1], cols[4], ParseInt(cols[2]).value, cols[3],
              a.appliedProjectId, a.status, a.flatType)
  }

  /** No column of a built row holds a comma. */
  lemma BuiltColumnsFree(cols: seq<string>, a: Applicant)
    requires BuildableColumns(cols, a)
    ensures forall k :: 0 <= k < |cols + ApplicationColumns(a)| ==> ',' !in (cols + ApplicationColumns(a))[k]
  {
    var parts := cols + ApplicationColumns(a);
    ApplicationColumnsFree(a);
    forall k | 0 <= k < |parts|
      ensures ',' !in parts[k]
    {
      if k < 5 {
        assert parts[k] == cols[k];
      } else {
        assert parts[k] == ApplicationColumns(a)[k - 5];
      }
    }
  }

  /** No application column of a writable application holds a comma. */
  lemma ApplicationColumnsFree(a: Applicant)
    requires ApplicationWritable(a)
    ensures forall k :: 0 <= k < 3 ==> ',' !in ApplicationColumns(a)[k]
  {
    NumberColumn(a.appliedProjectId);
    NameWithoutComma(a.status);
  }


  /** No status name holds a comma. */
  lemma NameWithoutComma(st: Status)
    ensures ',' !in Name(st)
  {
    match st
    case NotApplied =>
    case Pending =>
    case Successful =>
    case Booked =>
    case Unsuccessful =>
    case PendingWithdrawal =>
  }

  /** Dropping the trailing empty columns of a built row leaves the
      columns `split` returns. */
  lemma BuiltColumnsTrailing(cols: seq<string>, a: Applicant)
    requires |cols| == 5
    ensures DropTrailingEmpty(cols + ApplicationColumns(a)) == ReadColumns(cols, a)
  {
    var parts := cols + ApplicationColumns(a);
    assert Name(a.status) != "";
    if a.flatType == "" {
      assert DropTrailingEmpty(parts) == DropTrailingEmpty(parts[..7]);
      assert parts[..7] == ReadColumns(cols, a);
    }
  }

  /** Splitting a built row gives its columns back, the empty flat type
      column dropped. */
  lemma SplitBuiltRow(cols: seq<string>, a: Applicant)
    requires BuildableColumns(cols, a)
    ensures Split(BuildRow(cols, a), ',') == ReadColumns(cols, a)
  {
    BuiltColumnsFree(cols, a);
    SplitJoinTrailing(cols + ApplicationColumns(a), ',');
    BuiltColumnsTrailing(cols, a);
  }

  /** Trimmed columns are their own `trim`. */
  lemma TrimmedAlready(cols: seq<string>)
    requires forall k :: 0 <= k < |cols| ==> IsTrimmed(cols[k])
    ensures forall k :: 0 <= k < |cols| ==> Trim(cols[k]) == cols[k]
  {
    forall k | 0 <= k < |cols|
      ensures Trim(cols[k]) == cols[k]
    {
      TrimShortens(cols[k]);
    }
  }

  /** A written number reads back. */
  lemma NumberColumnRead(n: int)
    requires IsInt32(n)
    ensures ParseInt(Trim(ShowInt(n))) == Some(n)
  {
    ShowIntChars(n);
    TrimShortens(ShowInt(n));
    ParseShowInt(n);
  }

  /** A written status reads back. */
  lemma StatusColumnRead(st: Status)
    ensures StatusField(Trim(Name(st))) == st
  {
    assert IsTrimmed(Name(st));
    TrimShortens(Name(st));
    StatusFieldName(st);
  }

  /** The application columns of a built row read back as the application. */
  lemma ApplicationColumnsRead(cols: seq<string>, a: Applicant)
    requires BuildableColumns(cols, a)
    ensures var t := ReadColumns(cols, a);
      PidColumn(t) == a.appliedProjectId && StatusColumn(t) == a.status
      && FlatColumn(t) == a.flatType
  {
    var t := ReadColumns(cols, a);
    assert t[5] == ShowInt(a.appliedProjectId) && t[6] == Name(a.status);
    NumberColumnRead(a.appliedProjectId);
    StatusColumnRead(a.status);
    TrimShortens(a.flatType);
  }

  /** Reading the columns of a built row. */
  lemma ParseBuiltColumns(cols: seq<string>, a: Applicant)
    requires BuildableColumns(cols, a)
    ensures ParseColumns(ReadColumns(cols, a)) == Some(BuiltRecord(cols, a))
  {
    var t := ReadColumns(cols, a);
    TrimmedAlready(cols);
    assert t[..5] == cols;
    ApplicationColumnsRead(cols, a);
  }

  /** Reading a built row gives the record it was built from. */
  lemma ParseBuiltRow(cols: seq<string>, a: Applicant)
    requires BuildableColumns(cols, a)
    ensures ParseUserRow(BuildRow(cols, a)) == Some(BuiltRecord(cols, a))
  {
    SplitBuiltRow(cols, a);
    ParseBuiltColumns(cols, a);
  }

  /** The personal columns of a writable record are buildable and stand
      for the record. */
  lemma WritableColumns(x: Applicant)
    requires Writable(x)
    ensures BuildableColumns(PersonalColumns(x), x)
    ensures BuiltRecord(PersonalColumns(x), x) == x
  {
    var cols := PersonalColumns(x);
    NumberColumn(x.age);
    forall k | 0 <= k < 5
      ensures PlainColumn(cols[k])
    {
    }
  }

  /** A written number is a trimmed column without a comma that reads
      back. */
  lemma NumberColumn(n: int)
    requires IsInt32(n)
    ensures PlainColumn(ShowInt(n)) && ParseInt(ShowInt(n)) == Some(n)
  {
    ShowIntChars(n);
    ParseShowInt(n);
  }

  /** A writable record survives being written as a row and read back. */
  lemma RowRoundTrip(x: Applicant)
    requires Writable(x)
    ensures ParseUserRow(WriteRow(x)) == Some(x)
  {
    WritableColumns(x);
    ParseBuiltRow(PersonalColumns(x), x);
  }

  /** The trimmed columns of a readable row are buildable, and with `a`'s
      application they stand for the row's record holding it. */
  lemma TrimmedColumnsBuildable(t: seq<string>, a: Applicant)
    requires ParseColumns(t).Some? && ApplicationWritable(a)
    requires forall k :: 0 <= k < |t| ==> ',' !in t[k]
    ensures BuildableColumns(TrimmedColumns(t), a)
    ensures BuiltRecord(TrimmedColumns(t), a) == WithApplicationOf(ParseColumns(t).value, a)
  {
    var cols := TrimmedColumns(t);
    forall k | 0 <= k < 5
      ensures PlainColumn(cols[k])
    {
      TrimFree(t[k], ',');
    }
  }

  /** The row `a`'s update writes over a readable row carrying its NRIC
      reads back as that row's record holding `a`'s application. */
  lemma RewriteMatchedReadBack(line: string, a: Applicant)
    requires ParseUserRow(line).Some? && RowMatches(line, a) && ApplicationWritable(a)
    ensures ParseUserRow(RewriteLine(line, a)) == Some(WithApplicationOf(ParseUserRow(line).value, a))
  {
    var t := Split(line, ',');
    SplitPiecesFree(line, ',');
    TrimmedColumnsBuildable(t, a);
    ParseBuiltRow(TrimmedColumns(t), a);
  }

  /** Rows of this form: written by the system itself with a flat type. */
  predicate WrittenWithFlat(x: Applicant)
  {
    Writable(x) && x.flatType != ""
  }

  /** A written row with a flat type splits into its eight columns. */
  lemma RowSplit(x: Applicant)
    requires WrittenWithFlat(x)
    ensures Split(WriteRow(x), ',') == PersonalColumns(x) + ApplicationColumns(x)
  {
    WritableColumns(x);
    SplitBuiltRow(PersonalColumns(x), x);
  }

  /** A written row with a flat type belongs to `a`'s update exactly when
      its record carries `a`'s NRIC; a row of another applicant is kept as
      it is. */
  lemma WrittenRowMatches(x: Applicant, a: Applicant)
    requires WrittenWithFlat(x)
    ensures RowMatches(WriteRow(x), a) <==> HasNric(x, a.nric)
    ensures !HasNric(x, a.nric) ==> RewriteLine(WriteRow(x), a) == WriteRow(x)
  {
    RowSplit(x);
    TrimShortens(x.nric);
  }

  /** A written row with a flat type reads back after `a`'s update as its
      record, holding `a`'s application when it carries `a`'s NRIC. */
  lemma RewriteWrittenRow(x: Applicant, a: Applicant)
    requires WrittenWithFlat(x) && ApplicationWritable(a)
    ensures ParseUserRow(RewriteLine(WriteRow(x), a))
         == Some(if HasNric(x, a.nric) then WithApplicationOf(x, a) else x)
  {
    RowRoundTrip(x);
    WrittenRowMatches(x, a);
    if HasNric(x, a.nric) {
      RewriteMatchedReadBack(WriteRow(x), a);
    }
  }

  /** A file the system wrote itself, one row per record. */
  function WrittenFile(header: string, xs: seq<Applicant>): (r: Lines)
    ensures |r| == |xs| + 1 && r[0] == header
    ensures forall k :: 0 <= k < |xs| ==> r[k + 1] == WriteRow(xs[k])
  {
    [header] + seq(|xs|, k requires 0 <= k < |xs| => WriteRow(xs[k]))
  }

  /** Rows that all read back: the records are the rows' records. */
  lemma {:induction false} ParseReadableRows(rows: Lines, xs: seq<Applicant>)
    requires |rows| == |xs|
    requires forall k :: 0 <= k < |rows| ==> ParseUserRow(rows[k]) == Some(xs[k])
    ensures ParseRows(rows) == xs
  {
    if |rows| > 0 {
      ParseReadableRows(rows[1..], xs[1..]);
      assert xs == [xs[0]] + xs[1..];
    }
  }

  /** Reading rows and one more is reading the rows, then the last. */
  lemma {:induction false} ParseRowsSnoc(rows: Lines, line: string)
    ensures ParseRows(rows + [line])
         == ParseRows(rows) + (if ParseUserRow(line).Some? then [ParseUserRow(line).value] else [])
  {
    if |rows| == 0 {
      assert rows + [line] == [line];
    } else {
      assert (rows + [line])[1..] == rows[1..] + [line];
      ParseRowsSnoc(rows[1..], line);
    }
  }

  /** A file the system wrote loads as the records it was written from. */
  lemma LoadWrittenFile(header: string, xs: seq<Applicant>)
    requires forall k :: 0 <= k < |xs| ==> Writable(xs[k])
    ensures LoadApplicantFile(WrittenFile(header, xs)) == xs
  {
    var rows := DataRows(WrittenFile(header, xs));
    forall k | 0 <= k < |xs|
      ensures ParseUserRow(rows[k]) == Some(xs[k])
    {
      RowRoundTrip(xs[k]);
    }
    ParseReadableRows(rows, xs);
  }

  /** On a file the system wrote with a flat type on every row, some row
      matches `a`'s update exactly when some record carries its NRIC. */
  lemma WrittenFileMatches(header: string, xs: seq<Applicant>, a: Applicant)
    requires forall k :: 0 <= k < |xs| ==> WrittenWithFlat(xs[k])
    ensures AnyRowMatches(DataRows(WrittenFile(header, xs)), a) <==> Known(xs, a.nric)
  {
    var rows := DataRows(WrittenFile(header, xs));
    forall k | 0 <= k < |xs|
      ensures RowMatches(rows[k], a) <==> HasNric(xs[k], a.nric)
    {
      WrittenRowMatches(xs[k], a);
    }
  }

  /** Rewriting a written file for a known NRIC loads as `Persist`'s store. */
  lemma RewriteWrittenFile(header: string, xs: seq<Applicant>, a: Applicant)
    requires forall k :: 0 <= k < |xs| ==> WrittenWithFlat(xs[k])
    requires ApplicationWritable(a) && Known(xs, a.nric)
    ensures ParseRows(RewriteRows(DataRows(WrittenFile(header, xs)), a)) == Persist(xs, a, false).store
  {
    var out := RewriteRows(DataRows(WrittenFile(header, xs)), a);
    var p := Persist(xs, a, false).store;
    forall k | 0 <= k < |xs|
      ensures ParseUserRow(out[k]) == Some(p[k])
    {
      RewriteWrittenRow(xs[k], a);
    }
    ParseReadableRows(out, p);
  }

  /** The file update and the record-level `Persist` agree: on a file the
      system wrote, with a flat type on every row, updating the file and
      loading it gives the records `Persist` gives, with the same result. */
  lemma UpdateFileIsPersist(header: string, xs: seq<Applicant>, a: Applicant, isOfficer: bool)
    requires forall k :: 0 <= k < |xs| ==> WrittenWithFlat(xs[k])
    requires Writable(a)
    ensures var w := UpdateApplicantFile(WrittenFile(header, xs), a, isOfficer);
      w.ok == Persist(xs, a, isOfficer).ok
      && LoadApplicantFile(w.lines) == Persist(xs, a, isOfficer).store
  {
    var f := WrittenFile(header, xs);
    var w := UpdateApplicantFile(f, a, isOfficer);
    LoadWrittenFile(header, xs);
    WrittenFileMatches(header, xs, a);
    if Known(xs, a.nric) {
      RewriteWrittenFile(header, xs, a);
      assert DataRows(w.lines) == RewriteRows(DataRows(f), a);
    } else if isOfficer {
      AppendWrittenRow(header, xs, a);
      assert DataRows(w.lines) == DataRows(f) + [WriteRow(a)];
    }
  }

  /** With no applicant file, the update still agrees with `Persist` on
      an empty store: an officer's first application loads back as the
      one record, and a refusal leaves a file that loads as none. */
  lemma MissingFileIsPersist(a: Applicant, isOfficer: bool)
    requires Writable(a)
    ensures var w := UpdateApplicantPath(None, a, isOfficer);
      w.ok == Persist([], a, isOfficer).ok
      && LoadApplicantFile(w.lines) == Persist([], a, isOfficer).store
    ensures isOfficer ==> LoadApplicantFile(UpdateApplicantPath(None, a, isOfficer).lines) == [a]
  {
    assert WrittenFile(HEADER, []) == [HEADER];
    UpdateFileIsPersist(HEADER, [], a, isOfficer);
  }

  /** A row appended to a written file loads as one more record. */
  lemma AppendWrittenRow(header: string, xs: seq<Applicant>, a: Applicant)
    requires forall k :: 0 <= k < |xs| ==> Writable(xs[k])
    requires Writable(a)
    ensures ParseRows(DataRows(WrittenFile(header, xs)) + [WriteRow(a)]) == xs + [a]
  {
    LoadWrittenFile(header, xs);
    RowRoundTrip(a);
    ParseRowsSnoc(DataRows(WrittenFile(header, xs)), WriteRow(a));
  }

  /** A list of two or more comma-free columns, the last not empty, is
      what `split(",")` returns for its join. */
  lemma SplitPlainRow(t: seq<string>)
    requires |t| >= 2 && t[|t| - 1] != ""
    requires forall k :: 0 <= k < |t| ==> ',' !in t[k]
    ensures Split(Join(t, ','), ',') == t
  {
    SplitJoinTrailing(t, ',');
  }

  /** The columns the rewrite appends to a short row of someone else. */
  function Padding(t: seq<string>): seq<string>
  {
    if |t| >= 7 then [QUOTES] else ["-1", "NOT_APPLIED", QUOTES]
  }

  /** Three columns joined, after a separator. */
  lemma JoinThree(x: string, y: string, z: string)
    ensures [','] + Join([x, y, z], ',') == "," + x + "," + y + "," + z
  {
    assert [x, y, z][1..] == [y, z];
    assert [y, z][1..] == [z];
    assert Join([y, z], ',') == y + [','] + z;
    assert Join([x, y, z], ',') == x + [','] + (y + [','] + z);
  }

  /** The padding, written out, is what the rewrite appends. */
  lemma PaddingText(t: seq<string>)
    ensures [','] + Join(Padding(t), ',') == PadText(|t|)
  {
    if |t| < 7 {
      JoinThree("-1", "NOT_APPLIED", QUOTES);
    }
  }

  /** No padding column holds a comma, and the last is not empty. */
  lemma PaddingFree(t: seq<string>)
    ensures forall k :: 0 <= k < |Padding(t)| ==> ',' !in Padding(t)[k]
    ensures Padding(t)[|Padding(t)| - 1] == QUOTES != ""
  {
    assert ',' !in QUOTES;
    if |t| < 7 {
      assert ',' !in "-1";
      assert ',' !in "NOT_APPLIED";
    }
  }

  /** A short row of someone else is rewritten as its columns followed
      by the padding. */
  lemma PaddedRow(t: seq<string>, a: Applicant)
    requires 5 <= |t| < 8 && t[|t| - 1] != ""
    requires forall k :: 0 <= k < |t| ==> ',' !in t[k]
    requires !EqualsIgnoreCase(Trim(t[1]), a.nric)
    ensures RewriteLine(Join(t, ','), a) == Join(t + Padding(t), ',')
  {
    SplitPlainRow(t);
    PaddingText(t);
    JoinAppend(t, Padding(t), ',');
    AppendAssoc(Join(t, ','), [','], Join(Padding(t), ','));
  }

  lemma AppendAssoc(x: string, y: string, z: string)
    ensures x + y + z == x + (y + z)
  {
  }

  /** The padded columns are what `split` returns for the padded row. */
  lemma SplitPaddedRow(t: seq<string>)
    requires 5 <= |t| < 8
    requires forall k :: 0 <= k < |t| ==> ',' !in t[k]
    ensures Split(Join(t + Padding(t), ','), ',') == t + Padding(t)
  {
    var u := t + Padding(t);
    PaddingFree(t);
    forall k | 0 <= k < |u|
      ensures ',' !in u[k]
    {
      if k < |t| {
        assert u[k] == t[k];
      } else {
        assert u[k] == Padding(t)[k - |t|];
      }
    }
    SplitPlainRow(u);
  }

  /** Padded columns read as the short row's record with the quote pair
      as its flat type. */
  lemma ParsePaddedColumns(t: seq<string>)
    requires (|t| == 5 || |t| == 7) && ParseColumns(t).Some?
    ensures ParseColumns(t + Padding(t)) == Some(ParseColumns(t).value.(flatType := QUOTES))
  {
    var u := t + Padding(t);
    assert u[..5] == t[..5];
    PaddingColumnsRead();
    if |t| == 5 {
      assert u[5] == "-1" && u[6] == "NOT_APPLIED" && u[7] == QUOTES;
    } else {
      assert u[5] == t[5] && u[6] == t[6] && u[7] == QUOTES;
    }
  }

  /** The padding columns read as no project, NOT_APPLIED and the quote
      pair. */
  lemma PaddingColumnsRead()
    ensures ParseInt(Trim("-1")) == Some(-1)
    ensures StatusField(Trim("NOT_APPLIED")) == NotApplied
    ensures Trim(QUOTES) == QUOTES
  {
    TrimShortens(QUOTES);
    TrimShortens("-1");
    TrimShortens("NOT_APPLIED");
    ParseShowInt(-1);
    assert ShowInt(-1) == "-1";
    StatusFieldName(NotApplied);
  }

  /** Rows of the initial five-column form, and seven-column rows that do
      not end in a comma, come back from someone else's update with the
      quote pair as their flat type: the loader does not unquote it. */
  lemma PaddingQuotesFlatType(t: seq<string>, a: Applicant)
    requires (|t| == 5 || |t| == 7) && t[|t| - 1] != ""
    requires forall k :: 0 <= k < |t| ==> ',' !in t[k]
    requires ParseColumns(t).Some? && !EqualsIgnoreCase(Trim(t[1]), a.nric)
    ensures ParseUserRow(Join(t, ',')) == ParseColumns(t)
    ensures ParseUserRow(RewriteLine(Join(t, ','), a))
         == Some(ParseColumns(t).value.(flatType := QUOTES))
  {
    SplitPlainRow(t);
    PaddedRow(t, a);
    SplitPaddedRow(t);
    ParsePaddedColumns(t);
  }

  /** `getBookedUnits`: how many records hold a booking of that flat type
      (ignoring case) in that project. */
  function BookedUnits(users: seq<Applicant>, projectId: int, flatType: string): (n: nat)
    ensures n <= |users|
    ensures n == 0 <==> forall k :: 0 <= k < |users| ==>
      !(users[k].appliedProjectId == projectId && EqualsIgnoreCase(flatType, users[k].flatType)
        && users[k].status == Booked)
  {
    Count(users, (x: Applicant) =>
      x.appliedProjectId == projectId && EqualsIgnoreCase(flatType, x.flatType) && x.status == Booked)
  }
}

=== FILE: applicants.dfy ===
/** An applicant and the one application it may hold. An officer acting
    as an applicant is an applicant too; the `OfficerAsApplicant` rules
    live with the officer. */
module Applicants {
  import opened Wrappers
  import opened Text
  import opened Dates
  import opened Seqs
  import opened ApplicationStatus
  import opened InputValidator
  import opened Projects
  import opened SystemUser

  datatype Applicant = Applicant(
    name: string,
    nric: string,
    password: string,
    age: int,
    maritalStatus: string,
    appliedProjectId: int,
    status: Status,
    flatType: string)

  /** No application: project -1, NOT_APPLIED, flat type "". */
  predicate AtBaseline(a: Applicant)
  {
    a.appliedProjectId == -1 && a.status == NotApplied && a.flatType == ""
  }

  /** Same person, whatever their application. */
  predicate SamePerson(a: Applicant, b: Applicant)
  {
    a.name == b.name && a.nric == b.nric && a.password == b.password
    && a.age == b.age && a.maritalStatus == b.maritalStatus
  }

  /** The constructor starts at the baseline. */
  function NewApplicant(name: string, nric: string, password: string, age: int,
                        maritalStatus: string): (a: Applicant)
    ensures AtBaseline(a)
    ensures a.name == name && a.nric == nric && a.password == password
    ensures a.age == age && a.maritalStatus == maritalStatus
  {
    Applicant(name, nric, password, age, maritalStatus, -1, NotApplied, "")
  }

  /** `resetApplication`: back to the baseline, nothing else touched. */
  function Reset(a: Applicant): (r: Applicant)
    ensures AtBaseline(r) && SamePerson(a, r)
    ensures AtBaseline(a) ==> r == a
  {
    a.(appliedProjectId := -1, status := NotApplied, flatType := "")
  }

  /** Resetting twice is resetting once. */
  lemma ResetIdempotent(a: Applicant)
    ensures Reset(Reset(a)) == Reset(a)
  {
  }

  /** The project an applicant has applied for, if it exists: the first
      project with that id. */
  function AppliedProject(a: Applicant, all: seq<Project>): Option<Project>
  {
    FindFirst(all, (p: Project) => p.id == a.appliedProjectId)
  }

  /** The listing rule of `getViewableProjects`, over classified inputs:
      the applicant meets the age rule of their status, and a Single
      applicant only sees projects offering 2-Room in either slot. */
  predicate ShownTo(a: Applicant, p: Project)
  {
    var m := MaritalOf(a.maritalStatus);
    PolicyAge(m, a.age)
    && (m == Married || FlatOf(p.type1Desc) == TwoRoom || FlatOf(p.type2Desc) == TwoRoom)
  }

  /** The loop body's test, as written. */
  predicate Listed(a: Applicant, p: Project)
  {
    var ms := a.maritalStatus;
    if EqualsIgnoreCase(SINGLE, ms) then
      ValidateSingleApplicantAge(a.age, ms)
      && (EqualsIgnoreCase(TWO_ROOM, p.type1Desc) || EqualsIgnoreCase(TWO_ROOM, p.type2Desc))
    else if EqualsIgnoreCase(MARRIED, ms) then ValidateMarriedApplicantAge(a.age, ms)
    else false
  }

  lemma ListedIsShown(a: Applicant, p: Project)
    ensures Listed(a, p) <==> ShownTo(a, p)
  {
    LiteralsDistinct();
  }

  /** A project the listing loop offers this applicant today: visible,
      open, and let through by the listing rule. */
  predicate Offered(a: Applicant, p: Project, today: Date)
  {
    p.visible && IsCurrentlyOpen(p, today) && ShownTo(a, p)
  }

  /** The applied project, when the applicant has applied and it exists. */
  function AppliedPart(a: Applicant, all: seq<Project>): (r: seq<Project>)
    ensures |r| <= 1
    ensures forall k :: 0 <= k < |r| ==>
              r[k] in all && a.appliedProjectId != -1 && r[k].id == a.appliedProjectId
    ensures (a.appliedProjectId != -1 && AppliedProject(a, all).Some?) ==>
      r == [AppliedProject(a, all).value]
  {
    if a.appliedProjectId != -1 && AppliedProject(a, all).Some?
    then [AppliedProject(a, all).value] else []
  }

  /** The visible projects open today that the listing rule lets through. */
  function ListedPart(a: Applicant, all: seq<Project>, today: Date): (r: seq<Project>)
    ensures forall k :: 0 <= k < |r| ==>
      r[k] in all && Offered(a, r[k], today)
    ensures forall k :: 0 <= k < |all| && Offered(a, all[k], today) ==> all[k] in r
  {
    var open := FilterByVisibilityAndPeriod(all, today);
    var listed := Filter(open, p => Listed(a, p));
    ListedAllShown(a, listed);
    ShownAllListed(a, all, today, open, listed);
    listed
  }

  /** `getViewableProjects` with the project list and today passed in:
      nothing for an empty list or an unrecognised marital status;
      otherwise the applied project (whatever its visibility or dates),
      then every project the listing loop offers. */
  function ViewableProjects(a: Applicant, all: seq<Project>, today: Date): (r: seq<Project>)
    ensures !ValidateMaritalStatus(a.maritalStatus) ==> r == []
    ensures forall k :: 0 <= k < |r| ==> r[k] in all
  {
    if |all| == 0 || !ValidateMaritalStatus(a.maritalStatus) then []
    else
      var applied := AppliedPart(a, all);
      var listed := ListedPart(a, all, today);
      ConcatIndex(applied, listed);
      applied + listed
  }

  lemma ConcatIndex<T>(x: seq<T>, y: seq<T>)
    ensures forall k :: 0 <= k < |x + y| ==>
      (k < |x| && (x + y)[k] == x[k]) || (k >= |x| && (x + y)[k] == y[k - |x|])
    ensures forall e :: e in y ==> e in x + y
  {
  }

  /** What the list holds, for a recognised marital status: the applied
      project first when there is one, every offered project, and nothing
      else. The applied project can appear twice. */
  lemma ViewableProjectsContents(a: Applicant, all: seq<Project>, today: Date)
    requires ValidateMaritalStatus(a.maritalStatus)
    ensures var r := ViewableProjects(a, all, today);
      (a.appliedProjectId != -1 && AppliedProject(a, all).Some? ==>
         |r| > 0 && r[0] == AppliedProject(a, all).value)
      && (forall k :: 0 <= k < |all| && Offered(a, all[k], today) ==> all[k] in r)
      && (forall k :: 0 <= k < |r| ==>
            (a.appliedProjectId != -1 && r[k].id == a.appliedProjectId) || Offered(a, r[k], today))
  {
    if |all| > 0 {
      ConcatIndex(AppliedPart(a, all), ListedPart(a, all, today));
    }
  }

  lemma ListedAllShown(a: Applicant, listed: seq<Project>)
    requires forall k :: 0 <= k < |listed| ==> Listed(a, listed[k])
    ensures forall k :: 0 <= k < |listed| ==> ShownTo(a, listed[k])
  {
    forall k | 0 <= k < |listed|
      ensures ShownTo(a, listed[k])
    {
      ListedIsShown(a, listed[k]);
    }
  }

  lemma ShownAllListed(a: Applicant, all: seq<Project>, today: Date,
                       open: seq<Project>, listed: seq<Project>)
    requires open == FilterByVisibilityAndPeriod(all, today)
    requires listed == Filter(open, p => Listed(a, p))
    ensures forall k :: 0 <= k < |all| && Offered(a, all[k], today) ==> all[k] in listed
  {
    forall k | 0 <= k < |all| && Offered(a, all[k], today)
      ensures all[k] in listed
    {
      ListedIsShown(a, all[k]);
      assert all[k] in open;
      var i :| 0 <= i < |open| && open[i] == all[k];
    }
  }

  /** An applied project that is itself visible, open and listable is
      listed twice: once as the applied project and once by the filter. */
  lemma AppliedProjectListedTwice(a: Applicant, all: seq<Project>, today: Date)
    requires ValidateMaritalStatus(a.maritalStatus) && a.appliedProjectId != -1
    requires AppliedProject(a, all).Some?
    requires Offered(a, AppliedProject(a, all).value, today)
    ensures var r := ViewableProjects(a, all, today);
      |r| >= 2 && r[0] == AppliedProject(a, all).value && AppliedProject(a, all).value in r[1..]
  {
    var p := AppliedProject(a, all).value;
    var listed := ListedPart(a, all, today);
    var i :| 0 <= i < |all| && all[i] == p;
    ViewableProjectsContents(a, all, today);
    assert p in listed;
    assert ViewableProjects(a, all, today) == [p] + listed;
  }

  /** `canInteractWithProject`: the applied id always qualifies (even -1
      for an applicant who has not applied); any other id must belong to
      a viewable project. */
  function CanInteractWithProject(a: Applicant, id: int, all: seq<Project>, today: Date): (r: bool)
    ensures id == a.appliedProjectId ==> r
    ensures id != a.appliedProjectId ==>
              (r <==> (ValidateMaritalStatus(a.maritalStatus)
                       && exists k :: 0 <= k < |all| && all[k].id == id && Offered(a, all[k], today)))
  {
    if id == a.appliedProjectId then true
    else
      var view := ViewableProjects(a, all, today);
      ViewableIds(a, id, all, today);
      Any(view, (p: Project) => p.id == id)
  }

  lemma ViewableIds(a: Applicant, id: int, all: seq<Project>, today: Date)
    requires id != a.appliedProjectId
    ensures var view := ViewableProjects(a, all, today);
      Any(view, (p: Project) => p.id == id) <==>
        (ValidateMaritalStatus(a.maritalStatus)
         && exists k :: 0 <= k < |all| && all[k].id == id && Offered(a, all[k], today))
  {
    if ValidateMaritalStatus(a.maritalStatus) {
      var view := ViewableProjects(a, all, today);
      ViewableProjectsContents(a, all, today);
      AnyOfCover(view, all, (p: Project) => p.id == id, (p: Project) => Offered(a, p, today));
    }
  }

}

=== FILE: application_controller.dfy ===
/** The application controller: an applicant's apply and withdrawal
    requests, and the manager's decision on a withdrawal. Each call
    returns the reported result, the in-memory applicant afterwards (the
    source mutates it) and the applicant store afterwards. */
module ApplicationController {
  import opened Wrappers
  import opened Text
  import opened ApplicationStatus
  import opened InputValidator
  import opened Applicants
  import opened ApplicationRepository
  import ProjectRepository
  import ProjectService
  import ApplicationService

  /** What the officer check said: `None` for a plain applicant, and
      `canApplyForProject`'s answer for an officer acting as an applicant. */
  type OfficerCheck = Option<bool>

  predicate OfficerRefused(check: OfficerCheck)
  {
    check == Some(false)
  }

  /** The applicant after the controller's clean-up: an UNSUCCESSFUL
      application is cleared in memory before anything else is checked.
      The person is the same; a rejected applicant is back at the baseline
      (no project, NOT_APPLIED, no flat type) and anyone else is
      untouched, so no UNSUCCESSFUL status survives. */
  function Cleared(a: Applicant): (r: Applicant)
    ensures SamePerson(a, r) && r.status != Unsuccessful
    ensures a.status == Unsuccessful ==>
              r.status == NotApplied && r.appliedProjectId == -1 && r.flatType == ""
    ensures a.status != Unsuccessful ==> r == a
  {
    if a.status == Unsuccessful then Reset(a) else a
  }

  /** `applyForProject`, in the order the checks are made: the officer
      check, then a SUCCESSFUL or BOOKED application, then the clean-up of
      an UNSUCCESSFUL one, then an application still held, then marital
      status, flat type and age, and finally the service. */
  function Apply(apps: ApplicationRepository.Store, projects: ProjectRepository.Store,
                 a: Applicant, projectId: int, flatType: string,
                 check: OfficerCheck): (r: Applied)
    ensures OfficerRefused(check) ==> r == Applied(false, a, apps)
    ensures a.status == Successful || a.status == Booked ==> r == Applied(false, a, apps)
    ensures !r.ok ==> r.store == apps
    ensures SamePerson(a, r.applicant)
    ensures r.ok <==>
      !OfficerRefused(check)
      && (a.status == NotApplied || a.status == Unsuccessful
          || (a.status == PendingWithdrawal && a.appliedProjectId == -1))
      && ValidateApplicantEligibility(a.age, a.maritalStatus, flatType)
      && ProjectService.HasAvailableUnits(projects, projectId, flatType)
      && (Known(apps, a.nric) || check.Some?)
    ensures r.ok ==> Lookup(r.store, a.nric).Some?
    ensures r.ok ==> var x := Lookup(r.store, a.nric).value;
      x.appliedProjectId == projectId && x.status == Pending && x.flatType == flatType
  {
    if OfficerRefused(check) then Applied(false, a, apps)
    else if a.status == Successful || a.status == Booked then Applied(false, a, apps)
    else
      var c := Cleared(a);
      ClearedGate(a);
      RefusalChain(c.age, c.maritalStatus, flatType);
      if c.appliedProjectId != -1 && c.status != NotApplied then Applied(false, c, apps)
      else if !ValidateMaritalStatus(c.maritalStatus) then Applied(false, c, apps)
      else if !ValidateFlatTypeEligibility(flatType, c.maritalStatus) then Applied(false, c, apps)
      else if EqualsIgnoreCase(SINGLE, c.maritalStatus) && !ValidateSingleApplicantAge(c.age, c.maritalStatus) then
        Applied(false, c, apps)
      else if EqualsIgnoreCase(MARRIED, c.maritalStatus) && !ValidateMarriedApplicantAge(c.age, c.maritalStatus) then
        Applied(false, c, apps)
      else
        ApplicationService.EligibleIsValidatorAndStock(projects, c, projectId, flatType);
        ApplicationService.ApplyForProject(apps, projects, c, projectId, flatType, check.Some?)
  }

  /** Clearing twice is clearing once. */
  lemma ClearedIdempotent(a: Applicant)
    ensures Cleared(Cleared(a)) == Cleared(a)
  {
  }

  /** After the clean-up, an applicant neither SUCCESSFUL nor BOOKED
      passes the held-application check and holds nothing for the service
      exactly when it had not applied, was UNSUCCESSFUL, or asked to
      withdraw with no project recorded. */
  lemma ClearedGate(a: Applicant)
    requires a.status != Successful && a.status != Booked
    ensures var c := Cleared(a);
      SamePerson(a, c)
      && ((!(c.appliedProjectId != -1 && c.status != NotApplied) && !ApplicationService.HoldsApplication(c.status))
          <==> (a.status == NotApplied || a.status == Unsuccessful
                || (a.status == PendingWithdrawal && a.appliedProjectId == -1)))
  {
  }

  /** The controller's own checks of marital status, flat type and age
      pass together exactly when the validator's eligibility holds. */
  lemma RefusalChain(age: int, ms: string, ft: string)
    ensures (ValidateMaritalStatus(ms) && ValidateFlatTypeEligibility(ft, ms)
             && !(EqualsIgnoreCase(SINGLE, ms) && !ValidateSingleApplicantAge(age, ms))
             && !(EqualsIgnoreCase(MARRIED, ms) && !ValidateMarriedApplicantAge(age, ms)))
        <==> ValidateApplicantEligibility(age, ms, ft)
  {
    ApplicantEligibilityCases(age, ms, ft);
  }

  /** The clean-up of an UNSUCCESSFUL application stays in memory even
      when a later check refuses the application. */
  lemma ResetSurvivesRefusal(apps: ApplicationRepository.Store, projects: ProjectRepository.Store,
                             a: Applicant, projectId: int, flatType: string, check: OfficerCheck)
    requires a.status == Unsuccessful && !OfficerRefused(check)
    requires !ValidateApplicantEligibility(a.age, a.maritalStatus, flatType)
    ensures Apply(apps, projects, a, projectId, flatType, check) == Applied(false, Reset(a), apps)
  {
    ApplicantEligibilityCases(a.age, a.maritalStatus, flatType);
  }

  /** A PENDING application, or a withdrawal request on a record that
      still names a project, blocks a new application. */
  lemma HeldApplicationBlocks(apps: ApplicationRepository.Store, projects: ProjectRepository.Store,
                              a: Applicant, projectId: int, flatType: string, check: OfficerCheck)
    requires a.status == Pending || (a.status == PendingWithdrawal && a.appliedProjectId != -1)
    ensures !Apply(apps, projects, a, projectId, flatType, check).ok
    ensures Apply(apps, projects, a, projectId, flatType, check).store == apps
  {
  }

  /** Every accepted application is a lifecycle step into PENDING. */
  lemma ApplyEntersPending(apps: ApplicationRepository.Store, projects: ProjectRepository.Store,
                           a: Applicant, projectId: int, flatType: string, check: OfficerCheck)
    requires Apply(apps, projects, a, projectId, flatType, check).ok
    ensures LifecycleStep(a.status, Pending)
  {
  }

  /** The statuses a withdrawal may be requested from. */
  predicate Withdrawable(s: Status)
  {
    s == Pending || s == Successful || s == Booked
  }

  /** `requestWithdrawal`: from PENDING, SUCCESSFUL or BOOKED the
      in-memory status becomes PENDING_WITHDRAWAL and the stored status is
      set through `processApplication`; from any other status nothing
      changes. */
  function RequestWithdrawal(apps: ApplicationRepository.Store, a: Applicant): (r: Applied)
    ensures !Withdrawable(a.status) ==> r == Applied(false, a, apps)
    ensures Withdrawable(a.status) ==> r.applicant == a.(status := PendingWithdrawal)
    ensures r.ok <==> Withdrawable(a.status) && Known(apps, a.nric)
    ensures !r.ok ==> r.store == apps
    ensures r.ok ==> Lookup(r.store, a.nric) == Some(Lookup(apps, a.nric).value.(status := PendingWithdrawal))
    ensures r.ok ==> LifecycleStep(a.status, PendingWithdrawal)
  {
    if !(a.status == Pending || a.status == Successful || a.status == Booked) then Applied(false, a, apps)
    else
      var saved := ApplicationService.ProcessApplication(apps, a.nric, PendingWithdrawal);
      Applied(saved.ok, a.(status := PendingWithdrawal), saved.store)
  }

  /** `approveWithdrawal`: only for PENDING_WITHDRAWAL, and then the
      stored record returns to the baseline. No unit count changes. */
  function ApproveWithdrawal(apps: ApplicationRepository.Store, a: Applicant): (r: Saved)
    ensures r.ok <==> a.status == PendingWithdrawal && Known(apps, a.nric)
    ensures !r.ok ==> r.store == apps
    ensures r.ok ==> Lookup(r.store, a.nric).Some? && AtBaseline(Lookup(r.store, a.nric).value)
    ensures r.ok ==> LifecycleStep(a.status, NotApplied)
  {
    if a.status != PendingWithdrawal then Saved(false, apps)
    else
      assert LifecycleStep(a.status, NotApplied);
      ApplicationService.WithdrawApplication(apps, a)
  }

  /** `rejectWithdrawal` asks `processApplication` for PENDING, which it
      refuses: the call never succeeds and never writes. */
  function RejectWithdrawal(apps: ApplicationRepository.Store, a: Applicant): (r: Saved)
    ensures r == Saved(false, apps)
  {
    if a.status != PendingWithdrawal then Saved(false, apps)
    else ApplicationService.ProcessApplication(apps, a.nric, Pending)
  }

  /** `rejectWithdrawal` asks for the lifecycle step back to PENDING, but
      no store and no applicant gets there through it. */
  lemma RejectWithdrawalNeverReturnsToPending(apps: ApplicationRepository.Store, a: Applicant)
    requires a.status == PendingWithdrawal && Known(apps, a.nric)
    ensures LifecycleStep(PendingWithdrawal, Pending)
    ensures !RejectWithdrawal(apps, a).ok
    ensures Lookup(RejectWithdrawal(apps, a).store, a.nric) == Lookup(apps, a.nric)
  {
  }
}

=== FILE: application_repository.dfy ===
/** The applicant store seen as records: the applicant file after loading,
    and the one write path every application change goes through
    (`updateApplicantApplication`). Records are matched by NRIC ignoring
    case. The row-level rewrite of the file is in `UserRows`. */
module ApplicationRepository {
  import opened Wrappers
  import opened Text
  import opened Seqs
  import opened ApplicationStatus
  import opened Applicants

  type Store = seq<Applicant>

  /** The reported result of a write and the store afterwards. */
  datatype Saved = Saved(ok: bool, store: Store)

  predicate HasNric(x: Applicant, nric: string)
  {
    EqualsIgnoreCase(x.nric, nric)
  }

  /** Some record carries this NRIC (`applicantNricExists`). */
  predicate Known(store: Store, nric: string)
  {
    exists k :: 0 <= k < |store| && HasNric(store[k], nric)
  }

  /** The first record carrying this NRIC, as the repository loops find it. */
  function Lookup(store: Store, nric: string): (r: Option<Applicant>)
    ensures r.Some? <==> Known(store, nric)
    ensures r.Some? ==> r.value in store && HasNric(r.value, nric)
  {
    FindFirst(store, (x: Applicant) => HasNric(x, nric))
  }

  /** `x` holding `a`'s application: project id, status and flat type. */
  function WithApplicationOf(x: Applicant, a: Applicant): (r: Applicant)
    ensures SamePerson(x, r)
    ensures r.appliedProjectId == a.appliedProjectId && r.status == a.status
    ensures r.flatType == a.flatType
  {
    x.(appliedProjectId := a.appliedProjectId, status := a.status, flatType := a.flatType)
  }

  /** `updateApplicantApplication` on loaded records. When some record has
      `a`'s NRIC, every such record takes `a`'s application and the write
      succeeds. Otherwise an officer acting as an applicant is appended as
      a new record, and anybody else is refused with nothing written. */
  function Persist(store: Store, a: Applicant, isOfficer: bool): (r: Saved)
    ensures r.ok <==> Known(store, a.nric) || isOfficer
    ensures !r.ok ==> r.store == store
    ensures Known(store, a.nric) ==> |r.store| == |store|
    ensures !Known(store, a.nric) && isOfficer ==> r.store == store + [a]
    ensures forall k :: 0 <= k < |store| && !HasNric(store[k], a.nric) ==> r.store[k] == store[k]
    ensures forall k :: 0 <= k < |store| ==> SamePerson(store[k], r.store[k])
  {
    if Known(store, a.nric) then
      Saved(true, seq(|store|, k requires 0 <= k < |store| =>
        if HasNric(store[k], a.nric) then WithApplicationOf(store[k], a) else store[k]))
    else if isOfficer then Saved(true, store + [a])
    else Saved(false, store)
  }

  /** After a successful write, looking the NRIC up again finds `a`'s
      application: on the first matching record, kept as the same person,
      or on `a` itself when it was appended. */
  lemma PersistReadBack(store: Store, a: Applicant, isOfficer: bool)
    requires Persist(store, a, isOfficer).ok
    ensures var x := Lookup(Persist(store, a, isOfficer).store, a.nric);
      x.Some? && x.value.appliedProjectId == a.appliedProjectId
      && x.value.status == a.status && x.value.flatType == a.flatType
    ensures Known(store, a.nric) ==>
      SamePerson(Lookup(Persist(store, a, isOfficer).store, a.nric).value, Lookup(store, a.nric).value)
    ensures !Known(store, a.nric) ==> Lookup(Persist(store, a, isOfficer).store, a.nric) == Some(a)
  {
    var after := Persist(store, a, isOfficer).store;
    var p := (x: Applicant) => HasNric(x, a.nric);
    if Known(store, a.nric) {
      var i := FirstIndex(store, p).value;
      assert after[i] == WithApplicationOf(store[i], a);
      FirstIndexSameMatches(store, after, p, i);
    } else {
      assert after[|store|] == a;
      FirstIndexSameMatches(store + [a], after, p, |store|);
    }
  }

  /** Two stores that agree on which positions match have the same first
      matching position. */
  lemma FirstIndexSameMatches(s: Store, t: Store, p: Applicant -> bool, i: nat)
    requires |s| == |t|
    requires forall k :: 0 <= k < |s| ==> (p(s[k]) <==> p(t[k]))
    requires FirstIndex(s, p) == Some(i)
    ensures FirstIndex(t, p) == Some(i)
    ensures FindFirst(t, p) == Some(t[i])
  {
    assert p(t[i]);
  }

  /** Writing the same application twice leaves the store as one write did. */
  lemma PersistIdempotent(store: Store, a: Applicant, isOfficer: bool)
    requires Known(store, a.nric)
    ensures var once := Persist(store, a, isOfficer).store;
      Persist(once, a, isOfficer).store == once
  {
    var once := Persist(store, a, isOfficer).store;
    var k :| 0 <= k < |store| && HasNric(store[k], a.nric);
    assert HasNric(once[k], a.nric);
  }

  /** Writing back a changed copy `y` of the first record with this NRIC:
      the NRIC then reads back as that record holding `y`'s application,
      and records of other people stay as they were. This is the shape of
      `updateStatus`, `withdraw`, `book` and `reject`. */
  lemma WriteBackFirst(store: Store, nric: string, y: Applicant)
    requires Known(store, nric)
    requires y.nric == Lookup(store, nric).value.nric
    ensures Persist(store, y, false).ok && |Persist(store, y, false).store| == |store|
    ensures Lookup(Persist(store, y, false).store, nric)
         == Some(WithApplicationOf(Lookup(store, nric).value, y))
    ensures forall k :: 0 <= k < |store| && !HasNric(store[k], nric) ==>
              Persist(store, y, false).store[k] == store[k]
    ensures forall k :: 0 <= k < |store| && HasNric(store[k], nric) ==>
              Persist(store, y, false).store[k] == WithApplicationOf(store[k], y)
  {
    var x := Lookup(store, nric).value;
    var after := Persist(store, y, false).store;
    var p := (z: Applicant) => HasNric(z, nric);
    var i := FirstIndex(store, p).value;
    assert forall z :: HasNric(z, y.nric) <==> HasNric(z, nric);
    assert after[i] == WithApplicationOf(store[i], y);
    FirstIndexSameMatches(store, after, p, i);
  }

  /** `updateStatus`. The first record's status is changed and the record
      written back: the NRIC now reads back with the new status and the
      first record's project and flat type. */
  function UpdateStatus(store: Store, nric: string, s: Status): (r: Saved)
    ensures r.ok <==> Known(store, nric)
    ensures !r.ok ==> r.store == store
    ensures r.ok ==> Lookup(r.store, nric) == Some(Lookup(store, nric).value.(status := s))
    ensures |r.store| == |store|
    ensures forall k :: 0 <= k < |store| && !HasNric(store[k], nric) ==> r.store[k] == store[k]
  {
    match Lookup(store, nric)
    case None => Saved(false, store)
    case Some(x) =>
      WriteBackFirst(store, nric, x.(status := s));
      Persist(store, x.(status := s), false)
  }

  /** With a single record of that NRIC, `updateStatus` changes that
      record's status and nothing else in the store. */
  lemma UpdateStatusOnlyStatus(store: Store, nric: string, s: Status, i: nat)
    requires i < |store| && HasNric(store[i], nric)
    requires forall k :: 0 <= k < |store| && k != i ==> !HasNric(store[k], nric)
    ensures UpdateStatus(store, nric, s) == Saved(true, store[i := store[i].(status := s)])
  {
    var r := UpdateStatus(store, nric, s);
    assert Lookup(store, nric) == Some(store[i]);
    assert r.store[i] == store[i].(status := s);
    assert r.store == store[i := store[i].(status := s)];
  }

  /** A second record with the same NRIC is overwritten by the first one's
      application, not only its status. */
  lemma UpdateStatusOverwritesDuplicate()
    ensures var x := Applicant("A", "S1234567A", "password123", 40, "Single", 3, Pending, "2-Room");
      var y := Applicant("B", "s1234567a", "password123", 30, "Married", 5, Booked, "3-Room");
      var r := UpdateStatus([x, y], "S1234567A", Successful);
      r.ok && r.store[1] == y.(appliedProjectId := 3, status := Successful, flatType := "2-Room")
  {
    var x := Applicant("A", "S1234567A", "password123", 40, "Single", 3, Pending, "2-Room");
    var y := Applicant("B", "s1234567a", "password123", 30, "Married", 5, Booked, "3-Room");
    assert HasNric(x, "S1234567A") && HasNric(y, "S1234567A");
    assert Lookup([x, y], "S1234567A") == Some(x);
    WriteBackFirst([x, y], "S1234567A", x.(status := Successful));
  }

  /** The in-memory applicant after an application call, and the write. */
  datatype Applied = Applied(ok: bool, applicant: Applicant, store: Store)

  /** `apply`: the in-memory applicant takes (project, PENDING, flat type)
      whatever happens, then it is written through `Persist`. */
  function Apply(store: Store, a: Applicant, projectId: int, flatType: string,
                 isOfficer: bool): (r: Applied)
    ensures r.applicant == a.(appliedProjectId := projectId, status := Pending, flatType := flatType)
    ensures r.ok <==> Known(store, a.nric) || isOfficer
    ensures !r.ok ==> r.store == store
    ensures r.ok ==> Lookup(r.store, a.nric).Some?
    ensures r.ok ==> var x := Lookup(r.store, a.nric).value;
      x.appliedProjectId == projectId && x.status == Pending && x.flatType == flatType
  {
    var applied := a.(appliedProjectId := projectId, status := Pending, flatType := flatType);
    var saved := Persist(store, applied, isOfficer);
    if saved.ok then
      PersistReadBack(store, applied, isOfficer);
      Applied(true, applied, saved.store)
    else Applied(false, applied, saved.store)
  }

  /** `withdraw`: the record returns to the baseline. */
  function Withdraw(store: Store, nric: string): (r: Saved)
    ensures r.ok <==> Known(store, nric)
    ensures !r.ok ==> r.store == store
    ensures r.ok ==> Lookup(r.store, nric).Some?
    ensures r.ok ==> AtBaseline(Lookup(r.store, nric).value)
    ensures r.ok ==> SamePerson(Lookup(r.store, nric).value, Lookup(store, nric).value)
    ensures |r.store| == |store|
    ensures forall k :: 0 <= k < |store| && !HasNric(store[k], nric) ==> r.store[k] == store[k]
  {
    match Lookup(store, nric)
    case None => Saved(false, store)
    case Some(x) =>
      WriteBackFirst(store, nric, Reset(x));
      Persist(store, Reset(x), false)
  }

  /** `book`: BOOKED, whatever the prior status; project and flat type kept. */
  function Book(store: Store, nric: string): (r: Saved)
    ensures r.ok <==> Known(store, nric)
    ensures !r.ok ==> r.store == store
    ensures r.ok ==> Lookup(r.store, nric) == Some(Lookup(store, nric).value.(status := Booked))
  {
    UpdateStatus(store, nric, Booked)
  }

  /** `reject`: UNSUCCESSFUL, with project and flat type kept. */
  function Reject(store: Store, nric: string): (r: Saved)
    ensures r.ok <==> Known(store, nric)
    ensures !r.ok ==> r.store == store
    ensures r.ok ==> Lookup(r.store, nric) == Some(Lookup(store, nric).value.(status := Unsuccessful))
  {
    UpdateStatus(store, nric, Unsuccessful)
  }

  /** `findByStatus`: the records with exactly that status, in order. */
  function FindByStatus(store: Store, s: Status): (r: Store)
    ensures forall k :: 0 <= k < |r| ==> r[k] in store && r[k].status == s
    ensures forall k :: 0 <= k < |store| && store[k].status == s ==> store[k] in r
  {
    Filter(store, (x: Applicant) => x.status == s)
  }

  /** `findByProject`: the records applied to that project id. */
  function FindByProject(store: Store, projectId: int): (r: Store)
    ensures forall k :: 0 <= k < |r| ==> r[k] in store && r[k].appliedProjectId == projectId
    ensures forall k :: 0 <= k < |store| && store[k].appliedProjectId == projectId ==> store[k] in r
  {
    Filter(store, (x: Applicant) => x.appliedProjectId == projectId)
  }

  /** `findByFlatType`: the records whose flat type equals it ignoring case. */
  function FindByFlatType(store: Store, flatType: string): (r: Store)
    ensures forall k :: 0 <= k < |r| ==> r[k] in store && EqualsIgnoreCase(r[k].flatType, flatType)
    ensures forall k :: 0 <= k < |store| && EqualsIgnoreCase(store[k].flatType, flatType) ==>
              store[k] in r
  {
    Filter(store, (x: Applicant) => EqualsIgnoreCase(x.flatType, flatType))
  }

  /** Every record lands in exactly one status list. */
  lemma {:induction false} StatusListsPartition(store: Store)
    ensures |FindByStatus(store, NotApplied)| + |FindByStatus(store, Pending)|
          + |FindByStatus(store, Successful)| + |FindByStatus(store, Booked)|
          + |FindByStatus(store, Unsuccessful)| + |FindByStatus(store, PendingWithdrawal)|
         == |store|
  {
    if |store| > 0 {
      StatusListsPartition(store[1..]);
    }
  }
}

=== FILE: application_service.dfy ===
/** The application service: the eligibility test an application must
    pass, and the three calls that change an application (apply,
    withdraw, process). The applicant store and the project store are
    passed in; the project store is only read. */
module ApplicationService {
  import opened Wrappers
  import opened Text
  import opened ApplicationStatus
  import opened InputValidator
  import opened Projects
  import opened Applicants
  import opened ApplicationRepository
  import ProjectRepository
  import ProjectService

  /** The statuses that already hold an application open. */
  predicate HoldsApplication(s: Status)
  {
    s == Pending || s == Successful || s == Booked
  }

  /** `isEligible`: no application held, the flat type allowed for the
      marital status, the age rule of that status met, and the project
      present with stock in the flat type's slot. */
  function IsEligible(projects: ProjectRepository.Store, a: Applicant, projectId: int,
                      flatType: string): (r: bool)
    ensures r <==>
      !HoldsApplication(a.status)
      && PolicyAge(MaritalOf(a.maritalStatus), a.age)
      && PolicyAllowsFlat(MaritalOf(a.maritalStatus), FlatOf(flatType))
      && ProjectRepository.ExistsById(projects, projectId)
      && ProjectRepository.UnitsOf(ProjectRepository.FindById(projects, projectId).value,
                                   FlatOf(flatType)) > 0
  {
    if a.status == Pending || a.status == Successful || a.status == Booked then false
    else if !ValidateFlatTypeEligibility(flatType, a.maritalStatus) then false
    else if EqualsIgnoreCase(SINGLE, a.maritalStatus) && !ValidateSingleApplicantAge(a.age, a.maritalStatus) then false
    else if EqualsIgnoreCase(SINGLE, a.maritalStatus) then
      ProjectService.HasAvailableUnits(projects, projectId, flatType)
    else if EqualsIgnoreCase(MARRIED, a.maritalStatus) && !ValidateMarriedApplicantAge(a.age, a.maritalStatus) then false
    else if EqualsIgnoreCase(MARRIED, a.maritalStatus) then
      ProjectService.HasAvailableUnits(projects, projectId, flatType)
    else false
  }

  /** The service's test is the validator's combined rule plus the
      project service's stock test, for anyone not holding an
      application. */
  lemma EligibleIsValidatorAndStock(projects: ProjectRepository.Store, a: Applicant,
                                    projectId: int, flatType: string)
    ensures IsEligible(projects, a, projectId, flatType) <==>
      !HoldsApplication(a.status)
      && ValidateApplicantEligibility(a.age, a.maritalStatus, flatType)
      && ProjectService.HasAvailableUnits(projects, projectId, flatType)
  {
  }

  /** `applyForProject`: refused, with nothing written, unless the
      applicant is eligible; otherwise the repository's `apply`. Only the
      applicant store is written: no unit count changes. */
  function ApplyForProject(apps: Store, projects: ProjectRepository.Store, a: Applicant,
                           projectId: int, flatType: string, isOfficer: bool): (r: Applied)
    ensures !IsEligible(projects, a, projectId, flatType) ==> r == Applied(false, a, apps)
    ensures r.ok <==> IsEligible(projects, a, projectId, flatType) && (Known(apps, a.nric) || isOfficer)
    ensures !r.ok ==> r.store == apps
    ensures r.ok ==> Lookup(r.store, a.nric).Some?
    ensures r.ok ==> var x := Lookup(r.store, a.nric).value;
      x.appliedProjectId == projectId && x.status == Pending && x.flatType == flatType
  {
    if !IsEligible(projects, a, projectId, flatType) then Applied(false, a, apps)
    else if !ProjectRepository.ExistsById(projects, projectId) then Applied(false, a, apps)
    else Apply(apps, a, projectId, flatType, isOfficer)
  }

  /** `withdrawApplication`: refused from NOT_APPLIED and UNSUCCESSFUL;
      otherwise the stored record returns to the baseline. */
  function WithdrawApplication(apps: Store, a: Applicant): (r: Saved)
    ensures r.ok <==> IsActive(a.status) && Known(apps, a.nric)
    ensures !r.ok ==> r.store == apps
    ensures r.ok ==> Lookup(r.store, a.nric).Some? && AtBaseline(Lookup(r.store, a.nric).value)
    ensures |r.store| == |apps|
    ensures forall k :: 0 <= k < |apps| && !HasNric(apps[k], a.nric) ==> r.store[k] == apps[k]
  {
    if a.status == NotApplied || a.status == Unsuccessful then Saved(false, apps)
    else Withdraw(apps, a.nric)
  }

  /** The target statuses `processApplication` accepts. */
  predicate Processable(s: Status)
  {
    s == Successful || s == Unsuccessful || s == PendingWithdrawal
  }

  /** `processApplication`: only SUCCESSFUL, UNSUCCESSFUL and
      PENDING_WITHDRAWAL may be set, and then through `updateStatus`. */
  function ProcessApplication(apps: Store, nric: string, s: Status): (r: Saved)
    ensures r.ok <==> Processable(s) && Known(apps, nric)
    ensures !r.ok ==> r.store == apps
    ensures r.ok ==> Lookup(r.store, nric) == Some(Lookup(apps, nric).value.(status := s))
    ensures |r.store| == |apps|
    ensures forall k :: 0 <= k < |apps| && !HasNric(apps[k], nric) ==> r.store[k] == apps[k]
  {
    if s != Successful && s != Unsuccessful && s != PendingWithdrawal then Saved(false, apps)
    else UpdateStatus(apps, nric, s)
  }

  /** In particular NOT_APPLIED, PENDING and BOOKED can never be set
      through the service. */
  lemma ProcessRefuses(apps: Store, nric: string)
    ensures ProcessApplication(apps, nric, NotApplied) == Saved(false, apps)
    ensures ProcessApplication(apps, nric, Pending) == Saved(false, apps)
    ensures ProcessApplication(apps, nric, Booked) == Saved(false, apps)
  {
  }
}

=== FILE: csv_repository.dfy ===
/** The generic line repository of the CSV layer:
    the file is its list of lines, the first of which is the header, and
    the operations find, list, save and delete data lines by an id read
    off each line. The tokenizer it uses is `CsvLine.ParseCsvLine`. The
    per-entity conversions are parameters: `lineId` reads an id straight
    off a line (as `findById` and `existsById` do), `lineKey` reads it
    through the entity (as `save` and `delete` do), `entityId` and
    `toLine` are the entity's id and its line. */
module CsvRepository {
  import opened Wrappers
  import opened Seqs

  /** The data lines: all but the header, none in an empty file. */
  function DataLines(lines: seq<string>): (r: seq<string>)
    ensures |lines| > 0 ==> r == lines[1..]
    ensures |lines| == 0 ==> r == []
  {
    if |lines| == 0 then [] else lines[1..]
  }

  function LineIdIs<ID(==)>(lineId: string -> ID, id: ID): string -> bool
  {
    (l: string) => lineId(l) == id
  }

  /** `findById`: the entity of the first data line with the id. */
  function FindById<T, ID(==)>(lines: seq<string>, id: ID, lineId: string -> ID,
                               toEntity: string -> T): (r: Option<T>)
    ensures r.None? <==> forall k :: 1 <= k < |lines| ==> lineId(lines[k]) != id
    ensures r.Some? ==>
      exists k :: 1 <= k < |lines| && lineId(lines[k]) == id && r.value == toEntity(lines[k])
                  && forall j :: 1 <= j < k ==> lineId(lines[j]) != id
  {
    var data := DataLines(lines);
    assert forall k :: 1 <= k < |lines| ==> lines[k] == data[k - 1];
    match FirstIndex(data, LineIdIs(lineId, id))
    case None => None
    case Some(i) => Some(toEntity(data[i]))
  }

  /** `existsById`: some data line has the id. */
  function ExistsById<ID(==)>(lines: seq<string>, id: ID, lineId: string -> ID): (r: bool)
    ensures r <==> exists k :: 1 <= k < |lines| && lineId(lines[k]) == id
  {
    var data := DataLines(lines);
    assert forall k :: 1 <= k < |lines| ==> lines[k] == data[k - 1];
    Any(data, LineIdIs(lineId, id))
  }

  /** The two lookups agree: an id exists exactly when it is found. */
  lemma ExistsIffFound<T, ID>(lines: seq<string>, id: ID, lineId: string -> ID, toEntity: string -> T)
    ensures ExistsById(lines, id, lineId) <==> FindById(lines, id, lineId, toEntity).Some?
  {
  }

  /** `findAll`: every data line converted, in file order. */
  function FindAll<T>(lines: seq<string>, toEntity: string -> T): (r: seq<T>)
    ensures |r| == |DataLines(lines)|
    ensures forall k :: 1 <= k < |lines| ==> r[k - 1] == toEntity(lines[k])
  {
    var data := DataLines(lines);
    seq(|data|, k requires 0 <= k < |data| => toEntity(data[k]))
  }

  /** `save`: an empty file first gets the header; then the first data
      line whose key is the entity's id is replaced by the entity's line,
      or, when there is none, the entity's line is appended. */
  function Save<T, ID(==)>(lines: seq<string>, header: string, e: T, entityId: T -> ID,
                           lineKey: string -> ID, toLine: T -> string): (r: seq<string>)
    ensures |r| > 0 && r[0] == (if |lines| == 0 then header else lines[0])
    ensures toLine(e) in r[1..]
    ensures ExistsById(lines, entityId(e), lineKey) ==> |r| == |lines|
    ensures ExistsById(lines, entityId(e), lineKey) ==>
      exists i :: 1 <= i < |lines| && lineKey(lines[i]) == entityId(e)
        && (forall j :: 1 <= j < i ==> lineKey(lines[j]) != entityId(e))
        && r == lines[i := toLine(e)]
    ensures !ExistsById(lines, entityId(e), lineKey) ==>
      r == (if |lines| == 0 then [header] else lines) + [toLine(e)]
  {
    var base := if |lines| == 0 then [header] else lines;
    assert base[1..] == DataLines(lines);
    match FirstIndex(base[1..], LineIdIs(lineKey, entityId(e)))
    case None =>
      assert (base + [toLine(e)])[1..][|base| - 1] == toLine(e);
      base + [toLine(e)]
    case Some(i) =>
      assert base[i + 1 := toLine(e)][1..][i] == toLine(e);
      assert forall j :: 1 <= j < i + 1 ==> base[j] == base[1..][j - 1];
      base[i + 1 := toLine(e)]
  }

  /** What is saved is found again: when the entity's line reads back the
      entity's id, and the find reads ids the way the save does, looking
      the id up after a save gives the entity of the saved line. */
  lemma SaveThenFind<T, ID>(lines: seq<string>, header: string, e: T, entityId: T -> ID,
                            lineKey: string -> ID, toLine: T -> string, toEntity: string -> T)
    requires lineKey(toLine(e)) == entityId(e)
    ensures FindById(Save(lines, header, e, entityId, lineKey, toLine), entityId(e), lineKey, toEntity)
         == Some(toEntity(toLine(e)))
  {
    var base := if |lines| == 0 then [header] else lines;
    var r := Save(lines, header, e, entityId, lineKey, toLine);
    var p := LineIdIs(lineKey, entityId(e));
    assert base[1..] == DataLines(lines);
    assert DataLines(r) == r[1..];
    match FirstIndex(base[1..], p)
    case None =>
      assert r[1..] == base[1..] + [toLine(e)];
      FindFirstAt(r[1..], p, |base| - 1);
    case Some(i) =>
      assert forall k :: 0 <= k < i ==> r[1..][k] == base[1..][k];
      FindFirstAt(r[1..], p, i);
  }

  /** `delete`: an empty file is left alone; otherwise the header stays
      and every data line whose key is the id goes, the others in order. */
  function Delete<ID(==)>(lines: seq<string>, id: ID, lineKey: string -> ID): (r: seq<string>)
    ensures |lines| == 0 ==> r == []
    ensures |lines| > 0 ==> |r| > 0 && r[0] == lines[0]
    ensures !ExistsById(r, id, lineKey)
    ensures forall k :: 1 <= k < |lines| && lineKey(lines[k]) != id ==> lines[k] in r[1..]
    ensures forall x :: x in DataLines(r) ==> x in DataLines(lines)
  {
    if |lines| == 0 then lines
    else
      var kept := Filter(lines[1..], (l: string) => lineKey(l) != id);
      var r := [lines[0]] + kept;
      assert r[1..] == kept;
      assert forall k :: 1 <= k < |lines| ==> lines[k] == lines[1..][k - 1];
      r
  }

  /** Deleting and then saving puts the entity's line back at the end,
      after the header and the lines that were kept. */
  lemma DeleteThenSave<T, ID>(lines: seq<string>, header: string, e: T, entityId: T -> ID,
                              lineKey: string -> ID, toLine: T -> string)
    requires |lines| > 0
    ensures var d := Delete(lines, entityId(e), lineKey);
      Save(d, header, e, entityId, lineKey, toLine) == d + [toLine(e)]
  {
  }
}

=== FILE: csvline.dfy ===
/** The quote-aware CSV line tokenizer shared by the file manager and the
    generic line repository: a double quote toggles "inside quotes" and is
    dropped, a comma outside quotes ends a token, every other character is
    kept, and the token in progress at the end of the line is always
    emitted. */
module CsvLine {
  import opened Text

  /** The tokens of `s` read in quote state `inQuotes`. The first token is
      the one in progress when `s` starts. */
  function Scan(s: string, inQuotes: bool): (r: seq<string>)
    ensures |r| >= 1
  {
    if |s| == 0 then [""]
    else if s[0] == '"' then Scan(s[1..], !inQuotes)
    else if s[0] == ',' && !inQuotes then [""] + Scan(s[1..], inQuotes)
    else
      var t := Scan(s[1..], inQuotes);
      [[s[0]] + t[0]] + t[1..]
  }

  /** The tokens of a whole line. */
  function Tokenize(line: string): seq<string>
  {
    Scan(line, false)
  }

  /** The tokenizer as the source writes it: one pass with a quote flag
      and a token buffer. */
  method ParseCsvLine(line: string) returns (tokens: seq<string>)
    ensures tokens == Tokenize(line)
    ensures |tokens| == UnquotedCommas(line, false) + 1
    ensures Join(tokens, ',') == WithoutQuotes(line)
  {
    tokens := [];
    var inQuotes := false;
    var current := "";
    var i := 0;
    assert line[0..] == line;
    assert "" + Scan(line, false)[0] == Scan(line, false)[0];
    while i < |line|
      invariant 0 <= i <= |line|
      invariant Scan(line, false)
        == tokens + [current + Scan(line[i..], inQuotes)[0]] + Scan(line[i..], inQuotes)[1..]
    {
      var c := line[i];
      assert line[i..][1..] == line[i + 1..];
      assert line[i..][0] == c;
      if c == '"' {
        assert Scan(line[i..], inQuotes) == Scan(line[i + 1..], !inQuotes);
        inQuotes := !inQuotes;
      } else if c == ',' && !inQuotes {
        var rest := Scan(line[i + 1..], inQuotes);
        assert Scan(line[i..], inQuotes) == [""] + rest;
        assert current + "" == current;
        assert "" + rest[0] == rest[0];
        assert rest == [rest[0]] + rest[1..];
        tokens := tokens + [current];
        current := "";
      } else {
        var rest := Scan(line[i + 1..], inQuotes);
        assert Scan(line[i..], inQuotes) == [[c] + rest[0]] + rest[1..];
        assert current + ([c] + rest[0]) == (current + [c]) + rest[0];
        current := current + [c];
      }
      i := i + 1;
    }
    assert line[i..] == [];
    assert current + "" == current;
    tokens := tokens + [current];
    CountTokens(line, false);
    JoinTokens(line, false);
  }

  /** Commas of `s` that lie outside quotes, starting in state `inQuotes`. */
  function UnquotedCommas(s: string, inQuotes: bool): nat
  {
    if |s| == 0 then 0
    else if s[0] == '"' then UnquotedCommas(s[1..], !inQuotes)
    else if s[0] == ',' && !inQuotes then 1 + UnquotedCommas(s[1..], inQuotes)
    else UnquotedCommas(s[1..], inQuotes)
  }

  /** `s` with every double quote removed. */
  function WithoutQuotes(s: string): (r: string)
    ensures '"' !in r
  {
    if |s| == 0 then ""
    else if s[0] == '"' then WithoutQuotes(s[1..])
    else [s[0]] + WithoutQuotes(s[1..])
  }

  /** One token per unquoted comma, plus the last. */
  lemma {:induction false} CountTokens(s: string, inQuotes: bool)
    ensures |Scan(s, inQuotes)| == UnquotedCommas(s, inQuotes) + 1
  {
    if |s| > 0 {
      if s[0] == '"' {
        CountTokens(s[1..], !inQuotes);
      } else {
        CountTokens(s[1..], inQuotes);
      }
    }
  }

  /** Joining the tokens with commas gives back the line minus its quotes:
      the tokenizer loses the quotes and nothing else. */
  lemma {:induction false} JoinTokens(s: string, inQuotes: bool)
    ensures Join(Scan(s, inQuotes), ',') == WithoutQuotes(s)
  {
    if |s| > 0 {
      if s[0] == '"' {
        JoinTokens(s[1..], !inQuotes);
      } else {
        JoinTokens(s[1..], inQuotes);
        var t := Scan(s[1..], inQuotes);
        if s[0] == ',' && !inQuotes {
          assert Scan(s, inQuotes) == [""] + t;
          if |t| == 1 {
            assert Join([""] + t, ',') == "" + [','] + t[0];
          } else {
            assert ([""] + t)[1..] == t;
          }
        } else {
          var r := [[s[0]] + t[0]] + t[1..];
          assert Scan(s, inQuotes) == r;
          if |t| > 1 {
            assert r[1..] == t[1..];
            assert Join(t, ',') == t[0] + [','] + Join(t[1..], ',');
          }
        }
      }
    }
  }

  /** A field written without quotes: no comma, no quote. */
  predicate PlainField(f: string)
  {
    ',' !in f && '"' !in f
  }

  /** A field wrapped in a pair of quotes with no quote inside; it may
      hold commas. */
  predicate QuotedField(f: string)
  {
    |f| >= 2 && f[0] == '"' && f[|f| - 1] == '"' && '"' !in f[1..|f| - 1]
  }

  predicate SafeField(f: string)
  {
    PlainField(f) || QuotedField(f)
  }

  /** The token a safe field reads back as. */
  function Unquote(f: string): string
  {
    if QuotedField(f) then f[1..|f| - 1] else f
  }

  /** Text free of quotes, and of commas outside quotes, extends the token
      in progress. */
  lemma {:induction false} ScanPlainPrefix(p: string, rest: string, inQuotes: bool)
    requires '"' !in p && (inQuotes || ',' !in p)
    ensures Scan(p + rest, inQuotes)
         == [p + Scan(rest, inQuotes)[0]] + Scan(rest, inQuotes)[1..]
  {
    if |p| == 0 {
      assert p + rest == rest;
      assert p + Scan(rest, inQuotes)[0] == Scan(rest, inQuotes)[0];
    } else {
      ScanPlainPrefix(p[1..], rest, inQuotes);
      assert (p + rest)[1..] == p[1..] + rest;
      assert (p + rest)[0] == p[0];
      var t := Scan(p[1..] + rest, inQuotes);
      assert Scan(p + rest, inQuotes) == [[p[0]] + t[0]] + t[1..];
      assert [p[0]] + (p[1..] + Scan(rest, inQuotes)[0]) == p + Scan(rest, inQuotes)[0];
    }
  }

  /** A safe field at the start of a line reads back as its unquoted
      text glued to the first token of the rest. */
  lemma FieldPrefix(f: string, rest: string)
    requires SafeField(f)
    ensures Scan(f + rest, false)
         == [Unquote(f) + Scan(rest, false)[0]] + Scan(rest, false)[1..]
  {
    if QuotedField(f) {
      var g := f[1..|f| - 1];
      var tail := ['"'] + rest;
      assert f + rest == ['"'] + (g + tail);
      assert Scan(f + rest, false) == Scan(g + tail, true);
      ScanPlainPrefix(g, tail, true);
      assert tail[1..] == rest;
      assert Scan(tail, true) == Scan(rest, false);
    } else {
      ScanPlainPrefix(f, rest, false);
    }
  }

  /** Safe fields joined with commas tokenize back to the fields, quotes
      removed. This is the property that lets a written row be read back. */
  lemma {:induction false} TokenizeJoin(fields: seq<string>)
    requires |fields| >= 1
    requires forall k :: 0 <= k < |fields| ==> SafeField(fields[k])
    ensures Tokenize(Join(fields, ',')) == seq(|fields|, k requires 0 <= k < |fields| => Unquote(fields[k]))
  {
    var f := fields[0];
    if |fields| == 1 {
      FieldPrefix(f, "");
      assert f + "" == f;
      assert Unquote(f) + "" == Unquote(f);
    } else {
      var more := fields[1..];
      TokenizeJoin(more);
      var j := Join(more, ',');
      assert Join(fields, ',') == f + ([','] + j);
      FieldPrefix(f, [','] + j);
      assert ([','] + j)[1..] == j;
      assert Scan([','] + j, false) == [""] + Scan(j, false);
      assert Unquote(f) + "" == Unquote(f);
    }
  }
}

=== FILE: dates.dfy ===
/** Calendar dates as the housing system uses them: `LocalDate` values
    that are only ever compared, read and written with the pattern
    `d/M/yy`.

    A date is represented by the integer key `y*372 + (m-1)*31 + (d-1)`.
    The key is not a day count, but it orders real calendar dates exactly
    as `LocalDate.isBefore` / `isAfter` do (lemma `KeyOrder`), and
    comparison is the only arithmetic the system performs on dates. */
module Dates {
  import opened Wrappers
  import opened Text
  import opened Numbers

  type Date = int

  predicate IsLeapYear(y: int)
  {
    y % 4 == 0 && (y % 100 != 0 || y % 400 == 0)
  }

  function DaysInMonth(y: int, m: int): (n: int)
    ensures 28 <= n <= 31
  {
    if m == 2 then (if IsLeapYear(y) then 29 else 28)
    else if m == 4 || m == 6 || m == 9 || m == 11 then 30
    else 31
  }

  /** A year, month and day that name a real day of the ISO calendar. */
  predicate IsValidDate(y: int, m: int, d: int)
  {
    1 <= m <= 12 && 1 <= d <= DaysInMonth(y, m)
  }

  function Key(y: int, m: int, d: int): Date
  {
    y * 372 + (m - 1) * 31 + (d - 1)
  }

  function YearOf(k: Date): int { k / 372 }
  function MonthOf(k: Date): int { (k % 372) / 31 + 1 }
  function DayOf(k: Date): int { (k % 372) % 31 + 1 }

  /** Keys that stand for a real calendar date. */
  predicate IsCalendarKey(k: Date)
  {
    IsValidDate(YearOf(k), MonthOf(k), DayOf(k))
  }

  /** The key of a real date decodes to that date, and every calendar
      key is the key of its decoding. */
  lemma KeyDecode(y: int, m: int, d: int)
    requires 1 <= m <= 12 && 1 <= d <= 31
    ensures YearOf(Key(y, m, d)) == y
    ensures MonthOf(Key(y, m, d)) == m
    ensures DayOf(Key(y, m, d)) == d
  {
    var r := (m - 1) * 31 + (d - 1);
    assert 0 <= r < 372;
    assert Key(y, m, d) % 372 == r;
    assert Key(y, m, d) / 372 == y;
  }

  lemma KeyEncode(k: Date)
    ensures Key(YearOf(k), MonthOf(k), DayOf(k)) == k
  {
  }

  /** Key order is calendar order: for real dates, one key is smaller
      exactly when its date comes first by year, then month, then day. */
  lemma KeyOrder(y1: int, m1: int, d1: int, y2: int, m2: int, d2: int)
    requires IsValidDate(y1, m1, d1) && IsValidDate(y2, m2, d2)
    ensures Key(y1, m1, d1) < Key(y2, m2, d2) <==>
      (y1 < y2 || (y1 == y2 && (m1 < m2 || (m1 == m2 && d1 < d2))))
    ensures Key(y1, m1, d1) == Key(y2, m2, d2) <==> (y1 == y2 && m1 == m2 && d1 == d2)
  {
    KeyDecode(y1, m1, d1);
    KeyDecode(y2, m2, d2);
  }

  /** `!a.isAfter(b)` on the decoded dates: by year, then month, then
      day, equal dates included. */
  predicate OnOrBefore(a: Date, b: Date)
  {
    YearOf(a) < YearOf(b)
    || (YearOf(a) == YearOf(b)
        && (MonthOf(a) < MonthOf(b) || (MonthOf(a) == MonthOf(b) && DayOf(a) <= DayOf(b))))
  }

  /** On calendar keys, comparing keys is comparing dates. */
  lemma KeyOnOrBefore(a: Date, b: Date)
    requires IsCalendarKey(a) && IsCalendarKey(b)
    ensures a <= b <==> OnOrBefore(a, b)
  {
    KeyEncode(a);
    KeyEncode(b);
    KeyOrder(YearOf(a), MonthOf(a), DayOf(a), YearOf(b), MonthOf(b), DayOf(b));
  }

  /** A day or month field of `d/M/yy`: one to nineteen ASCII digits. */
  predicate IsNumberField(p: string)
  {
    1 <= |p| <= 19 && AllDigits(p)
  }

  function Min(a: int, b: int): int { if a <= b then a else b }

  /** `LocalDate.parse(s, ofPattern("d/M/yy"))` with the default smart
      resolver: the day must lie in 1..31 and the month in 1..12; a day
      past the end of its month becomes the month's last day; `yy` is
      exactly two digits read as a year 2000..2099. Anything else throws,
      which is `None` here. */
  function ParseDate(s: string): (r: Option<Date>)
    ensures r.Some? ==> IsCalendarKey(r.value) && 2000 <= YearOf(r.value) <= 2099
  {
    ParseFields(Pieces(s, '/'))
  }

  /** The fields of `d/M/yy`, once split at the slashes. */
  function ParseFields(parts: seq<string>): (r: Option<Date>)
    ensures r.Some? ==> IsCalendarKey(r.value) && 2000 <= YearOf(r.value) <= 2099
  {
    if |parts| != 3 || !IsNumberField(parts[0]) || !IsNumberField(parts[1])
       || |parts[2]| != 2 || !AllDigits(parts[2]) then None
    else
      var d := DigitsValue(parts[0]);
      var m := DigitsValue(parts[1]);
      var y := 2000 + DigitsValue(parts[2]);
      TwoDigitValue(parts[2]);
      if !(1 <= d <= 31 && 1 <= m <= 12) then None
      else
        var day := Min(d, DaysInMonth(y, m));
        KeyDecode(y, m, day);
        Some(Key(y, m, day))
  }

  function TwoDigits(n: int): (r: string)
    requires 0 <= n < 100
    ensures |r| == 2 && AllDigits(r) && DigitsValue(r) == n
  {
    var r := [DigitChar(n / 10), DigitChar(n % 10)];
    TwoDigitValue(r);
    r
  }

  /** `date.format(ofPattern("d/M/yy"))`: day and month without padding,
      the last two digits of the year. */
  function FormatDate(k: Date): (r: string)
  {
    ShowNat(DayOf(k)) + "/" + ShowNat(MonthOf(k)) + "/" + TwoDigits(YearOf(k) % 100)
  }

  lemma ShortShowNat(n: nat)
    requires n < 100
    ensures |ShowNat(n)| <= 2
  {
    if n >= 10 {
      assert |ShowNat(n / 10)| == 1;
    }
  }

  /** A written date holds digits and slashes only, so it is trimmed and
      free of commas and quotes. */
  lemma FormatDateChars(k: Date)
    ensures |FormatDate(k)| >= 1
    ensures forall i :: 0 <= i < |FormatDate(k)| ==> FormatDate(k)[i] == '/' || IsDigit(FormatDate(k)[i])
  {
  }

  /** A date of this century survives being written and read back. */
  lemma ParseFormatDate(k: Date)
    requires IsCalendarKey(k) && 2000 <= YearOf(k) <= 2099
    ensures ParseDate(FormatDate(k)) == Some(k)
  {
    var y, m, d := YearOf(k), MonthOf(k), DayOf(k);
    FormatDateParts(k);
    assert 2000 + y % 100 == y;
    ParseDateParts(d, m, y % 100);
    assert Min(d, DaysInMonth(y, m)) == d;
    KeyEncode(k);
  }

  /** A written day, month and two-digit year parse to that date, the
      day clamped to the month. */
  lemma ParseDateParts(d: nat, m: nat, yy: int)
    requires 1 <= d <= 31 && 1 <= m <= 12 && 0 <= yy < 100
    ensures ParseFields([ShowNat(d), ShowNat(m), TwoDigits(yy)])
         == Some(Key(2000 + yy, m, Min(d, DaysInMonth(2000 + yy, m))))
  {
    ShortShowNat(d);
    ShortShowNat(m);
    FieldsRead([ShowNat(d), ShowNat(m), TwoDigits(yy)], d, m, yy);
  }

  /** Well-formed fields with values in range give the date they name. */
  lemma FieldsRead(parts: seq<string>, d: int, m: int, yy: int)
    requires |parts| == 3 && IsNumberField(parts[0]) && IsNumberField(parts[1])
    requires |parts[2]| == 2 && AllDigits(parts[2])
    requires DigitsValue(parts[0]) == d && DigitsValue(parts[1]) == m && DigitsValue(parts[2]) == yy
    requires 1 <= d <= 31 && 1 <= m <= 12
    ensures ParseFields(parts) == Some(Key(2000 + yy, m, Min(d, DaysInMonth(2000 + yy, m))))
  {
  }

  /** A written date splits at its slashes into day, month and year. */
  lemma FormatDateParts(k: Date)
    requires IsCalendarKey(k)
    ensures Pieces(FormatDate(k), '/')
         == [ShowNat(DayOf(k)), ShowNat(MonthOf(k)), TwoDigits(YearOf(k) % 100)]
  {
    var ds, ms, ys := ShowNat(DayOf(k)), ShowNat(MonthOf(k)), TwoDigits(YearOf(k) % 100);
    var parts := [ds, ms, ys];
    forall i | 0 <= i < 3
      ensures '/' !in parts[i]
    {
      assert AllDigits(parts[i]);
    }
    assert Join(parts, '/') == FormatDate(k) by {
      assert Join(parts[1..], '/') == ms + "/" + ys by {
        assert parts[1..][1..] == [ys];
      }
    }
    PiecesJoin(parts, '/');
  }
}

=== FILE: enquiry.dfy ===
/** An enquiry about a project: its id, the NRIC of its author, its
    text, the response (absent when set to null) and the project. */
module Enquiries {
  import opened Wrappers
  import opened Text

  datatype Enquiry = Enquiry(
    id: int,
    userNric: string,
    text: string,
    response: Option<string>,
    projectId: int)

  /** `Enquiry.hasResponse`: a response that is present and not blank
      after `trim`, that is, one holding some character above space. */
  function HasResponse(e: Enquiry): (r: bool)
    ensures r <==> e.response.Some?
                   && exists k :: 0 <= k < |e.response.value| && !IsTrimmable(e.response.value[k])
  {
    if e.response.None? then false
    else
      BlankMeansAllTrimmable(e.response.value);
      !IsBlank(e.response.value)
  }

  /** The constructor: the response starts as the empty string, so a new
      enquiry has no response. */
  function NewEnquiry(id: int, userNric: string, text: string, projectId: int): (e: Enquiry)
    ensures e.id == id && e.userNric == userNric && e.text == text && e.projectId == projectId
    ensures e.response == Some("") && !HasResponse(e)
  {
    Enquiry(id, userNric, text, Some(""), projectId)
  }

  /** The setters. There are none for the id or the author. */
  function SetText(e: Enquiry, text: string): (r: Enquiry)
    ensures r.text == text
    ensures r.id == e.id && r.userNric == e.userNric && r.response == e.response
            && r.projectId == e.projectId
  {
    e.(text := text)
  }

  function SetResponse(e: Enquiry, response: Option<string>): (r: Enquiry)
    ensures r.response == response
    ensures r.id == e.id && r.userNric == e.userNric && r.text == e.text
            && r.projectId == e.projectId
  {
    e.(response := response)
  }

  function SetProjectId(e: Enquiry, projectId: int): (r: Enquiry)
    ensures r.projectId == projectId
    ensures r.id == e.id && r.userNric == e.userNric && r.text == e.text
            && r.response == e.response
  {
    e.(projectId := projectId)
  }

  /** Each setter touches only its own field, so they commute, and
      whether there is a response depends on the response alone. */
  lemma SettersIndependent(e: Enquiry, text: string, response: Option<string>, projectId: int)
    ensures SetResponse(SetText(e, text), response) == SetText(SetResponse(e, response), text)
    ensures SetProjectId(SetText(e, text), projectId) == SetText(SetProjectId(e, projectId), text)
    ensures SetProjectId(SetResponse(e, response), projectId)
         == SetResponse(SetProjectId(e, projectId), response)
    ensures HasResponse(SetText(e, text)) == HasResponse(e)
    ensures HasResponse(SetProjectId(e, projectId)) == HasResponse(e)
  {
  }

  /** A response of blanks only, such as "  ", does not count. */
  lemma BlankResponseIsNone(e: Enquiry)
    requires e.response.Some? && IsBlank(e.response.value)
    ensures !HasResponse(e)
  {
    BlankMeansAllTrimmable(e.response.value);
  }
}

=== FILE: enquiry_repository.dfy ===
/** The enquiry repository: the in-memory list of enquiries, its
    upsert, delete, finders and the two in-place updates. The write of
    the whole list to the enquiry file is not modelled; the row rewrite
    that the two updates report is a parameter. */
module EnquiryRepository {
  import opened Wrappers
  import opened Text
  import opened Seqs
  import opened Enquiries

  type Store = seq<Enquiry>

  function IdIs(id: int): Enquiry -> bool
  {
    (e: Enquiry) => e.id == id
  }

  predicate ExistsById(store: Store, id: int)
  {
    Any(store, IdIs(id))
  }

  /** No two enquiries share an id. */
  predicate UniqueIds(store: Store)
  {
    forall i, j :: 0 <= i < j < |store| ==> store[i].id != store[j].id
  }

  /** `findById`: the first enquiry with the id. */
  function FindById(store: Store, id: int): (r: Option<Enquiry>)
    ensures r.Some? <==> ExistsById(store, id)
    ensures r.Some? ==> r.value in store && r.value.id == id
  {
    FindFirst(store, IdIs(id))
  }

  /** `save`: the first enquiry with the same id, if any, is taken out
      and the new one goes at the end. Only that first one is taken out:
      a second enquiry with the same id stays. */
  function Save(store: Store, e: Enquiry): (r: Store)
    ensures |r| > 0 && r[|r| - 1] == e
    ensures |r| == if ExistsById(store, e.id) then |store| else |store| + 1
    ensures forall k :: 0 <= k < |store| && store[k].id != e.id ==> store[k] in r
    ensures forall x :: x in r ==> x == e || x in store
  {
    match FirstIndex(store, IdIs(e.id))
    case None => store + [e]
    case Some(i) =>
      assert forall k :: 0 <= k < |store| && k != i ==> store[k] in RemoveAt(store, i) by {
        forall k | 0 <= k < |store| && k != i
          ensures store[k] in RemoveAt(store, i)
        {
          if k < i { assert RemoveAt(store, i)[k] == store[k]; }
          else { assert RemoveAt(store, i)[k - 1] == store[k]; }
        }
      }
      RemoveAt(store, i) + [e]
  }

  /** The enquiries a save keeps in front of the saved one: with unique
      ids, none has the saved id and no two share one. */
  lemma SaveFront(store: Store, e: Enquiry)
    requires UniqueIds(store)
    ensures var r := Save(store, e);
      (forall k :: 0 <= k < |r| - 1 ==> r[k].id != e.id)
      && forall i, j :: 0 <= i < j < |r| - 1 ==> r[i].id != r[j].id
  {
    var r := Save(store, e);
    match FirstIndex(store, IdIs(e.id))
    case None =>
      assert forall k :: 0 <= k < |r| - 1 ==> r[k] == store[k];
    case Some(i) =>
      var front := RemoveAt(store, i);
      assert r == front + [e];
      assert forall k :: 0 <= k < |r| - 1 ==> r[k] == front[k];
      forall a, b | 0 <= a < b < |front|
        ensures front[a].id != front[b].id
      {
        var a', b' := if a < i then a else a + 1, if b < i then b else b + 1;
        assert front[a] == store[a'] && front[b] == store[b'];
      }
  }

  /** With unique ids, saving keeps them unique: exactly one enquiry has
      the saved id afterwards, it is the saved one and it is last. */
  lemma SaveKeepsIdsUnique(store: Store, e: Enquiry)
    requires UniqueIds(store)
    ensures UniqueIds(Save(store, e))
    ensures forall k :: 0 <= k < |Save(store, e)| - 1 ==> Save(store, e)[k].id != e.id
    ensures FindById(Save(store, e), e.id) == Some(e)
  {
    var r := Save(store, e);
    SaveFront(store, e);
    assert r[|r| - 1] == e;
    FindFirstAt(r, IdIs(e.id), |r| - 1);
  }

  /** Saving over a duplicated id leaves the later duplicate in place:
      two enquiries numbered 1, saved over, still give two. */
  lemma SaveLeavesDuplicate(a: Enquiry, b: Enquiry, e: Enquiry)
    requires a.id == 1 && b.id == 1 && e.id == 1
    ensures Save([a, b], e) == [b, e]
  {
    FindFirstAt([a, b], IdIs(1), 0);
  }

  /** `delete`: every enquiry with the id goes, the rest keep their
      order. */
  function Delete(store: Store, id: int): (r: Store)
    ensures !ExistsById(r, id)
    ensures forall x :: x in r <==> x in store && x.id != id
  {
    Filter(store, (e: Enquiry) => e.id != id)
  }

  /** `findByUser`: the author's NRIC ignoring case. */
  function FindByUser(store: Store, userNric: string): (r: Store)
    ensures forall x :: x in r <==> x in store && EqualsIgnoreCase(x.userNric, userNric)
  {
    Filter(store, (e: Enquiry) => EqualsIgnoreCase(e.userNric, userNric))
  }

  /** `findByProject`: exact project id. */
  function FindByProject(store: Store, projectId: int): (r: Store)
    ensures forall x :: x in r <==> x in store && x.projectId == projectId
  {
    Filter(store, (e: Enquiry) => e.projectId == projectId)
  }

  function Answered(): Enquiry -> bool
  {
    (e: Enquiry) => HasResponse(e)
  }

  function Unanswered(): Enquiry -> bool
  {
    (e: Enquiry) => !HasResponse(e)
  }

  /** `findWithResponses`. */
  function FindWithResponses(store: Store): (r: Store)
    ensures forall x :: x in r <==> x in store && HasResponse(x)
  {
    Filter(store, Answered())
  }

  /** `findWithoutResponses`. */
  function FindWithoutResponses(store: Store): (r: Store)
    ensures forall x :: x in r <==> x in store && !HasResponse(x)
  {
    Filter(store, Unanswered())
  }

  /** The two lists split the enquiries: none is in both, and together
      they are as long as the whole list. */
  lemma ResponsesPartition(store: Store)
    ensures |FindWithResponses(store)| + |FindWithoutResponses(store)| == |store|
    ensures forall x :: !(x in FindWithResponses(store) && x in FindWithoutResponses(store))
  {
    FilterPartition(store, Answered(), Unanswered());
  }

  /** The result of an update: what it reports, and the list after it. */
  datatype Updated = Updated(ok: bool, store: Store)

  /** Both updates find the first enquiry with the id and change it in
      the list, then report whether the enquiry file's row for it was
      rewritten (`written`). An id not in the list is false with nothing
      changed. */
  function Modify(store: Store, id: int, change: Enquiry -> Enquiry, written: bool): (r: Updated)
    ensures !ExistsById(store, id) ==> r == Updated(false, store)
    ensures ExistsById(store, id) ==>
      r.ok == written && |r.store| == |store|
      && exists i :: FirstIndex(store, IdIs(id)) == Some(i)
           && r.store[i] == change(store[i])
           && forall k :: 0 <= k < |store| && k != i ==> r.store[k] == store[k]
  {
    match FirstIndex(store, IdIs(id))
    case None => Updated(false, store)
    case Some(i) => Updated(written, store[i := change(store[i])])
  }

  function ResponseTo(response: string): Enquiry -> Enquiry
  {
    (e: Enquiry) => SetResponse(e, Some(response))
  }

  function TextTo(text: string): Enquiry -> Enquiry
  {
    (e: Enquiry) => SetText(e, text)
  }

  /** `updateResponse`. */
  function UpdateResponse(store: Store, id: int, response: string, written: bool): (r: Updated)
    ensures !ExistsById(store, id) ==> r == Updated(false, store)
    ensures ExistsById(store, id) ==>
      r.ok == written
      && FindById(r.store, id) == Some(FindById(store, id).value.(response := Some(response)))
    ensures |r.store| == |store|
    ensures forall k :: 0 <= k < |store| && store[k].id != id ==> r.store[k] == store[k]
  {
    var r := Modify(store, id, ResponseTo(response), written);
    if ExistsById(store, id) then
      ModifiedIsFound(store, id, ResponseTo(response), written);
      ModifiedKeepsOthers(store, id, ResponseTo(response), written);
      r
    else r
  }

  /** `updateEnquiryText`. */
  function UpdateEnquiryText(store: Store, id: int, text: string, written: bool): (r: Updated)
    ensures !ExistsById(store, id) ==> r == Updated(false, store)
    ensures ExistsById(store, id) ==>
      r.ok == written
      && FindById(r.store, id) == Some(FindById(store, id).value.(text := text))
    ensures |r.store| == |store|
    ensures forall k :: 0 <= k < |store| && store[k].id != id ==> r.store[k] == store[k]
  {
    var r := Modify(store, id, TextTo(text), written);
    if ExistsById(store, id) then
      ModifiedIsFound(store, id, TextTo(text), written);
      ModifiedKeepsOthers(store, id, TextTo(text), written);
      r
    else r
  }

  /** A change that keeps the id is what the id finds afterwards. */
  lemma ModifiedIsFound(store: Store, id: int, change: Enquiry -> Enquiry, written: bool)
    requires ExistsById(store, id)
    requires forall e: Enquiry :: change(e).id == e.id
    ensures FindById(Modify(store, id, change, written).store, id) == Some(change(FindById(store, id).value))
  {
    var i :| FirstIndex(store, IdIs(id)) == Some(i);
    var after := Modify(store, id, change, written).store;
    FindFirstAt(after, IdIs(id), i);
  }

  /** Only an enquiry with the id can be the one changed: every enquiry
      with another id keeps its place and its contents. */
  lemma ModifiedKeepsOthers(store: Store, id: int, change: Enquiry -> Enquiry, written: bool)
    requires ExistsById(store, id)
    ensures |Modify(store, id, change, written).store| == |store|
    ensures forall k :: 0 <= k < |store| && store[k].id != id ==>
              Modify(store, id, change, written).store[k] == store[k]
  {
    var i :| FirstIndex(store, IdIs(id)) == Some(i);
    assert store[i].id == id;
  }
}

=== FILE: enquiry_service.dfy ===
/** The enquiry service: new enquiry ids, submission, and the checks
    that only the author may edit or delete an enquiry. */
module EnquiryService {
  import opened Wrappers
  import opened Text
  import opened Numbers
  import opened Seqs
  import opened Enquiries
  import opened EnquiryRepository

  /** The largest id in a non-empty list. */
  function MaxId(store: Store): (m: int)
    requires |store| > 0
    ensures forall k :: 0 <= k < |store| ==> store[k].id <= m
    ensures exists k :: 0 <= k < |store| && store[k].id == m
  {
    if |store| == 1 then store[0].id
    else
      var rest := MaxId(store[1..]);
      assert forall k :: 1 <= k < |store| ==> store[k] == store[1..][k - 1];
      if store[0].id >= rest then store[0].id else rest
  }

  /** `generateNewEnquiryId`: the largest id plus one, in 32-bit
      arithmetic, or 1 when there are no enquiries. Below the largest
      `int` the new id is above every id in use, so no enquiry has it. */
  function NewEnquiryId(store: Store): (id: int)
    requires forall k :: 0 <= k < |store| ==> IsInt32(store[k].id)
    ensures |store| == 0 ==> id == 1
    ensures |store| > 0 && MaxId(store) < INT_MAX ==>
      id == MaxId(store) + 1 && !ExistsById(store, id)
    ensures |store| > 0 && MaxId(store) == INT_MAX ==> id == INT_MIN
  {
    if |store| == 0 then 1
    else
      var m := MaxId(store);
      AddInt32(m, 1)
  }

  /** `submitEnquiry`: the new id, and the list with the new enquiry
      saved under it. */
  datatype Submitted = Submitted(id: int, store: Store)

  function SubmitEnquiry(store: Store, userNric: string, projectId: int, text: string): (r: Submitted)
    requires forall k :: 0 <= k < |store| ==> IsInt32(store[k].id)
    ensures r.id == NewEnquiryId(store)
    ensures FindById(r.store, r.id).Some?
    ensures (|store| == 0 || MaxId(store) < INT_MAX) ==>
      r.store == store + [NewEnquiry(r.id, userNric, text, projectId)]
  {
    var id := NewEnquiryId(store);
    var e := NewEnquiry(id, userNric, text, projectId);
    Submitted(id, Save(store, e))
  }

  /** A submitted enquiry is found under its id, by its author, unanswered,
      and everything that was there is still there. */
  lemma SubmitThenFind(store: Store, userNric: string, projectId: int, text: string)
    requires forall k :: 0 <= k < |store| ==> IsInt32(store[k].id)
    requires |store| == 0 || MaxId(store) < INT_MAX
    ensures var r := SubmitEnquiry(store, userNric, projectId, text);
      FindById(r.store, r.id) == Some(NewEnquiry(r.id, userNric, text, projectId))
      && IsAuthorized(r.store, r.id, userNric)
      && !ServiceHasResponse(r.store, r.id)
      && r.store[..|store|] == store
  {
    var r := SubmitEnquiry(store, userNric, projectId, text);
    FindFirstAt(r.store, IdIs(r.id), |store|);
    assert r.store[..|store|] == store;
  }

  /** `updateEnquiryText` of the service: a missing id or another
      author's enquiry is refused with nothing changed; otherwise the
      repository's update. */
  function UpdateText(store: Store, id: int, userNric: string, text: string, written: bool): (r: Updated)
    ensures !IsAuthorized(store, id, userNric) ==> r == Updated(false, store)
    ensures IsAuthorized(store, id, userNric) ==> r == UpdateEnquiryText(store, id, text, written)
  {
    match FindById(store, id)
    case None => Updated(false, store)
    case Some(e) =>
      if !EqualsIgnoreCase(e.userNric, userNric) then Updated(false, store)
      else UpdateEnquiryText(store, id, text, written)
  }

  /** `respondToEnquiry`: no check on who responds. A missing id is
      refused with nothing changed; otherwise the enquiry the id finds
      reads back with the response set and everything else of it kept,
      every enquiry with another id is untouched, and the result is what
      the file update reports. */
  function RespondToEnquiry(store: Store, id: int, officerNric: string, response: string,
                            written: bool): (r: Updated)
    ensures !ExistsById(store, id) ==> r == Updated(false, store)
    ensures ExistsById(store, id) ==>
      r.ok == written
      && FindById(r.store, id) == Some(FindById(store, id).value.(response := Some(response)))
    ensures |r.store| == |store|
    ensures forall k :: 0 <= k < |store| && store[k].id != id ==> r.store[k] == store[k]
  {
    UpdateResponse(store, id, response, written)
  }

  /** Who responds plays no part: any two officers get the same result. */
  lemma RespondIgnoresOfficer(store: Store, id: int, officer: string, other: string,
                              response: string, written: bool)
    ensures RespondToEnquiry(store, id, officer, response, written)
         == RespondToEnquiry(store, id, other, response, written)
  {
  }

  /** `deleteEnquiry`: only the author, ignoring case, of the first
      enquiry with the id may delete; then every enquiry with that id
      goes. */
  function DeleteEnquiry(store: Store, id: int, userNric: string): (r: Updated)
    ensures r.ok <==> IsAuthorized(store, id, userNric)
    ensures !r.ok ==> r.store == store
    ensures r.ok ==> r.store == Delete(store, id)
  {
    match FindById(store, id)
    case None => Updated(false, store)
    case Some(e) =>
      if !EqualsIgnoreCase(e.userNric, userNric) then Updated(false, store)
      else Updated(true, Delete(store, id))
  }

  /** `hasResponse` of the service: false for a missing id. */
  function ServiceHasResponse(store: Store, id: int): (r: bool)
    ensures r <==> ExistsById(store, id) && HasResponse(FindById(store, id).value)
  {
    match FindById(store, id)
    case None => false
    case Some(e) => HasResponse(e)
  }

  /** `isAuthorized`: the first enquiry with the id was written by that
      NRIC, ignoring case; false for a missing id. */
  function IsAuthorized(store: Store, id: int, userNric: string): (r: bool)
    ensures r <==> ExistsById(store, id) && EqualsIgnoreCase(FindById(store, id).value.userNric, userNric)
  {
    match FindById(store, id)
    case None => false
    case Some(e) => EqualsIgnoreCase(e.userNric, userNric)
  }

  /** Editing keeps the author: whoever was allowed before is allowed
      after, and a response is seen by `hasResponse` once it is set. */
  lemma UpdatesKeepAuthor(store: Store, id: int, userNric: string, text: string, response: string,
                          written: bool)
    ensures IsAuthorized(UpdateText(store, id, userNric, text, written).store, id, userNric)
         == IsAuthorized(store, id, userNric)
    ensures ExistsById(store, id) ==>
      (ServiceHasResponse(RespondToEnquiry(store, id, userNric, response, written).store, id)
       <==> !IsBlank(response))
  {
  }

  /** After a successful delete the id is gone, and only the author can
      have done it. Any other user's request leaves the list alone. */
  lemma DeleteOnlyByAuthor(store: Store, id: int, author: string, other: string)
    requires IsAuthorized(store, id, author) && !EqualsIgnoreCase(author, other)
    ensures !ExistsById(DeleteEnquiry(store, id, author).store, id)
    ensures DeleteEnquiry(store, id, other) == Updated(false, store)
  {
  }
}

=== FILE: input_validator.dfy ===
/** The eligibility and credential validators. The housing policy is
    stated once as a table over classified inputs (`Marital`, `FlatKind`,
    `PolicyAllowsFlat`, `PolicyAge`); the validators compare raw strings
    ignoring case, and their contracts tie them to the table. */
module InputValidator {
  import opened Wrappers
  import opened Text
  import opened Numbers

  const SINGLE: string := "Single"
  const MARRIED: string := "Married"
  const TWO_ROOM: string := "2-Room"
  const THREE_ROOM: string := "3-Room"
  const DEFAULT_PASSWORD: string := "password123"
  const MIN_SINGLE_AGE: int := 35
  const MIN_MARRIED_AGE: int := 21
  const MIN_PASSWORD_LENGTH: int := 8

  datatype Marital = Single | Married | Unrecognised

  /** How a marital-status string is read: "Single" or "Married" in any
      case, anything else unrecognised. */
  function MaritalOf(ms: string): Marital
  {
    if EqualsIgnoreCase(ms, SINGLE) then Single
    else if EqualsIgnoreCase(ms, MARRIED) then Married
    else Unrecognised
  }

  datatype FlatKind = TwoRoom | ThreeRoom | OtherFlat

  /** How a flat-type string is read: "2-Room" or "3-Room" in any case. */
  function FlatOf(ft: string): FlatKind
  {
    if EqualsIgnoreCase(ft, TWO_ROOM) then TwoRoom
    else if EqualsIgnoreCase(ft, THREE_ROOM) then ThreeRoom
    else OtherFlat
  }

  /** The flat types the policy opens to each marital status. */
  predicate PolicyAllowsFlat(m: Marital, f: FlatKind)
  {
    match m
    case Single => f == TwoRoom
    case Married => f == TwoRoom || f == ThreeRoom
    case Unrecognised => false
  }

  /** The minimum ages of the policy. */
  predicate PolicyAge(m: Marital, age: int)
  {
    match m
    case Single => age >= MIN_SINGLE_AGE
    case Married => age >= MIN_MARRIED_AGE
    case Unrecognised => false
  }

  /** The three literals the validators compare against are pairwise
      different even ignoring case, so the classifications are exclusive. */
  lemma LiteralsDistinct()
    ensures !EqualsIgnoreCase(SINGLE, MARRIED)
    ensures !EqualsIgnoreCase(TWO_ROOM, THREE_ROOM)
  {
    assert Lower(SINGLE)[0] != Lower(MARRIED)[0];
    assert Lower(TWO_ROOM)[0] != Lower(THREE_ROOM)[0];
  }

  /** The NRIC shape: an S or T, seven ASCII digits and an upper-case
      ASCII letter, nothing before or after. */
  predicate NricShaped(s: string)
  {
    |s| == 9 && (s[0] == 'S' || s[0] == 'T') && AllDigits(s[1..8]) && 'A' <= s[8] <= 'Z'
  }

  lemma NricChars(s: string)
    requires NricShaped(s)
    ensures forall k :: 0 <= k < |s| ==> IsDigit(s[k]) || 'A' <= s[k] <= 'Z'
  {
    forall k | 1 <= k < 8
      ensures IsDigit(s[k])
    {
      assert s[k] == s[1..8][k - 1];
    }
  }

  /** The shape, character by character: the seven digits are positions
      one to seven. */
  lemma NricShapeByPosition(s: string)
    ensures NricShaped(s) <==>
              |s| == 9 && (s[0] == 'S' || s[0] == 'T')
              && (forall k :: 1 <= k < 8 ==> IsDigit(s[k])) && 'A' <= s[8] <= 'Z'
  {
    if |s| == 9 {
      assert forall k :: 1 <= k < 8 ==> s[k] == s[1..8][k - 1];
    }
  }

  /** `validateNric`: the NRIC shape; `null` fails. A valid NRIC is
      trimmed, holds no comma or quote (so it survives a CSV row) and is
      already upper case. */
  function ValidateNric(nric: Option<string>): (r: bool)
    ensures r <==> nric.Some? && |nric.value| == 9
                   && (nric.value[0] == 'S' || nric.value[0] == 'T')
                   && (forall k :: 1 <= k < 8 ==> IsDigit(nric.value[k]))
                   && 'A' <= nric.value[8] <= 'Z'
    ensures r ==> nric.Some? && |nric.value| == 9 && IsTrimmed(nric.value)
    ensures r ==> nric.Some? && ',' !in nric.value && '"' !in nric.value
    ensures r ==> nric.Some? && Upper(nric.value) == nric.value
  {
    match nric
    case None => false
    case Some(s) =>
      NricShapeByPosition(s);
      if NricShaped(s) then NricChars(s); true else false
  }

  /** `validatePassword`: present, and at least eight characters once the
      ends are trimmed. */
  function ValidatePassword(pw: Option<string>): (r: bool)
    ensures r ==> pw.Some? && |pw.value| >= MIN_PASSWORD_LENGTH
    ensures pw.Some? && IsTrimmed(pw.value) ==> (r <==> |pw.value| >= MIN_PASSWORD_LENGTH)
    ensures pw.Some? && IsBlank(pw.value) ==> !r
  {
    TrimShortens(pw.GetOr(""));
    pw.Some? && |Trim(pw.value)| >= MIN_PASSWORD_LENGTH
  }

  /** Validation only sees the trimmed password: padding a password with
      spaces never changes the verdict. */
  lemma PasswordTrimInvariant(s: string)
    ensures ValidatePassword(Some(s)) == ValidatePassword(Some(Trim(s)))
  {
    TrimIdempotent(s);
  }

  /** `isDefaultPassword`: exact, case-sensitive equality. The default
      password is itself a valid password. */
  function IsDefaultPassword(pw: Option<string>): (r: bool)
    ensures r ==> ValidatePassword(pw)
  {
    assert IsTrimmed(DEFAULT_PASSWORD);
    TrimShortens(DEFAULT_PASSWORD);
    pw == Some(DEFAULT_PASSWORD)
  }

  /** `validateSingleApplicantAge`: false for anyone not Single. */
  function ValidateSingleApplicantAge(age: int, ms: string): (r: bool)
    ensures r <==> MaritalOf(ms) == Single && PolicyAge(Single, age)
    ensures MaritalOf(ms) == Married ==> !r
  {
    if !EqualsIgnoreCase(SINGLE, ms) then false else age >= MIN_SINGLE_AGE
  }

  /** `validateMarriedApplicantAge`: false for anyone not Married. */
  function ValidateMarriedApplicantAge(age: int, ms: string): (r: bool)
    ensures r <==> MaritalOf(ms) == Married && PolicyAge(Married, age)
    ensures MaritalOf(ms) == Single ==> !r
  {
    LiteralsDistinct();
    if !EqualsIgnoreCase(MARRIED, ms) then false else age >= MIN_MARRIED_AGE
  }

  /** `validateFlatTypeEligibility` agrees with the policy table. */
  function ValidateFlatTypeEligibility(ft: string, ms: string): (r: bool)
    ensures r <==> PolicyAllowsFlat(MaritalOf(ms), FlatOf(ft))
  {
    LiteralsDistinct();
    if EqualsIgnoreCase(SINGLE, ms) then EqualsIgnoreCase(TWO_ROOM, ft)
    else if EqualsIgnoreCase(MARRIED, ms) then
      EqualsIgnoreCase(TWO_ROOM, ft) || EqualsIgnoreCase(THREE_ROOM, ft)
    else false
  }

  /** `validateMaritalStatus`: Single or Married in any case. An
      unrecognised status makes every flat type ineligible. */
  function ValidateMaritalStatus(ms: string): (r: bool)
    ensures r <==> MaritalOf(ms) != Unrecognised
    ensures !r ==> forall ft :: !ValidateFlatTypeEligibility(ft, ms)
  {
    EqualsIgnoreCase(SINGLE, ms) || EqualsIgnoreCase(MARRIED, ms)
  }

  /** `validateApplicantEligibility` agrees with the policy table: the
      age rule and the flat rule of the applicant's marital status. */
  function ValidateApplicantEligibility(age: int, ms: string, ft: string): (r: bool)
    ensures r <==> PolicyAge(MaritalOf(ms), age) && PolicyAllowsFlat(MaritalOf(ms), FlatOf(ft))
  {
    if !ValidateMaritalStatus(ms) then false
    else if EqualsIgnoreCase(SINGLE, ms) then
      ValidateSingleApplicantAge(age, ms) && ValidateFlatTypeEligibility(ft, ms)
    else if EqualsIgnoreCase(MARRIED, ms) then
      ValidateMarriedApplicantAge(age, ms) && ValidateFlatTypeEligibility(ft, ms)
    else false
  }

  /** The combined rule spelled out on the raw strings:
      (Single, age >= 35, 2-Room) or (Married, age >= 21, 2-Room or 3-Room). */
  lemma ApplicantEligibilityCases(age: int, ms: string, ft: string)
    ensures ValidateApplicantEligibility(age, ms, ft) <==>
      (EqualsIgnoreCase(ms, SINGLE) && age >= 35 && EqualsIgnoreCase(ft, TWO_ROOM))
      || (EqualsIgnoreCase(ms, MARRIED) && age >= 21
          && (EqualsIgnoreCase(ft, TWO_ROOM) || EqualsIgnoreCase(ft, THREE_ROOM)))
  {
    LiteralsDistinct();
  }
}

=== FILE: manager_menu.dfy ===
/** The manager's project screens: the rule that a manager runs one
    project at a time, officer availability, and what creating a listing,
    editing its dates or officers, and deleting a project do to the
    project list. The officer and applicant records the screens load from
    file are passed in. */
module ManagerMenu {
  import opened Wrappers
  import opened Text
  import opened Dates
  import opened Seqs
  import opened Schedule
  import opened Projects
  import opened Applicants
  import opened Officers
  import ProjectRepository
  import ProjectFile

  /** A project of this manager (name ignoring case) other than the one
      with `projectId`; `-1` excludes nothing. */
  function OtherProjectOf(managerName: string, projectId: int): Project -> bool
  {
    (p: Project) => EqualsIgnoreCase(p.manager, managerName) && p.id != projectId
  }

  /** `hasDateOverlap`: some other project of the manager overlaps the
      window, by the inclusive test. */
  function HasDateOverlap(projects: seq<Project>, managerName: string, projectId: int,
                          w: Window): (r: bool)
    ensures r <==> (exists k :: 0 <= k < |projects|
                      && EqualsIgnoreCase(projects[k].manager, managerName)
                      && projects[k].id != projectId
                      && Overlaps(w, WindowOf(projects[k])))
  {
    AnyFilter(projects, OtherProjectOf(managerName, projectId), OverlapTest(w));
    Any(Filter(projects, OtherProjectOf(managerName, projectId)), OverlapTest(w))
  }

  /** The dates the create and edit screens accept: closing strictly after
      opening, and no overlap with another project of the manager. */
  predicate DatesAccepted(projects: seq<Project>, managerName: string, projectId: int, w: Window)
  {
    w.open < w.close && !HasDateOverlap(projects, managerName, projectId, w)
  }

  /** Accepted dates share no day with any other project of the manager. */
  lemma AcceptedDatesShareNoDay(projects: seq<Project>, managerName: string, projectId: int,
                                w: Window, k: nat, d: Date)
    requires DatesAccepted(projects, managerName, projectId, w)
    requires k < |projects| && EqualsIgnoreCase(projects[k].manager, managerName)
    requires projects[k].id != projectId
    ensures !(InWindow(w, d) && InWindow(WindowOf(projects[k]), d))
  {
  }

  /** An officer record whose name equals `name` ignoring case. */
  function NameIs(name: string): Officer -> bool
  {
    (o: Officer) => EqualsIgnoreCase(o.name, name)
  }

  /** A project other than `projectId` that lists the officer by the
      loose `isOfficerAssigned` match on the name. */
  function AssignedElsewhere(officerName: string, projectId: int): Project -> bool
  {
    (p: Project) => p.id != projectId && IsOfficerAssigned(p, officerName)
  }

  /** `isOfficerAvailable`, with the officer and applicant records passed
      in. Refused for a name no officer record carries; otherwise the NRIC
      of the first record with that name is used. Refused when another
      project listing the name overlaps the window, or when an active
      application of that NRIC is to a project overlapping it. The
      application check does not exclude `projectId`. */
  function IsOfficerAvailable(officers: seq<Officer>, projects: seq<Project>,
                              records: seq<Applicant>, officerName: string, projectId: int,
                              w: Window): (r: bool)
    ensures FindFirst(officers, NameIs(officerName)).None? ==> !r
    ensures r <==>
      (exists i :: 0 <= i < |officers| && EqualsIgnoreCase(officers[i].name, officerName))
      && !(exists k :: 0 <= k < |projects| && projects[k].id != projectId
             && IsOfficerAssigned(projects[k], officerName) && Overlaps(w, WindowOf(projects[k])))
      && !(exists k :: 0 <= k < |records|
             && ClashesWithApplication(FindFirst(officers, NameIs(officerName)).value.nric,
                                       w, projects, records[k]))
  {
    match FindFirst(officers, NameIs(officerName))
    case None => false
    case Some(o) =>
      AnyFilter(projects, AssignedElsewhere(officerName, projectId), OverlapTest(w));
      if Any(Filter(projects, AssignedElsewhere(officerName, projectId)), OverlapTest(w)) then false
      else if Any(records, ClashTest(o.nric, w, projects)) then false
      else true
  }

  function AvailableTest(officers: seq<Officer>, projects: seq<Project>, records: seq<Applicant>,
                         projectId: int, w: Window): string -> bool
  {
    (name: string) => IsOfficerAvailable(officers, projects, records, name, projectId, w)
  }

  /** What the create screen reads, dates already parsed. */
  datatype Listing = Listing(
    name: string,
    neighborhood: string,
    type1Desc: string,
    type1Units: int,
    type1Price: int,
    type2Desc: string,
    type2Units: int,
    type2Price: int,
    open: Date,
    close: Date,
    officerSlots: int,
    officerInput: string)

  /** Ids are the positions 1..N, as every load assigns them. */
  predicate Positional(projects: seq<Project>)
  {
    forall k :: 0 <= k < |projects| ==> projects[k].id == k + 1
  }

  /** `createNewProjectListing`. Dates the loop would refuse give `None`
      (the screen asks again). Otherwise the new project, with id N + 1,
      the manager's name and the available officers among those entered,
      is appended. */
  function CreateProject(projects: seq<Project>, managerName: string, form: Listing,
                         officers: seq<Officer>, records: seq<Applicant>): (r: Option<seq<Project>>)
    ensures r.Some? <==> DatesAccepted(projects, managerName, -1, Window(form.open, form.close))
    ensures r.Some? ==> |r.value| == |projects| + 1 && r.value[..|projects|] == projects
    ensures r.Some? ==> var p := r.value[|projects|];
      p.id == |projects| + 1 && p.manager == managerName && p.visible
      && WindowOf(p) == Window(form.open, form.close)
      && p.type1Units == p.originalType1Units == form.type1Units
      && p.type2Units == p.originalType2Units == form.type2Units
      && p.officerSlots == form.officerSlots
    ensures r.Some? ==> var p := r.value[|projects|];
      (forall k :: 0 <= k < |p.officers| ==>
         p.officers[k] in ProjectFile.NameList(form.officerInput)
         && IsOfficerAvailable(officers, projects, records, p.officers[k], -1, WindowOf(p)))
      && (forall k :: 0 <= k < |ProjectFile.NameList(form.officerInput)| ==>
            IsOfficerAvailable(officers, projects, records, ProjectFile.NameList(form.officerInput)[k],
                               -1, WindowOf(p))
            ==> ProjectFile.NameList(form.officerInput)[k] in p.officers)
  {
    var w := Window(form.open, form.close);
    if !(form.open < form.close) || HasDateOverlap(projects, managerName, -1, w) then None
    else
      var available := Filter(ProjectFile.NameList(form.officerInput), AvailableTest(officers, projects, records, -1, w));
      var p := NewProject(|projects| + 1, form.name, form.neighborhood,
                          form.type1Desc, form.type1Units, form.type1Price,
                          form.type2Desc, form.type2Units, form.type2Price,
                          form.open, form.close, managerName, form.officerSlots, Some(available));
      assert (projects + [p])[..|projects|] == projects;
      Some(projects + [p])
  }

  /** Creating keeps the ids positional. */
  lemma CreateKeepsPositional(projects: seq<Project>, managerName: string, form: Listing,
                              officers: seq<Officer>, records: seq<Applicant>)
    requires Positional(projects)
    requires CreateProject(projects, managerName, form, officers, records).Some?
    ensures Positional(CreateProject(projects, managerName, form, officers, records).value)
  {
    var r := CreateProject(projects, managerName, form, officers, records).value;
    forall k | 0 <= k < |r|
      ensures r[k].id == k + 1
    {
      if k < |projects| {
        assert r[k] == r[..|projects|][k];
      }
    }
  }

  /** The window an edit asks for: each blank field keeps its date. */
  function RequestedWindow(p: Project, newOpen: Option<Date>, newClose: Option<Date>): Window
  {
    Window(newOpen.GetOr(p.open), newClose.GetOr(p.close))
  }

  /** The date part of `editExistingProject`. With both fields blank
      nothing happens; otherwise the requested dates are taken together
      when they are accepted, and neither is taken when they are not. */
  function EditDates(projects: seq<Project>, managerName: string, p: Project,
                     newOpen: Option<Date>, newClose: Option<Date>): (r: Project)
    ensures r.(open := p.open, close := p.close) == p
    ensures WindowOf(r) == WindowOf(p) || WindowOf(r) == RequestedWindow(p, newOpen, newClose)
    ensures WindowOf(r) == RequestedWindow(p, newOpen, newClose) <==>
      RequestedWindow(p, newOpen, newClose) == WindowOf(p)
      || DatesAccepted(projects, managerName, p.id, RequestedWindow(p, newOpen, newClose))
  {
    if newOpen.None? && newClose.None? then p
    else
      var w := RequestedWindow(p, newOpen, newClose);
      if w.close < w.open || w.close == w.open then p
      else if HasDateOverlap(projects, managerName, p.id, w) then p
      else p.(open := w.open, close := w.close)
  }

  /** A date edit never leaves the project overlapping another of the
      manager's projects unless it already did: after the edit the window
      is either the old one or an accepted one. */
  lemma EditedDatesAccepted(projects: seq<Project>, managerName: string, p: Project,
                            newOpen: Option<Date>, newClose: Option<Date>)
    requires DatesAccepted(projects, managerName, p.id, WindowOf(p))
    ensures DatesAccepted(projects, managerName, p.id,
                          WindowOf(EditDates(projects, managerName, p, newOpen, newClose)))
  {
  }

  /** The officer test of the edit screen: a name already listed on the
      project (exact match) is kept unchecked; any other must be
      available for the project's current dates, this project excluded. */
  function KeepOnEdit(officers: seq<Officer>, projects: seq<Project>, records: seq<Applicant>,
                      p: Project): string -> bool
  {
    (name: string) => name in p.officers
                      || IsOfficerAvailable(officers, projects, records, name, p.id, WindowOf(p))
  }

  /** The officer part of `editExistingProject`. A blank field keeps the
      list; otherwise the list becomes the entered names that pass, in
      the order entered, so a listed officer left out is dropped. */
  function EditOfficers(officers: seq<Officer>, projects: seq<Project>, records: seq<Applicant>,
                        p: Project, input: string): (r: Project)
    ensures r.(officers := p.officers) == p
    ensures input == "" ==> r == p
    ensures input != "" ==> forall k :: 0 <= k < |r.officers| ==>
      r.officers[k] in ProjectFile.NameList(input)
      && (r.officers[k] in p.officers
          || IsOfficerAvailable(officers, projects, records, r.officers[k], p.id, WindowOf(p)))
    ensures input != "" ==> forall k :: 0 <= k < |ProjectFile.NameList(input)| ==>
      ProjectFile.NameList(input)[k] in p.officers ==> ProjectFile.NameList(input)[k] in r.officers
  {
    if input == "" then p
    else p.(officers := Filter(ProjectFile.NameList(input), KeepOnEdit(officers, projects, records, p)))
  }

  /** The projects equal except for the id. */
  predicate SameExceptId(a: Project, b: Project)
  {
    a.(id := b.id) == b
  }

  /** The reflection loop of `deleteProject`: each project gets its
      position, counted from 1, as its id; nothing else changes. */
  function Renumber(projects: seq<Project>): (r: seq<Project>)
    ensures |r| == |projects| && Positional(r)
    ensures forall k :: 0 <= k < |r| ==> SameExceptId(r[k], projects[k])
  {
    seq(|projects|, k requires 0 <= k < |projects| => projects[k].(id := k + 1))
  }

  /** Renumbering a positional list changes nothing. */
  lemma RenumberPositional(projects: seq<Project>)
    requires Positional(projects)
    ensures Renumber(projects) == projects
  {
    var r := Renumber(projects);
    assert forall k :: 0 <= k < |r| ==> r[k] == projects[k];
  }

  /** `deleteProject`: `None` when no project has the id; otherwise the
      first project with it is removed and the rest renumbered 1..N in
      their order. */
  function DeleteProject(projects: seq<Project>, id: int): (r: Option<seq<Project>>)
    ensures r.None? <==> !ProjectRepository.ExistsById(projects, id)
    ensures r.Some? ==> |r.value| == |projects| - 1 && Positional(r.value)
    ensures r.Some? ==> (exists i :: 0 <= i < |projects| && projects[i].id == id
                           && (forall k :: 0 <= k < i ==> projects[k].id != id)
                           && (forall k :: 0 <= k < i ==> SameExceptId(r.value[k], projects[k]))
                           && (forall k :: i <= k < |r.value| ==>
                                 SameExceptId(r.value[k], projects[k + 1])))
  {
    match FirstIndex(projects, ProjectRepository.IdIs(id))
    case None => None
    case Some(i) =>
      var r := Renumber(RemoveAt(projects, i));
      assert projects[i].id == id;
      Some(r)
  }

  /** On a positional list, deleting id `d` removes the project at
      position `d`, and every later project moves down one id. */
  lemma DeletePositional(projects: seq<Project>, d: int)
    requires Positional(projects) && 1 <= d <= |projects|
    ensures DeleteProject(projects, d).Some?
    ensures var r := DeleteProject(projects, d).value;
      (forall k :: 0 <= k < d - 1 ==> r[k] == projects[k])
      && (forall k :: d - 1 <= k < |r| ==> r[k] == projects[k + 1].(id := k + 1))
  {
    assert ProjectRepository.IdIs(d)(projects[d - 1]);
    assert FirstIndex(projects, ProjectRepository.IdIs(d)) == Some(d - 1);
    var r := Renumber(RemoveAt(projects, d - 1));
    assert DeleteProject(projects, d) == Some(r);
  }
}

=== FILE: manager_review.dfy ===
/** The manager's decision screens: officer registration requests,
    applicant applications, and withdrawal requests. Each screen lists
    what it will ask about, reads an Approve / Reject / Skip answer per
    item, and writes the outcome. The registration file, the officer
    records, the applicant records and the project list are passed in and
    returned. */
module ManagerReview {
  import opened Wrappers
  import opened Text
  import opened Numbers
  import opened Seqs
  import opened ApplicationStatus
  import opened InputValidator
  import opened Projects
  import opened Applicants
  import opened Officers
  import opened ApplicationRepository
  import opened Registrations
  import ProjectRepository
  import ApplicationController

  /** The answer to a prompt. */
  datatype Choice = Approve | Reject | Skip

  /** The prompt's reading of a trimmed line: "A" approves and "R"
      rejects, ignoring case; anything else skips. */
  function ChoiceOf(input: string): (c: Choice)
    ensures c == Approve <==> EqualsIgnoreCase("A", Trim(input))
    ensures c == Reject <==> EqualsIgnoreCase("R", Trim(input))
  {
    assert Lower("A") == "a" && Lower("R") == "r";
    if EqualsIgnoreCase("A", Trim(input)) then Approve
    else if EqualsIgnoreCase("R", Trim(input)) then Reject
    else Skip
  }

  /** A project of this manager, name compared ignoring case. */
  function ManagedBy(managerName: string): Project -> bool
  {
    (p: Project) => EqualsIgnoreCase(p.manager, managerName)
  }

  /** The project the request names, if the manager runs it. */
  function ManagedWithId(projectId: int, managerName: string): Project -> bool
  {
    (p: Project) => p.id == projectId && EqualsIgnoreCase(p.manager, managerName)
  }

  function NricIs(nric: string): Officer -> bool
  {
    (o: Officer) => EqualsIgnoreCase(o.nric, nric)
  }

  /** `getOfficerNameFromNRIC`: the name on the first officer record with
      that NRIC, ignoring case. */
  function OfficerNameOf(officers: seq<Officer>, nric: string): (r: Option<string>)
    ensures r.None? <==> forall k :: 0 <= k < |officers| ==> !EqualsIgnoreCase(officers[k].nric, nric)
    ensures r.Some? ==> exists k :: 0 <= k < |officers| && EqualsIgnoreCase(officers[k].nric, nric)
                                   && officers[k].name == r.value
  {
    match FindFirst(officers, NricIs(nric))
    case None => None
    case Some(o) => Some(o.name)
  }

  /** The projects after one request, and whether its line stays in the
      registration file. */
  datatype Step = Step(projects: seq<Project>, keep: bool)

  /** What a request may change: one approval adds one officer and takes
      one slot, so slots plus listed officers stay constant; a slot count
      that was not negative stays so; a list without repeats keeps none;
      and nothing else about a project changes. */
  predicate SlotsConserved(before: seq<Project>, after: seq<Project>)
  {
    |after| == |before|
    && forall k :: 0 <= k < |before| ==>
         after[k].(officers := before[k].officers, officerSlots := before[k].officerSlots) == before[k]
         && after[k].officerSlots + |after[k].officers| == before[k].officerSlots + |before[k].officers|
         && (before[k].officerSlots >= 0 ==> after[k].officerSlots >= 0)
         && (NoDuplicates(before[k].officers) ==> NoDuplicates(after[k].officers))
  }

  /** One registration request for `projectId` by `nric`, answered with
      `choice`. A project the manager does not run keeps the line without
      asking. An approval needs a free slot and a known NRIC, or the line
      stays pending; an officer already listed is not added again but the
      line goes; otherwise the name is appended, one slot is taken and the
      line goes. A rejection drops the line; a skip keeps it. */
  function DecideRegistration(projects: seq<Project>, managerName: string, officers: seq<Officer>,
                              nric: string, projectId: int, choice: Choice): (r: Step)
    ensures SlotsConserved(projects, r.projects)
    ensures choice != Approve ==> r.projects == projects
    ensures choice == Skip ==> r.keep
    ensures r.projects != projects ==> !r.keep
    ensures r.projects != projects ==>
      (exists i :: 0 <= i < |projects| && projects[i].id == projectId
                   && EqualsIgnoreCase(projects[i].manager, managerName)
                   && projects[i].officerSlots > 0 && OfficerNameOf(officers, nric).Some?
                   && r.projects == projects[i := WithOfficer(projects[i], OfficerNameOf(officers, nric).value)])
  {
    match FirstIndex(projects, ManagedWithId(projectId, managerName))
    case None => Step(projects, true)
    case Some(i) =>
      var p := projects[i];
      match choice
      case Reject => Step(projects, false)
      case Skip => Step(projects, true)
      case Approve =>
        if p.officerSlots <= 0 then Step(projects, true)
        else
          match OfficerNameOf(officers, nric)
          case None => Step(projects, true)
          case Some(name) =>
            if name in p.officers then Step(projects, false)
            else
              WithOfficerConserves(projects, i, name);
              Step(projects[i := WithOfficer(p, name)], false)
  }

  /** The approved project: the name appended, one slot taken. */
  function WithOfficer(p: Project, name: string): Project
  {
    p.(officers := p.officers + [name], officerSlots := p.officerSlots - 1)
  }

  lemma WithOfficerConserves(projects: seq<Project>, i: nat, name: string)
    requires i < |projects| && projects[i].officerSlots > 0 && name !in projects[i].officers
    ensures SlotsConserved(projects, projects[i := WithOfficer(projects[i], name)])
  {
    NameAppendedOnce(projects[i].officers, name);
  }

  lemma SlotsConservedTransitive(a: seq<Project>, b: seq<Project>, c: seq<Project>)
    requires SlotsConserved(a, b) && SlotsConserved(b, c)
    ensures SlotsConserved(a, c)
  {
  }

  lemma NameAppendedOnce(names: seq<string>, name: string)
    requires name !in names
    ensures NoDuplicates(names) ==> NoDuplicates(names + [name])
    ensures multiset(names + [name])[name] == 1
  {
    assert multiset(names)[name] == 0;
  }

  /** A request approved with no slot left stays pending and changes no
      project. */
  lemma NoSlotStaysPending(projects: seq<Project>, managerName: string, officers: seq<Officer>,
                           nric: string, projectId: int, i: nat)
    requires i < |projects| && projects[i].id == projectId
    requires EqualsIgnoreCase(projects[i].manager, managerName)
    requires forall k :: 0 <= k < i ==> !(projects[k].id == projectId
                                          && EqualsIgnoreCase(projects[k].manager, managerName))
    requires projects[i].officerSlots <= 0
    ensures DecideRegistration(projects, managerName, officers, nric, projectId, Approve)
         == Step(projects, true)
  {
    assert ManagedWithId(projectId, managerName)(projects[i]);
    assert FirstIndex(projects, ManagedWithId(projectId, managerName)) == Some(i);
  }

  /** The projects after the run and the lines written back. */
  datatype Run = Run(projects: seq<Project>, retained: seq<string>)

  /** `processOfficerRegistrations` over the data lines, each with the
      answer the manager gives if asked. Malformed lines are dropped
      silently. A project id that does not parse ends the screen with an
      exception before anything is written: `None`. */
  function ProcessRegistrations(projects: seq<Project>, managerName: string, officers: seq<Officer>,
                                answered: seq<(string, Choice)>): (r: Option<Run>)
    ensures r.Some? ==> SlotsConserved(projects, r.value.projects)
    ensures r.Some? ==> forall k :: 0 <= k < |r.value.retained| ==> r.value.retained[k] in LinesOf(answered)
    decreases |answered|
  {
    if |answered| == 0 then Some(Run(projects, []))
    else
      var line := answered[0].0;
      match ParseRegistrationLine(line)
      case Malformed => ProcessRegistrations(projects, managerName, officers, answered[1..])
      case Row(nric, None) => None
      case Row(nric, Some(id)) =>
        var step := DecideRegistration(projects, managerName, officers, nric, id, answered[0].1);
        match ProcessRegistrations(step.projects, managerName, officers, answered[1..])
        case None => None
        case Some(run) =>
          SlotsConservedTransitive(projects, step.projects, run.projects);
          Some(Run(run.projects, (if step.keep then [line] else []) + run.retained))
  }

  /** The lines of the answered requests, in file order. */
  function LinesOf(answered: seq<(string, Choice)>): (r: seq<string>)
    ensures |r| == |answered|
  {
    if |answered| == 0 then [] else [answered[0].0] + LinesOf(answered[1..])
  }

  /** The screen is cut short exactly when some line's project id does
      not parse; malformed lines and every answer are harmless. */
  lemma {:induction false} RegistrationsAbortIffUnreadable(projects: seq<Project>, managerName: string,
                                                          officers: seq<Officer>,
                                                          answered: seq<(string, Choice)>)
    ensures ProcessRegistrations(projects, managerName, officers, answered).None? <==>
      Any(LinesOf(answered), UnreadableTest())
    decreases |answered|
  {
    if |answered| > 0 {
      var lines := LinesOf(answered);
      assert lines[1..] == LinesOf(answered[1..]);
      AnyFirstRest(lines, UnreadableTest());
      match ParseRegistrationLine(answered[0].0)
      case Malformed =>
        RegistrationsAbortIffUnreadable(projects, managerName, officers, answered[1..]);
      case Row(nric, None) =>
      case Row(nric, Some(id)) =>
        var step := DecideRegistration(projects, managerName, officers, nric, id, answered[0].1);
        RegistrationsAbortIffUnreadable(step.projects, managerName, officers, answered[1..]);
    }
  }

  /** Over a whole run, no project ends with a negative slot count it did
      not start with, and no officer is listed twice on a project that
      listed none twice. */
  lemma RunKeepsSlotsAndListsSound(projects: seq<Project>, managerName: string,
                                   officers: seq<Officer>, answered: seq<(string, Choice)>, k: nat)
    requires ProcessRegistrations(projects, managerName, officers, answered).Some?
    requires k < |projects| && projects[k].officerSlots >= 0 && NoDuplicates(projects[k].officers)
    ensures var after := ProcessRegistrations(projects, managerName, officers, answered).value.projects;
      after[k].officerSlots >= 0 && NoDuplicates(after[k].officers)
      && after[k].officerSlots + |after[k].officers| == projects[k].officerSlots + |projects[k].officers|
  {
  }

  /** An applicant under review: applied to a project the manager runs
      and not yet SUCCESSFUL. */
  predicate InReview(x: Applicant, projects: seq<Project>, managerName: string)
  {
    x.appliedProjectId >= 0 && x.status != Successful
    && exists k :: 0 <= k < |projects| && EqualsIgnoreCase(projects[k].manager, managerName)
                   && projects[k].id == x.appliedProjectId
  }

  function ReviewTest(projects: seq<Project>, managerName: string): Applicant -> bool
  {
    (x: Applicant) => x.appliedProjectId >= 0 && x.status != Successful
                      && Any(Filter(projects, ManagedBy(managerName)),
                             ProjectRepository.IdIs(x.appliedProjectId))
  }

  /** The list `processApplicantApplications` walks, in file order. Only
      SUCCESSFUL is excluded, so a BOOKED applicant is listed again. */
  function ReviewList(apps: Store, projects: seq<Project>, managerName: string): (r: Store)
    ensures forall k :: 0 <= k < |r| ==> r[k] in apps && InReview(r[k], projects, managerName)
    ensures forall k :: 0 <= k < |apps| && InReview(apps[k], projects, managerName) ==> apps[k] in r
  {
    forall x: Applicant
      ensures ReviewTest(projects, managerName)(x) <==> InReview(x, projects, managerName)
    {
      AnyFilter(projects, ManagedBy(managerName), ProjectRepository.IdIs(x.appliedProjectId));
    }
    Filter(apps, ReviewTest(projects, managerName))
  }

  /** The manager's rejection: the application is cleared to project -1
      and flat type "" and marked UNSUCCESSFUL. */
  function ClearedAsRejected(a: Applicant): (r: Applicant)
    ensures SamePerson(a, r) && r.status == Unsuccessful
    ensures r.appliedProjectId == -1 && r.flatType == ""
  {
    a.(appliedProjectId := -1, flatType := "", status := Unsuccessful)
  }

  /** One decision of `processApplicantApplications`, written through
      `updateApplicantApplication`. Approval marks SUCCESSFUL whatever the
      status was; rejection clears the application. A skip writes
      nothing. */
  function DecideApplication(apps: Store, a: Applicant, choice: Choice): (r: Saved)
    ensures r.ok <==> choice != Skip && Known(apps, a.nric)
    ensures !r.ok ==> r.store == apps
    ensures r.ok && choice == Approve ==>
      Lookup(r.store, a.nric).Some? && Lookup(r.store, a.nric).value.status == Successful
      && Lookup(r.store, a.nric).value.appliedProjectId == a.appliedProjectId
      && Lookup(r.store, a.nric).value.flatType == a.flatType
    ensures r.ok && choice == Reject ==>
      Lookup(r.store, a.nric).Some? && Lookup(r.store, a.nric).value.status == Unsuccessful
      && Lookup(r.store, a.nric).value.appliedProjectId == -1
      && Lookup(r.store, a.nric).value.flatType == ""
  {
    match choice
    case Skip => Saved(false, apps)
    case Approve =>
      var saved := Persist(apps, a.(status := Successful), false);
      if saved.ok then PersistReadBack(apps, a.(status := Successful), false); saved else saved
    case Reject =>
      var saved := Persist(apps, ClearedAsRejected(a), false);
      if saved.ok then PersistReadBack(apps, ClearedAsRejected(a), false); saved else saved
  }

  /** A BOOKED applicant of the manager's project comes up for review
      again, and approving it takes the stored status back to SUCCESSFUL,
      a step the lifecycle does not have. */
  lemma BookedComesBack(apps: Store, projects: seq<Project>, managerName: string, i: nat, k: nat)
    requires i < |apps| && apps[i].status == Booked && apps[i].appliedProjectId >= 0
    requires k < |projects| && EqualsIgnoreCase(projects[k].manager, managerName)
    requires projects[k].id == apps[i].appliedProjectId
    ensures apps[i] in ReviewList(apps, projects, managerName)
    ensures var r := DecideApplication(apps, apps[i], Approve);
      r.ok && Lookup(r.store, apps[i].nric).value.status == Successful
    ensures !LifecycleStep(Booked, Successful)
  {
    assert HasNric(apps[i], apps[i].nric);
  }

  /** A SUCCESSFUL applicant is never listed, so never rejected here. */
  lemma SuccessfulNotReviewed(apps: Store, projects: seq<Project>, managerName: string)
    ensures forall k :: 0 <= k < |ReviewList(apps, projects, managerName)| ==>
      ReviewList(apps, projects, managerName)[k].status != Successful
  {
  }

  function WithdrawalTest(projects: seq<Project>, managerName: string): Applicant -> bool
  {
    (x: Applicant) => x.appliedProjectId >= 0 && x.status == PendingWithdrawal
                      && Any(Filter(projects, ManagedBy(managerName)),
                             ProjectRepository.IdIs(x.appliedProjectId))
  }

  /** An applicant whose withdrawal the manager decides: applied to a
      project the manager runs, and PENDING_WITHDRAWAL. */
  predicate AwaitsWithdrawal(x: Applicant, projects: seq<Project>, managerName: string)
  {
    x.appliedProjectId >= 0 && x.status == PendingWithdrawal
    && exists k :: 0 <= k < |projects| && EqualsIgnoreCase(projects[k].manager, managerName)
                   && projects[k].id == x.appliedProjectId
  }

  /** The list `processWithdrawalRequests` walks, in file order. */
  function WithdrawalList(apps: Store, projects: seq<Project>, managerName: string): (r: Store)
    ensures forall k :: 0 <= k < |r| ==> r[k] in apps && AwaitsWithdrawal(r[k], projects, managerName)
    ensures forall k :: 0 <= k < |apps| && AwaitsWithdrawal(apps[k], projects, managerName) ==>
              apps[k] in r
  {
    forall x: Applicant
      ensures WithdrawalTest(projects, managerName)(x) <==> AwaitsWithdrawal(x, projects, managerName)
    {
      AnyFilter(projects, ManagedBy(managerName), ProjectRepository.IdIs(x.appliedProjectId));
    }
    Filter(apps, WithdrawalTest(projects, managerName))
  }

  /** The screen's attempt to give the unit back: one more unit in the
      slot the flat type names; any other flat type changes nothing. */
  function RestoredUnit(p: Project, flatType: string): (q: Project)
    ensures FlatOf(flatType) != OtherFlat ==>
      ProjectRepository.UnitsOf(q, FlatOf(flatType)) == ProjectRepository.UnitsOf(p, FlatOf(flatType)) + 1
    ensures FlatOf(flatType) == TwoRoom ==> q.type2Units == p.type2Units
    ensures FlatOf(flatType) == ThreeRoom ==> q.type1Units == p.type1Units
    ensures FlatOf(flatType) == OtherFlat ==> q == p
    ensures q.(type1Units := p.type1Units, type2Units := p.type2Units) == p
  {
    if EqualsIgnoreCase(TWO_ROOM, flatType) then WithType1Units(p, p.type1Units + 1)
    else if EqualsIgnoreCase(THREE_ROOM, flatType) then WithType2Units(p, p.type2Units + 1)
    else p
  }

  /** The outcome of one withdrawal decision: the reported result, the
      manager's project list as the screen holds it, the project list
      written to file, and the applicant store. */
  datatype Withdrawal = Withdrawal(ok: bool, managed: seq<Project>, written: seq<Project>, store: Store)

  /** One decision of `processWithdrawalRequests`. On approval the unit is
      added back to the screen's copy of the project, but the list saved
      is a freshly loaded one, so the stored counts never change; then
      the application controller's `approveWithdrawal` resets the record.
      A rejection goes through `rejectWithdrawal`, which always fails. */
  function DecideWithdrawal(apps: Store, projects: seq<Project>, managerName: string, a: Applicant,
                            choice: Choice): (r: Withdrawal)
    ensures r.written == projects
    ensures |r.managed| == |Filter(projects, ManagedBy(managerName))|
    ensures r.ok <==> choice == Approve && a.status == PendingWithdrawal && Known(apps, a.nric)
    ensures !r.ok ==> r.store == apps
    ensures r.ok ==> Lookup(r.store, a.nric).Some? && AtBaseline(Lookup(r.store, a.nric).value)
  {
    var managed := Filter(projects, ManagedBy(managerName));
    match choice
    case Approve =>
      var saved := ApplicationController.ApproveWithdrawal(apps, a);
      Withdrawal(saved.ok, HeldAfterApproval(managed, a), projects, saved.store)
    case Reject =>
      var saved := ApplicationController.RejectWithdrawal(apps, a);
      Withdrawal(saved.ok, managed, projects, saved.store)
    case Skip => Withdrawal(false, managed, projects, apps)
  }

  /** The screen's copy of the manager's projects after the approval's
      guard: for a PENDING_WITHDRAWAL applicant, the first project with
      the applied id gets its unit back. */
  function HeldAfterApproval(managed: seq<Project>, a: Applicant): (r: seq<Project>)
    ensures |r| == |managed|
    ensures forall k :: 0 <= k < |r| ==> r[k].id == managed[k].id
    ensures a.status == PendingWithdrawal ==>
      match FirstIndex(managed, ProjectRepository.IdIs(a.appliedProjectId))
      case None => r == managed
      case Some(i) => r[i] == RestoredUnit(managed[i], a.flatType)
    ensures a.status != PendingWithdrawal ==> r == managed
  {
    if a.status != PendingWithdrawal then managed
    else
      match FirstIndex(managed, ProjectRepository.IdIs(a.appliedProjectId))
      case None => managed
      case Some(i) => managed[i := RestoredUnit(managed[i], a.flatType)]
  }

  /** A listed applicant is PENDING_WITHDRAWAL, its record is known, and
      its project is among the manager's. */
  lemma ListedWithdrawal(apps: Store, projects: seq<Project>, managerName: string, a: Applicant)
    requires a in WithdrawalList(apps, projects, managerName)
    ensures a.status == PendingWithdrawal && Known(apps, a.nric)
    ensures FirstIndex(Filter(projects, ManagedBy(managerName)),
                       ProjectRepository.IdIs(a.appliedProjectId)).Some?
  {
    var managed := Filter(projects, ManagedBy(managerName));
    var i :| 0 <= i < |apps| && apps[i] == a;
    assert HasNric(apps[i], a.nric);
    var k :| 0 <= k < |projects| && EqualsIgnoreCase(projects[k].manager, managerName)
             && projects[k].id == a.appliedProjectId;
    assert ManagedBy(managerName)(projects[k]);
    var j :| 0 <= j < |managed| && managed[j] == projects[k];
    assert ProjectRepository.IdIs(a.appliedProjectId)(managed[j]);
  }

  /** For a listed request the screen's guard always holds and the
      approval resets the record; the screen's own copy of the project
      gains a unit in the booked flat's slot, while the project list
      written back still has the old count. */
  lemma ApprovedWithdrawalKeepsStock(apps: Store, projects: seq<Project>, managerName: string,
                                     a: Applicant)
    requires a in WithdrawalList(apps, projects, managerName)
    requires FlatOf(a.flatType) != OtherFlat
    ensures var r := DecideWithdrawal(apps, projects, managerName, a, Approve);
      r.ok && AtBaseline(Lookup(r.store, a.nric).value)
      && r.written == projects
      && exists i :: 0 <= i < |r.managed| && r.managed[i].id == a.appliedProjectId
           && ProjectRepository.UnitsOf(r.managed[i], FlatOf(a.flatType))
              == ProjectRepository.UnitsOf(Filter(projects, ManagedBy(managerName))[i], FlatOf(a.flatType)) + 1
  {
    ListedWithdrawal(apps, projects, managerName, a);
    ApprovalRestores(apps, projects, managerName, a);
  }

  /** An approved PENDING_WITHDRAWAL request whose project the manager
      holds resets the record and gives the screen's copy of the project
      its unit back, while the list written is the one loaded. */
  lemma ApprovalRestores(apps: Store, projects: seq<Project>, managerName: string, a: Applicant)
    requires a.status == PendingWithdrawal && Known(apps, a.nric)
    requires FirstIndex(Filter(projects, ManagedBy(managerName)),
                        ProjectRepository.IdIs(a.appliedProjectId)).Some?
    requires FlatOf(a.flatType) != OtherFlat
    ensures var r := DecideWithdrawal(apps, projects, managerName, a, Approve);
      r.ok && AtBaseline(Lookup(r.store, a.nric).value)
      && r.written == projects
      && exists i :: 0 <= i < |r.managed| && r.managed[i].id == a.appliedProjectId
           && ProjectRepository.UnitsOf(r.managed[i], FlatOf(a.flatType))
              == ProjectRepository.UnitsOf(Filter(projects, ManagedBy(managerName))[i], FlatOf(a.flatType)) + 1
  {
    var managed := Filter(projects, ManagedBy(managerName));
    var m := FirstIndex(managed, ProjectRepository.IdIs(a.appliedProjectId)).value;
    var held := HeldAfterApproval(managed, a);
    assert held[m] == RestoredUnit(managed[m], a.flatType);
    assert held[m].id == a.appliedProjectId;
  }
}

=== FILE: numbers.dfy ===
/** Decimal text of 32-bit Java integers: `Integer.parseInt` and
    `Integer.toString` (which is also what `StringBuilder.append(int)`
    writes). */
module Numbers {
  import opened Wrappers

  const INT_MIN: int := -0x8000_0000
  const INT_MAX: int := 0x7fff_ffff

  /** A value a Java `int` can hold. */
  predicate IsInt32(n: int)
  {
    INT_MIN <= n <= INT_MAX
  }

  /** Java `int` addition, which wraps around modulo 2^32. */
  function AddInt32(a: int, b: int): (r: int)
    requires IsInt32(a) && IsInt32(b)
    ensures IsInt32(r)
    ensures IsInt32(a + b) ==> r == a + b
    ensures !IsInt32(a + b) ==> r == a + b - 0x1_0000_0000 || r == a + b + 0x1_0000_0000
  {
    var s := a + b;
    if s > INT_MAX then s - 0x1_0000_0000
    else if s < INT_MIN then s + 0x1_0000_0000
    else s
  }

  /** Java's narrowing of a wider sum to `int`: the low 32 bits, read as
      two's complement. A value an `int` can hold is kept as it is. */
  function ToInt32(n: int): (r: int)
    ensures IsInt32(r)
    ensures IsInt32(n) ==> r == n
  {
    var m := n % 0x1_0000_0000;
    if m > INT_MAX then m - 0x1_0000_0000 else m
  }

  /** The narrowing keeps the low 32 bits: it differs from the value by a
      multiple of 2^32. */
  lemma ToInt32Congruent(n: int)
    ensures (ToInt32(n) - n) % 0x1_0000_0000 == 0
  {
  }

  /** The wrapping addition is the narrowing of the exact sum. */
  lemma AddInt32Narrows(a: int, b: int)
    requires IsInt32(a) && IsInt32(b)
    ensures AddInt32(a, b) == ToInt32(a + b)
  {
  }

  predicate IsDigit(c: char)
  {
    '0' <= c <= '9'
  }

  predicate AllDigits(s: string)
  {
    forall k :: 0 <= k < |s| ==> IsDigit(s[k])
  }

  function DigitChar(d: int): (c: char)
    requires 0 <= d < 10
    ensures IsDigit(c)
  {
    ('0' as int + d) as char
  }

  /** The number a string of decimal digits denotes (leading zeros allowed). */
  function DigitsValue(s: string): (n: nat)
    requires AllDigits(s)
  {
    if |s| == 0 then 0
    else DigitsValue(s[..|s| - 1]) * 10 + (s[|s| - 1] as int - '0' as int)
  }

  /** The value of a two-digit string. */
  lemma TwoDigitValue(s: string)
    requires |s| == 2 && AllDigits(s)
    ensures DigitsValue(s) == (s[0] as int - '0' as int) * 10 + (s[1] as int - '0' as int)
    ensures DigitsValue(s) < 100
  {
    var front := s[..1];
    assert front[..0] == [];
    assert DigitsValue(front) == s[0] as int - '0' as int;
    assert s[..|s| - 1] == front;
  }

  /** Shortest decimal text of a natural number. */
  function ShowNat(n: nat): (r: string)
    ensures |r| >= 1 && AllDigits(r)
    ensures DigitsValue(r) == n
    ensures r[0] == '0' ==> n == 0
    ensures n < 10 ==> |r| == 1
  {
    if n < 10 then [DigitChar(n)]
    else
      var front := ShowNat(n / 10);
      var r := front + [DigitChar(n % 10)];
      assert r[..|r| - 1] == front;
      r
  }

  /** `Integer.toString`: a minus sign for negative values, then the digits. */
  function ShowInt(n: int): (r: string)
    ensures |r| >= 1
    ensures n >= 0 ==> r == ShowNat(n)
    ensures n < 0 ==> r == ['-'] + ShowNat(-n)
  {
    if n < 0 then ['-'] + ShowNat(-n) else ShowNat(n)
  }

  /** `Integer.parseInt`: an optional sign, at least one digit and nothing
      else, denoting a value in the `int` range; anything else throws,
      which is `None` here. No whitespace is skipped. */
  function ParseInt(s: string): (r: Option<int>)
    ensures r.Some? ==> IsInt32(r.value)
    ensures r.Some? ==> |s| >= 1
  {
    if |s| == 0 then None
    else
      var signed := s[0] == '-' || s[0] == '+';
      var digits := if signed then s[1..] else s;
      if |digits| == 0 || !AllDigits(digits) then None
      else
        var v: int := if s[0] == '-' then 0 - DigitsValue(digits) as int else DigitsValue(digits);
        if IsInt32(v) then Some(v) else None
  }

  /** Every `int` survives being written and read back. */
  lemma ParseShowInt(n: int)
    requires IsInt32(n)
    ensures ParseInt(ShowInt(n)) == Some(n)
  {
    if n < 0 {
      var s := ShowInt(n);
      assert s[1..] == ShowNat(-n);
    } else {
      assert ShowNat(n)[0] != '-' && ShowNat(n)[0] != '+';
    }
  }

  /** Written integers contain only the sign and digits. */
  lemma ShowIntChars(n: int)
    ensures forall k :: 0 <= k < |ShowInt(n)| ==> ShowInt(n)[k] == '-' || IsDigit(ShowInt(n)[k])
    ensures ShowInt(n)[0] == '-' || IsDigit(ShowInt(n)[0])
    ensures ShowInt(n)[|ShowInt(n)| - 1] == '-' || IsDigit(ShowInt(n)[|ShowInt(n)| - 1])
  {
  }
}

=== FILE: officer.dfy ===
/** An HDB officer: the projects it has registered for, the projects it
    may see and act on, whether it may register for another project, and
    the rules it is held to when it applies for a flat itself
    (`OfficerAsApplicant`). The project list, today's date, the officer's
    pending registrations and the applicant records are passed in. */
module Officers {
  import opened Wrappers
  import opened Text
  import opened Dates
  import opened Seqs
  import opened Schedule
  import opened ApplicationStatus
  import opened Projects
  import opened SystemUser
  import opened Applicants
  import ProjectRepository

  datatype Officer = Officer(
    name: string,
    nric: string,
    password: string,
    age: int,
    maritalStatus: string,
    registeredProjectIds: seq<int>)

  /** `addRegisteredProjectId`: appended when absent, otherwise nothing
      changes. */
  function AddRegisteredProjectId(o: Officer, id: int): (r: Officer)
    ensures id in r.registeredProjectIds
    ensures id in o.registeredProjectIds ==> r == o
    ensures id !in o.registeredProjectIds ==>
              r == o.(registeredProjectIds := o.registeredProjectIds + [id])
    ensures NoDuplicates(o.registeredProjectIds) ==> NoDuplicates(r.registeredProjectIds)
  {
    if id in o.registeredProjectIds then o
    else o.(registeredProjectIds := o.registeredProjectIds + [id])
  }

  /** Adding the same id again changes nothing. */
  lemma AddRegisteredIdempotent(o: Officer, id: int)
    ensures AddRegisteredProjectId(AddRegisteredProjectId(o, id), id) == AddRegisteredProjectId(o, id)
  {
  }

  /** The officer is assigned to the project by NRIC or by name, with the
      loose matching of `isOfficerAssigned`. */
  predicate Assigned(o: Officer, p: Project)
  {
    IsOfficerAssigned(p, o.nric) || IsOfficerAssigned(p, o.name)
  }

  function AssignedTest(o: Officer): Project -> bool
  {
    (p: Project) => Assigned(o, p)
  }

  /** The projects the officer is assigned to, in list order. */
  function AssignedProjects(o: Officer, all: seq<Project>): (r: seq<Project>)
    ensures forall k :: 0 <= k < |r| ==> r[k] in all && Assigned(o, r[k])
    ensures forall k :: 0 <= k < |all| && Assigned(o, all[k]) ==> all[k] in r
  {
    Filter(all, AssignedTest(o))
  }

  predicate HasOfficerSlots(p: Project)
  {
    p.officerSlots > 0
  }

  /** A project open for officer registration today: visible, open, and
      with officer slots left. */
  predicate OpenForRegistration(p: Project, today: Date)
  {
    VisibleAndOpen(p, today) && HasOfficerSlots(p)
  }

  /** `getViewableProjects`: the assigned projects whatever their
      visibility, then the visible open projects with slots that are not
      already listed. */
  function ViewableProjects(o: Officer, all: seq<Project>, today: Date): (r: seq<Project>)
    ensures |AssignedProjects(o, all)| <= |r|
    ensures r[..|AssignedProjects(o, all)|] == AssignedProjects(o, all)
    ensures forall k :: |AssignedProjects(o, all)| <= k < |r| ==> r[k] !in AssignedProjects(o, all)
    ensures forall k :: 0 <= k < |r| ==>
              r[k] in all && (Assigned(o, r[k]) || OpenForRegistration(r[k], today))
    ensures forall k :: 0 <= k < |all| && (Assigned(o, all[k]) || OpenForRegistration(all[k], today)) ==>
              all[k] in r
  {
    var mine := AssignedProjects(o, all);
    var available := Filter(FilterByVisibilityAndPeriod(all, today), HasOfficerSlots);
    ViewableContents(o, all, today, available);
    AppendMissing(mine, available)
  }

  lemma ViewableContents(o: Officer, all: seq<Project>, today: Date, available: seq<Project>)
    requires available == Filter(FilterByVisibilityAndPeriod(all, today), HasOfficerSlots)
    ensures var r := AppendMissing(AssignedProjects(o, all), available);
      (forall k :: 0 <= k < |r| ==>
         r[k] in all && (Assigned(o, r[k]) || OpenForRegistration(r[k], today)))
      && (forall k :: 0 <= k < |all| && (Assigned(o, all[k]) || OpenForRegistration(all[k], today)) ==>
            all[k] in r)
  {
    var mine := AssignedProjects(o, all);
    var r := AppendMissing(mine, available);
    forall k | 0 <= k < |r|
      ensures r[k] in all && (Assigned(o, r[k]) || OpenForRegistration(r[k], today))
    {
      if k < |mine| {
        assert r[k] == r[..|mine|][k];
      }
    }
    forall k | 0 <= k < |all| && (Assigned(o, all[k]) || OpenForRegistration(all[k], today))
      ensures all[k] in r
    {
      if Assigned(o, all[k]) {
        assert all[k] in r[..|mine|];
      } else {
        var open := FilterByVisibilityAndPeriod(all, today);
        assert all[k] in open;
        var i :| 0 <= i < |open| && open[i] == all[k];
        assert all[k] in available;
        var j :| 0 <= j < |available| && available[j] == all[k];
      }
    }
  }

  /** Filtering the viewable list for assigned projects gives back
      exactly the assigned projects: the projects added after them are
      never assigned ones. */
  lemma AssignedAmongViewable(o: Officer, all: seq<Project>, today: Date)
    ensures Filter(ViewableProjects(o, all, today), AssignedTest(o)) == AssignedProjects(o, all)
  {
    AssignedPrefix(o, all, ViewableProjects(o, all, today));
  }

  /** A list that starts with the assigned projects and goes on with
      other projects of `all` filters back to the assigned projects. */
  lemma AssignedPrefix(o: Officer, all: seq<Project>, r: seq<Project>)
    requires |AssignedProjects(o, all)| <= |r| && r[..|AssignedProjects(o, all)|] == AssignedProjects(o, all)
    requires forall k :: |AssignedProjects(o, all)| <= k < |r| ==> r[k] in all && r[k] !in AssignedProjects(o, all)
    ensures Filter(r, AssignedTest(o)) == AssignedProjects(o, all)
  {
    var n := |AssignedProjects(o, all)|;
    forall k | 0 <= k < n
      ensures AssignedTest(o)(r[k])
    {
      assert r[k] == r[..n][k];
    }
    forall k | n <= k < |r|
      ensures !AssignedTest(o)(r[k])
    {
      UnlistedNotAssigned(o, all, r[k]);
    }
    FilterOfPrefix(r, n, AssignedTest(o));
  }

  /** A project of the list that the assigned projects leave out is not
      assigned. */
  lemma UnlistedNotAssigned(o: Officer, all: seq<Project>, p: Project)
    requires p in all && p !in AssignedProjects(o, all)
    ensures !AssignedTest(o)(p)
  {
    var i :| 0 <= i < |all| && all[i] == p;
  }

  /** `canInteractWithProject`: some viewable project has the id. */
  function CanInteractWithProject(o: Officer, id: int, all: seq<Project>, today: Date): (r: bool)
    ensures r <==>
      exists k :: 0 <= k < |all| && all[k].id == id && (Assigned(o, all[k]) || OpenForRegistration(all[k], today))
  {
    ViewableIds(o, id, all, today);
    Any(ViewableProjects(o, all, today), ProjectRepository.IdIs(id))
  }

  lemma ViewableIds(o: Officer, id: int, all: seq<Project>, today: Date)
    ensures Any(ViewableProjects(o, all, today), ProjectRepository.IdIs(id)) <==>
      exists k :: 0 <= k < |all| && all[k].id == id
                  && (Assigned(o, all[k]) || OpenForRegistration(all[k], today))
  {
    AnyOfCover(ViewableProjects(o, all, today), all, ProjectRepository.IdIs(id),
               (p: Project) => Assigned(o, p) || OpenForRegistration(p, today));
  }


  /** Some project the officer is assigned to shares the target's period,
      by the inclusive overlap test. */
  predicate ClashesWithAssigned(o: Officer, target: Project, all: seq<Project>)
  {
    exists k :: 0 <= k < |all| && Assigned(o, all[k]) && Overlaps(WindowOf(target), WindowOf(all[k]))
  }

  /** An applicant record of this NRIC (ignoring case) that holds an
      active application to an existing project whose period overlaps the
      window. */
  predicate ClashesWithApplication(nric: string, w: Window, all: seq<Project>, x: Applicant)
  {
    EqualsIgnoreCase(x.nric, nric)
    && x.appliedProjectId != -1 && x.status != NotApplied && x.status != Unsuccessful
    && match ProjectRepository.FindById(all, x.appliedProjectId)
       case None => false
       case Some(q) => Overlaps(w, WindowOf(q))
  }

  function ClashTest(nric: string, w: Window, all: seq<Project>): Applicant -> bool
  {
    (x: Applicant) => ClashesWithApplication(nric, w, all, x)
  }

  /** The overlap test against a fixed window, for filtering. */
  function OverlapTest(w: Window): Project -> bool
  {
    (p: Project) => Overlaps(w, WindowOf(p))
  }

  /** `canRegisterForProject`, with the pending registrations and the
      applicant records passed in. Refused when the id is registered or
      pending, when no project has it, when an assigned project's period
      overlaps the target's, or when an active application of the
      officer's does. Every applicant record of the officer is checked,
      not only the first. */
  function CanRegisterForProject(o: Officer, id: int, all: seq<Project>, pending: seq<int>,
                                 records: seq<Applicant>): (r: bool)
    ensures id in o.registeredProjectIds || id in pending ==> !r
    ensures ProjectRepository.FindById(all, id).None? ==> !r
    ensures r <==>
      id !in o.registeredProjectIds && id !in pending
      && ProjectRepository.FindById(all, id).Some?
      && !ClashesWithAssigned(o, ProjectRepository.FindById(all, id).value, all)
      && !exists k :: 0 <= k < |records|
           && ClashesWithApplication(o.nric, WindowOf(ProjectRepository.FindById(all, id).value), all, records[k])
  {
    if id in o.registeredProjectIds || id in pending then false
    else
      var mine := AssignedProjects(o, all);
      match ProjectRepository.FindById(all, id)
      case None => false
      case Some(target) =>
        AnyAssignedOverlap(o, target, all);
        if Any(mine, OverlapTest(WindowOf(target))) then false
        else if Any(records, ClashTest(o.nric, WindowOf(target), all)) then false
        else true
  }

  lemma AnyAssignedOverlap(o: Officer, target: Project, all: seq<Project>)
    ensures Any(AssignedProjects(o, all), OverlapTest(WindowOf(target))) <==> ClashesWithAssigned(o, target, all)
  {
    var mine := AssignedProjects(o, all);
    if ClashesWithAssigned(o, target, all) {
      var k :| 0 <= k < |all| && Assigned(o, all[k]) && Overlaps(WindowOf(target), WindowOf(all[k]));
      var i :| 0 <= i < |mine| && mine[i] == all[k];
      assert OverlapTest(WindowOf(target))(mine[i]);
    }
  }

  /** A project the officer may register for shares no day with any
      project it is assigned to. */
  lemma RegistrableSharesNoDay(o: Officer, id: int, all: seq<Project>, pending: seq<int>,
                               records: seq<Applicant>, k: nat, d: Date)
    requires CanRegisterForProject(o, id, all, pending, records)
    requires k < |all| && Assigned(o, all[k])
    ensures !(InWindow(WindowOf(ProjectRepository.FindById(all, id).value), d)
              && InWindow(WindowOf(all[k]), d))
  {
  }

  /** `loadApplicationData`: the officer as a new applicant, taking the
      application of the first applicant record whose NRIC is exactly
      the officer's (case matters here); without one it stays at the
      baseline. */
  function LoadApplicationData(o: Officer, records: seq<Applicant>): (r: Applicant)
    ensures r.name == o.name && r.nric == o.nric && r.password == o.password
    ensures r.age == o.age && r.maritalStatus == o.maritalStatus
    ensures (forall k :: 0 <= k < |records| ==> records[k].nric != o.nric) ==> AtBaseline(r)
    ensures forall i ::
              (0 <= i < |records| && records[i].nric == o.nric
               && (forall k :: 0 <= k < i ==> records[k].nric != o.nric)) ==>
              (r.appliedProjectId == records[i].appliedProjectId
               && r.status == records[i].status && r.flatType == records[i].flatType)
  {
    var blank := NewApplicant(o.name, o.nric, o.password, o.age, o.maritalStatus);
    match FirstIndex(records, (x: Applicant) => x.nric == o.nric)
    case None => blank
    case Some(i) =>
      var x := records[i];
      blank.(appliedProjectId := x.appliedProjectId, status := x.status, flatType := x.flatType)
  }

  /** `canApplyForProject` for an officer acting as an applicant, with
      the pending registrations passed in. Refused for a project the
      officer is assigned to, a project with a pending registration, a
      missing project, and a project whose period overlaps an assigned
      one. Pending registrations' periods and the officer's own
      application are not checked. */
  function CanApplyForProject(o: Officer, id: int, all: seq<Project>, today: Date,
                              pending: seq<int>): (r: bool)
    ensures (exists k :: 0 <= k < |all| && all[k].id == id && Assigned(o, all[k])) ==> !r
    ensures id in pending ==> !r
    ensures ProjectRepository.FindById(all, id).None? ==> !r
    ensures r <==>
      !(exists k :: 0 <= k < |all| && all[k].id == id && Assigned(o, all[k]))
      && id !in pending
      && ProjectRepository.FindById(all, id).Some?
      && !ClashesWithAssigned(o, ProjectRepository.FindById(all, id).value, all)
  {
    var mine := Filter(ViewableProjects(o, all, today), AssignedTest(o));
    AssignedAmongViewable(o, all, today);
    AnyAssignedId(o, id, all);
    if Any(mine, ProjectRepository.IdIs(id)) then false
    else if id in pending then false
    else
      match ProjectRepository.FindById(all, id)
      case None => false
      case Some(target) =>
        AnyAssignedOverlap(o, target, all);
        if Any(mine, OverlapTest(WindowOf(target))) then false else true
  }

  lemma AnyAssignedId(o: Officer, id: int, all: seq<Project>)
    ensures Any(AssignedProjects(o, all), ProjectRepository.IdIs(id)) <==>
      exists k :: 0 <= k < |all| && all[k].id == id && Assigned(o, all[k])
  {
    var mine := AssignedProjects(o, all);
    if exists k :: 0 <= k < |all| && all[k].id == id && Assigned(o, all[k]) {
      var k :| 0 <= k < |all| && all[k].id == id && Assigned(o, all[k]);
      var i :| 0 <= i < |mine| && mine[i] == all[k];
      assert ProjectRepository.IdIs(id)(mine[i]);
    }
  }

  /** The two officer checks differ: an officer whose own application to
      a project is still pending passes the officer check for applying to
      it, but may not register for it, because an active application of
      its own is only held against registration. */
  lemma ApplyCheckIgnoresOwnApplication()
    ensures var target := NewProject(1, "A", "N", "2-Room", 1, 1, "3-Room", 1, 1, 10, 20, "M", 1, None);
      var o := Officer("O", "T1234567A", "password123", 30, "Married", []);
      var x := Applicant("O", "T1234567A", "password123", 30, "Married", 1, Pending, "2-Room");
      CanApplyForProject(o, 1, [target], 12, [])
      && !CanRegisterForProject(o, 1, [target], [], [x])
  {
    var target := NewProject(1, "A", "N", "2-Room", 1, 1, "3-Room", 1, 1, 10, 20, "M", 1, None);
    var o := Officer("O", "T1234567A", "password123", 30, "Married", []);
    var x := Applicant("O", "T1234567A", "password123", 30, "Married", 1, Pending, "2-Room");
    assert !Assigned(o, target);
    assert ProjectRepository.IdIs(1)(target);
    assert ProjectRepository.FindById([target], 1) == Some(target);
    assert ClashesWithApplication(o.nric, WindowOf(target), [target], x);
    assert [x][0] == x;
    assert !ClashesWithAssigned(o, target, [target]);
    assert CanApplyForProject(o, 1, [target], 12, []);
    assert !CanRegisterForProject(o, 1, [target], [], [x]);
  }
}

=== FILE: officer_menu.dfy ===
/** The officer's menu: the gate in front of its applicant menu,
    registering for a project, booking flats for applicants of its
    projects, and the booking receipt. The project list, the applicant
    records, the registration file's data lines and the answers typed at
    the prompts are passed in; what the menu writes is returned. */
module OfficerMenu {
  import opened Wrappers
  import opened Text
  import opened Seqs
  import opened Schedule
  import opened ApplicationStatus
  import opened InputValidator
  import opened Projects
  import opened Applicants
  import opened Officers
  import opened ApplicationRepository
  import opened Registrations
  import ProjectRepository
  import ManagerReview

  /** `hasDateConflict`: the inclusive overlap of the two application
      periods. For non-empty periods it is exactly sharing a day. */
  function HasDateConflict(p1: Project, p2: Project): (r: bool)
    ensures p1.open <= p1.close && p2.open <= p2.close ==>
      (r <==> exists d :: InWindow(WindowOf(p1), d) && InWindow(WindowOf(p2), d))
  {
    if p1.open <= p1.close && p2.open <= p2.close then
      OverlapsIffCommonDay(WindowOf(p1), WindowOf(p2));
      Overlaps(WindowOf(p1), WindowOf(p2))
    else Overlaps(WindowOf(p1), WindowOf(p2))
  }

  /** The conflict test does not depend on the order of the projects, and
      a project conflicts with itself unless its period is empty. */
  lemma DateConflictSymmetric(p1: Project, p2: Project)
    ensures HasDateConflict(p1, p2) == HasDateConflict(p2, p1)
    ensures HasDateConflict(p1, p1) <==> p1.open <= p1.close
  {
    OverlapsSymmetric(WindowOf(p1), WindowOf(p2));
    OverlapsReflexive(WindowOf(p1));
  }

  /** `displayApplicantMenu`'s refusal: the officer's own application
      (loaded by exact NRIC) names an existing project whose period
      overlaps that of a project the officer is assigned to. The status of
      the application is not looked at. */
  function ApplicantMenuRefused(o: Officer, all: seq<Project>, records: seq<Applicant>): (r: bool)
    ensures var a := LoadApplicationData(o, records);
      r <==>
        a.appliedProjectId != -1
        && ProjectRepository.FindById(all, a.appliedProjectId).Some?
        && exists k :: 0 <= k < |all| && Assigned(o, all[k])
             && Overlaps(WindowOf(ProjectRepository.FindById(all, a.appliedProjectId).value), WindowOf(all[k]))
  {
    var a := LoadApplicationData(o, records);
    if a.appliedProjectId == -1 then false
    else
      match ProjectRepository.FindById(all, a.appliedProjectId)
      case None => false
      case Some(q) =>
        AnyAssignedOverlap(o, q, all);
        Any(AssignedProjects(o, all), OverlapTest(WindowOf(q)))
  }

  /** The gate and the officer check on applying agree: an officer kept
      out of the applicant menu could not have applied to that project
      under the current assignments. */
  lemma RefusedGateBlocksApplying(o: Officer, all: seq<Project>, records: seq<Applicant>,
                                  today: int, pending: seq<int>)
    requires ApplicantMenuRefused(o, all, records)
    ensures !CanApplyForProject(o, LoadApplicationData(o, records).appliedProjectId, all, today, pending)
  {
  }

  function RecordTest(nric: string): Applicant -> bool
  {
    (x: Applicant) => EqualsIgnoreCase(x.nric, nric)
  }

  /** The officer's applicant record as the registration screen finds it:
      the first whose NRIC matches, ignoring case. */
  function RecordOf(records: seq<Applicant>, nric: string): Option<Applicant>
  {
    FindFirst(records, RecordTest(nric))
  }

  /** Registration is refused outright for an officer with an
      application on file who already handles more than one project. */
  predicate RegistrationBlocked(o: Officer, all: seq<Project>, records: seq<Applicant>)
  {
    RecordOf(records, o.nric).Some? && RecordOf(records, o.nric).value.appliedProjectId != -1
    && |AssignedProjects(o, all)| > 1
  }

  /** The project the officer applied to, when its record names one that
      exists. The application's status is not looked at. */
  function AppliedProject(o: Officer, all: seq<Project>, records: seq<Applicant>): Option<Project>
  {
    match RecordOf(records, o.nric)
    case None => None
    case Some(x) =>
      if x.appliedProjectId == -1 then None else ProjectRepository.FindById(all, x.appliedProjectId)
  }

  function FindIn(all: seq<Project>): int -> Option<Project>
  {
    (id: int) => ProjectRepository.FindById(all, id)
  }

  /** Some pending request names an existing project whose period
      overlaps `p`'s. */
  predicate ClashesWithPending(p: Project, all: seq<Project>, pendingIds: seq<int>)
  {
    exists j :: 0 <= j < |pendingIds| && ProjectRepository.FindById(all, pendingIds[j]).Some?
      && Overlaps(WindowOf(p), WindowOf(ProjectRepository.FindById(all, pendingIds[j]).value))
  }

  /** A project the screen offers: visible, with officer slots left, not
      requested already, and clashing with no assigned project, no
      requested project and not with the project applied to. */
  predicate Offered(o: Officer, all: seq<Project>, pendingIds: seq<int>, applied: Option<Project>,
                    p: Project)
  {
    p.visible && p.officerSlots > 0 && p.id !in pendingIds
    && !ClashesWithAssigned(o, p, all)
    && !ClashesWithPending(p, all, pendingIds)
    && !(applied.Some? && Overlaps(WindowOf(p), WindowOf(applied.value)))
  }

  function OfferTest(o: Officer, all: seq<Project>, pendingIds: seq<int>,
                     applied: Option<Project>): Project -> bool
  {
    (p: Project) =>
      p.visible && p.officerSlots > 0
      && !Any(AssignedProjects(o, all), OverlapTest(WindowOf(p)))
      && !Any(FilterMap(pendingIds, FindIn(all)), OverlapTest(WindowOf(p)))
      && !(applied.Some? && Overlaps(WindowOf(p), WindowOf(applied.value)))
      && p.id !in pendingIds
  }

  lemma OfferTestMeansOffered(o: Officer, all: seq<Project>, pendingIds: seq<int>,
                              applied: Option<Project>)
    ensures forall p :: OfferTest(o, all, pendingIds, applied)(p) <==> Offered(o, all, pendingIds, applied, p)
  {
    forall p
      ensures OfferTest(o, all, pendingIds, applied)(p) <==> Offered(o, all, pendingIds, applied, p)
    {
      AnyAssignedOverlap(o, p, all);
      AnyFilterMap(pendingIds, FindIn(all), OverlapTest(WindowOf(p)));
    }
  }

  /** The projects `registerForProject` lists as free of conflicts, in
      list order; `None` when registration is refused outright. */
  function RegistrationCandidates(o: Officer, all: seq<Project>, records: seq<Applicant>,
                                  pendingIds: seq<int>): (r: Option<seq<Project>>)
    ensures r.None? <==> RegistrationBlocked(o, all, records)
    ensures r.Some? ==> forall k :: 0 <= k < |r.value| ==>
      r.value[k] in all && Offered(o, all, pendingIds, AppliedProject(o, all, records), r.value[k])
    ensures r.Some? ==> forall k ::
      (0 <= k < |all| && Offered(o, all, pendingIds, AppliedProject(o, all, records), all[k]))
      ==> all[k] in r.value
  {
    if RegistrationBlocked(o, all, records) then None
    else
      var applied := AppliedProject(o, all, records);
      OfferTestMeansOffered(o, all, pendingIds, applied);
      Some(Filter(all, OfferTest(o, all, pendingIds, applied)))
  }

  /** The project the typed id selects: refused when a request for the
      id is pending, otherwise the first listed candidate with that id. */
  function SelectRegistration(o: Officer, all: seq<Project>, records: seq<Applicant>,
                              pendingIds: seq<int>, id: int): (r: Option<Project>)
    ensures r.Some? ==>
      (r.value in all && r.value.id == id
       && Offered(o, all, pendingIds, AppliedProject(o, all, records), r.value))
    ensures r.Some? <==>
      !RegistrationBlocked(o, all, records)
      && exists k :: 0 <= k < |all| && all[k].id == id
           && Offered(o, all, pendingIds, AppliedProject(o, all, records), all[k])
  {
    match RegistrationCandidates(o, all, records, pendingIds)
    case None => None
    case Some(candidates) =>
      if |candidates| == 0 then None
      else if id in pendingIds then None
      else
        var found := FindFirst(candidates, ProjectRepository.IdIs(id));
        if found.Some? then
          var i :| 0 <= i < |candidates| && candidates[i] == found.value;
          found
        else found
  }

  /** The whole registration screen: a blocked officer is turned away
      before the file is opened; otherwise the officer's pending ids are
      read from the file (an unreadable id on one of its own lines throws,
      `None`), then come the selection and the request appended by
      `addOfficerRegistration`. */
  function RegisterFromMenu(o: Officer, all: seq<Project>, records: seq<Applicant>,
                            lines: seq<string>, id: int): (r: Option<Added>)
    ensures RegistrationBlocked(o, all, records) ==> r == Some(Added(false, lines))
    ensures !RegistrationBlocked(o, all, records) && Any(lines, UnreadableForTest(o.nric)) ==> r.None?
    ensures r.Some? && !r.value.ok ==> r.value.lines == lines
    ensures r.Some? && r.value.ok ==>
      r.value.lines == lines + [RegistrationLine(o.nric, id)]
      && exists k :: 0 <= k < |all| && all[k].id == id
           && Offered(o, all, PendingIdsOf(lines, o.nric).value, AppliedProject(o, all, records), all[k])
  {
    if RegistrationBlocked(o, all, records) then Some(Added(false, lines))
    else
      match PendingIdsOf(lines, o.nric)
      case None => None
      case Some(pending) =>
        match SelectRegistration(o, all, records, pending, id)
        case None => Some(Added(false, lines))
        case Some(p) => AddOfficerRegistration(lines, o.nric, p.id)
  }

  /** Once a request has gone in, asking again from the menu for the same
      project is refused and writes nothing. */
  lemma MenuRequestNotRepeated(o: Officer, all: seq<Project>, records: seq<Applicant>,
                               lines: seq<string>, id: int)
    requires Numbers.IsInt32(id) && ',' !in o.nric && IsTrimmed(o.nric)
    requires RegisterFromMenu(o, all, records, lines, id).Some?
    requires RegisterFromMenu(o, all, records, lines, id).value.ok
    ensures var once := RegisterFromMenu(o, all, records, lines, id).value.lines;
      RegisterFromMenu(o, all, records, once, id) == Some(Added(false, once))
  {
    var once := lines + [RegistrationLine(o.nric, id)];
    var before := LoadRegistrations(lines).value;
    AddedReadsBack(lines, o.nric, id);
    TrimOfTrimmed(o.nric);
    PendingIdsAgree(once, o.nric);
    var after := before + [Pair(o.nric, id)];
    assert after[|before|] == Pair(o.nric, id);
    assert id in FindPendingByOfficer(after, o.nric);
  }

  /** A project the officer is assigned to is never offered, unless its
      period is empty. */
  lemma AssignedNeverOffered(o: Officer, all: seq<Project>, pendingIds: seq<int>,
                             applied: Option<Project>, k: nat)
    requires k < |all| && Assigned(o, all[k]) && all[k].open <= all[k].close
    ensures !Offered(o, all, pendingIds, applied, all[k])
  {
    OverlapsReflexive(WindowOf(all[k]));
  }

  /** An applicant the booking screen lists: PENDING, applied to a
      project the officer is assigned to. */
  predicate BookableBy(o: Officer, all: seq<Project>, x: Applicant)
  {
    x.status == Pending
    && exists j :: 0 <= j < |all| && all[j].id == x.appliedProjectId && Assigned(o, all[j])
  }

  function BookTest(o: Officer, all: seq<Project>): Applicant -> bool
  {
    (x: Applicant) => Any(AssignedProjects(o, all), ProjectRepository.IdIs(x.appliedProjectId))
                      && x.status == Pending
  }

  /** The list `processApplicantApplications` walks, in file order. */
  function BookingList(apps: Store, o: Officer, all: seq<Project>): (r: Store)
    ensures forall k :: 0 <= k < |r| ==> r[k] in apps && BookableBy(o, all, r[k])
    ensures forall k :: 0 <= k < |apps| && BookableBy(o, all, apps[k]) ==> apps[k] in r
  {
    forall x: Applicant
      ensures BookTest(o, all)(x) <==> BookableBy(o, all, x)
    {
      AnyAssignedId(o, x.appliedProjectId, all);
    }
    Filter(apps, BookTest(o, all))
  }

  /** A decision's report, the project list and the applicant store
      afterwards. */
  datatype Booking = Booking(ok: bool, projects: ProjectRepository.Store, store: Store)

  /** One decision of `processApplicantApplications`. Booking takes a unit
      through `bookFlatUnit` first; when none is left nothing is written.
      Rejection clears the application. A skip writes nothing. */
  function DecideBooking(apps: Store, projects: ProjectRepository.Store, a: Applicant,
                         choice: ManagerReview.Choice): (r: Booking)
    ensures choice == ManagerReview.Skip ==> r == Booking(false, projects, apps)
    ensures choice != ManagerReview.Approve ==> r.projects == projects
    ensures !r.ok ==> r.store == apps
    ensures choice == ManagerReview.Approve ==>
      var unit := ProjectRepository.BookUnit(projects, a.appliedProjectId, a.flatType);
      (r.ok <==> unit.ok && Known(apps, a.nric))
      && (!unit.ok ==> r == Booking(false, projects, apps))
      && (unit.ok ==> r.projects == unit.store)
    ensures choice == ManagerReview.Reject ==> (r.ok <==> Known(apps, a.nric))
    ensures r.ok && choice == ManagerReview.Approve ==>
      Lookup(r.store, a.nric).Some? && Lookup(r.store, a.nric).value.status == Booked
      && Lookup(r.store, a.nric).value.appliedProjectId == a.appliedProjectId
      && Lookup(r.store, a.nric).value.flatType == a.flatType
    ensures r.ok && choice == ManagerReview.Reject ==>
      Lookup(r.store, a.nric).Some? && Lookup(r.store, a.nric).value.status == Unsuccessful
      && Lookup(r.store, a.nric).value.appliedProjectId == -1
      && Lookup(r.store, a.nric).value.flatType == ""
  {
    match choice
    case Approve =>
      var unit := ProjectRepository.BookUnit(projects, a.appliedProjectId, a.flatType);
      if !unit.ok then Booking(false, projects, apps)
      else
        var saved := Persist(apps, a.(status := Booked), false);
        if saved.ok then
          PersistReadBack(apps, a.(status := Booked), false);
          Booking(true, unit.store, saved.store)
        else Booking(false, unit.store, saved.store)
    case Reject =>
      var cleared := ManagerReview.ClearedAsRejected(a);
      var saved := Persist(apps, cleared, false);
      if saved.ok then PersistReadBack(apps, cleared, false); Booking(true, projects, saved.store)
      else Booking(false, projects, saved.store)
    case Skip => Booking(false, projects, apps)
  }

  /** Everyone on the booking list is PENDING, so the manager's
      SUCCESSFUL applicants are never listed here. */
  lemma ListedPending(apps: Store, o: Officer, projects: ProjectRepository.Store)
    ensures forall k :: 0 <= k < |BookingList(apps, o, projects)| ==>
      BookingList(apps, o, projects)[k].status == Pending
  {
    var list := BookingList(apps, o, projects);
    forall k | 0 <= k < |list|
      ensures list[k].status == Pending
    {
      assert BookableBy(o, projects, list[k]);
    }
  }

  /** The screen books straight from PENDING, where the lifecycle passes
      through SUCCESSFUL first (the enum documents SUCCESSFUL as the
      status that may book a flat): an approved booking of a
      listed (so PENDING) applicant marks the record BOOKED and takes one
      unit of the booked type, as the next lookups show. */
  lemma BookingSkipsApproval(apps: Store, projects: ProjectRepository.Store, a: Applicant)
    requires a.status == Pending
    requires ProjectRepository.UniqueIds(projects)
    requires DecideBooking(apps, projects, a, ManagerReview.Approve).ok
    ensures var r := DecideBooking(apps, projects, a, ManagerReview.Approve);
      !LifecycleStep(a.status, Booked)
      && Lookup(r.store, a.nric).Some? && Lookup(r.store, a.nric).value.status == Booked
      && ProjectRepository.FindById(r.projects, a.appliedProjectId).Some?
      && ProjectRepository.UnitsOf(ProjectRepository.FindById(r.projects, a.appliedProjectId).value, FlatOf(a.flatType))
         == ProjectRepository.UnitsOf(ProjectRepository.FindById(projects, a.appliedProjectId).value, FlatOf(a.flatType)) - 1
  {
    ProjectRepository.BookReadBack(projects, a.appliedProjectId, a.flatType);
  }

  /** `generateReceipt`'s price: the type-1 price for a "2-Room"
      booking, ignoring case, and the type-2 price for anything else. */
  function ReceiptPrice(p: Project, flatType: string): (r: int)
    ensures FlatOf(flatType) == TwoRoom ==> r == p.type1Price
    ensures FlatOf(flatType) != TwoRoom ==> r == p.type2Price
  {
    if EqualsIgnoreCase(TWO_ROOM, flatType) then p.type1Price else p.type2Price
  }

  function BookedTest(nric: string): Applicant -> bool
  {
    (x: Applicant) => EqualsIgnoreCase(x.nric, nric) && x.status == Booked
  }

  /** `generateReceipt`: the first BOOKED record with the NRIC, ignoring
      case, decides; its project must exist and the officer be assigned
      to it. The result is the price printed. */
  function Receipt(o: Officer, apps: Store, all: seq<Project>, nric: string): (r: Option<int>)
    ensures forall k :: 0 <= k < |apps| && BookedTest(nric)(apps[k])
                        && (forall j :: 0 <= j < k ==> !BookedTest(nric)(apps[j])) ==>
              (r.Some? <==> ProjectRepository.FindById(all, apps[k].appliedProjectId).Some?
                            && Assigned(o, ProjectRepository.FindById(all, apps[k].appliedProjectId).value))
              && (r.Some? ==> r.value == ReceiptPrice(ProjectRepository.FindById(all, apps[k].appliedProjectId).value,
                                                      apps[k].flatType))
    ensures (forall k :: 0 <= k < |apps| ==> !(EqualsIgnoreCase(apps[k].nric, nric) && apps[k].status == Booked))
            ==> r.None?
    ensures r.Some? ==>
      (exists k :: 0 <= k < |apps|
         && EqualsIgnoreCase(apps[k].nric, nric) && apps[k].status == Booked
         && ProjectRepository.FindById(all, apps[k].appliedProjectId).Some?
         && Assigned(o, ProjectRepository.FindById(all, apps[k].appliedProjectId).value)
         && r.value == ReceiptPrice(ProjectRepository.FindById(all, apps[k].appliedProjectId).value,
                                    apps[k].flatType))
  {
    FirstPassingIsFound(apps, BookedTest(nric));
    match FindFirst(apps, BookedTest(nric))
    case None => None
    case Some(a) =>
      match ProjectRepository.FindById(all, a.appliedProjectId)
      case None => None
      case Some(p) => if Assigned(o, p) then Some(ReceiptPrice(p, a.flatType)) else None
  }

  /** After the officer books an applicant, the receipt for that NRIC is
      the booked project's price for the booked flat type. */
  lemma ReceiptAfterBooking(apps: Store, projects: ProjectRepository.Store, o: Officer, a: Applicant)
    requires ProjectRepository.UniqueIds(projects)
    requires DecideBooking(apps, projects, a, ManagerReview.Approve).ok
    requires Assigned(o, ProjectRepository.FindById(projects, a.appliedProjectId).value)
    ensures var r := DecideBooking(apps, projects, a, ManagerReview.Approve);
      Receipt(o, r.store, r.projects, a.nric)
        == Some(ReceiptPrice(ProjectRepository.FindById(projects, a.appliedProjectId).value, a.flatType))
  {
    var r := DecideBooking(apps, projects, a, ManagerReview.Approve);
    var before := ProjectRepository.FindById(projects, a.appliedProjectId).value;
    ProjectRepository.BookReadBack(projects, a.appliedProjectId, a.flatType);
    var after := ProjectRepository.FindById(r.projects, a.appliedProjectId).value;
    assert after.officers == before.officers && after.type1Price == before.type1Price
        && after.type2Price == before.type2Price;
    assert Assigned(o, after);
    BookedRecordIsFirstMatch(apps, a);
  }

  /** After a booking is written, the first BOOKED record with the NRIC
      is the record `Lookup` finds. */
  lemma BookedRecordIsFirstMatch(apps: Store, a: Applicant)
    requires Persist(apps, a.(status := Booked), false).ok
    ensures var after := Persist(apps, a.(status := Booked), false).store;
      FindFirst(after, BookedTest(a.nric)) == Lookup(after, a.nric)
  {
    var booked := a.(status := Booked);
    var after := Persist(apps, booked, false).store;
    forall k | 0 <= k < |after|
      ensures BookedTest(a.nric)(after[k]) <==> HasNric(after[k], a.nric)
    {
      if HasNric(after[k], a.nric) {
        assert after[k] == WithApplicationOf(apps[k], booked);
      }
    }
    FindFirstSame(after, BookedTest(a.nric), (x: Applicant) => HasNric(x, a.nric));
  }
}

=== FILE: project.dfy ===
/** A housing project as the system holds it in memory. "2-Room" is
    always the type1 slot and "3-Room" the type2 slot, whatever the type
    descriptions say. */
module Projects {
  import opened Wrappers
  import opened Text
  import opened Dates
  import opened Schedule

  datatype Project = Project(
    id: int,
    name: string,
    neighborhood: string,
    type1Desc: string,
    type1Units: int,
    type1Price: int,
    type2Desc: string,
    type2Units: int,
    type2Price: int,
    open: Date,
    close: Date,
    manager: string,
    officerSlots: int,
    officers: seq<string>,
    visible: bool,
    originalType1Units: int,
    originalType2Units: int)

  /** The constructor: a missing officer list becomes empty, the project
      starts visible, and the original unit counts are the initial ones. */
  function NewProject(id: int, name: string, neighborhood: string,
                      type1Desc: string, type1Units: int, type1Price: int,
                      type2Desc: string, type2Units: int, type2Price: int,
                      open: Date, close: Date, manager: string, officerSlots: int,
                      officers: Option<seq<string>>): (p: Project)
    ensures p.visible
    ensures p.originalType1Units == p.type1Units == type1Units
    ensures p.originalType2Units == p.type2Units == type2Units
    ensures officers.None? ==> p.officers == []
    ensures officers.Some? ==> p.officers == officers.value
    ensures p.id == id && p.name == name && p.neighborhood == neighborhood
    ensures p.type1Desc == type1Desc && p.type1Price == type1Price
    ensures p.type2Desc == type2Desc && p.type2Price == type2Price
    ensures p.open == open && p.close == close && p.manager == manager
    ensures p.officerSlots == officerSlots
  {
    Project(id, name, neighborhood, type1Desc, type1Units, type1Price,
            type2Desc, type2Units, type2Price, open, close, manager, officerSlots,
            officers.GetOr([]), true, type1Units, type2Units)
  }

  /** `setType1Units`: only the type1 counter changes. */
  function WithType1Units(p: Project, units: int): (q: Project)
    ensures q.type1Units == units
    ensures q.(type1Units := p.type1Units) == p
    ensures q.originalType1Units == p.originalType1Units
  {
    p.(type1Units := units)
  }

  /** `setType2Units`: only the type2 counter changes. */
  function WithType2Units(p: Project, units: int): (q: Project)
    ensures q.type2Units == units
    ensures q.(type2Units := p.type2Units) == p
    ensures q.originalType2Units == p.originalType2Units
  {
    p.(type2Units := units)
  }

  function WindowOf(p: Project): Window
  {
    Window(p.open, p.close)
  }

  /** One officer entry against a name or NRIC: after trimming the entry
      and lower-casing both, either contains the other. */
  predicate OfficerEntryMatches(entry: string, nameOrNric: string)
  {
    var norm := Lower(Trim(entry));
    Contains(Lower(nameOrNric), norm) || Contains(norm, Lower(nameOrNric))
  }

  /** `isOfficerAssigned`: some officer entry matches. */
  function IsOfficerAssigned(p: Project, nameOrNric: string): (r: bool)
    ensures p.officers == [] ==> !r
  {
    exists k :: 0 <= k < |p.officers| && OfficerEntryMatches(p.officers[k], nameOrNric)
  }

  /** An entry equal to the query ignoring case and surrounding blanks
      always matches. */
  lemma AssignedByEqualName(p: Project, k: int, nameOrNric: string)
    requires 0 <= k < |p.officers|
    requires EqualsIgnoreCase(Trim(p.officers[k]), nameOrNric)
    ensures IsOfficerAssigned(p, nameOrNric)
  {
    var norm := Lower(Trim(p.officers[k]));
    assert OccursAt(Lower(nameOrNric), norm, 0);
  }

  /** The substring test is loose: a blank officer entry makes every name
      count as assigned, and so does any name the entry is part of. */
  lemma BlankEntryMatchesEveryone(p: Project, k: int, nameOrNric: string)
    requires 0 <= k < |p.officers| && IsBlank(p.officers[k])
    ensures IsOfficerAssigned(p, nameOrNric)
  {
    assert OccursAt(Lower(nameOrNric), Lower(Trim(p.officers[k])), 0);
    assert OfficerEntryMatches(p.officers[k], nameOrNric);
  }

  /** `isCurrentlyOpen`, with today passed in: neither before the opening
      date nor after the closing date, both ends inclusive. */
  function IsCurrentlyOpen(p: Project, today: Date): (r: bool)
    ensures r <==> InWindow(WindowOf(p), today)
  {
    !(today < p.open) && !(today > p.close)
  }
}

=== FILE: project_file.dfy ===
/** The project file as text: how `loadProjectsFromCSV` reads it and how
    `saveProjects` writes it. The file is a sequence of lines whose first
    line is a header. There is no id column: a project's id is its
    position among the rows that load, counted from 1, so ids change
    whenever rows are dropped or reordered. Rows are read with the
    quote-aware tokenizer of `CsvLine`. */
module ProjectFile {
  import opened Wrappers
  import opened Text
  import opened Numbers
  import opened Dates
  import opened Seqs
  import opened CsvLine
  import opened Projects

  type Lines = seq<string>

  const HEADER := "Project Name,Neighborhood,Type 1,Number of units for Type1,"
                + "Selling price for Type1,Type 2,Number of units for Type2,"
                + "Selling price for Type2,Application opening date,Application closing date,"
                + "Manager,Officer Slot,Officer,Visible"

  /** A row of thirteen commas, which the loader skips like a blank line. */
  const EMPTY_ROW := ",,,,,,,,,,,,,"

  /** `Boolean.parseBoolean`: "true" in any case. */
  function ParseBoolean(s: string): (r: bool)
    ensures r ==> |s| == 4
  {
    EqualsIgnoreCase(s, "true")
  }

  function ShowBool(b: bool): string
  {
    if b then "true" else "false"
  }

  lemma ParseShowBool(b: bool)
    ensures ParseBoolean(ShowBool(b)) == b
  {
    if b {
      assert Lower("true") == "true";
    }
  }

  function TrimAll(xs: seq<string>): (r: seq<string>)
    ensures |r| == |xs|
    ensures forall k :: 0 <= k < |xs| ==> r[k] == Trim(xs[k])
  {
    seq(|xs|, k requires 0 <= k < |xs| => Trim(xs[k]))
  }

  function NonEmpty(): string -> bool
  {
    (e: string) => e != ""
  }

  /** A comma-separated list of names, read as the officer column and the
      manager's officer prompts read it: split at commas, every piece
      trimmed, empty pieces dropped. Each name is the trimmed text of a
      piece, and every piece that is not blank gives a name. */
  function NameList(text: string): (r: seq<string>)
    ensures forall k :: 0 <= k < |r| ==> r[k] != "" && IsTrimmed(r[k])
    ensures forall k :: 0 <= k < |r| ==>
              exists i :: 0 <= i < |Split(text, ',')| && r[k] == Trim(Split(text, ',')[i])
    ensures forall i :: 0 <= i < |Split(text, ',')| && !IsBlank(Split(text, ',')[i]) ==>
              Trim(Split(text, ',')[i]) in r
  {
    var pieces := Split(text, ',');
    var trimmed := TrimAll(pieces);
    forall i | 0 <= i < |trimmed|
      ensures IsTrimmed(trimmed[i])
    {
      TrimSlice(pieces[i]);
    }
    Filter(trimmed, NonEmpty())
  }

  /** Names that are non-empty, trimmed and free of commas survive being
      joined with commas and read back, in order. */
  lemma NameListJoin(names: seq<string>)
    requires forall k :: 0 <= k < |names| ==> names[k] != "" && IsTrimmed(names[k]) && ',' !in names[k]
    ensures NameList(Join(names, ',')) == names
  {
    var j := Join(names, ',');
    if names == [] {
      assert Split(j, ',') == [""];
      assert TrimAll([""]) == [""];
      assert Filter([""], NonEmpty()) == [];
    } else {
      SplitJoin(names, ',');
      forall k | 0 <= k < |names|
        ensures Trim(names[k]) == names[k]
      {
        TrimOfTrimmed(names[k]);
      }
      assert TrimAll(names) == names;
      FilterKeepsAll(names, NonEmpty());
    }
  }

  /** The officer column after trimming. A value wrapped in quotes loses
      them (a lone quote makes `substring` throw, and the row is dropped);
      the rest is read as a list of names. */
  function OfficerList(field: string): (r: Option<seq<string>>)
    ensures r.Some? ==> forall k :: 0 <= k < |r.value| ==> r.value[k] != ""
  {
    if field == "\"" then None
    else
      var f := if |field| >= 2 && field[0] == '"' && field[|field| - 1] == '"'
               then field[1..|field| - 1] else field;
      Some(NameList(f))
  }

  /** Every token of the row is blank. */
  predicate AllBlank(t: seq<string>)
  {
    forall k :: 0 <= k < |t| ==> IsBlank(t[k])
  }

  /** The tokens of one row read as a project: at least thirteen tokens,
      not all blank, five numbers and two dates that parse, or the row is
      dropped. Text columns are trimmed. A fourteenth token, when present,
      sets the visibility; otherwise the constructor's default (visible)
      stays. The id is left 0 here; `Numbered` assigns it. */
  function ParseProjectColumns(t: seq<string>): (r: Option<Project>)
    ensures r.Some? ==> |t| >= 13 && !AllBlank(t)
    ensures r.Some? ==> r.value.originalType1Units == r.value.type1Units
    ensures r.Some? ==> r.value.originalType2Units == r.value.type2Units
    ensures r.Some? ==> (r.value.visible <==> |t| == 13 || ParseBoolean(Trim(t[13])))
    ensures r.Some? ==> IsTrimmed(r.value.name) && IsTrimmed(r.value.manager)
  {
    if |t| < 13 || AllBlank(t) then None
    else
      var t1u := ParseInt(Trim(t[3]));
      var t1p := ParseInt(Trim(t[4]));
      var t2u := ParseInt(Trim(t[6]));
      var t2p := ParseInt(Trim(t[7]));
      var open := ParseDate(Trim(t[8]));
      var close := ParseDate(Trim(t[9]));
      var slots := ParseInt(Trim(t[11]));
      var officers := OfficerList(Trim(t[12]));
      if t1u.None? || t1p.None? || t2u.None? || t2p.None? || open.None? || close.None?
         || slots.None? || officers.None? then None
      else
        TrimSlice(t[0]);
        TrimSlice(t[10]);
        var p := NewProject(0, Trim(t[0]), Trim(t[1]),
                            Trim(t[2]), t1u.value, t1p.value,
                            Trim(t[5]), t2u.value, t2p.value,
                            open.value, close.value,
                            Trim(t[10]), slots.value, officers);
        Some(if |t| > 13 then p.(visible := ParseBoolean(Trim(t[13]))) else p)
  }

  /** A line the loader skips before tokenizing: blank, or thirteen
      commas once trimmed. */
  predicate SkippedLine(line: string)
  {
    IsBlank(line) || Trim(line) == EMPTY_ROW
  }

  /** A data line as the loader sees it before reading any field:
      nothing for a skipped line, else its tokens. */
  function LineTokens(line: string): Option<seq<string>>
  {
    if SkippedLine(line) then None else Some(Tokenize(line))
  }

  function TokenizeLines(rows: Lines): (r: seq<Option<seq<string>>>)
    ensures |r| == |rows|
    ensures forall k :: 0 <= k < |rows| ==> r[k] == LineTokens(rows[k])
  {
    seq(|rows|, k requires 0 <= k < |rows| => LineTokens(rows[k]))
  }

  /** One tokenized line read as a project, or dropped. */
  function ParseTokens(t: Option<seq<string>>): Option<Project>
  {
    match t
    case None => None
    case Some(tokens) => ParseProjectColumns(tokens)
  }

  /** The projects the data lines describe, in order, dropped lines left
      out. */
  function ReadRows(rows: Lines): (r: seq<Project>)
    ensures |r| <= |rows|
  {
    FilterMap(TokenizeLines(rows), ParseTokens)
  }

  /** The loader's running id: the k-th project kept gets id `n + k`. */
  function Numbered(ps: seq<Project>, n: int): (r: seq<Project>)
    ensures |r| == |ps|
    ensures forall k :: 0 <= k < |ps| ==> r[k] == ps[k].(id := n + k)
  {
    seq(|ps|, k requires 0 <= k < |ps| => ps[k].(id := n + k))
  }

  /** `loadProjectsFromCSV`: the first line is the header, whatever it
      says; the projects of the remaining lines are numbered from 1 in
      the order they survive. A missing or empty file gives no projects. */
  function LoadProjects(lines: Lines): (r: seq<Project>)
    ensures forall k :: 0 <= k < |r| ==> r[k].id == k + 1
    ensures |lines| >= 1 ==> |r| == |ReadRows(lines[1..])|
  {
    if |lines| == 0 then [] else Numbered(ReadRows(lines[1..]), 1)
  }

  /** Rows read in two parts: the parts' projects, in order. */
  lemma ReadRowsAppend(a: Lines, b: Lines)
    ensures ReadRows(a + b) == ReadRows(a) + ReadRows(b)
  {
    assert TokenizeLines(a + b) == TokenizeLines(a) + TokenizeLines(b);
    FilterMapAppend(TokenizeLines(a), TokenizeLines(b), ParseTokens);
  }

  /** A dropped line leaves the projects read as they were. */
  lemma DroppedLine(a: Lines, line: string, b: Lines)
    requires ParseTokens(LineTokens(line)).None?
    ensures ReadRows(a + [line] + b) == ReadRows(a + b)
  {
    var ta, tb := TokenizeLines(a), TokenizeLines(b);
    assert TokenizeLines(a + [line] + b) == ta + [LineTokens(line)] + tb;
    assert TokenizeLines(a + b) == ta + tb;
    FilterMapSkip(ta, LineTokens(line), tb, ParseTokens);
  }

  /** A line that is dropped costs no id: the file loads as if it were
      not there, and every later project keeps its id. */
  lemma DroppedLineCostsNothing(header: string, a: Lines, line: string, b: Lines)
    requires ParseTokens(LineTokens(line)).None?
    ensures LoadProjects([header] + a + [line] + b) == LoadProjects([header] + a + b)
  {
    assert ([header] + a + [line] + b)[1..] == a + [line] + b;
    assert ([header] + a + b)[1..] == a + b;
    DroppedLine(a, line, b);
  }

  // ---------------------------------------------------------------- writing

  /** The officer column as written: the names joined with commas inside
      one pair of quotes, or nothing for an empty list. */
  function OfficerColumn(officers: seq<string>): string
  {
    if officers == [] then "" else "\"" + Join(officers, ',') + "\""
  }

  /** How a project's numbers, dates, officer names and visibility appear
      as text. */
  datatype Texts = Texts(units1: string, price1: string, units2: string, price2: string,
                         open: string, close: string, slots: string,
                         officers: string, visible: string)

  /** The texts `saveProjects` writes: `Integer.toString`, `d/M/yy`, the
      officer names joined with commas, and `true` or `false`. */
  function TextsOf(p: Project): Texts
  {
    Texts(ShowInt(p.type1Units), ShowInt(p.type1Price), ShowInt(p.type2Units),
          ShowInt(p.type2Price), FormatDate(p.open), FormatDate(p.close),
          ShowInt(p.officerSlots), Join(p.officers, ','), ShowBool(p.visible))
  }

  /** Column `k` of a row in file order: the project's text fields as
      they are, the rest from `x`, and `officerColumn` in the officer
      position. */
  function ColumnAt(p: Project, x: Texts, officerColumn: string, k: int): string
  {
    match k
    case 0 => p.name
    case 1 => p.neighborhood
    case 2 => p.type1Desc
    case 3 => x.units1
    case 4 => x.price1
    case 5 => p.type2Desc
    case 6 => x.units2
    case 7 => x.price2
    case 8 => x.open
    case 9 => x.close
    case 10 => p.manager
    case 11 => x.slots
    case 12 => officerColumn
    case _ => x.visible
  }

  /** The fourteen columns of a row. */
  function Columns(p: Project, x: Texts, officerColumn: string): (r: seq<string>)
    ensures |r| == 14
  {
    seq(14, k => ColumnAt(p, x, officerColumn, k))
  }

  lemma ColumnsAt(p: Project, x: Texts, c: string)
    ensures var t := Columns(p, x, c);
      t[0] == p.name && t[1] == p.neighborhood && t[2] == p.type1Desc
      && t[3] == x.units1 && t[4] == x.price1 && t[5] == p.type2Desc
      && t[6] == x.units2 && t[7] == x.price2 && t[8] == x.open && t[9] == x.close
      && t[10] == p.manager && t[11] == x.slots && t[12] == c && t[13] == x.visible
  {
  }

  /** The fourteen columns `saveProjects` writes, in order. */
  function ProjectFields(p: Project): seq<string>
  {
    Columns(p, TextsOf(p), OfficerColumn(p.officers))
  }

  function ProjectRow(p: Project): string
  {
    Join(ProjectFields(p), ',')
  }

  /** `saveProjects` skips a project whose name or neighbourhood is blank. */
  predicate Saved(p: Project)
  {
    !IsBlank(p.name) && !IsBlank(p.neighborhood)
  }

  function RowsOf(ps: seq<Project>): (r: Lines)
    ensures |r| == |ps|
    ensures forall k :: 0 <= k < |ps| ==> r[k] == ProjectRow(ps[k])
  {
    seq(|ps|, k requires 0 <= k < |ps| => ProjectRow(ps[k]))
  }

  /** `saveProjects`: the header, then one row per project kept, in list
      order. */
  function SaveProjects(ps: seq<Project>): (r: Lines)
    ensures |r| >= 1 && r[0] == HEADER
    ensures |r| <= 1 + |ps|
  {
    [HEADER] + RowsOf(Filter(ps, Saved))
  }

  /** What a project looks like after a save and a reload: its id is its
      new position and its original unit counts are its current ones,
      because neither is written. */
  function Reloaded(p: Project, id: int): Project
  {
    p.(id := id, originalType1Units := p.type1Units, originalType2Units := p.type2Units)
  }

  function ReloadedFrom(ps: seq<Project>, n: int): (r: seq<Project>)
    ensures |r| == |ps|
    ensures forall k :: 0 <= k < |ps| ==> r[k] == Reloaded(ps[k], n + k)
  {
    seq(|ps|, k requires 0 <= k < |ps| => Reloaded(ps[k], n + k))
  }

  /** Text that reads back as itself: trimmed, no comma, no quote. */
  predicate TextWritable(s: string)
  {
    IsTrimmed(s) && PlainField(s)
  }

  predicate OfficersWritable(officers: seq<string>)
  {
    forall k :: 0 <= k < |officers| ==> officers[k] != "" && TextWritable(officers[k])
  }

  predicate DateWritable(d: Date)
  {
    IsCalendarKey(d) && 2000 <= YearOf(d) <= 2099
  }

  /** A project the file stores faithfully: non-empty trimmed text without
      commas or quotes, `int` numbers, dates of this century, and
      non-empty trimmed officer names without commas or quotes. */
  predicate Writable(p: Project)
  {
    p.name != "" && p.neighborhood != ""
    && TextWritable(p.name) && TextWritable(p.neighborhood)
    && TextWritable(p.type1Desc) && TextWritable(p.type2Desc) && TextWritable(p.manager)
    && IsInt32(p.type1Units) && IsInt32(p.type1Price)
    && IsInt32(p.type2Units) && IsInt32(p.type2Price) && IsInt32(p.officerSlots)
    && DateWritable(p.open) && DateWritable(p.close)
    && OfficersWritable(p.officers)
  }

  /** Texts that read back as the project's values. */
  predicate TextsRead(p: Project, x: Texts)
  {
    ParseInt(x.units1) == Some(p.type1Units) && ParseInt(x.price1) == Some(p.type1Price)
    && ParseInt(x.units2) == Some(p.type2Units) && ParseInt(x.price2) == Some(p.type2Price)
    && ParseDate(x.open) == Some(p.open) && ParseDate(x.close) == Some(p.close)
    && ParseInt(x.slots) == Some(p.officerSlots)
    && OfficerList(x.officers) == Some(p.officers) && ParseBoolean(x.visible) == p.visible
  }

  /** Texts the row holds unchanged: all trimmed and quote-free, and all
      but the officer names comma-free. */
  predicate TextsWritable(x: Texts)
  {
    TextWritable(x.units1) && TextWritable(x.price1) && TextWritable(x.units2)
    && TextWritable(x.price2) && TextWritable(x.open) && TextWritable(x.close)
    && TextWritable(x.slots) && TextWritable(x.visible)
    && IsTrimmed(x.officers) && '"' !in x.officers
  }

  // ------------------------------------------------------ round-trip proof

  /** A separator-joined list lacks any character its parts lack. */
  lemma {:induction false} JoinWithout(parts: seq<string>, sep: char, c: char)
    requires c != sep
    requires forall k :: 0 <= k < |parts| ==> c !in parts[k]
    ensures c !in Join(parts, sep)
  {
    if |parts| > 1 {
      JoinWithout(parts[1..], sep, c);
    }
  }

  /** A joined list of non-empty parts starts with the first part's first
      character and ends with the last part's last character. */
  lemma {:induction false} JoinEnds(parts: seq<string>, sep: char)
    requires |parts| >= 1
    requires forall k :: 0 <= k < |parts| ==> parts[k] != ""
    ensures var j := Join(parts, sep);
      |j| >= 1 && j[0] == parts[0][0] && j[|j| - 1] == parts[|parts| - 1][|parts[|parts| - 1]| - 1]
  {
    if |parts| > 1 {
      JoinEnds(parts[1..], sep);
    }
  }

  /** Written integers and dates contain no comma, quote or blank. */
  lemma IntWritable(n: int)
    ensures TextWritable(ShowInt(n))
  {
    ShowIntChars(n);
  }

  lemma DateTextWritable(d: Date)
    ensures TextWritable(FormatDate(d))
  {
    FormatDateChars(d);
    var s := FormatDate(d);
    assert s[0] == '/' || IsDigit(s[0]);
    assert s[|s| - 1] == '/' || IsDigit(s[|s| - 1]);
  }

  lemma BoolWritable(b: bool)
    ensures TextWritable(ShowBool(b))
  {
  }

  /** The officer names joined with commas: trimmed, quote-free. */
  lemma OfficerTextWritable(officers: seq<string>)
    requires OfficersWritable(officers)
    ensures IsTrimmed(Join(officers, ',')) && '"' !in Join(officers, ',')
  {
    JoinWithout(officers, ',', '"');
    if |officers| > 0 {
      JoinEnds(officers, ',');
    }
  }

  /** The officer column reads back as the officer list. */
  lemma OfficerListRead(officers: seq<string>)
    requires OfficersWritable(officers)
    ensures OfficerList(Trim(Join(officers, ','))) == Some(officers)
  {
    var j := Join(officers, ',');
    OfficerTextWritable(officers);
    TrimOfTrimmed(j);
    if officers != [] {
      assert j[0] != '"';
    }
    NameListJoin(officers);
  }

  /** The texts a writable project is written as hold unchanged and read
      back as its values. */
  lemma WrittenTexts(p: Project)
    requires Writable(p)
    ensures TextsWritable(TextsOf(p)) && TextsRead(p, TextsOf(p))
  {
    IntWritable(p.type1Units);
    IntWritable(p.type1Price);
    IntWritable(p.type2Units);
    IntWritable(p.type2Price);
    IntWritable(p.officerSlots);
    DateTextWritable(p.open);
    DateTextWritable(p.close);
    BoolWritable(p.visible);
    OfficerTextWritable(p.officers);
    ParseShowInt(p.type1Units);
    ParseShowInt(p.type1Price);
    ParseShowInt(p.type2Units);
    ParseShowInt(p.type2Price);
    ParseShowInt(p.officerSlots);
    ParseFormatDate(p.open);
    ParseFormatDate(p.close);
    OfficerListRead(p.officers);
    TrimOfTrimmed(Join(p.officers, ','));
    ParseShowBool(p.visible);
  }

  /** The officer column of a project whose officer names join to the
      text `j`: empty when there are none, else `j` in quotes. */
  lemma OfficerColumnShape(officers: seq<string>)
    ensures var j := Join(officers, ',');
      (OfficerColumn(officers) == "" && j == "") || OfficerColumn(officers) == "\"" + j + "\""
  {
  }

  /** Fourteen columns, plain except the thirteenth, which is empty or a
      quoted text `j` without quotes: the joined row tokenizes back to the
      columns with `j` unquoted. */
  lemma TokenizeColumns(f: seq<string>, j: string)
    requires |f| == 14 && forall k :: 0 <= k < 14 && k != 12 ==> PlainField(f[k])
    requires (f[12] == "" && j == "") || (f[12] == "\"" + j + "\"" && '"' !in j)
    ensures Tokenize(Join(f, ',')) == f[12 := j]
  {
    forall k | 0 <= k < 14
      ensures SafeField(f[k]) && Unquote(f[k]) == f[12 := j][k]
    {
      if k == 12 && f[12] != "" {
        assert f[12][1..|f[12]| - 1] == j;
      }
    }
    TokenizeJoin(f);
  }

  /** A row of writable columns tokenizes back into its columns, the
      officer names unquoted. */
  lemma RowTokens(p: Project, x: Texts, c: string)
    requires Writable(p) && TextsWritable(x)
    requires (c == "" && x.officers == "") || c == "\"" + x.officers + "\""
    ensures Tokenize(Join(Columns(p, x, c), ',')) == Columns(p, x, x.officers)
  {
    var f := Columns(p, x, c);
    ColumnsAt(p, x, c);
    ColumnsAt(p, x, x.officers);
    TokenizeColumns(f, x.officers);
    assert f[12 := x.officers] == Columns(p, x, x.officers);
  }

  /** A line whose first character is neither blank nor a comma is read. */
  lemma LeadingCharKept(s: string)
    requires |s| > 0 && !IsTrimmable(s[0]) && s[0] != ','
    ensures !SkippedLine(s)
  {
    assert TrimStart(s) == s;
    var r := TrimEnd(s);
    TrimEndSpec(s);
    assert |r| > 0;
    assert r[0] == s[0];
    assert EMPTY_ROW[0] == ',';
  }

  /** A written row is not one the loader skips: it starts with the
      project name. */
  lemma RowKept(p: Project, x: Texts, c: string)
    requires Writable(p)
    ensures !SkippedLine(Join(Columns(p, x, c), ','))
  {
    var f := Columns(p, x, c);
    assert Join(f, ',') == f[0] + ([','] + Join(f[1..], ','));
    LeadingCharKept(Join(f, ','));
  }

  /** Every column of a row that holds a writable project's text fields
      and writable texts is its own `trim`. */
  predicate TrimmedColumns(p: Project, x: Texts)
  {
    Trim(p.name) == p.name && Trim(p.neighborhood) == p.neighborhood
    && Trim(p.type1Desc) == p.type1Desc && Trim(p.type2Desc) == p.type2Desc
    && Trim(p.manager) == p.manager
    && Trim(x.units1) == x.units1 && Trim(x.price1) == x.price1
    && Trim(x.units2) == x.units2 && Trim(x.price2) == x.price2
    && Trim(x.open) == x.open && Trim(x.close) == x.close && Trim(x.slots) == x.slots
    && Trim(x.officers) == x.officers && Trim(x.visible) == x.visible
  }

  lemma ColumnsTrimmed(p: Project, x: Texts)
    requires Writable(p) && TextsWritable(x)
    ensures TrimmedColumns(p, x)
  {
    TrimOfTrimmed(p.name);
    TrimOfTrimmed(p.neighborhood);
    TrimOfTrimmed(p.type1Desc);
    TrimOfTrimmed(p.type2Desc);
    TrimOfTrimmed(p.manager);
    TrimOfTrimmed(x.units1);
    TrimOfTrimmed(x.price1);
    TrimOfTrimmed(x.units2);
    TrimOfTrimmed(x.price2);
    TrimOfTrimmed(x.open);
    TrimOfTrimmed(x.close);
    TrimOfTrimmed(x.slots);
    TrimOfTrimmed(x.officers);
    TrimOfTrimmed(x.visible);
  }

  /** Fourteen tokens that, trimmed, are `p`'s text fields and the texts
      `x`. */
  predicate Holds(t: seq<string>, p: Project, x: Texts)
  {
    |t| == 14
    && Trim(t[0]) == p.name && Trim(t[1]) == p.neighborhood && Trim(t[2]) == p.type1Desc
    && Trim(t[5]) == p.type2Desc && Trim(t[10]) == p.manager
    && Trim(t[3]) == x.units1 && Trim(t[4]) == x.price1
    && Trim(t[6]) == x.units2 && Trim(t[7]) == x.price2
    && Trim(t[8]) == x.open && Trim(t[9]) == x.close && Trim(t[11]) == x.slots
    && Trim(t[12]) == x.officers && Trim(t[13]) == x.visible
  }

  /** Tokens that hold a project with a name and texts that read back as
      its values read as the project with id 0 and its original counts
      equal to its current ones. */
  lemma ParseHeld(t: seq<string>, p: Project, x: Texts)
    requires p.name != "" && Holds(t, p, x) && TextsRead(p, x)
    ensures ParseProjectColumns(t) == Some(Reloaded(p, 0))
  {
    assert !IsBlank(t[0]);
  }

  /** A row's columns, officer names unquoted, hold what they were made
      of. */
  lemma ColumnsHold(p: Project, x: Texts)
    requires TrimmedColumns(p, x)
    ensures Holds(Columns(p, x, x.officers), p, x)
  {
    ColumnsAt(p, x, x.officers);
  }

  /** A written row loads as the reloaded project. */
  lemma ParseWrittenRow(p: Project)
    requires Writable(p)
    ensures ParseTokens(LineTokens(ProjectRow(p))) == Some(Reloaded(p, 0))
  {
    var x := TextsOf(p);
    WrittenTexts(p);
    OfficerColumnShape(p.officers);
    RowKept(p, x, OfficerColumn(p.officers));
    RowTokens(p, x, OfficerColumn(p.officers));
    ColumnsTrimmed(p, x);
    ColumnsHold(p, x);
    ParseHeld(Columns(p, x, x.officers), p, x);
  }

  predicate AllWritable(ps: seq<Project>)
  {
    forall k :: 0 <= k < |ps| ==> Writable(ps[k])
  }

  /** Every writable project is saved. */
  lemma WritableSaved(ps: seq<Project>)
    requires AllWritable(ps)
    ensures Filter(ps, Saved) == ps
  {
    forall k | 0 <= k < |ps|
      ensures Saved(ps[k])
    {
      TrimOfTrimmed(ps[k].name);
      TrimOfTrimmed(ps[k].neighborhood);
    }
    FilterKeepsAll(ps, Saved);
  }

  /** The rows written for projects the file can hold read back, row by
      row, as those projects with their original counts reset. */
  lemma ReadWrittenRows(ps: seq<Project>)
    requires AllWritable(ps)
    ensures ReadRows(RowsOf(ps)) == seq(|ps|, k requires 0 <= k < |ps| => Reloaded(ps[k], 0))
  {
    var rows := RowsOf(ps);
    var out := seq(|ps|, k requires 0 <= k < |ps| => Reloaded(ps[k], 0));
    forall k | 0 <= k < |ps|
      ensures ParseTokens(TokenizeLines(rows)[k]) == Some(out[k])
    {
      ParseWrittenRow(ps[k]);
    }
    FilterMapTotal(TokenizeLines(rows), ParseTokens, out);
  }

  /** Saving projects the file can hold and loading them again gives the
      same projects in the same order, renumbered 1..N from their
      position, with their original unit counts reset to the current
      ones. */
  lemma LoadSaved(ps: seq<Project>)
    requires AllWritable(ps)
    ensures LoadProjects(SaveProjects(ps)) == ReloadedFrom(ps, 1)
  {
    WritableSaved(ps);
    assert SaveProjects(ps)[1..] == RowsOf(ps);
    ReadWrittenRows(ps);
  }
}

=== FILE: project_repository.dfy ===
/** The project store as records: the list `loadProjectsFromCSV` returns,
    the lookups over it, and the writes. Every lookup reads the file
    afresh, so the store a lookup sees is what the last write saved,
    loaded again (`Refresh`); a write removes the project it replaces,
    appends the new version at the end and saves the whole list, which
    renumbers every project from its new position. */
module ProjectRepository {
  import opened Wrappers
  import opened Text
  import opened Dates
  import opened Seqs
  import opened Schedule
  import opened Projects
  import opened InputValidator
  import opened ProjectFile

  type Store = seq<Project>

  /** The reported result of a write and the list saved. */
  datatype Outcome = Outcome(ok: bool, store: Store)

  function IdIs(id: int): Project -> bool
  {
    (p: Project) => p.id == id
  }

  function IdIsNot(id: int): Project -> bool
  {
    (p: Project) => p.id != id
  }

  /** No two projects share an id, which every freshly loaded list
      guarantees. */
  predicate UniqueIds(store: Store)
  {
    forall i, j :: 0 <= i < j < |store| ==> store[i].id != store[j].id
  }

  /** The list as the next lookup sees it: saved, then loaded again. */
  function Refresh(store: Store): (r: Store)
    ensures forall k :: 0 <= k < |r| ==> r[k].id == k + 1
  {
    LoadProjects(SaveProjects(store))
  }

  /** Loaded ids run 1..N, so they are unique. */
  lemma LoadedIdsUnique(lines: Lines)
    ensures UniqueIds(LoadProjects(lines))
  {
  }

  /** `existsById`. */
  function ExistsById(store: Store, id: int): (r: bool)
    ensures r <==> exists k :: 0 <= k < |store| && store[k].id == id
  {
    Any(store, IdIs(id))
  }

  /** `findById`: the first project with that id. */
  function FindById(store: Store, id: int): (r: Option<Project>)
    ensures r.Some? <==> ExistsById(store, id)
    ensures r.Some? ==> r.value in store && r.value.id == id
    ensures UniqueIds(store) ==> forall k :: 0 <= k < |store| && store[k].id == id ==> r == Some(store[k])
  {
    FindFirst(store, IdIs(id))
  }

  /** `delete`: every project with that id goes, the rest keep their
      order. */
  function Delete(store: Store, id: int): (r: Store)
    ensures !ExistsById(r, id)
    ensures forall k :: 0 <= k < |r| ==> r[k] in store
    ensures forall k :: 0 <= k < |store| && store[k].id != id ==> store[k] in r
  {
    Filter(store, IdIsNot(id))
  }

  /** `save`: the first project with `p`'s id, if any, is removed and `p`
      is appended. */
  function Save(store: Store, p: Project): (r: Store)
    ensures |r| >= 1 && r[|r| - 1] == p
    ensures ExistsById(store, p.id) ==> |r| == |store|
    ensures !ExistsById(store, p.id) ==> r == store + [p]
    ensures forall k :: 0 <= k < |r| - 1 ==> r[k] in store
  {
    match FirstIndex(store, IdIs(p.id))
    case None => store + [p]
    case Some(i) => RemoveAt(store, i) + [p]
  }

  /** With unique ids, deleting an id that is present removes exactly
      its one project, and deleting one that is absent changes nothing. */
  lemma DeleteUnique(store: Store, id: int)
    requires UniqueIds(store)
    ensures FirstIndex(store, IdIs(id)).None? ==> Delete(store, id) == store
    ensures FirstIndex(store, IdIs(id)).Some? ==>
      Delete(store, id) == RemoveAt(store, FirstIndex(store, IdIs(id)).value)
    ensures UniqueIds(Delete(store, id))
  {
    match FirstIndex(store, IdIs(id))
    case None =>
      FilterKeepsAll(store, IdIsNot(id));
    case Some(i) =>
      OnlyOneHasId(store, i);
      FilterDropsOne(store, IdIsNot(id), i);
      RemoveKeepsUnique(store, i);
  }

  /** With unique ids, no project but the i-th has the i-th's id. */
  lemma OnlyOneHasId(store: Store, i: nat)
    requires UniqueIds(store) && i < |store|
    ensures forall k :: 0 <= k < |store| && k != i ==> IdIsNot(store[i].id)(store[k])
  {
    forall k | 0 <= k < |store| && k != i
      ensures store[k].id != store[i].id
    {
      if k < i { assert store[k].id != store[i].id; } else { assert store[i].id != store[k].id; }
    }
  }

  /** Removing one project keeps the ids unique. */
  lemma RemoveKeepsUnique(store: Store, i: nat)
    requires UniqueIds(store) && i < |store|
    ensures UniqueIds(RemoveAt(store, i))
  {
    var r := RemoveAt(store, i);
    forall a, b | 0 <= a < b < |r|
      ensures r[a].id != r[b].id
    {
      var a', b' := if a < i then a else a + 1, if b < i then b else b + 1;
      assert r[a] == store[a'] && r[b] == store[b'];
    }
  }

  /** With unique ids, saving is deleting the id and appending. */
  lemma SaveIsDeleteAppend(store: Store, p: Project)
    requires UniqueIds(store)
    ensures Save(store, p) == Delete(store, p.id) + [p]
  {
    DeleteUnique(store, p.id);
  }

  /** With unique ids, a save keeps them unique, `p` is what its id now
      finds, and every other id finds what it found before. */
  lemma SaveFinds(store: Store, p: Project)
    requires UniqueIds(store)
    ensures UniqueIds(Save(store, p))
    ensures FindById(Save(store, p), p.id) == Some(p)
    ensures forall id :: id != p.id ==> FindById(Save(store, p), id) == FindById(store, id)
  {
    var d := Delete(store, p.id);
    SaveIsDeleteAppend(store, p);
    DeleteUnique(store, p.id);
    FindFirstAppend(d, [p], IdIs(p.id));
    assert FirstIndex([p], IdIs(p.id)) == Some(0);
    OthersFoundAfterAppend(store, p);
  }

  /** Deleting `p`'s id and appending `p` leaves what every other id
      finds as it was. */
  lemma OthersFoundAfterAppend(store: Store, p: Project)
    ensures forall id :: id != p.id ==> FindById(Delete(store, p.id) + [p], id) == FindById(store, id)
  {
    var d := Delete(store, p.id);
    forall id | id != p.id
      ensures FindById(d + [p], id) == FindById(store, id)
    {
      FindFirstAppend(d, [p], IdIs(id));
      assert FirstIndex([p], IdIs(id)).None?;
      FindFirstFilter(store, IdIsNot(p.id), IdIs(id));
    }
  }

  /** With unique ids, saving the same project twice is saving it once. */
  lemma SaveIdempotent(store: Store, p: Project)
    requires UniqueIds(store)
    ensures Save(Save(store, p), p) == Save(store, p)
  {
    var d := Delete(store, p.id);
    SaveIsDeleteAppend(store, p);
    var r := d + [p];
    assert forall k :: 0 <= k < |d| ==> !IdIs(p.id)(r[k]);
    assert IdIs(p.id)(r[|d|]);
    assert FirstIndex(r, IdIs(p.id)) == Some(|d|);
    assert RemoveAt(r, |d|) == d;
  }

  /** `saveAll` followed by a lookup, and any write followed by one: the
      saved list as it reads back from a file that can hold it. A saved
      project ends up last, with id N. */
  lemma RefreshRenumbers(store: Store)
    requires AllWritable(store)
    ensures Refresh(store) == ReloadedFrom(store, 1)
  {
    LoadSaved(store);
  }

  /** After `save(p)` the next lookup finds `p` under the id N, the
      length of the list, not under the id it was saved with. */
  lemma SavedProjectMovesLast(store: Store, p: Project)
    requires AllWritable(Save(store, p))
    ensures var r := Save(store, p);
      FindById(Refresh(r), |r|) == Some(Reloaded(p, |r|))
  {
    var r := Save(store, p);
    LoadSaved(r);
    LoadedIdsUnique(SaveProjects(r));
  }

  predicate IsVisible(p: Project)
  {
    p.visible
  }

  /** `findAllVisible`. */
  function FindAllVisible(store: Store): (r: Store)
    ensures forall k :: 0 <= k < |r| ==> r[k] in store && r[k].visible
    ensures forall k :: 0 <= k < |store| && store[k].visible ==> store[k] in r
  {
    Filter(store, IsVisible)
  }

  /** `findByNeighborhood`: the neighbourhood equals it ignoring case. */
  function FindByNeighborhood(store: Store, neighborhood: string): (r: Store)
    ensures forall k :: 0 <= k < |r| ==> r[k] in store && EqualsIgnoreCase(r[k].neighborhood, neighborhood)
    ensures forall k :: 0 <= k < |store| && EqualsIgnoreCase(store[k].neighborhood, neighborhood)
              ==> store[k] in r
  {
    Filter(store, (p: Project) => EqualsIgnoreCase(p.neighborhood, neighborhood))
  }

  /** `findByFlatType`: either type description equals it ignoring case.
      This reads the descriptions, unlike booking, which goes by slot. */
  function FindByFlatType(store: Store, flatType: string): (r: Store)
    ensures forall k :: 0 <= k < |r| ==>
              r[k] in store
              && (EqualsIgnoreCase(r[k].type1Desc, flatType) || EqualsIgnoreCase(r[k].type2Desc, flatType))
    ensures forall k :: 0 <= k < |store|
              && (EqualsIgnoreCase(store[k].type1Desc, flatType) || EqualsIgnoreCase(store[k].type2Desc, flatType))
              ==> store[k] in r
  {
    Filter(store, (p: Project) =>
      EqualsIgnoreCase(p.type1Desc, flatType) || EqualsIgnoreCase(p.type2Desc, flatType))
  }

  /** `findByManager`: the manager NRIC equals it ignoring case. */
  function FindByManager(store: Store, managerNric: string): (r: Store)
    ensures forall k :: 0 <= k < |r| ==> r[k] in store && EqualsIgnoreCase(r[k].manager, managerNric)
    ensures forall k :: 0 <= k < |store| && EqualsIgnoreCase(store[k].manager, managerNric)
              ==> store[k] in r
  {
    Filter(store, (p: Project) => EqualsIgnoreCase(p.manager, managerNric))
  }

  /** Some officer entry equals the query ignoring case, whole entry
      against whole query (no trimming, no substring). */
  predicate ListsOfficer(p: Project, officerNric: string)
  {
    exists k :: 0 <= k < |p.officers| && EqualsIgnoreCase(p.officers[k], officerNric)
  }

  /** `findByOfficer`. */
  function FindByOfficer(store: Store, officerNric: string): (r: Store)
    ensures forall k :: 0 <= k < |r| ==> r[k] in store && ListsOfficer(r[k], officerNric)
    ensures forall k :: 0 <= k < |store| && ListsOfficer(store[k], officerNric) ==> store[k] in r
  {
    Filter(store, (p: Project) => Any(p.officers, (o: string) => EqualsIgnoreCase(o, officerNric)))
  }

  /** An exact listing is also an assignment in the looser sense of
      `isOfficerAssigned`, so `findByOfficer` never returns a project the
      officer is not assigned to. */
  lemma ListedIsAssigned(p: Project, officerNric: string)
    requires ListsOfficer(p, officerNric)
    ensures IsOfficerAssigned(p, officerNric)
  {
    var k :| 0 <= k < |p.officers| && EqualsIgnoreCase(p.officers[k], officerNric);
    EqualEntryMatches(p.officers[k], officerNric);
  }

  /** An entry equal to the query ignoring case matches it: its trimmed,
      folded text sits inside the folded query where the trim began. */
  lemma EqualEntryMatches(e: string, q: string)
    requires EqualsIgnoreCase(e, q)
    ensures OfficerEntryMatches(e, q)
  {
    var t := Trim(e);
    TrimSlice(e);
    var i := |e| - |TrimStart(e)|;
    LowerSlice(e, i, i + |t|);
    assert Lower(q)[i..i + |t|] == Lower(t);
    assert OccursAt(Lower(q), Lower(t), i);
  }

  /** The test of `findByApplicationPeriod`: the date is neither before
      the opening date nor after the closing date. */
  function InPeriod(date: Date): Project -> bool
  {
    (p: Project) => !(date < p.open) && !(date > p.close)
  }

  /** `findByApplicationPeriod`: the date lies in the application window,
      both ends included. */
  function FindByApplicationPeriod(store: Store, date: Date): (r: Store)
    ensures forall k :: 0 <= k < |r| ==> r[k] in store && InWindow(WindowOf(r[k]), date)
    ensures forall k :: 0 <= k < |store| && InWindow(WindowOf(store[k]), date) ==> store[k] in r
  {
    Filter(store, InPeriod(date))
  }

  /** `findCurrentlyOpen`, with today passed in: the visible projects,
      then those whose window holds today. */
  function FindCurrentlyOpen(store: Store, today: Date): (r: Store)
  {
    Filter(Filter(store, IsVisible), InPeriod(today))
  }

  /** `findCurrentlyOpen` is one filter on visibility and
      `isCurrentlyOpen`, and the same as filtering the visible projects by
      application period. */
  lemma CurrentlyOpenIsOneFilter(store: Store, today: Date)
    ensures FindCurrentlyOpen(store, today)
         == Filter(store, (p: Project) => p.visible && IsCurrentlyOpen(p, today))
    ensures FindCurrentlyOpen(store, today) == FindByApplicationPeriod(FindAllVisible(store), today)
  {
    FilterFilter(store, IsVisible, InPeriod(today),
                 (p: Project) => p.visible && IsCurrentlyOpen(p, today));
  }

  /** `findByKeyword`: the lower-cased name or neighbourhood contains the
      lower-cased keyword. */
  predicate KeywordMatches(p: Project, keyword: string)
  {
    Contains(Lower(p.name), Lower(keyword)) || Contains(Lower(p.neighborhood), Lower(keyword))
  }

  function FindByKeyword(store: Store, keyword: string): (r: Store)
    ensures forall k :: 0 <= k < |r| ==> r[k] in store && KeywordMatches(r[k], keyword)
    ensures forall k :: 0 <= k < |store| && KeywordMatches(store[k], keyword) ==> store[k] in r
  {
    Filter(store, (p: Project) => KeywordMatches(p, keyword))
  }

  /** The empty keyword matches every project. */
  lemma EmptyKeywordFindsAll(store: Store)
    ensures FindByKeyword(store, "") == store
  {
    forall k | 0 <= k < |store|
      ensures KeywordMatches(store[k], "")
    {
      assert OccursAt(Lower(store[k].name), Lower(""), 0);
    }
    FilterKeepsAll(store, (p: Project) => KeywordMatches(p, ""));
  }

  /** Write a changed copy of the project with that id back through
      `save`. */
  function WriteBack(store: Store, id: int, change: Project -> Project): (r: Outcome)
    ensures r.ok <==> ExistsById(store, id)
    ensures !r.ok ==> r.store == store
    ensures r.ok ==> r.store == Save(store, change(FindById(store, id).value))
  {
    match FindById(store, id)
    case None => Outcome(false, store)
    case Some(p) => Outcome(true, Save(store, change(p)))
  }

  /** `updateVisibility`. */
  function UpdateVisibility(store: Store, id: int, visible: bool): (r: Outcome)
    ensures r.ok <==> ExistsById(store, id)
    ensures !r.ok ==> r.store == store
    ensures r.ok ==> |r.store| == |store|
    ensures r.ok ==> r.store[|r.store| - 1] == FindById(store, id).value.(visible := visible)
  {
    WriteBack(store, id, (p: Project) => p.(visible := visible))
  }

  /** With unique ids, the next lookup of the id finds the new flag and
      every other id finds what it found before. */
  lemma UpdateVisibilityReadBack(store: Store, id: int, visible: bool)
    requires UniqueIds(store) && ExistsById(store, id)
    ensures FindById(UpdateVisibility(store, id, visible).store, id)
         == Some(FindById(store, id).value.(visible := visible))
    ensures forall other :: other != id ==>
      FindById(UpdateVisibility(store, id, visible).store, other) == FindById(store, other)
  {
    SaveFinds(store, FindById(store, id).value.(visible := visible));
  }

  /** `updateAvailableUnits`: "2-Room" sets the type1 counter and
      "3-Room" the type2 counter, any value, negative included; any other
      flat type, or a missing id, fails with nothing written. */
  function UpdateAvailableUnits(store: Store, id: int, flatType: string, units: int): (r: Outcome)
    ensures r.ok <==> ExistsById(store, id) && FlatOf(flatType) != OtherFlat
    ensures !r.ok ==> r.store == store
    ensures r.ok ==> |r.store| == |store|
    ensures r.ok && FlatOf(flatType) == TwoRoom ==>
              r.store[|r.store| - 1] == WithType1Units(FindById(store, id).value, units)
    ensures r.ok && FlatOf(flatType) == ThreeRoom ==>
              r.store[|r.store| - 1] == WithType2Units(FindById(store, id).value, units)
  {
    match FlatOf(flatType)
    case TwoRoom => WriteBack(store, id, (p: Project) => WithType1Units(p, units))
    case ThreeRoom => WriteBack(store, id, (p: Project) => WithType2Units(p, units))
    case OtherFlat => Outcome(false, store)
  }

  /** With unique ids, the next lookup of the id finds the new count in
      the named slot, and every other id finds what it found before. */
  lemma UpdateUnitsReadBack(store: Store, id: int, flatType: string, units: int)
    requires UniqueIds(store) && UpdateAvailableUnits(store, id, flatType, units).ok
    ensures var after := FindById(UpdateAvailableUnits(store, id, flatType, units).store, id);
      after.Some? && UnitsOf(after.value, FlatOf(flatType)) == units
    ensures forall other :: other != id ==>
      FindById(UpdateAvailableUnits(store, id, flatType, units).store, other) == FindById(store, other)
  {
    var q := UpdateAvailableUnits(store, id, flatType, units).store[|store| - 1];
    assert q.id == id;
    SaveFinds(store, q);
  }

  /** The counter of the slot a flat type names. */
  function UnitsOf(p: Project, f: FlatKind): int
  {
    match f
    case TwoRoom => p.type1Units
    case ThreeRoom => p.type2Units
    case OtherFlat => 0
  }

  /** The project with one unit of the flat kind taken: the two-room
      counter for a two-room flat, the three-room counter otherwise. */
  function TakeUnit(p: Project, f: FlatKind): Project
  {
    if f == TwoRoom then WithType1Units(p, p.type1Units - 1)
    else WithType2Units(p, p.type2Units - 1)
  }

  /** `bookUnit`: the named slot's counter drops by one when it is
      positive; otherwise, or for another flat type or a missing id, the
      booking fails with nothing written. */
  function BookUnit(store: Store, id: int, flatType: string): (r: Outcome)
    ensures r.ok <==> ExistsById(store, id) && UnitsOf(FindById(store, id).value, FlatOf(flatType)) > 0
    ensures !r.ok ==> r.store == store
    ensures r.ok ==> |r.store| == |store|
    ensures r.ok ==> r.store[|r.store| - 1] == TakeUnit(FindById(store, id).value, FlatOf(flatType))
  {
    match FindById(store, id)
    case None => Outcome(false, store)
    case Some(p) =>
      var f := FlatOf(flatType);
      match f
      case TwoRoom =>
        if p.type1Units <= 0 then Outcome(false, store)
        else Outcome(true, Save(store, TakeUnit(p, f)))
      case ThreeRoom =>
        if p.type2Units <= 0 then Outcome(false, store)
        else Outcome(true, Save(store, TakeUnit(p, f)))
      case OtherFlat => Outcome(false, store)
  }

  /** No counter is negative. */
  predicate NonNegativeUnits(store: Store)
  {
    forall k :: 0 <= k < |store| ==> store[k].type1Units >= 0 && store[k].type2Units >= 0
  }

  /** Booking never drives a counter below zero. */
  lemma BookKeepsNonNegative(store: Store, id: int, flatType: string)
    requires NonNegativeUnits(store)
    ensures NonNegativeUnits(BookUnit(store, id, flatType).store)
  {
  }

  /** With unique ids, a booking is read back by the next lookup of the
      id: the named counter one lower, the other unchanged, and every other
      id unaffected. */
  lemma BookReadBack(store: Store, id: int, flatType: string)
    requires UniqueIds(store) && BookUnit(store, id, flatType).ok
    ensures var before := FindById(store, id).value;
      var after := FindById(BookUnit(store, id, flatType).store, id);
      after.Some?
      && UnitsOf(after.value, FlatOf(flatType)) == UnitsOf(before, FlatOf(flatType)) - 1
      && after.value.type1Units + after.value.type2Units == before.type1Units + before.type2Units - 1
      && after.value.(type1Units := before.type1Units, type2Units := before.type2Units) == before
    ensures forall other :: other != id ==>
      FindById(BookUnit(store, id, flatType).store, other) == FindById(store, other)
  {
    var before := FindById(store, id).value;
    var q := BookUnit(store, id, flatType).store[|store| - 1];
    assert q.id == id;
    SaveFinds(store, q);
  }
}

=== FILE: project_service.dfy ===
/** The project service: availability, the eligible-project listing, and
    the listings it passes through to the repository. */
module ProjectService {
  import opened Wrappers
  import opened Text
  import opened Dates
  import opened Seqs
  import opened Projects
  import opened InputValidator
  import opened ProjectRepository

  /** `hasAvailableUnits`: the slot the flat type names has stock. A
      missing project or another flat type has none. */
  function HasAvailableUnits(store: Store, id: int, flatType: string): (r: bool)
    ensures r <==> ExistsById(store, id) && UnitsOf(FindById(store, id).value, FlatOf(flatType)) > 0
    ensures r <==> BookUnit(store, id, flatType).ok
  {
    match FindById(store, id)
    case None => false
    case Some(p) =>
      if EqualsIgnoreCase(TWO_ROOM, flatType) then p.type1Units > 0
      else if EqualsIgnoreCase(THREE_ROOM, flatType) then p.type2Units > 0
      else false
  }

  /** The age test of `getEligibleProjects`: the Single validator for a
      Single applicant, the Married one for a Married applicant, and false
      for anyone else. */
  function AgeEligible(age: int, maritalStatus: string): (r: bool)
    ensures r <==> PolicyAge(MaritalOf(maritalStatus), age)
  {
    if EqualsIgnoreCase(SINGLE, maritalStatus) then ValidateSingleApplicantAge(age, maritalStatus)
    else if EqualsIgnoreCase(MARRIED, maritalStatus) then ValidateMarriedApplicantAge(age, maritalStatus)
    else false
  }

  /** The test `getEligibleProjects` applies to each visible project. */
  predicate EligibleFor(p: Project, age: int, maritalStatus: string)
  {
    var eligible2Room := ValidateFlatTypeEligibility(TWO_ROOM, maritalStatus);
    var eligible3Room := ValidateFlatTypeEligibility(THREE_ROOM, maritalStatus);
    AgeEligible(age, maritalStatus)
    && ((eligible2Room && p.type1Units > 0) || (eligible3Room && p.type2Units > 0))
  }

  /** The test as a function on projects, for filtering. */
  function Eligible(age: int, maritalStatus: string): Project -> bool
  {
    (p: Project) => EligibleFor(p, age, maritalStatus)
  }

  /** The same test read off the policy table: the age rule of the
      applicant's status, and stock in a slot that status may take. */
  predicate PolicyOffers(p: Project, m: Marital, age: int)
  {
    PolicyAge(m, age)
    && ((PolicyAllowsFlat(m, TwoRoom) && p.type1Units > 0)
        || (PolicyAllowsFlat(m, ThreeRoom) && p.type2Units > 0))
  }

  lemma EligibleIsPolicy(p: Project, age: int, maritalStatus: string)
    ensures EligibleFor(p, age, maritalStatus) <==> PolicyOffers(p, MaritalOf(maritalStatus), age)
  {
    LiteralsDistinct();
    assert FlatOf(TWO_ROOM) == TwoRoom;
    assert FlatOf(THREE_ROOM) == ThreeRoom;
  }

  /** `getEligibleProjects`: the visible projects that pass the test, in
      order. */
  function GetEligibleProjects(store: Store, age: int, maritalStatus: string): (r: Store)
    ensures forall k :: 0 <= k < |r| ==>
              r[k] in store && r[k].visible && PolicyOffers(r[k], MaritalOf(maritalStatus), age)
    ensures forall k :: 0 <= k < |store| ==>
              (store[k].visible && PolicyOffers(store[k], MaritalOf(maritalStatus), age) ==> store[k] in r)
  {
    var r := Filter(FindAllVisible(store), Eligible(age, maritalStatus));
    forall k | 0 <= k < |r|
      ensures PolicyOffers(r[k], MaritalOf(maritalStatus), age)
    {
      EligibleIsPolicy(r[k], age, maritalStatus);
    }
    forall k | 0 <= k < |store| && store[k].visible && PolicyOffers(store[k], MaritalOf(maritalStatus), age)
      ensures store[k] in r
    {
      EligibleIsPolicy(store[k], age, maritalStatus);
    }
    r
  }

  /** A Single applicant is offered only projects with 2-Room stock, so
      never one whose only stock is in the 3-Room slot. */
  lemma SingleNeedsTwoRoomStock(store: Store, age: int, maritalStatus: string)
    requires MaritalOf(maritalStatus) == Single
    ensures forall k :: 0 <= k < |GetEligibleProjects(store, age, maritalStatus)| ==>
              GetEligibleProjects(store, age, maritalStatus)[k].type1Units > 0
  {
  }

  /** An unrecognised marital status is offered nothing. */
  lemma UnrecognisedGetsNothing(store: Store, age: int, maritalStatus: string)
    requires MaritalOf(maritalStatus) == Unrecognised
    ensures GetEligibleProjects(store, age, maritalStatus) == []
  {
    var visible := FindAllVisible(store);
    forall k | 0 <= k < |visible|
      ensures !Eligible(age, maritalStatus)(visible[k])
    {
      EligibleIsPolicy(visible[k], age, maritalStatus);
    }
    FilterKeepsNone(visible, Eligible(age, maritalStatus));
  }

  /** `getCurrentlyOpenProjects`, with today passed in: the visible
      projects filtered by period, which is the repository's
      `findCurrentlyOpen`. */
  function GetCurrentlyOpenProjects(store: Store, today: Date): (r: Store)
    ensures r == Filter(store, (p: Project) => p.visible && IsCurrentlyOpen(p, today))
  {
    CurrentlyOpenIsOneFilter(store, today);
    FindByApplicationPeriod(FindAllVisible(store), today)
  }
}

=== FILE: registration_service.dfy ===
/** The officer registration service: whether an officer may ask to
    join a project, the per-project cap on pending requests, and the
    approve / reject calls. The registration file's data lines and the
    project list are passed in. */
module RegistrationService {
  import opened Wrappers
  import opened Text
  import opened Numbers
  import opened Seqs
  import opened Registrations
  import ProjectRepository

  /** `hasReachedRegistrationLimit`: as many pending requests as the
      project has officer slots; a project that does not exist counts as
      full. */
  function HasReachedRegistrationLimit(projects: ProjectRepository.Store, pairs: seq<Pair>,
                                       projectId: int): (r: bool)
    ensures !ProjectRepository.ExistsById(projects, projectId) ==> r
    ensures ProjectRepository.ExistsById(projects, projectId) ==>
      (r <==> |FindPendingByProject(pairs, projectId)|
                >= ProjectRepository.FindById(projects, projectId).value.officerSlots)
  {
    match ProjectRepository.FindById(projects, projectId)
    case None => true
    case Some(p) => PendingCount(pairs, projectId) >= p.officerSlots
  }

  /** `isEligibleForRegistration`: the project exists, the officer has
      no request pending for it, and it is below its cap. */
  function IsEligibleForRegistration(projects: ProjectRepository.Store, pairs: seq<Pair>,
                                     nric: string, projectId: int): (r: bool)
    ensures r <==>
      ProjectRepository.ExistsById(projects, projectId)
      && projectId !in FindPendingByOfficer(pairs, nric)
      && |FindPendingByProject(pairs, projectId)|
           < ProjectRepository.FindById(projects, projectId).value.officerSlots
  {
    if !ProjectRepository.ExistsById(projects, projectId) then false
    else if HasPendingRegistration(pairs, nric, projectId) then false
    else !HasReachedRegistrationLimit(projects, pairs, projectId)
  }

  /** `registerForProject`: a missing project is refused before the file
      is read; otherwise the file is loaded (an unreadable id throws,
      `None`), the eligibility test applied, and the request handed to
      `addOfficerRegistration`. */
  function RegisterForProject(projects: ProjectRepository.Store, lines: seq<string>,
                              nric: string, projectId: int): (r: Option<Added>)
    ensures r.None? <==> ProjectRepository.ExistsById(projects, projectId) && Any(lines, UnreadableTest())
    ensures r.Some? && !r.value.ok ==> r.value.lines == lines
    ensures r.Some? && r.value.ok ==> r.value.lines == lines + [RegistrationLine(nric, projectId)]
    ensures r.Some? ==>
      (r.value.ok <==>
        ProjectRepository.ExistsById(projects, projectId)
        && IsEligibleForRegistration(projects, LoadRegistrations(lines).value, nric, projectId)
        && PendingCount(LoadRegistrations(lines).value, projectId) < REGISTRATION_LIMIT)
  {
    if !ProjectRepository.ExistsById(projects, projectId) then Some(Added(false, lines))
    else
      match LoadRegistrations(lines)
      case None => None
      case Some(pairs) =>
        if !IsEligibleForRegistration(projects, pairs, nric, projectId) then Some(Added(false, lines))
        else AddOfficerRegistration(lines, nric, projectId)
  }

  /** An accepted request keeps the project within both caps: its pending
      requests never exceed its officer slots, nor the file's limit. */
  lemma RegistrationWithinCaps(projects: ProjectRepository.Store, lines: seq<string>,
                               nric: string, projectId: int)
    requires IsInt32(projectId) && ',' !in nric
    requires RegisterForProject(projects, lines, nric, projectId).Some?
    requires RegisterForProject(projects, lines, nric, projectId).value.ok
    ensures var after := LoadRegistrations(RegisterForProject(projects, lines, nric, projectId).value.lines);
      after.Some?
      && PendingCount(after.value, projectId)
           <= ProjectRepository.FindById(projects, projectId).value.officerSlots
      && PendingCount(after.value, projectId) <= REGISTRATION_LIMIT
  {
    AddedReadsBack(lines, nric, projectId);
  }

  /** Asking twice is refused the second time: the first request is
      pending. */
  lemma SecondRequestRefused(projects: ProjectRepository.Store, lines: seq<string>,
                             nric: string, projectId: int)
    requires IsInt32(projectId) && ',' !in nric && IsTrimmed(nric)
    requires RegisterForProject(projects, lines, nric, projectId).Some?
    requires RegisterForProject(projects, lines, nric, projectId).value.ok
    ensures var once := RegisterForProject(projects, lines, nric, projectId).value.lines;
      RegisterForProject(projects, once, nric, projectId) == Some(Added(false, once))
  {
    AddedReadsBack(lines, nric, projectId);
    TrimOfTrimmed(nric);
  }

  /** `approveRegistration` and `rejectRegistration`: a request that is
      not pending is refused; a pending one goes to the repository's
      `approve` or `reject`, both stubs that answer false, so neither
      decision ever succeeds and the two cannot be told apart. */
  function DecideRegistration(pairs: seq<Pair>, nric: string, projectId: int): (r: bool)
    ensures !r
  {
    if !HasPendingRegistration(pairs, nric, projectId) then false
    else RepositoryStub()
  }

  /** The repository's `approve` and `reject`. */
  function RepositoryStub(): bool
  {
    false
  }

  /** The requests for one project, as pairs. */
  function WithProject(nrics: seq<string>, projectId: int): (r: seq<Pair>)
    ensures forall x: Pair :: x in r <==> x.projectId == projectId && x.nric in nrics
  {
    if |nrics| == 0 then []
    else [Pair(nrics[0], projectId)] + WithProject(nrics[1..], projectId)
  }

  /** `getAllPendingRegistrations`: project by project, in list order,
      the requests for that project. A request for a project that is not
      in the list is not reported. */
  function GetAllPendingRegistrations(projects: ProjectRepository.Store, pairs: seq<Pair>): (r: seq<Pair>)
    ensures forall x: Pair :: x in r <==> x in pairs && ProjectRepository.ExistsById(projects, x.projectId)
  {
    if |projects| == 0 then []
    else
      var id := projects[0].id;
      var rest := GetAllPendingRegistrations(projects[1..], pairs);
      assert forall x: Pair :: x.projectId == id ==>
        (x.nric in FindPendingByProject(pairs, id) <==> x in pairs);
      assert forall k :: 0 <= k < |projects| - 1 ==> projects[1..][k] == projects[k + 1];
      WithProject(FindPendingByProject(pairs, id), id) + rest
  }
}

=== FILE: registrations.dfy ===
/** The officer registration file: one `NRIC,projectId` line per pending
    request, read by the CSV registration repository, the officer menu
    and the manager's review screen, and appended to by
    `FileManager.addOfficerRegistration`. The data lines (the header
    excluded) are passed in and returned. */
module Registrations {
  import opened Wrappers
  import opened Text
  import opened Numbers
  import opened Seqs

  /** `addOfficerRegistration` refuses a request once this many are on
      file for the project. */
  const REGISTRATION_LIMIT: int := 10

  /** A line of the registration file, split on commas: fewer than two
      pieces is malformed; otherwise the trimmed NRIC and the project id,
      which `Integer.parseInt` may fail to read. */
  datatype RegistrationRow = Malformed | Row(nric: string, projectId: Option<int>)

  function ParseRegistrationLine(line: string): (r: RegistrationRow)
    ensures r.Malformed? <==> |Split(line, ',')| < 2
  {
    var tokens := Split(line, ',');
    if |tokens| < 2 then Malformed
    else Row(Trim(tokens[0]), ParseInt(Trim(tokens[1])))
  }

  /** A line whose project id `Integer.parseInt` rejects. */
  predicate Unreadable(line: string)
  {
    ParseRegistrationLine(line).Row? && ParseRegistrationLine(line).projectId.None?
  }

  function UnreadableTest(): string -> bool
  {
    (line: string) => Unreadable(line)
  }

  /** The line `addOfficerRegistration` appends. */
  function RegistrationLine(nric: string, projectId: int): string
  {
    nric + [','] + ShowInt(projectId)
  }

  /** An appended line reads back as the trimmed NRIC and the same id. */
  lemma RegistrationLineReadsBack(nric: string, projectId: int)
    requires IsInt32(projectId) && ',' !in nric
    ensures ParseRegistrationLine(RegistrationLine(nric, projectId)) == Row(Trim(nric), Some(projectId))
  {
    var shown := ShowInt(projectId);
    ShowIntChars(projectId);
    assert ',' !in shown;
    assert Join([nric, shown], ',') == RegistrationLine(nric, projectId);
    SplitJoinTrailing([nric, shown], ',');
    assert DropTrailingEmpty([nric, shown]) == [nric, shown];
    assert IsTrimmed(shown);
    TrimOfTrimmed(shown);
    ParseShowInt(projectId);
  }

  /** A request as the repository loads it. */
  datatype Pair = Pair(nric: string, projectId: int)

  /** `loadRegistrations`: every line with two or more pieces, in file
      order. A project id that does not parse throws out of the caller,
      which is `None` here. */
  function LoadRegistrations(lines: seq<string>): (r: Option<seq<Pair>>)
    ensures r.None? <==> Any(lines, UnreadableTest())
    ensures r.Some? ==> |r.value| <= |lines|
    decreases |lines|
  {
    if |lines| == 0 then Some([])
    else
      AnyFirstRest(lines, UnreadableTest());
      match ParseRegistrationLine(lines[0])
      case Malformed => LoadRegistrations(lines[1..])
      case Row(nric, None) => None
      case Row(nric, Some(id)) =>
        match LoadRegistrations(lines[1..])
        case None => None
        case Some(rest) => Some([Pair(nric, id)] + rest)
  }

  /** The request a single line holds, if it holds one. */
  function ReadPair(line: string): Option<Pair>
  {
    match ParseRegistrationLine(line)
    case Row(nric, Some(id)) => Some(Pair(nric, id))
    case _ => None
  }

  function ReadPairFn(): string -> Option<Pair>
  {
    (line: string) => ReadPair(line)
  }

  /** Whenever the whole file loads, it loads as each line read on its
      own, malformed lines contributing nothing. */
  lemma {:induction false} LoadReadsEachLine(lines: seq<string>)
    requires LoadRegistrations(lines).Some?
    ensures LoadRegistrations(lines).value == FilterMap(lines, ReadPairFn())
    decreases |lines|
  {
    if |lines| > 0 {
      LoadReadsEachLine(lines[1..]);
    }
  }

  /** Appending a readable line appends its request. */
  lemma {:induction false} LoadAppend(lines: seq<string>, line: string, nric: string, projectId: int)
    requires ParseRegistrationLine(line) == Row(nric, Some(projectId))
    ensures LoadRegistrations(lines + [line]) ==
      if LoadRegistrations(lines).None? then None
      else Some(LoadRegistrations(lines).value + [Pair(nric, projectId)])
    decreases |lines|
  {
    if |lines| == 0 {
      assert lines + [line] == [line] && [line][0] == line && [line][1..] == [];
      assert LoadRegistrations(lines) == Some([]) && LoadRegistrations([line][1..]) == Some([]);
      assert [Pair(nric, projectId)] + [] == [] + [Pair(nric, projectId)];
    } else {
      assert (lines + [line])[0] == lines[0];
      assert (lines + [line])[1..] == lines[1..] + [line];
      LoadAppend(lines[1..], line, nric, projectId);
      match ParseRegistrationLine(lines[0])
      case Malformed =>
      case Row(n, None) =>
      case Row(n, Some(id)) =>
        if LoadRegistrations(lines[1..]).Some? {
          var rest := LoadRegistrations(lines[1..]).value;
          var added := Pair(nric, projectId);
          assert [Pair(n, id)] + (rest + [added]) == ([Pair(n, id)] + rest) + [added];
        }
    }
  }

  function ProjectTest(projectId: int): Pair -> bool
  {
    (x: Pair) => x.projectId == projectId
  }

  /** `findPendingByOfficer`: the project ids of the requests whose NRIC
      matches, ignoring case, in file order. */
  function FindPendingByOfficer(pairs: seq<Pair>, nric: string): (r: seq<int>)
    ensures |r| <= |pairs|
    ensures forall id :: id in r <==>
      exists k :: 0 <= k < |pairs| && EqualsIgnoreCase(pairs[k].nric, nric) && pairs[k].projectId == id
  {
    if |pairs| == 0 then []
    else
      var rest := FindPendingByOfficer(pairs[1..], nric);
      assert forall k :: 0 <= k < |pairs| - 1 ==> pairs[1..][k] == pairs[k + 1];
      (if EqualsIgnoreCase(pairs[0].nric, nric) then [pairs[0].projectId] else []) + rest
  }

  /** `findPendingByProject`: the NRICs of the requests for the project,
      in file order. */
  function FindPendingByProject(pairs: seq<Pair>, projectId: int): (r: seq<string>)
    ensures |r| <= |pairs|
    ensures forall n :: n in r <==>
      exists k :: 0 <= k < |pairs| && pairs[k].projectId == projectId && pairs[k].nric == n
  {
    if |pairs| == 0 then []
    else
      var rest := FindPendingByProject(pairs[1..], projectId);
      assert forall k :: 0 <= k < |pairs| - 1 ==> pairs[1..][k] == pairs[k + 1];
      (if pairs[0].projectId == projectId then [pairs[0].nric] else []) + rest
  }

  function PairTest(nric: string, projectId: int): Pair -> bool
  {
    (x: Pair) => EqualsIgnoreCase(x.nric, nric) && x.projectId == projectId
  }

  /** `hasPendingRegistration`. */
  function HasPendingRegistration(pairs: seq<Pair>, nric: string, projectId: int): (r: bool)
    ensures r <==> projectId in FindPendingByOfficer(pairs, nric)
  {
    Any(pairs, PairTest(nric, projectId))
  }

  /** `getPendingRegistrationCount`: the number of requests for the
      project. */
  function PendingCount(pairs: seq<Pair>, projectId: int): (n: nat)
    ensures n == |FindPendingByProject(pairs, projectId)|
  {
    CountsAgree(pairs, projectId);
    Count(pairs, ProjectTest(projectId))
  }

  lemma {:induction false} CountsAgree(pairs: seq<Pair>, projectId: int)
    ensures Count(pairs, ProjectTest(projectId)) == |FindPendingByProject(pairs, projectId)|
  {
    if |pairs| > 0 {
      CountsAgree(pairs[1..], projectId);
    }
  }

  /** The outcome of a write: whether it was made, and the lines after. */
  datatype Added = Added(ok: bool, lines: seq<string>)

  /** `addOfficerRegistration`: the lines are read as `loadRegistrations`
      reads them (an unreadable id throws); a project that already has
      `REGISTRATION_LIMIT` requests refuses, otherwise the request is
      appended. */
  function AddOfficerRegistration(lines: seq<string>, nric: string, projectId: int): (r: Option<Added>)
    ensures r.None? <==> Any(lines, UnreadableTest())
    ensures r.Some? ==>
      (r.value.ok <==> PendingCount(LoadRegistrations(lines).value, projectId) < REGISTRATION_LIMIT)
    ensures r.Some? && !r.value.ok ==> r.value.lines == lines
    ensures r.Some? && r.value.ok ==> r.value.lines == lines + [RegistrationLine(nric, projectId)]
  {
    match LoadRegistrations(lines)
    case None => None
    case Some(pairs) =>
      if Count(pairs, ProjectTest(projectId)) >= REGISTRATION_LIMIT then Some(Added(false, lines))
      else Some(Added(true, lines + [RegistrationLine(nric, projectId)]))
  }

  /** An accepted request is read back by the next load: one more
      request for the project, still within the limit, found for the
      trimmed NRIC, and the other projects' counts unchanged. */
  lemma AddedReadsBack(lines: seq<string>, nric: string, projectId: int)
    requires IsInt32(projectId) && ',' !in nric
    requires AddOfficerRegistration(lines, nric, projectId).Some?
    requires AddOfficerRegistration(lines, nric, projectId).value.ok
    ensures var before := LoadRegistrations(lines).value;
      var after := LoadRegistrations(AddOfficerRegistration(lines, nric, projectId).value.lines);
      after == Some(before + [Pair(Trim(nric), projectId)])
      && PendingCount(after.value, projectId) == PendingCount(before, projectId) + 1 <= REGISTRATION_LIMIT
      && HasPendingRegistration(after.value, Trim(nric), projectId)
      && forall other :: other != projectId ==> PendingCount(after.value, other) == PendingCount(before, other)
  {
    var before := LoadRegistrations(lines).value;
    var after := before + [Pair(Trim(nric), projectId)];
    RegistrationLineReadsBack(nric, projectId);
    LoadAppend(lines, RegistrationLine(nric, projectId), Trim(nric), projectId);
    forall other
      ensures Count(after, ProjectTest(other)) == Count(before, ProjectTest(other))
                + (if other == projectId then 1 else 0)
    {
      CountSnoc(before, Pair(Trim(nric), projectId), ProjectTest(other));
    }
    assert after[|before|] == Pair(Trim(nric), projectId);
    assert PairTest(Trim(nric), projectId)(after[|before|]);
  }

  /** A line whose NRIC matches and whose project id does not parse. */
  function UnreadableForTest(nric: string): string -> bool
  {
    (line: string) => Unreadable(line) && EqualsIgnoreCase(ParseRegistrationLine(line).nric, nric)
  }

  /** The officer menu's own reading of the file: the project ids of the
      lines whose NRIC matches, ignoring case. Only those lines have
      their id parsed, so only they can throw. */
  function PendingIdsOf(lines: seq<string>, nric: string): (r: Option<seq<int>>)
    ensures r.None? <==> Any(lines, UnreadableForTest(nric))
    decreases |lines|
  {
    if |lines| == 0 then Some([])
    else
      AnyFirstRest(lines, UnreadableForTest(nric));
      match ParseRegistrationLine(lines[0])
      case Malformed => PendingIdsOf(lines[1..], nric)
      case Row(n, id) =>
        if !EqualsIgnoreCase(n, nric) then PendingIdsOf(lines[1..], nric)
        else
          match id
          case None => None
          case Some(v) =>
            match PendingIdsOf(lines[1..], nric)
            case None => None
            case Some(rest) => Some([v] + rest)
  }

  /** Wherever the repository can load the file, the menu reads the same
      pending ids for the officer as `findPendingByOfficer`. */
  lemma {:induction false} PendingIdsAgree(lines: seq<string>, nric: string)
    requires LoadRegistrations(lines).Some?
    ensures PendingIdsOf(lines, nric) == Some(FindPendingByOfficer(LoadRegistrations(lines).value, nric))
    decreases |lines|
  {
    if |lines| > 0 {
      PendingIdsAgree(lines[1..], nric);
      match ParseRegistrationLine(lines[0])
      case Malformed =>
      case Row(n, None) =>
      case Row(n, Some(id)) =>
        var rest := LoadRegistrations(lines[1..]).value;
        var pairs := [Pair(n, id)] + rest;
        assert LoadRegistrations(lines).value == pairs;
        assert pairs[0] == Pair(n, id) && pairs[1..] == rest;
        assert FindPendingByOfficer(pairs, nric)
            == (if EqualsIgnoreCase(n, nric) then [id] else []) + FindPendingByOfficer(rest, nric);
        if EqualsIgnoreCase(n, nric) {
          assert PendingIdsOf(lines, nric) == Some([id] + FindPendingByOfficer(rest, nric));
        } else {
          assert PendingIdsOf(lines, nric) == Some(FindPendingByOfficer(rest, nric));
          assert [] + FindPendingByOfficer(rest, nric) == FindPendingByOfficer(rest, nric);
        }
    }
  }
}

=== FILE: report_controller.dfy ===
/** The report controller: the same two reports as the report service,
    computed from a mixed list of users and from the booking counts of
    the applicant file. */
module ReportController {
  import opened Wrappers
  import opened Text
  import opened Seqs
  import opened ApplicationStatus
  import opened InputValidator
  import opened Projects
  import opened Applicants
  import opened ReportService
  import ApplicantFile

  /** Adding one user to the list adds its applicant, if it is one. */
  lemma ApplicantsOfPrefix(users: seq<User>, i: nat)
    requires i < |users|
    ensures ApplicantsOf(users[..i + 1])
         == ApplicantsOf(users[..i]) + (if users[i].ApplicantUser? then [users[i].applicant] else [])
  {
    assert users[..i + 1] == users[..i] + [users[i]];
    FilterMapAppend(users[..i], [users[i]], AsApplicant);
    FilterMapSingle(users[i], AsApplicant);
  }

  /** `generateApplicantReport` over users: a user that is not an
      applicant is skipped before anything is counted, so the controller's
      summary is the service's summary of the applicants among the users,
      and its four counters never exceed its total. */
  method UserReport(users: seq<User>) returns (r: Summary)
    ensures r.total == |ApplicantsOf(users)|
    ensures r.pending == Count(ApplicantsOf(users), StatusIs(Pending))
    ensures r.successful == Count(ApplicantsOf(users), StatusIs(Successful))
    ensures r.booked == Count(ApplicantsOf(users), StatusIs(Booked))
    ensures r.rejected == Count(ApplicantsOf(users), StatusIs(Unsuccessful))
    ensures r.pending + r.successful + r.booked + r.rejected <= r.total
  {
    var total, pending, success, booked, rejected := 0, 0, 0, 0, 0;
    ghost var seen: seq<Applicant> := [];
    for i := 0 to |users|
      invariant seen == ApplicantsOf(users[..i])
      invariant total == |seen|
      invariant pending == Count(seen, StatusIs(Pending))
      invariant success == Count(seen, StatusIs(Successful))
      invariant booked == Count(seen, StatusIs(Booked))
      invariant rejected == Count(seen, StatusIs(Unsuccessful))
    {
      ApplicantsOfPrefix(users, i);
      if !users[i].ApplicantUser? {
        assert seen + [] == seen;
        continue;
      }
      var a := users[i].applicant;
      CountSnoc(seen, a, StatusIs(Pending));
      CountSnoc(seen, a, StatusIs(Successful));
      CountSnoc(seen, a, StatusIs(Booked));
      CountSnoc(seen, a, StatusIs(Unsuccessful));
      seen := seen + [a];
      total := total + 1;
      match a.status {
        case Pending => pending := pending + 1;
        case Successful => success := success + 1;
        case Booked => booked := booked + 1;
        case Unsuccessful => rejected := rejected + 1;
        case _ =>
      }
    }
    assert users[..|users|] == users;
    StatusCountsPartition(seen);
    r := Summary(total, pending, success, booked, rejected);
  }

  /** `generateFlatBookingReport`, one project: the booked counts come
      from the project service, which reads them off the applicant file.
      On the same records the row is the report service's row. */
  function ControllerRowOf(applicants: seq<Applicant>, p: Project): (r: BookingRow)
    ensures r == BookingRowOf(applicants, p)
  {
    BookingRow(Line(p.type1Units, ApplicantFile.BookedUnits(applicants, p.id, TWO_ROOM)),
               Line(p.type2Units, ApplicantFile.BookedUnits(applicants, p.id, THREE_ROOM)))
  }

  /** `generateFlatBookingReport`: one row per project, in order, each
      the report service's row for it. */
  function ControllerBookingReport(applicants: seq<Applicant>, projects: seq<Project>): (r: seq<BookingRow>)
    ensures r == FlatBookingReport(applicants, projects)
  {
    seq(|projects|, k requires 0 <= k < |projects| => ControllerRowOf(applicants, projects[k]))
  }
}

=== FILE: report_service.dfy ===
/** The report service: the applicant report's counters, the flat
    booking report's booked and original unit counts, the per-project
    status counts, the report filters, and the booking receipt. The
    applicant and project records are passed in; the report text itself
    is not modelled, only the numbers and choices that go into it. */
module ReportService {
  import opened Wrappers
  import opened Numbers
  import opened Text
  import opened Seqs
  import opened ApplicationStatus
  import opened InputValidator
  import opened Projects
  import opened Applicants
  import ApplicationRepository
  import ProjectRepository
  import ApplicantFile
  import OfficerMenu
  import Officers

  /** A user as the user repository hands it back. Officers and managers
      are users but not applicants. */
  datatype User = ApplicantUser(applicant: Applicant) | StaffUser(nric: string)

  function NricOf(u: User): string
  {
    match u
    case ApplicantUser(a) => a.nric
    case StaffUser(n) => n
  }

  function AsApplicant(u: User): Option<Applicant>
  {
    match u
    case ApplicantUser(a) => Some(a)
    case StaffUser(_) => None
  }

  /** The applicants among the users, in order. */
  function ApplicantsOf(users: seq<User>): (r: seq<Applicant>)
  {
    FilterMap(users, AsApplicant)
  }

  function StatusIs(s: Status): Applicant -> bool
  {
    (x: Applicant) => x.status == s
  }

  // ---------------------------------------------------------------------
  // The applicant report

  /** The five numbers of an applicant report's summary. */
  datatype Summary = Summary(total: nat, pending: nat, successful: nat, booked: nat, rejected: nat)

  /** Every record has exactly one of the six statuses: the four counted
      ones and the two the report leaves out add up to the whole list. */
  lemma {:induction false} StatusCountsPartition(s: seq<Applicant>)
    ensures Count(s, StatusIs(Pending)) + Count(s, StatusIs(Successful))
          + Count(s, StatusIs(Booked)) + Count(s, StatusIs(Unsuccessful))
          + Count(s, StatusIs(NotApplied)) + Count(s, StatusIs(PendingWithdrawal))
         == |s|
  {
    if |s| > 0 {
      StatusCountsPartition(s[1..]);
    }
  }

  /** `generateApplicantReport`: one pass over the list, counting every
      record in the total and PENDING, SUCCESSFUL, BOOKED and UNSUCCESSFUL
      records in their own counters. NOT_APPLIED and PENDING_WITHDRAWAL
      records fall through the switch, so the counters may fall short of
      the total by exactly those. */
  method ApplicantReport(applicants: seq<Applicant>) returns (r: Summary)
    ensures r.total == |applicants|
    ensures r.pending == Count(applicants, StatusIs(Pending))
    ensures r.successful == Count(applicants, StatusIs(Successful))
    ensures r.booked == Count(applicants, StatusIs(Booked))
    ensures r.rejected == Count(applicants, StatusIs(Unsuccessful))
    ensures r.pending + r.successful + r.booked + r.rejected
          + Count(applicants, StatusIs(NotApplied)) + Count(applicants, StatusIs(PendingWithdrawal))
         == r.total
  {
    var total, pending, success, booked, rejected := 0, 0, 0, 0, 0;
    for i := 0 to |applicants|
      invariant total == i
      invariant pending == Count(applicants[..i], StatusIs(Pending))
      invariant success == Count(applicants[..i], StatusIs(Successful))
      invariant booked == Count(applicants[..i], StatusIs(Booked))
      invariant rejected == Count(applicants[..i], StatusIs(Unsuccessful))
    {
      CountPrefix(applicants, i, StatusIs(Pending));
      CountPrefix(applicants, i, StatusIs(Successful));
      CountPrefix(applicants, i, StatusIs(Booked));
      CountPrefix(applicants, i, StatusIs(Unsuccessful));
      total := total + 1;
      match applicants[i].status {
        case Pending => pending := pending + 1;
        case Successful => success := success + 1;
        case Booked => booked := booked + 1;
        case Unsuccessful => rejected := rejected + 1;
        case _ =>
      }
    }
    assert applicants[..|applicants|] == applicants;
    StatusCountsPartition(applicants);
    r := Summary(total, pending, success, booked, rejected);
  }

  // ---------------------------------------------------------------------
  // The flat booking report

  function FlatIs(flatType: string): Applicant -> bool
  {
    (x: Applicant) => EqualsIgnoreCase(x.flatType, flatType)
  }

  function InProject(projectId: int): Applicant -> bool
  {
    (x: Applicant) => x.appliedProjectId == projectId
  }

  /** `getBookedUnitsCount`: the project's records, then the BOOKED ones,
      then those of the flat type ignoring case. It counts exactly what
      `FileManager.getBookedUnits` counts in the same records. */
  function BookedUnitsCount(store: ApplicationRepository.Store, projectId: int, flatType: string): (n: nat)
    ensures n == ApplicantFile.BookedUnits(store, projectId, flatType)
  {
    var mine := ApplicationRepository.FindByProject(store, projectId);
    BookedCountsAgree(store, projectId, flatType);
    |Filter(Filter(mine, StatusIs(Booked)), FlatIs(flatType))|
  }

  function BookedTest(projectId: int, flatType: string): Applicant -> bool
  {
    (x: Applicant) => x.appliedProjectId == projectId && EqualsIgnoreCase(flatType, x.flatType)
                      && x.status == Booked
  }

  /** The three filters in a row count the records that pass all three. */
  lemma BookedCountsAgree(store: ApplicationRepository.Store, projectId: int, flatType: string)
    ensures |Filter(Filter(ApplicationRepository.FindByProject(store, projectId), StatusIs(Booked)),
                    FlatIs(flatType))|
         == ApplicantFile.BookedUnits(store, projectId, flatType)
  {
    var booked := (x: Applicant) => x.appliedProjectId == projectId && x.status == Booked;
    FilterSame(store, (x: Applicant) => x.appliedProjectId == projectId, InProject(projectId));
    FilterFilter(store, InProject(projectId), StatusIs(Booked), booked);
    FilterFilter(store, booked, FlatIs(flatType), BookedTest(projectId, flatType));
    CountIsFilterLength(store, BookedTest(projectId, flatType));
    CountSame(store, BookedTest(projectId, flatType),
              (x: Applicant) => x.appliedProjectId == projectId && EqualsIgnoreCase(flatType, x.flatType)
                                && x.status == Booked);
  }

  /** One flat type's line of the report: units left, units booked and
      the original supply, which is put back together as left plus
      booked. */
  datatype FlatLine = FlatLine(left: int, booked: nat, original: int)

  /** A project's two lines. */
  datatype BookingRow = BookingRow(twoRoom: FlatLine, threeRoom: FlatLine)

  /** The sum is Java `int` addition: while it fits, the original supply
      less the units left is the units booked; past the largest `int` it
      wraps around and the line no longer adds up. */
  function Line(left: int, booked: nat): (l: FlatLine)
    ensures l.left == left && l.booked == booked && IsInt32(l.original)
    ensures IsInt32(left + booked) ==> l.original - l.left == l.booked
  {
    FlatLine(left, booked, ToInt32(left + booked))
  }

  /** Past the largest `int` the line does not add up: the printed
      original supply less the units left is not the units booked. */
  lemma LineWraps(left: int, booked: nat)
    requires !IsInt32(left + booked)
    ensures Line(left, booked).original - left != booked
  {
  }

  /** `generateFlatBookingReport`, one project: the 2-Room line pairs the
      type-1 stock with the 2-Room bookings, the 3-Room line the type-2
      stock with the 3-Room bookings. */
  function BookingRowOf(store: ApplicationRepository.Store, p: Project): (r: BookingRow)
    ensures r.twoRoom.left == p.type1Units && r.threeRoom.left == p.type2Units
    ensures r.twoRoom.booked == ApplicantFile.BookedUnits(store, p.id, TWO_ROOM)
    ensures r.threeRoom.booked == ApplicantFile.BookedUnits(store, p.id, THREE_ROOM)
    ensures IsInt32(p.type1Units + r.twoRoom.booked) ==>
              r.twoRoom.original - r.twoRoom.left == ApplicantFile.BookedUnits(store, p.id, TWO_ROOM)
    ensures IsInt32(p.type2Units + r.threeRoom.booked) ==>
              r.threeRoom.original - r.threeRoom.left == ApplicantFile.BookedUnits(store, p.id, THREE_ROOM)
  {
    BookingRow(Line(p.type1Units, BookedUnitsCount(store, p.id, TWO_ROOM)),
               Line(p.type2Units, BookedUnitsCount(store, p.id, THREE_ROOM)))
  }

  /** `generateFlatBookingReport`: one row per project, in order. */
  function FlatBookingReport(store: ApplicationRepository.Store, projects: seq<Project>): (r: seq<BookingRow>)
    ensures |r| == |projects|
    ensures forall k :: 0 <= k < |r| ==> r[k] == BookingRowOf(store, projects[k])
  {
    seq(|projects|, k requires 0 <= k < |projects| => BookingRowOf(store, projects[k]))
  }

  /** The original supply is what booking does not change: when a record
      of the project that was not yet BOOKED becomes a 2-Room booking and
      the project's 2-Room stock goes down by one, both lines of the
      report still show the same original supply. */
  lemma OriginalSurvivesBooking(store: ApplicationRepository.Store, p: Project, i: nat)
    requires i < |store| && store[i].appliedProjectId == p.id && store[i].status != Booked
    requires FlatOf(store[i].flatType) == TwoRoom
    ensures var after := BookingRowOf(store[i := store[i].(status := Booked)],
                                      p.(type1Units := p.type1Units - 1));
      after.twoRoom.original == BookingRowOf(store, p).twoRoom.original
      && after.threeRoom == BookingRowOf(store, p).threeRoom
  {
    var after := store[i := store[i].(status := Booked)];
    var q := p.(type1Units := p.type1Units - 1);
    BookingCounts(store, p.id, i);
    var b0 := ApplicantFile.BookedUnits(store, p.id, TWO_ROOM);
    var b1 := ApplicantFile.BookedUnits(after, p.id, TWO_ROOM);
    var r0 := BookingRowOf(store, p);
    var r1 := BookingRowOf(after, q);
    assert r0.twoRoom == Line(p.type1Units, b0);
    assert r1.twoRoom == Line(p.type1Units - 1, b1);
    LineShift(r0.twoRoom, r1.twoRoom, p.type1Units, b0, b1);
  }

  /** One unit moved from left to booked leaves the original supply as it
      was, wrapped or not. */
  lemma LineShift(before: FlatLine, after: FlatLine, left: int, booked: nat, booked': nat)
    requires before == Line(left, booked) && after == Line(left - 1, booked')
    requires booked' == booked + 1
    ensures after.original == before.original
  {
    assert (left - 1) + booked' == left + booked;
  }

  /** Booking one more 2-Room record of the project adds one 2-Room
      booking and leaves the 3-Room bookings alone. */
  lemma BookingCounts(store: ApplicationRepository.Store, projectId: int, i: nat)
    requires i < |store| && store[i].appliedProjectId == projectId && store[i].status != Booked
    requires FlatOf(store[i].flatType) == TwoRoom
    ensures var after := store[i := store[i].(status := Booked)];
      ApplicantFile.BookedUnits(after, projectId, TWO_ROOM) == ApplicantFile.BookedUnits(store, projectId, TWO_ROOM) + 1
      && ApplicantFile.BookedUnits(after, projectId, THREE_ROOM) == ApplicantFile.BookedUnits(store, projectId, THREE_ROOM)
  {
    LiteralsDistinct();
    var x := store[i].(status := Booked);
    CountUpdate(store, i, x, BookedTest(projectId, TWO_ROOM));
    CountUpdate(store, i, x, BookedTest(projectId, THREE_ROOM));
    assert !EqualsIgnoreCase(THREE_ROOM, x.flatType);
  }

  // ---------------------------------------------------------------------
  // The project report

  /** The per-status counts a project report prints. */
  datatype ProjectCounts = ProjectCounts(total: nat, pending: nat, successful: nat, booked: nat,
                                         unsuccessful: nat, pendingWithdrawal: nat)

  function InProjectWith(projectId: int, s: Status): Applicant -> bool
  {
    (x: Applicant) => x.appliedProjectId == projectId && x.status == s
  }

  function StatusCountIn(store: ApplicationRepository.Store, projectId: int, s: Status): (n: nat)
    ensures n == Count(store, InProjectWith(projectId, s))
  {
    var mine := ApplicationRepository.FindByProject(store, projectId);
    FilterSame(store, (x: Applicant) => x.appliedProjectId == projectId, InProject(projectId));
    FilterFilter(store, InProject(projectId), StatusIs(s), InProjectWith(projectId, s));
    CountIsFilterLength(mine, StatusIs(s));
    CountIsFilterLength(store, InProjectWith(projectId, s));
    Count(mine, StatusIs(s))
  }

  /** `generateProjectReport`, one project: the project's applications
      grouped by status. Each count is the number of records of the whole
      file in that project with that status; with the NOT_APPLIED records
      of the project, which the report does not show, they add up to the
      total. */
  function ProjectCountsOf(store: ApplicationRepository.Store, p: Project): (r: ProjectCounts)
    ensures r.total == Count(store, InProject(p.id))
    ensures r.pending == Count(store, InProjectWith(p.id, Pending))
    ensures r.successful == Count(store, InProjectWith(p.id, Successful))
    ensures r.booked == Count(store, InProjectWith(p.id, Booked))
    ensures r.unsuccessful == Count(store, InProjectWith(p.id, Unsuccessful))
    ensures r.pendingWithdrawal == Count(store, InProjectWith(p.id, PendingWithdrawal))
    ensures r.pending + r.successful + r.booked + r.unsuccessful + r.pendingWithdrawal
          + Count(store, InProjectWith(p.id, NotApplied)) == r.total
  {
    var mine := ApplicationRepository.FindByProject(store, p.id);
    FilterSame(store, (x: Applicant) => x.appliedProjectId == p.id, InProject(p.id));
    CountIsFilterLength(store, InProject(p.id));
    StatusCountsPartition(mine);
    CountIsFilterLength(mine, StatusIs(NotApplied));
    FilterFilter(store, InProject(p.id), StatusIs(NotApplied), InProjectWith(p.id, NotApplied));
    CountIsFilterLength(store, InProjectWith(p.id, NotApplied));
    ProjectCounts(|mine|, StatusCountIn(store, p.id, Pending), StatusCountIn(store, p.id, Successful),
                  StatusCountIn(store, p.id, Booked), StatusCountIn(store, p.id, Unsuccessful),
                  StatusCountIn(store, p.id, PendingWithdrawal))
  }

  // ---------------------------------------------------------------------
  // The filtered reports

  /** `generateApplicantReportByMaritalStatus`'s selection: the
      applicants whose marital status equals the one asked for, ignoring
      case. */
  function ByMaritalStatus(applicants: seq<Applicant>, maritalStatus: string): (r: seq<Applicant>)
    ensures forall x :: x in r <==> x in applicants && EqualsIgnoreCase(x.maritalStatus, maritalStatus)
  {
    Filter(applicants, (a: Applicant) => EqualsIgnoreCase(a.maritalStatus, maritalStatus))
  }

  /** Asking in another case selects the same applicants. */
  lemma MaritalStatusCaseBlind(applicants: seq<Applicant>, ms1: string, ms2: string)
    requires EqualsIgnoreCase(ms1, ms2)
    ensures ByMaritalStatus(applicants, ms1) == ByMaritalStatus(applicants, ms2)
  {
    FilterSame(applicants, (a: Applicant) => EqualsIgnoreCase(a.maritalStatus, ms1),
                           (a: Applicant) => EqualsIgnoreCase(a.maritalStatus, ms2));
  }

  function AgeWithin(minAge: int, maxAge: int): Applicant -> bool
  {
    (a: Applicant) => a.age >= minAge && a.age <= maxAge
  }

  /** `generateApplicantReportByAgeRange`'s selection: both ends of the
      range included. */
  function ByAgeRange(applicants: seq<Applicant>, minAge: int, maxAge: int): (r: seq<Applicant>)
    ensures forall x :: x in r <==> x in applicants && minAge <= x.age <= maxAge
  {
    Filter(applicants, AgeWithin(minAge, maxAge))
  }

  /** Splitting a range in two splits the report: every applicant of the
      whole range is in exactly one of the halves, the boundary age in the
      lower one. A range whose ends are the wrong way round selects
      nobody. */
  lemma AgeRangesSplit(applicants: seq<Applicant>, lo: int, mid: int, hi: int)
    requires lo <= mid < hi
    ensures |ByAgeRange(applicants, lo, mid)| + |ByAgeRange(applicants, mid + 1, hi)|
         == |ByAgeRange(applicants, lo, hi)|
    ensures ByAgeRange(applicants, hi, lo) == []
  {
    CountIsFilterLength(applicants, AgeWithin(lo, mid));
    CountIsFilterLength(applicants, AgeWithin(mid + 1, hi));
    CountIsFilterLength(applicants, AgeWithin(lo, hi));
    CountDisjoint(applicants, AgeWithin(lo, mid), AgeWithin(mid + 1, hi), AgeWithin(lo, hi));
    FilterKeepsNone(applicants, AgeWithin(hi, lo));
  }

  /** `generateApplicantReportByStatus`'s selection: the text, upper
      cased, must name a status exactly; otherwise the report is the
      invalid-status message and nothing is looked up (`None`). */
  function ByStatus(store: ApplicationRepository.Store, status: string): (r: Option<seq<Applicant>>)
    ensures r.None? <==> forall s: Status :: Name(s) != Upper(status)
    ensures r.Some? ==>
      exists s: Status :: Name(s) == Upper(status) && r.value == ApplicationRepository.FindByStatus(store, s)
  {
    match ValueOf(Upper(status))
    case None => NoStatusNamed(Upper(status)); None
    case Some(s) => Some(ApplicationRepository.FindByStatus(store, s))
  }

  lemma NoStatusNamed(name: string)
    requires ValueOf(name).None?
    ensures forall s: Status :: Name(s) != name
  {
  }

  /** Upper-casing leaves a string with no lower-case letters as it is. */
  lemma UpperOfLower(s: string)
    requires forall i :: 0 <= i < |s| ==> !('a' <= s[i] <= 'z')
    ensures Upper(Lower(s)) == s
  {
    assert forall i :: 0 <= i < |s| ==> Upper(Lower(s))[i] == s[i];
  }

  /** Every status can be asked for by its name, in upper or lower case. */
  lemma StatusReportAnyCase(store: ApplicationRepository.Store, s: Status)
    ensures ByStatus(store, Name(s)) == Some(ApplicationRepository.FindByStatus(store, s))
    ensures ByStatus(store, Lower(Name(s))) == Some(ApplicationRepository.FindByStatus(store, s))
  {
    UpperOfLower(Name(s));
    assert Upper(Name(s)) == Upper(Lower(Name(s))) by {
      assert forall i :: 0 <= i < |Name(s)| ==> Upper(Name(s))[i] == Upper(Lower(Name(s)))[i];
    }
    ValueOfName(s);
  }

  /** `generateApplicantReportByProject`'s heading: the project's name, or
      "Unknown Project" when no project has the id. */
  function ProjectTitle(projects: ProjectRepository.Store, projectId: int): (r: string)
    ensures !ProjectRepository.ExistsById(projects, projectId) ==> r == "Unknown Project"
    ensures ProjectRepository.ExistsById(projects, projectId) ==>
      exists k :: 0 <= k < |projects| && projects[k].id == projectId && r == projects[k].name
  {
    match ProjectRepository.FindById(projects, projectId)
    case None => "Unknown Project"
    case Some(p) => p.name
  }

  // ---------------------------------------------------------------------
  // The receipt

  /** `generateReceipt`'s price: the type-1 price for "2-Room", the
      type-2 price for "3-Room", both ignoring case, and 0 for any other
      flat type. */
  function ReportPrice(p: Project, flatType: string): (r: int)
    ensures FlatOf(flatType) == TwoRoom ==> r == p.type1Price
    ensures FlatOf(flatType) == ThreeRoom ==> r == p.type2Price
    ensures FlatOf(flatType) == OtherFlat ==> r == 0
  {
    if EqualsIgnoreCase(TWO_ROOM, flatType) then p.type1Price
    else if EqualsIgnoreCase(THREE_ROOM, flatType) then p.type2Price
    else 0
  }

  function NricIs(nric: string): User -> bool
  {
    (u: User) => EqualsIgnoreCase(NricOf(u), nric)
  }

  /** The ways a receipt request ends. */
  datatype ReceiptOutcome =
    | NotAnApplicant
    | NotBooked
    | NoProject(projectId: int)
    | Issued(applicant: Applicant, project: Project, price: int)

  /** `generateReceipt`. The user lookup takes the first user with the
      NRIC, ignoring case, from the users in the repository's search
      order; it must be an applicant, then hold a BOOKED application,
      then its project must exist, and only then is a receipt issued. */
  function GenerateReceipt(users: seq<User>, projects: ProjectRepository.Store, nric: string): (r: ReceiptOutcome)
    ensures r.NotAnApplicant? <==>
      (forall k :: 0 <= k < |users| ==> !EqualsIgnoreCase(NricOf(users[k]), nric))
      || FindFirst(users, NricIs(nric)).value.StaffUser?
    ensures r.NotBooked? ==> FindFirst(users, NricIs(nric)).value.applicant.status != Booked
    ensures r.NoProject? ==> !ProjectRepository.ExistsById(projects, r.projectId)
    ensures r.Issued? ==>
      FindFirst(users, NricIs(nric)) == Some(ApplicantUser(r.applicant))
      && EqualsIgnoreCase(r.applicant.nric, nric) && r.applicant.status == Booked
      && r.project in projects && r.project.id == r.applicant.appliedProjectId
      && r.price == ReportPrice(r.project, r.applicant.flatType)
    ensures !r.NotAnApplicant? && FindFirst(users, NricIs(nric)).value.applicant.status == Booked ==>
      (r.Issued? <==> ProjectRepository.ExistsById(projects, FindFirst(users, NricIs(nric)).value.applicant.appliedProjectId))
  {
    var found: Option<User> := FindFirst(users, NricIs(nric));
    if found.None? || found.value.StaffUser? then NotAnApplicant
    else
      var a := found.value.applicant;
      if a.status != Booked then NotBooked
      else
        match ProjectRepository.FindById(projects, a.appliedProjectId)
        case None => NoProject(a.appliedProjectId)
        case Some(p) => Issued(a, p, ReportPrice(p, a.flatType))
  }

  /** Where the two receipts meet: for a 2-Room or 3-Room booking the
      report's price is the officer menu's price; for any other flat type
      the report prints 0 where the officer menu prints the type-2
      price. */
  lemma PricesAgree(p: Project, flatType: string)
    ensures FlatOf(flatType) != OtherFlat ==> ReportPrice(p, flatType) == OfficerMenu.ReceiptPrice(p, flatType)
    ensures FlatOf(flatType) == OtherFlat ==>
      ReportPrice(p, flatType) == 0 && OfficerMenu.ReceiptPrice(p, flatType) == p.type2Price
  {
  }

  /** The service's receipt and the officer menu's receipt agree on a
      2-Room or 3-Room booking: when the service issues one for the first
      record with that NRIC and the officer is assigned to its project,
      the officer menu prints the same price. */
  lemma ReceiptsAgree(users: seq<User>, apps: ApplicationRepository.Store,
                      projects: ProjectRepository.Store, o: Officers.Officer, nric: string, i: nat)
    requires ProjectRepository.UniqueIds(projects)
    requires GenerateReceipt(users, projects, nric).Issued?
    requires i < |apps| && apps[i] == GenerateReceipt(users, projects, nric).applicant
    requires forall k :: 0 <= k < i ==> !EqualsIgnoreCase(apps[k].nric, nric)
    requires Officers.Assigned(o, GenerateReceipt(users, projects, nric).project)
    requires FlatOf(apps[i].flatType) != OtherFlat
    ensures OfficerMenu.Receipt(o, apps, projects, nric) == Some(GenerateReceipt(users, projects, nric).price)
  {
    var r := GenerateReceipt(users, projects, nric);
    FindFirstAt(apps, OfficerMenu.BookedTest(nric), i);
    assert ProjectRepository.FindById(projects, apps[i].appliedProjectId) == Some(r.project);
    PricesAgree(r.project, apps[i].flatType);
  }
}

=== FILE: schedule.dfy ===
/** Application windows and the one overlap test the whole system uses.
    The test appears, written out by hand, in the manager menu (the
    officer-availability and manager-overlap checks), the officer menu
    (the applicant-menu gate and `hasDateConflict`), the officer's
    registration check and the officer-as-applicant check; every such
    site is modelled by a call to `Overlaps`. */
module Schedule {
  import opened Dates

  /** The inclusive window `[open, close]` of a project's application period. */
  datatype Window = Window(open: Date, close: Date)

  predicate InWindow(w: Window, d: Date)
  {
    w.open <= d <= w.close
  }

  /** `!(a.close < b.open || a.open > b.close)`: neither window ends
      strictly before the other starts. Touching windows overlap. */
  predicate Overlaps(a: Window, b: Window)
  {
    !(a.close < b.open || a.open > b.close)
  }

  /** The test does not depend on which window is named first. */
  lemma OverlapsSymmetric(a: Window, b: Window)
    ensures Overlaps(a, b) <==> Overlaps(b, a)
  {
  }

  /** For windows that contain at least one day, overlapping means
      sharing a day. */
  lemma OverlapsIffCommonDay(a: Window, b: Window)
    requires a.open <= a.close && b.open <= b.close
    ensures Overlaps(a, b) <==> exists d :: InWindow(a, d) && InWindow(b, d)
  {
    if Overlaps(a, b) {
      var d := if a.open <= b.open then b.open else a.open;
      assert InWindow(a, d) && InWindow(b, d);
    }
  }

  /** A window that contains a day overlaps itself; one whose close
      precedes its open does not. */
  lemma OverlapsReflexive(a: Window)
    ensures Overlaps(a, a) <==> a.open <= a.close
  {
  }

  /** An empty window (close before open) can still "overlap" another:
      the test only compares endpoints. */
  lemma EmptyWindowCanOverlap()
    ensures Overlaps(Window(2, 1), Window(1, 2))
    ensures !exists d :: InWindow(Window(2, 1), d)
  {
  }
}

=== FILE: seqs.dfy ===
/** The list operations the stores are built from: stream filters,
    `findFirst`, counting, and replacing or removing one element. */
module Seqs {
  import opened Wrappers

  /** `stream().filter(keep).collect(toList())`: the kept elements in
      their original order. */
  function Filter<T>(s: seq<T>, keep: T -> bool): (r: seq<T>)
    ensures |r| <= |s|
    ensures forall k :: 0 <= k < |r| ==> r[k] in s && keep(r[k])
    ensures forall k :: 0 <= k < |s| && keep(s[k]) ==> s[k] in r
  {
    if |s| == 0 then []
    else (if keep(s[0]) then [s[0]] else []) + Filter(s[1..], keep)
  }

  /** Filtering distributes over concatenation. */
  lemma {:induction false} FilterAppend<T>(a: seq<T>, b: seq<T>, keep: T -> bool)
    ensures Filter(a + b, keep) == Filter(a, keep) + Filter(b, keep)
  {
    if |a| > 0 {
      assert (a + b)[1..] == a[1..] + b;
      FilterAppend(a[1..], b, keep);
    } else {
      assert a + b == b;
    }
  }

  /** Two tests that agree everywhere filter alike. */
  lemma {:induction false} FilterSame<T>(s: seq<T>, a: T -> bool, b: T -> bool)
    requires forall x :: a(x) == b(x)
    ensures Filter(s, a) == Filter(s, b)
  {
    if |s| > 0 {
      FilterSame(s[1..], a, b);
    }
  }

  /** Filtering twice is filtering once by both tests. */
  lemma {:induction false} FilterFilter<T>(s: seq<T>, a: T -> bool, b: T -> bool, both: T -> bool)
    requires forall x :: both(x) == (a(x) && b(x))
    ensures Filter(Filter(s, a), b) == Filter(s, both)
  {
    if |s| > 0 {
      FilterFilter(s[1..], a, b, both);
      var rest := Filter(s[1..], a);
      if a(s[0]) {
        assert Filter(s, a) == [s[0]] + rest;
        assert ([s[0]] + rest)[1..] == rest;
      } else {
        assert Filter(s, a) == rest;
      }
    }
  }

  /** A filter that drops exactly one element removes that element. */
  lemma {:induction false} FilterDropsOne<T>(s: seq<T>, keep: T -> bool, i: nat)
    requires i < |s| && !keep(s[i])
    requires forall k :: 0 <= k < |s| && k != i ==> keep(s[k])
    ensures Filter(s, keep) == RemoveAt(s, i)
  {
    assert forall k :: 0 <= k < |s| - 1 ==> s[1..][k] == s[k + 1];
    if i == 0 {
      FilterKeepsAll(s[1..], keep);
      assert RemoveAt(s, 0) == s[1..];
    } else {
      FilterDropsOne(s[1..], keep, i - 1);
      assert RemoveAt(s, i) == [s[0]] + RemoveAt(s[1..], i - 1);
    }
  }


  /** A filter that keeps every element changes nothing. */
  lemma {:induction false} FilterKeepsAll<T>(s: seq<T>, keep: T -> bool)
    requires forall k :: 0 <= k < |s| ==> keep(s[k])
    ensures Filter(s, keep) == s
  {
    if |s| > 0 {
      FilterKeepsAll(s[1..], keep);
      assert [s[0]] + s[1..] == s;
    }
  }

  /** A filter that keeps no element leaves nothing. */
  lemma {:induction false} FilterKeepsNone<T>(s: seq<T>, keep: T -> bool)
    requires forall k :: 0 <= k < |s| ==> !keep(s[k])
    ensures Filter(s, keep) == []
  {
    if |s| > 0 {
      FilterKeepsNone(s[1..], keep);
    }
  }

  /** A filter that keeps every element of a front part and none of the
      rest gives back the front part. */
  lemma {:induction false} FilterOfPrefix<T>(s: seq<T>, n: nat, keep: T -> bool)
    requires n <= |s|
    requires forall k :: 0 <= k < n ==> keep(s[k])
    requires forall k :: n <= k < |s| ==> !keep(s[k])
    ensures Filter(s, keep) == s[..n]
  {
    if n == 0 {
      FilterKeepsNone(s, keep);
    } else {
      assert forall k :: 0 <= k < |s| - 1 ==> s[1..][k] == s[k + 1];
      FilterOfPrefix(s[1..], n - 1, keep);
      assert s[..n] == [s[0]] + s[1..][..n - 1];
    }
  }

  /** Keep the results of `f` that are present, in order: a loop that
      reads each element and adds what it could read. */
  function FilterMap<A, B>(s: seq<A>, f: A -> Option<B>): (r: seq<B>)
    ensures |r| <= |s|
  {
    if |s| == 0 then []
    else
      match f(s[0])
      case None => FilterMap(s[1..], f)
      case Some(b) => [b] + FilterMap(s[1..], f)
  }

  /** Reading two parts one after the other reads their concatenation. */
  lemma {:induction false} FilterMapAppend<A, B>(a: seq<A>, b: seq<A>, f: A -> Option<B>)
    ensures FilterMap(a + b, f) == FilterMap(a, f) + FilterMap(b, f)
  {
    if |a| == 0 {
      assert a + b == b;
    } else {
      assert (a + b)[0] == a[0] && (a + b)[1..] == a[1..] + b;
      FilterMapAppend(a[1..], b, f);
    }
  }

  /** One element reads as its result, if any. */
  lemma FilterMapSingle<A, B>(x: A, f: A -> Option<B>)
    ensures FilterMap([x], f) == if f(x).Some? then [f(x).value] else []
  {
    assert [x][1..] == [];
  }

  /** An element that does not read leaves the rest as it was. */
  lemma FilterMapSkip<A, B>(a: seq<A>, x: A, b: seq<A>, f: A -> Option<B>)
    requires f(x).None?
    ensures FilterMap(a + [x] + b, f) == FilterMap(a + b, f)
  {
    FilterMapAppend(a + [x], b, f);
    FilterMapAppend(a, [x], f);
    FilterMapAppend(a, b, f);
    FilterMapSingle(x, f);
  }

  /** When every element reads, nothing is dropped and the results line
      up with the elements. */
  lemma {:induction false} FilterMapTotal<A, B>(s: seq<A>, f: A -> Option<B>, out: seq<B>)
    requires |out| == |s|
    requires forall k :: 0 <= k < |s| ==> f(s[k]) == Some(out[k])
    ensures FilterMap(s, f) == out
  {
    if |s| > 0 {
      FilterMapTotal(s[1..], f, out[1..]);
      assert out == [out[0]] + out[1..];
    }
  }

  /** A test and its negation split a list between them. */
  lemma {:induction false} FilterPartition<T>(s: seq<T>, p: T -> bool, q: T -> bool)
    requires forall x :: q(x) == !p(x)
    ensures |Filter(s, p)| + |Filter(s, q)| == |s|
  {
    if |s| > 0 {
      FilterPartition(s[1..], p, q);
    }
  }

  /** The number of elements satisfying `p`. */
  function Count<T>(s: seq<T>, p: T -> bool): (n: nat)
    ensures n <= |s|
    ensures n == 0 <==> forall k :: 0 <= k < |s| ==> !p(s[k])
  {
    if |s| == 0 then 0
    else (if p(s[0]) then 1 else 0) + Count(s[1..], p)
  }

  /** Counting what a filter keeps is counting the filter's length. */
  lemma {:induction false} CountIsFilterLength<T>(s: seq<T>, p: T -> bool)
    ensures Count(s, p) == |Filter(s, p)|
  {
    if |s| > 0 {
      CountIsFilterLength(s[1..], p);
    }
  }

  /** Counting distributes over concatenation. */
  lemma {:induction false} CountAppend<T>(a: seq<T>, b: seq<T>, p: T -> bool)
    ensures Count(a + b, p) == Count(a, p) + Count(b, p)
  {
    if |a| == 0 {
      assert a + b == b;
    } else {
      assert (a + b)[0] == a[0] && (a + b)[1..] == a[1..] + b;
      CountAppend(a[1..], b, p);
    }
  }

  /** One more element adds one to the count when it passes. */
  lemma CountSnoc<T>(s: seq<T>, x: T, p: T -> bool)
    ensures Count(s + [x], p) == Count(s, p) + (if p(x) then 1 else 0)
  {
    CountAppend(s, [x], p);
    assert [x][1..] == [];
  }

  /** Counting a prefix one element longer. */
  lemma CountPrefix<T>(s: seq<T>, i: nat, p: T -> bool)
    requires i < |s|
    ensures Count(s[..i + 1], p) == Count(s[..i], p) + (if p(s[i]) then 1 else 0)
  {
    assert s[..i + 1] == s[..i] + [s[i]];
    CountAppend(s[..i], [s[i]], p);
    assert [s[i]][1..] == [];
  }

  /** Replacing one element changes the count by what the old element
      contributed and what the new one does. */
  lemma {:induction false} CountUpdate<T>(s: seq<T>, i: nat, x: T, p: T -> bool)
    requires i < |s|
    ensures Count(s[i := x], p) + (if p(s[i]) then 1 else 0)
         == Count(s, p) + (if p(x) then 1 else 0)
  {
    if i > 0 {
      assert s[i := x][1..] == s[1..][i - 1 := x];
      CountUpdate(s[1..], i - 1, x, p);
    } else {
      assert s[i := x][1..] == s[1..];
    }
  }

  /** Two tests that never hold together count, between them, what
      their disjunction counts. */
  lemma {:induction false} CountDisjoint<T>(s: seq<T>, p: T -> bool, q: T -> bool, either: T -> bool)
    requires forall x :: either(x) == (p(x) || q(x))
    requires forall x :: !(p(x) && q(x))
    ensures Count(s, p) + Count(s, q) == Count(s, either)
  {
    if |s| > 0 {
      CountDisjoint(s[1..], p, q, either);
    }
  }

  /** Two tests that agree everywhere count alike. */
  lemma {:induction false} CountSame<T>(s: seq<T>, p: T -> bool, q: T -> bool)
    requires forall x :: p(x) == q(x)
    ensures Count(s, p) == Count(s, q)
  {
    if |s| > 0 {
      CountSame(s[1..], p, q);
    }
  }

  /** `findFirst`: the index of the first element satisfying `p`. */
  function FirstIndex<T>(s: seq<T>, p: T -> bool): (r: Option<nat>)
    ensures r.Some? ==> r.value < |s| && p(s[r.value])
    ensures r.Some? ==> forall k :: 0 <= k < r.value ==> !p(s[k])
    ensures r.None? <==> forall k :: 0 <= k < |s| ==> !p(s[k])
  {
    if |s| == 0 then None
    else if p(s[0]) then Some(0)
    else
      match FirstIndex(s[1..], p)
      case None => None
      case Some(i) => Some(i + 1)
  }

  /** `findFirst` returning the element itself. */
  function FindFirst<T>(s: seq<T>, p: T -> bool): (r: Option<T>)
    ensures r.Some? ==> r.value in s && p(r.value)
    ensures r.None? <==> forall k :: 0 <= k < |s| ==> !p(s[k])
    ensures r.Some? ==> exists i :: FirstIndex(s, p) == Some(i) && s[i] == r.value
  {
    match FirstIndex(s, p)
    case None => None
    case Some(i) => Some(s[i])
  }

  /** An element `p` rejects in front changes nothing `findFirst` sees. */
  lemma FindFirstSkip<T>(x: T, t: seq<T>, p: T -> bool)
    requires !p(x)
    ensures FindFirst([x] + t, p) == FindFirst(t, p)
  {
    assert ([x] + t)[1..] == t;
    match FirstIndex(t, p)
    case None =>
    case Some(i) =>
      assert ([x] + t)[i + 1] == t[i];
  }

  /** `findFirst` on a concatenation looks in the second part only when
      the first has no match. */
  lemma {:induction false} FindFirstAppend<T>(a: seq<T>, b: seq<T>, p: T -> bool)
    ensures FindFirst(a, p).Some? ==> FindFirst(a + b, p) == FindFirst(a, p)
    ensures FindFirst(a, p).None? ==> FindFirst(a + b, p) == FindFirst(b, p)
  {
    if |a| == 0 {
      assert a + b == b;
    } else if p(a[0]) {
      assert (a + b)[0] == a[0];
      assert FirstIndex(a + b, p) == Some(0) && FirstIndex(a, p) == Some(0);
    } else {
      assert a == [a[0]] + a[1..] && a + b == [a[0]] + (a[1..] + b);
      FindFirstSkip(a[0], a[1..], p);
      FindFirstSkip(a[0], a[1..] + b, p);
      FindFirstAppend(a[1..], b, p);
    }
  }

  /** An element that satisfies `p` with none before it is the one
      `findFirst` returns. */
  lemma FindFirstAt<T>(s: seq<T>, p: T -> bool, i: nat)
    requires i < |s| && p(s[i])
    requires forall k :: 0 <= k < i ==> !p(s[k])
    ensures FirstIndex(s, p) == Some(i)
    ensures FindFirst(s, p) == Some(s[i])
  {
  }

  /** Whichever element is the first to pass is the one found. */
  lemma FirstPassingIsFound<T>(s: seq<T>, p: T -> bool)
    ensures forall i :: 0 <= i < |s| && p(s[i]) && (forall k :: 0 <= k < i ==> !p(s[k])) ==>
              FindFirst(s, p) == Some(s[i])
  {
    forall i | 0 <= i < |s| && p(s[i]) && (forall k :: 0 <= k < i ==> !p(s[k]))
      ensures FindFirst(s, p) == Some(s[i])
    {
      FindFirstAt(s, p, i);
    }
  }

  /** Two tests that agree on every element find the same first one. */
  lemma FindFirstSame<T>(s: seq<T>, p: T -> bool, q: T -> bool)
    requires forall k :: 0 <= k < |s| ==> (p(s[k]) <==> q(s[k]))
    ensures FirstIndex(s, p) == FirstIndex(s, q)
    ensures FindFirst(s, p) == FindFirst(s, q)
  {
    if FirstIndex(s, p).Some? && FirstIndex(s, q).Some? {
      var i, j := FirstIndex(s, p).value, FirstIndex(s, q).value;
      assert !(i < j) && !(j < i);
    }
  }

  /** A filter that keeps every element `p` looks for finds the same
      first one. */
  lemma {:induction false} FindFirstFilter<T>(s: seq<T>, keep: T -> bool, p: T -> bool)
    requires forall k :: 0 <= k < |s| && p(s[k]) ==> keep(s[k])
    ensures FindFirst(Filter(s, keep), p) == FindFirst(s, p)
  {
    if |s| > 0 {
      var rest := Filter(s[1..], keep);
      assert s == [s[0]] + s[1..];
      if p(s[0]) {
        assert Filter(s, keep) == [s[0]] + rest;
        assert FirstIndex(Filter(s, keep), p) == Some(0);
        assert FirstIndex(s, p) == Some(0);
      } else {
        FindFirstFilter(s[1..], keep, p);
        FindFirstSkip(s[0], s[1..], p);
        if keep(s[0]) {
          assert Filter(s, keep) == [s[0]] + rest;
          FindFirstSkip(s[0], rest, p);
        } else {
          assert Filter(s, keep) == rest;
        }
      }
    }
  }

  /** No element occurs twice. */
  predicate NoDuplicates<T(==)>(s: seq<T>)
  {
    forall i, j :: 0 <= i < j < |s| ==> s[i] != s[j]
  }

  /** `anyMatch`. */
  predicate Any<T>(s: seq<T>, p: T -> bool)
  {
    exists k :: 0 <= k < |s| && p(s[k])
  }

  /** A list drawn from `all` that holds every element of `all` passing
      `ok` and `hit`, and whose hits all pass `ok`, has a hit exactly when
      `all` has an element passing both. */
  lemma AnyOfCover<T>(view: seq<T>, all: seq<T>, hit: T -> bool, ok: T -> bool)
    requires forall k :: 0 <= k < |view| ==> view[k] in all
    requires forall k :: 0 <= k < |view| && hit(view[k]) ==> ok(view[k])
    requires forall k :: 0 <= k < |all| && hit(all[k]) && ok(all[k]) ==> all[k] in view
    ensures Any(view, hit) <==> exists k :: 0 <= k < |all| && hit(all[k]) && ok(all[k])
  {
    if Any(view, hit) {
      var i :| 0 <= i < |view| && hit(view[i]);
      var j :| 0 <= j < |all| && all[j] == view[i];
    }
    if exists k :: 0 <= k < |all| && hit(all[k]) && ok(all[k]) {
      var k :| 0 <= k < |all| && hit(all[k]) && ok(all[k]);
      var i :| 0 <= i < |view| && view[i] == all[k];
    }
  }

  /** `anyMatch` looks at the first element, then at the rest. */
  lemma AnyFirstRest<T>(s: seq<T>, p: T -> bool)
    requires |s| > 0
    ensures Any(s, p) <==> p(s[0]) || Any(s[1..], p)
  {
    if Any(s, p) && !p(s[0]) {
      var k :| 0 <= k < |s| && p(s[k]);
      assert s[1..][k - 1] == s[k];
    }
    if Any(s[1..], p) {
      var k :| 0 <= k < |s| - 1 && p(s[1..][k]);
      assert s[k + 1] == s[1..][k];
    }
  }

  /** `filter(keep).anyMatch(p)`: some element passes both tests. */
  lemma AnyFilter<T>(s: seq<T>, keep: T -> bool, p: T -> bool)
    ensures Any(Filter(s, keep), p) <==> exists k :: 0 <= k < |s| && keep(s[k]) && p(s[k])
  {
    var r := Filter(s, keep);
    if exists k :: 0 <= k < |s| && keep(s[k]) && p(s[k]) {
      var k :| 0 <= k < |s| && keep(s[k]) && p(s[k]);
      var i :| 0 <= i < |r| && r[i] == s[k];
      assert p(r[i]);
    }
    if Any(r, p) {
      var i :| 0 <= i < |r| && p(r[i]);
      var k :| 0 <= k < |s| && s[k] == r[i];
      assert keep(s[k]) && p(s[k]);
    }
  }

  /** Looking through the present results of `f`: some element has a
      result that passes `p`. */
  lemma {:induction false} AnyFilterMap<A, B>(s: seq<A>, f: A -> Option<B>, p: B -> bool)
    ensures Any(FilterMap(s, f), p) <==> exists k :: 0 <= k < |s| && f(s[k]).Some? && p(f(s[k]).value)
  {
    if |s| > 0 {
      AnyFilterMap(s[1..], f, p);
      var rest := FilterMap(s[1..], f);
      if exists k :: 0 <= k < |s| - 1 && f(s[1..][k]).Some? && p(f(s[1..][k]).value) {
        var k :| 0 <= k < |s| - 1 && f(s[1..][k]).Some? && p(f(s[1..][k]).value);
        assert s[k + 1] == s[1..][k];
      }
      if exists k :: 0 <= k < |s| && f(s[k]).Some? && p(f(s[k]).value) {
        var k :| 0 <= k < |s| && f(s[k]).Some? && p(f(s[k]).value);
        if k > 0 {
          assert s[1..][k - 1] == s[k];
        }
      }
      if f(s[0]).Some? {
        var r := [f(s[0]).value] + rest;
        assert FilterMap(s, f) == r;
        AnyFirstRest(r, p);
        assert r[1..] == rest;
      }
    }
  }

  /** The sequence with element `i` replaced by `x`. */
  function ReplaceAt<T>(s: seq<T>, i: nat, x: T): (r: seq<T>)
    requires i < |s|
    ensures |r| == |s| && r[i] == x
    ensures forall k :: 0 <= k < |s| && k != i ==> r[k] == s[k]
  {
    s[i := x]
  }

  /** The sequence without element `i`. */
  function RemoveAt<T>(s: seq<T>, i: nat): (r: seq<T>)
    requires i < |s|
    ensures |r| == |s| - 1
    ensures forall k :: 0 <= k < i ==> r[k] == s[k]
    ensures forall k :: i <= k < |r| ==> r[k] == s[k + 1]
  {
    s[..i] + s[i + 1..]
  }

  /** The loop `for (x : s) if (!acc.contains(x)) acc.add(x)`: `acc`
      unchanged at the front, then the elements of `s` it lacked, each
      once. */
  function AppendMissing<T(==)>(acc: seq<T>, s: seq<T>): (r: seq<T>)
    ensures |acc| <= |r| && r[..|acc|] == acc
    ensures forall k :: 0 <= k < |s| ==> s[k] in r
    ensures forall k :: |acc| <= k < |r| ==> r[k] in s && r[k] !in acc
    ensures forall i, j :: |acc| <= i < j < |r| ==> r[i] != r[j]
    decreases |s|
  {
    if |s| == 0 then acc
    else
      var next := if s[0] in acc then acc else acc + [s[0]];
      var r := AppendMissing(next, s[1..]);
      assert s[0] in r[..|next|];
      assert forall k :: 1 <= k < |s| ==> s[k] == s[1..][k - 1];
      r
  }
}

=== FILE: status.dfy ===
/** The six states of an application, their names as stored in the
    applicant file, and the lifecycle the enum and the controllers lay
    out. */
module ApplicationStatus {
  import opened Wrappers

  datatype Status = NotApplied | Pending | Successful | Booked | Unsuccessful | PendingWithdrawal

  /** `Enum.name()`. */
  function Name(s: Status): string
  {
    match s
    case NotApplied => "NOT_APPLIED"
    case Pending => "PENDING"
    case Successful => "SUCCESSFUL"
    case Booked => "BOOKED"
    case Unsuccessful => "UNSUCCESSFUL"
    case PendingWithdrawal => "PENDING_WITHDRAWAL"
  }

  /** `ApplicationStatus.valueOf`: exact, case-sensitive match of a name;
      anything else throws, which is `None` here. */
  function ValueOf(name: string): (r: Option<Status>)
    ensures r.Some? ==> Name(r.value) == name
  {
    if name == "NOT_APPLIED" then Some(NotApplied)
    else if name == "PENDING" then Some(Pending)
    else if name == "SUCCESSFUL" then Some(Successful)
    else if name == "BOOKED" then Some(Booked)
    else if name == "UNSUCCESSFUL" then Some(Unsuccessful)
    else if name == "PENDING_WITHDRAWAL" then Some(PendingWithdrawal)
    else None
  }

  /** Every status survives being written by name and read back. */
  lemma ValueOfName(s: Status)
    ensures ValueOf(Name(s)) == Some(s)
  {
  }

  /** An application that still ties its holder to a project: neither
      never applied nor rejected. */
  predicate IsActive(s: Status)
  {
    s != NotApplied && s != Unsuccessful
  }

  /** The lifecycle, step by step, each step with where it comes from:
      NOT_APPLIED or UNSUCCESSFUL to PENDING by a new application (the
      controller's `applyForProject` clears an UNSUCCESSFUL one first);
      PENDING to SUCCESSFUL or UNSUCCESSFUL by the manager's approve or
      reject; SUCCESSFUL to BOOKED, since the enum documents SUCCESSFUL as
      the status that may book a flat; PENDING, SUCCESSFUL or BOOKED to
      PENDING_WITHDRAWAL by `requestWithdrawal`; and PENDING_WITHDRAWAL to
      NOT_APPLIED by `approveWithdrawal` or to PENDING, the status
      `rejectWithdrawal` asks for. */
  predicate LifecycleStep(from: Status, to: Status)
  {
    match from
    case NotApplied => to == Pending
    case Pending => to == Successful || to == Unsuccessful || to == PendingWithdrawal
    case Successful => to == Booked || to == PendingWithdrawal
    case Booked => to == PendingWithdrawal
    case Unsuccessful => to == Pending
    case PendingWithdrawal => to == NotApplied || to == Pending
  }
}

=== FILE: system_user.dfy ===
/** What every applicant and officer shares: the password change guard
    and the "visible and open" project filter. */
module SystemUser {
  import opened Wrappers
  import opened Dates
  import opened Seqs
  import opened InputValidator
  import opened Projects

  /** The outcome of a password change: the reported result and the
      password the in-memory user now holds. */
  datatype PasswordChange = PasswordChange(ok: bool, password: string)

  /** `changePassword`. The current password must match exactly, then the
      new one must be valid; only then is the in-memory password replaced,
      and the result is whatever the file update reports (`written`), so
      a failed write still leaves the new password in memory. */
  function ChangePassword(stored: string, current: string, newPassword: string,
                          written: bool): (r: PasswordChange)
    ensures stored != current ==> r == PasswordChange(false, stored)
    ensures !ValidatePassword(Some(newPassword)) ==> r == PasswordChange(false, stored)
    ensures r.ok ==> r.password == newPassword && |newPassword| >= MIN_PASSWORD_LENGTH
    ensures r.password != stored ==> r.password == newPassword && r.ok == written
    ensures stored == current && ValidatePassword(Some(newPassword)) ==>
              r.password == newPassword && r.ok == written
  {
    if stored != current then PasswordChange(false, stored)
    else if !ValidatePassword(Some(newPassword)) then PasswordChange(false, stored)
    else PasswordChange(written, newPassword)
  }

  /** After an accepted change, the new password is the one to present:
      the next change is judged against it, whatever the file write
      reported, and the old one no longer opens the door unless the two
      are the same. */
  lemma ChangeThenChangeAgain(stored: string, newPassword: string, next: string,
                              written: bool, written': bool)
    requires ValidatePassword(Some(newPassword))
    ensures var first := ChangePassword(stored, stored, newPassword, written);
      first.password == newPassword
      && ChangePassword(first.password, newPassword, next, written')
         == (if ValidatePassword(Some(next)) then PasswordChange(written', next)
             else PasswordChange(false, newPassword))
      && (stored != newPassword ==>
            ChangePassword(first.password, stored, next, written') == PasswordChange(false, newPassword))
  {
  }

  predicate VisibleAndOpen(p: Project, today: Date)
  {
    p.visible && IsCurrentlyOpen(p, today)
  }

  /** `filterByVisibilityAndPeriod`: exactly the visible projects open
      today, in their original order. */
  function FilterByVisibilityAndPeriod(projects: seq<Project>, today: Date): (r: seq<Project>)
    ensures forall k :: 0 <= k < |r| ==>
              r[k] in projects && r[k].visible && r[k].open <= today <= r[k].close
    ensures forall k :: (0 <= k < |projects| && projects[k].visible
                         && projects[k].open <= today <= projects[k].close) ==>
              projects[k] in r
  {
    Filter(projects, p => VisibleAndOpen(p, today))
  }
}

=== FILE: text.dfy ===
/** The `java.lang.String` operations the housing system relies on:
    case folding, `equalsIgnoreCase`, `trim`, `contains` and
    `split(",")`. Case folding covers the ASCII letters. */
module Text {

  function LowerChar(c: char): (r: char)
  {
    if 'A' <= c <= 'Z' then (c as int + 32) as char else c
  }

  function UpperChar(c: char): (r: char)
  {
    if 'a' <= c <= 'z' then (c as int - 32) as char else c
  }

  /** `String.toLowerCase`: folds every character, keeps the length. */
  function Lower(s: string): (r: string)
    ensures |r| == |s|
    ensures forall i :: 0 <= i < |s| ==> r[i] == LowerChar(s[i])
  {
    seq(|s|, i requires 0 <= i < |s| => LowerChar(s[i]))
  }

  /** `String.toUpperCase`. */
  function Upper(s: string): (r: string)
    ensures |r| == |s|
    ensures forall i :: 0 <= i < |s| ==> r[i] == UpperChar(s[i])
  {
    seq(|s|, i requires 0 <= i < |s| => UpperChar(s[i]))
  }

  /** `String.equalsIgnoreCase`: equal after folding case. */
  predicate EqualsIgnoreCase(a: string, b: string)
  {
    Lower(a) == Lower(b)
  }

  /** Folding a slice is slicing the folded string. */
  lemma LowerSlice(s: string, i: nat, j: nat)
    requires i <= j <= |s|
    ensures Lower(s[i..j]) == Lower(s)[i..j]
  {
  }

  /** Two strings equal ignoring case have the same length and agree
      position by position up to case. */
  lemma EqualsIgnoreCasePointwise(a: string, b: string)
    ensures EqualsIgnoreCase(a, b) <==>
      (|a| == |b| && forall i :: 0 <= i < |a| ==> LowerChar(a[i]) == LowerChar(b[i]))
  {
    if |a| == |b| && forall i :: 0 <= i < |a| ==> LowerChar(a[i]) == LowerChar(b[i]) {
      assert forall i :: 0 <= i < |a| ==> Lower(a)[i] == Lower(b)[i];
    }
  }

  /** Characters `trim` removes: code points up to and including space. */
  predicate IsTrimmable(c: char)
  {
    c <= ' '
  }

  function TrimStart(s: string): (r: string)
    ensures |r| <= |s|
  {
    if |s| > 0 && IsTrimmable(s[0]) then TrimStart(s[1..]) else s
  }

  function TrimEnd(s: string): (r: string)
    ensures |r| <= |s|
  {
    if |s| > 0 && IsTrimmable(s[|s| - 1]) then TrimEnd(s[..|s| - 1]) else s
  }

  /** `TrimStart` drops a run of trimmable characters and stops at the
      first other one. */
  lemma {:induction false} TrimStartSpec(s: string)
    ensures TrimStart(s) == s[|s| - |TrimStart(s)|..]
    ensures forall k :: 0 <= k < |s| - |TrimStart(s)| ==> IsTrimmable(s[k])
    ensures TrimStart(s) == [] || !IsTrimmable(TrimStart(s)[0])
  {
    if |s| > 0 && IsTrimmable(s[0]) {
      TrimStartSpec(s[1..]);
    }
  }

  /** `TrimEnd` drops a run of trimmable characters from the end. */
  lemma {:induction false} TrimEndSpec(s: string)
    ensures TrimEnd(s) == s[..|TrimEnd(s)|]
    ensures forall k :: |TrimEnd(s)| <= k < |s| ==> IsTrimmable(s[k])
    ensures TrimEnd(s) == [] || !IsTrimmable(TrimEnd(s)[|TrimEnd(s)| - 1])
  {
    if |s| > 0 && IsTrimmable(s[|s| - 1]) {
      TrimEndSpec(s[..|s| - 1]);
    }
  }

  /** `String.trim`. */
  function Trim(s: string): (r: string)
  {
    TrimEnd(TrimStart(s))
  }

  /** A string `trim` leaves alone. */
  predicate IsTrimmed(s: string)
  {
    s == [] || (!IsTrimmable(s[0]) && !IsTrimmable(s[|s| - 1]))
  }

  /** `trim` cuts a run of trimmable characters off each end and nothing
      else: the result is the slice of the input between the two runs,
      and it has no trimmable character at either end. */
  lemma TrimSlice(s: string)
    ensures var i := |s| - |TrimStart(s)|;
      i + |Trim(s)| <= |s| && Trim(s) == s[i..i + |Trim(s)|]
      && (forall k :: 0 <= k < i ==> IsTrimmable(s[k]))
      && (forall k :: i + |Trim(s)| <= k < |s| ==> IsTrimmable(s[k]))
    ensures IsTrimmed(Trim(s))
  {
    TrimStartSpec(s);
    TrimEndSpec(TrimStart(s));
    TrimParts(s, TrimStart(s), Trim(s));
  }

  /** A suffix `t` of `s` after a trimmable run, and a prefix `r` of `t`
      before a trimmable run, each starting or ending with a character
      that is not trimmable: `r` is the slice of `s` between the two runs
      and is trimmed. */
  lemma TrimParts(s: string, t: string, r: string)
    requires |t| <= |s| && t == s[|s| - |t|..]
    requires forall k :: 0 <= k < |s| - |t| ==> IsTrimmable(s[k])
    requires t == [] || !IsTrimmable(t[0])
    requires |r| <= |t| && r == t[..|r|]
    requires forall k :: |r| <= k < |t| ==> IsTrimmable(t[k])
    requires r == [] || !IsTrimmable(r[|r| - 1])
    ensures var i := |s| - |t|;
      i + |r| <= |s| && r == s[i..i + |r|]
      && forall k :: i + |r| <= k < |s| ==> IsTrimmable(s[k])
    ensures IsTrimmed(r)
  {
    var i := |s| - |t|;
    forall k | i + |r| <= k < |s|
      ensures IsTrimmable(s[k])
    {
      assert s[k] == t[k - i];
    }
    if r != [] {
      assert r[0] == t[0];
    }
  }

  /** A string without trimmable ends is its own `trim`. */
  lemma {:induction false} TrimOfTrimmed(s: string)
    requires IsTrimmed(s)
    ensures Trim(s) == s
  {
  }

  /** `trim` never lengthens, and leaves a trimmed string alone. */
  lemma TrimShortens(s: string)
    ensures |Trim(s)| <= |s|
    ensures IsTrimmed(s) ==> Trim(s) == s
  {
    if IsTrimmed(s) {
      TrimOfTrimmed(s);
    }
  }

  /** `trim` is idempotent. */
  lemma TrimIdempotent(s: string)
    ensures Trim(Trim(s)) == Trim(s)
  {
    TrimSlice(s);
    TrimOfTrimmed(Trim(s));
  }

  /** `s.trim().isEmpty()`. */
  predicate IsBlank(s: string)
  {
    Trim(s) == []
  }

  /** A string is blank exactly when every character is trimmable. */
  lemma BlankMeansAllTrimmable(s: string)
    ensures IsBlank(s) <==> forall k :: 0 <= k < |s| ==> IsTrimmable(s[k])
  {
    TrimSlice(s);
    if forall k :: 0 <= k < |s| ==> IsTrimmable(s[k]) {
      TrimStartSpec(s);
      assert TrimStart(s) == [];
    }
  }

  /** `String.contains`: `needle` occurs as a contiguous slice of `hay`. */
  predicate Contains(hay: string, needle: string)
  {
    exists i :: 0 <= i <= |hay| - |needle| && OccursAt(hay, needle, i)
  }

  predicate OccursAt(hay: string, needle: string, i: int)
    requires 0 <= i <= |hay| - |needle|
  {
    hay[i..i + |needle|] == needle
  }

  /** The pieces of `s` between separators, empty pieces included: the
      raw material of `String.split`. */
  function Pieces(s: string, sep: char): (r: seq<string>)
    ensures |r| >= 1
  {
    if |s| == 0 then [""]
    else
      var rest := Pieces(s[1..], sep);
      if s[0] == sep then [""] + rest
      else [[s[0]] + rest[0]] + rest[1..]
  }

  /** No piece holds the separator. */
  lemma {:induction false} PiecesFree(s: string, sep: char)
    ensures forall k :: 0 <= k < |Pieces(s, sep)| ==> sep !in Pieces(s, sep)[k]
  {
    if |s| > 0 {
      PiecesFree(s[1..], sep);
      var rest := Pieces(s[1..], sep);
      if s[0] != sep {
        assert sep !in [s[0]] + rest[0];
      }
    }
  }

  /** `String.join(sep, parts)`. */
  function Join(parts: seq<string>, sep: char): (r: string)
  {
    if |parts| == 0 then ""
    else if |parts| == 1 then parts[0]
    else parts[0] + [sep] + Join(parts[1..], sep)
  }

  /** Splitting and joining again gives the input back. */
  lemma {:induction false} JoinPieces(s: string, sep: char)
    ensures Join(Pieces(s, sep), sep) == s
  {
    if |s| > 0 {
      var rest := Pieces(s[1..], sep);
      JoinPieces(s[1..], sep);
      if s[0] != sep {
        JoinOntoFirst(s[0], rest, sep);
      } else {
        JoinAfterEmpty(rest, sep);
      }
      assert [s[0]] + s[1..] == s;
    }
  }

  /** A character glued onto the first piece comes first in the join. */
  lemma JoinOntoFirst(c: char, parts: seq<string>, sep: char)
    requires |parts| >= 1
    ensures Join([[c] + parts[0]] + parts[1..], sep) == [c] + Join(parts, sep)
  {
    var glued := [[c] + parts[0]] + parts[1..];
    assert glued[0] == [c] + parts[0] && glued[1..] == parts[1..];
    if |parts| > 1 {
      var tail := Join(parts[1..], sep);
      assert ([c] + parts[0]) + [sep] + tail == [c] + (parts[0] + [sep] + tail);
    }
  }

  /** An empty first piece puts the separator first in the join. */
  lemma JoinAfterEmpty(parts: seq<string>, sep: char)
    requires |parts| >= 1
    ensures Join([""] + parts, sep) == [sep] + Join(parts, sep)
  {
    assert ([""] + parts)[1..] == parts;
  }

  /** Joining pieces that are free of the separator and splitting again
      gives the pieces back. */
  lemma {:induction false} PiecesJoin(parts: seq<string>, sep: char)
    requires |parts| >= 1
    requires forall k :: 0 <= k < |parts| ==> sep !in parts[k]
    ensures Pieces(Join(parts, sep), sep) == parts
  {
    if |parts| == 1 {
      PiecesOfPlain(parts[0], "", sep);
      assert parts[0] + "" == parts[0];
      assert Pieces("", sep) == [""];
    } else {
      PiecesJoin(parts[1..], sep);
      var tail := [sep] + Join(parts[1..], sep);
      assert Join(parts, sep) == parts[0] + tail;
      PiecesOfPlain(parts[0], tail, sep);
      assert tail[1..] == Join(parts[1..], sep);
      assert tail[0] == sep;
      assert Pieces(tail, sep) == [""] + Pieces(tail[1..], sep);
      assert Pieces(tail, sep) == [""] + parts[1..];
      assert parts[0] + "" == parts[0];
      assert parts == [parts[0]] + parts[1..];
    }
  }

  /** A separator-free prefix glues onto the first piece of the rest. */
  lemma {:induction false} PiecesOfPlain(p: string, rest: string, sep: char)
    requires sep !in p
    ensures Pieces(p + rest, sep)
         == [p + Pieces(rest, sep)[0]] + Pieces(rest, sep)[1..]
  {
    if |p| == 0 {
      assert p + rest == rest;
      assert p + Pieces(rest, sep)[0] == Pieces(rest, sep)[0];
    } else {
      var q := Pieces(rest, sep);
      assert p + rest == [p[0]] + (p[1..] + rest);
      assert p[0] in p;
      PiecesCons(p[0], p[1..] + rest, sep);
      assert sep !in p[1..] by {
        assert forall i :: 0 <= i < |p| - 1 ==> p[1..][i] == p[i + 1];
      }
      PiecesOfPlain(p[1..], rest, sep);
      assert [p[0]] + (p[1..] + q[0]) == p + q[0];
    }
  }

  /** A leading character other than the separator starts the first
      piece. */
  lemma PiecesCons(c: char, t: string, sep: char)
    requires c != sep
    ensures Pieces([c] + t, sep) == [[c] + Pieces(t, sep)[0]] + Pieces(t, sep)[1..]
  {
    assert ([c] + t)[1..] == t;
  }

  /** Drops empty pieces from the end, as `String.split` does. */
  function DropTrailingEmpty(parts: seq<string>): (r: seq<string>)
    ensures |r| <= |parts| && r == parts[..|r|]
    ensures forall k :: |r| <= k < |parts| ==> parts[k] == ""
    ensures r == [] || r[|r| - 1] != ""
  {
    if |parts| > 0 && parts[|parts| - 1] == "" then DropTrailingEmpty(parts[..|parts| - 1])
    else parts
  }

  /** `s.split(",")` with Java's rules: no separator gives `[s]` (even
      for the empty string); otherwise the pieces with trailing empty
      pieces dropped. */
  function Split(s: string, sep: char): (r: seq<string>)
    ensures sep !in s ==> r == [s]
    ensures sep in s ==> r == DropTrailingEmpty(Pieces(s, sep))
  {
    if sep !in s then [s] else DropTrailingEmpty(Pieces(s, sep))
  }

  /** Splitting a join of non-empty separator-free parts gives them back. */
  lemma SplitJoin(parts: seq<string>, sep: char)
    requires |parts| >= 1
    requires forall k :: 0 <= k < |parts| ==> sep !in parts[k] && parts[k] != ""
    ensures Split(Join(parts, sep), sep) == parts
  {
    PiecesJoin(parts, sep);
    if |parts| == 1 {
      assert Join(parts, sep) == parts[0];
    } else {
      assert Join(parts, sep)[|parts[0]|] == sep;
    }
  }
  /** Joining two non-empty lists puts one separator between their joins. */
  lemma {:induction false} JoinAppend(x: seq<string>, y: seq<string>, sep: char)
    requires |x| >= 1 && |y| >= 1
    ensures Join(x + y, sep) == Join(x, sep) + [sep] + Join(y, sep)
  {
    if |x| == 1 {
      assert (x + y)[1..] == y;
    } else {
      assert (x + y)[1..] == x[1..] + y;
      JoinAppend(x[1..], y, sep);
    }
  }

  /** Splitting a join of two or more separator-free parts gives the
      parts back, less the empty ones at the end. */
  lemma SplitJoinTrailing(parts: seq<string>, sep: char)
    requires |parts| >= 2
    requires forall k :: 0 <= k < |parts| ==> sep !in parts[k]
    ensures Split(Join(parts, sep), sep) == DropTrailingEmpty(parts)
  {
    PiecesJoin(parts, sep);
    assert Join(parts, sep)[|parts[0]|] == sep;
  }

  /** No piece of a split holds the separator. */
  lemma SplitPiecesFree(s: string, sep: char)
    ensures forall k :: 0 <= k < |Split(s, sep)| ==> sep !in Split(s, sep)[k]
  {
    if sep in s {
      var p := Pieces(s, sep);
      PiecesFree(s, sep);
      assert forall k :: 0 <= k < |Split(s, sep)| ==> Split(s, sep)[k] == p[k];
    }
  }

  /** `trim` keeps a string's characters, so it adds no separator, and
      what it returns is trimmed. */
  lemma TrimFree(s: string, sep: char)
    requires sep !in s
    ensures sep !in Trim(s) && IsTrimmed(Trim(s))
  {
    TrimSlice(s);
  }
}

=== FILE: validation_service.dfy ===
/** The checks the validation service adds on top of `InputValidator`:
    application periods given as `d/M/yy` text, and listing fields. Its
    other methods return `InputValidator`'s results unchanged and are not
    repeated here. */
module ValidationService {
  import opened Wrappers
  import opened Text
  import opened Dates
  import opened InputValidator

  /** `validateApplicationPeriod`: both texts parse and the opening date
      is not after the closing date by year, month and day (equal dates
      pass). Any spelling the parser accepts counts, leading zeros and
      days past the month's end included. */
  function ValidateApplicationPeriod(opening: string, closing: string): (r: bool)
    ensures r ==> ParseDate(opening).Some? && ParseDate(closing).Some?
    ensures ParseDate(opening).None? || ParseDate(closing).None? ==> !r
    ensures r <==> ParseDate(opening).Some? && ParseDate(closing).Some?
                   && OnOrBefore(ParseDate(opening).value, ParseDate(closing).value)
  {
    match (ParseDate(opening), ParseDate(closing))
    case (Some(o), Some(c)) => KeyOnOrBefore(o, c); !(o > c)
    case _ => false
  }

  /** On written dates of this century the period check is exactly
      calendar order, equal dates included. */
  lemma PeriodOfWrittenDates(o: Date, c: Date)
    requires IsCalendarKey(o) && 2000 <= YearOf(o) <= 2099
    requires IsCalendarKey(c) && 2000 <= YearOf(c) <= 2099
    ensures ValidateApplicationPeriod(FormatDate(o), FormatDate(c)) <==> o <= c
  {
    ParseFormatDate(o);
    ParseFormatDate(c);
  }

  /** `validateFlatTypes`: the first type is 2-Room and the second 3-Room,
      ignoring case; the order matters. */
  function ValidateFlatTypes(type1: string, type2: string): (r: bool)
    ensures r <==> FlatOf(type1) == TwoRoom && FlatOf(type2) == ThreeRoom
  {
    LiteralsDistinct();
    EqualsIgnoreCase(TWO_ROOM, type1) && EqualsIgnoreCase(THREE_ROOM, type2)
  }

  /** `validateFlatUnits`: zero units are allowed. */
  function ValidateFlatUnits(units: int): (r: bool)
    ensures r <==> units >= 0
  {
    units >= 0
  }

  /** `validateFlatPrice`: a price must be positive. */
  function ValidateFlatPrice(price: int): (r: bool)
    ensures r <==> price >= 1
  {
    price > 0
  }
}

=== FILE: wrappers.dfy ===
/** Absence of a value. `None` stands for a Java `null` reference, for a
    lookup that found nothing, and for a parse that threw. */
module Wrappers {

  datatype Option<+T> = None | Some(value: T) {

    /** The wrapped value, or `default` when there is none. */
    function GetOr(default: T): (r: T)
      ensures Some? ==> r == value
      ensures None? ==> r == default
    {
      match this
      case Some(v) => v
      case None => default
    }
  }
}
